=== FILE: README.md ===
# AI Explorer backend — a Dafny model

This project models the core of the Hedera AI Explorer backend in Dafny and proves properties of that model. The core has three parts.

**The FastAPI backend.**

- Admission control:
  - the per-fingerprint cost limiter, whose spend is recorded in Redis;
  - the sliding-window rate limiter, which keeps Redis sorted sets of request instants.
- The chat WebSocket endpoint and its request validators.
- The agent plumbing:
  - the parser that pulls tool calls out of model output;
  - the message converter;
  - the workflow builder's tool-context summaries.
- The suggestion validators.

**The Hiero Mirror-node SDK.** This covers its utilities (id, timestamp and balance formatting and parsing), its query-parameter builder, its models and its exceptions.

**The MCP servers.**

- The internal server's services:
  - the exception hierarchy;
  - the SDK method dispatcher;
  - the health monitor;
  - the text processor;
  - the two vector stores;
  - the BigQuery text-to-SQL service;
  - the GraphQL text-to-query service;
  - the document processor.
- The external server's `ask_explorer` tool.

## Modelling conventions

- There is one Dafny module per source file. `Wrappers`, `Strings` and `PyJson` supply:
  - `Option` and `Result`;
  - the Python string operations the code uses;
  - a JSON value with Python truthiness.
- A Python exception is an `Err` carrying the exception's class name, or its message where the caller uses it.
- Objects whose methods update fields in place are classes with `modifies` frames:
  - the Redis store;
  - the rate limiter;
  - the cost limiter;
  - the health monitor;
  - the BigQuery and GraphQL services;
  - the document processor;
  - the chat session.
- A loop in the source is a `while` loop in a method. Each such method is proved equal to a recursive specification function, and the lemmas are stated about that function.
- Some things are parameters of the functions and methods that use them:
  - calls into code outside the core: the language model, HTTP clients, BigQuery, the vector database, `json.loads`/`json.dumps`, `str()` of arbitrary values and hashing;
  - the clock, as an integer instant held by the store or passed in.
- Costs and balances are mathematical reals or integers.

Where the project's documentation or tests describe behaviour the code does not have, the model follows the code:

- `HederaSDKService.call_method` raises `SDKMethodNotFoundError`, `SDKParameterError` or `SDKExecutionError`. It does not return an error dictionary.
- The transaction-id pattern in the Mirror utilities ends with Python's `$`. That anchor also accepts one trailing newline.
- The chat request model `ChatRequest` (app/schemas/chat.py:7-14) declares only `query`, with at least one character. The endpoint builds it with `account_id` and `network` and then reads `chat_request.account_id`, which raises `AttributeError`. A continuation's `ChatRequest(query="")` fails the length check. As written, every query with content and every continuation with a message id is therefore answered "Internal server error" and no flow starts. The model keeps this as-written dispatch and also a corrected dispatch in which the request carries the two optional fields; see Findings.
- `create_documents` fails with `AttributeError` on a non-dict element.
- The cost limiter reads the forwarding headers only when the client host is empty. The rate limiter prefers the headers.

## Model

| member | source | states |
|---|---|---|
| CostLimiter.NormalizedIp | app/utils/cost_limiter.py:19-28 | an empty real address becomes `unknown`; otherwise the normalized address is exactly the real address's first min(length, 45) characters |
| CostLimiter.RealIp | app/utils/cost_limiter.py:19-26 | no client gives `unknown`; a non-empty client host is the address; an empty host falls through to the first non-empty stripped `x-forwarded-for` entry |
| CostLimiter.IpIdentifier | app/utils/cost_limiter.py:28-31 | the identifier is the first min(length, 32) characters of the hash of the normalized address |
| CostLimiter.IpKey | app/utils/cost_limiter.py:42-44 | the key is `cost_limit:ip:` followed by exactly the identifier |
| CostLimiter.KeysDistinct | app/utils/cost_limiter.py:42-101 | no per-address ledger key equals the global key `cost_limit:global` |
| CostLimiter.IpKeyInjective | app/utils/cost_limiter.py:42-44 | distinct identifiers get distinct ledger keys |
| CostLimiter.HostShadowsHeaders | app/utils/cost_limiter.py:19-25 | a non-empty client host is the address whatever the forwarding headers say |
| CostLimiter.NoClientIsUnknown | app/utils/cost_limiter.py:20-28 | without a client the normalized address is `unknown` |
| CostLimiter.IdentifierUsesFirst45 | app/utils/cost_limiter.py:28-31 | two addresses that agree on their first 45 characters get the same identifier |
| CostLimiter.ChargeAdds | app/utils/cost_limiter.py:66-76 | a recorded spend raises the ledger's usage by exactly the spend |
| CostLimiter.ChargeFrames | app/utils/cost_limiter.py:63-76 | a recorded spend leaves every other key untouched |
| CostLimiter.ChargeKeepsPeriodEnd | app/utils/cost_limiter.py:69-75 | the first spend sets the amount and an expiry one period ahead; a later spend adds and keeps the expiry |
| CostLimiter.RecordingCanExceedLimit | app/utils/cost_limiter.py:58-178 | a ledger below its limit admits a call whose recorded cost then takes it over the limit |
| CostLimiter.ExpiredLedgerReadsZero | app/utils/cost_limiter.py:51-85 | after the period's expiry the ledger reads 0 |
| CostLimiter.IPCostLimiter.constructor | app/utils/cost_limiter.py:37-40 | the limiter keeps its store, limit and period |
| CostLimiter.IPCostLimiter.IsWithinLimits | app/utils/cost_limiter.py:46-56 | admitted iff the usage (0 for a missing key) is strictly below the limit; a failing store admits |
| CostLimiter.IPCostLimiter.RecordCost | app/utils/cost_limiter.py:58-79 | a non-positive spend or a failing store changes nothing; otherwise the address's key is charged |
| CostLimiter.IPCostLimiter.GetCurrentUsage | app/utils/cost_limiter.py:81-88 | the ledger's usage, or 0 when the store fails |
| CostLimiter.GlobalCostLimiter.constructor | app/utils/cost_limiter.py:94-97 | the limiter keeps its store, limit and period |
| CostLimiter.GlobalCostLimiter.IsWithinLimits | app/utils/cost_limiter.py:103-113 | admitted iff the global usage is strictly below the limit; a failing store admits |
| CostLimiter.GlobalCostLimiter.RecordCost | app/utils/cost_limiter.py:115-136 | a non-positive spend or a failing store changes nothing; otherwise the global key is charged |
| CostLimiter.GlobalCostLimiter.GetCurrentUsage | app/utils/cost_limiter.py:138-145 | the global usage, or 0 when the store fails |
| CostLimiter.CostLimiter.constructor | app/utils/cost_limiter.py:151-162 | both limiters share the store and carry the configured limits and periods |
| CostLimiter.CostLimiter.IsAllowed | app/utils/cost_limiter.py:164-178 | allowed iff the global ledger and then the address's ledger admit; a failing store allows |
| CostLimiter.CostLimiter.RecordCost | app/utils/cost_limiter.py:180-188 | a positive spend is charged to the address's ledger and then to the global ledger; otherwise nothing changes |
| CostLimiter.RecordChargesBoth | app/utils/cost_limiter.py:180-188 | one recorded spend adds the same amount to the address's and the global ledger and nothing to any other |
| RedisStore.Store.Set | app/utils/cost_limiter.py:71 | `SET key value EX period` stores the value with an expiry one period ahead |
| RedisStore.Store.IncrByFloat | app/utils/cost_limiter.py:75 | `INCRBYFLOAT` adds to a live key and keeps its expiry |
| RedisStore.OutsideRange | app/utils/rate_limiter.py:77 | exactly the members scored outside the range are kept |
| RedisStore.Store.ZRemRangeByScore | app/utils/rate_limiter.py:77 | the members scored inside the range are removed, the others kept |
| RedisStore.Store.ZCard | app/utils/rate_limiter.py:78 | the count is the number of members |
| RedisStore.Store.ZAdd | app/utils/rate_limiter.py:79 | the member is added to the set |
| RedisStore.Store.ZRem | app/utils/rate_limiter.py:87 | the member is removed from the set |
| RedisStore.Store.Get | app/utils/cost_limiter.py:51 | `GET` finds a value iff the key is present and not expired, and it is the stored amount |
| RedisStore.GetCounter | app/utils/cost_limiter.py:51 | a counter is read iff present and live, as its stored amount |
| RateLimiter.DropEmpty | app/utils/rate_limiter.py:60-61 | the comprehension keeps exactly the fields with non-empty values, unchanged |
| RateLimiter.RealIp | app/utils/rate_limiter.py:44-48 | with no forwarded entry, `x-real-ip` when non-empty, else the client host, else `unknown` |
| RateLimiter.Fingerprint | app/utils/rate_limiter.py:36-65 | the fingerprint is the first min(length, 16) characters of the digest of the fingerprint data |
| RateLimiter.Prune | app/utils/rate_limiter.py:77 | the pruned log keeps exactly the entries inside the window (`ZREMRANGEBYSCORE 0 now-window`) and adds none |
| RateLimiter.Step | app/utils/rate_limiter.py:76-91 | a call is allowed iff the pruned log has fewer than `max_requests` entries; the log becomes the pruned log with the instant added when allowed and removed when denied |
| RateLimiter.FingerprintData | app/utils/rate_limiter.py:44-61 | no kept value is empty; the address is kept iff it is non-empty, cut to 45 characters |
| RateLimiter.BareConnectionData | app/utils/rate_limiter.py:44-61 | a connection without headers or client is fingerprinted by the address `unknown` alone |
| RateLimiter.BareFieldValues | app/utils/rate_limiter.py:38-58 | without headers or client every header field is empty and the address is `unknown` |
| RateLimiter.DropEmptyOnly | app/utils/rate_limiter.py:61 | with one non-empty field the data is that field alone |
| RateLimiter.ForwardedHeaderWins | app/utils/rate_limiter.py:44-48 | a non-empty first `x-forwarded-for` entry, stripped, is the address whatever the client host |
| RateLimiter.StepKeepsBound | app/utils/rate_limiter.py:76-91 | a log of at most `max_requests` entries stays within that bound after a call |
| RateLimiter.StepEffect | app/utils/rate_limiter.py:79-91 | an admitted call adds exactly its instant to the pruned log; a denied call leaves at most the pruned log, without the instant |
| RateLimiter.SameInstantSharesSlot | app/utils/rate_limiter.py:79-87 | with a limit of one, calls at one instant are admitted, denied (which empties the log) and admitted again |
| RateLimiter.PruneRecent | app/utils/rate_limiter.py:71-77 | pruning the recent admissions at a later instant leaves exactly the admissions recent then |
| RateLimiter.AdmitKeepsWindows | app/utils/rate_limiter.py:78-91 | admitting a call when the current window has room keeps every window within the limit |
| RateLimiter.NextKeepsInvariant | app/utils/rate_limiter.py:67-91 | one more call at a later instant keeps the log equal to the recent admissions and every window within the limit |
| RateLimiter.ReplayKeepsInvariant | app/utils/rate_limiter.py:67-91 | the invariant holds after any sequence of calls at increasing instants |
| RateLimiter.AtMostMaxPerWindow | app/utils/rate_limiter.py:76-91 | for calls at increasing instants, no span of `window_seconds` holds more than `max_requests` admitted calls |
| RateLimiter.FingerprintRateLimiter.constructor | app/utils/rate_limiter.py:31-34 | the limiter keeps its store, limit and window |
| RateLimiter.FingerprintRateLimiter.IsAllowed | app/utils/rate_limiter.py:67-97 | a failing store denies and changes nothing; otherwise the fingerprint's log becomes the window step's log and the answer is its decision |
| RateLimiter.FingerprintRateLimiter.WindowStep | app/utils/rate_limiter.py:74-97 | prune, count, add, and remove again when the count had reached the limit: the result is the window step |
| RateLimiter.FingerprintRateLimiter.Pipeline | app/utils/rate_limiter.py:76-83 | the pipelined commands count the pruned log and leave it with this call's instant added |
| RateLimiter.EffectiveSetting | app/utils/rate_limiter.py:102-104 | a given non-zero setting is used; None or 0 falls back to the configured default |
| RateLimiter.RateLimitedCall | app/utils/rate_limiter.py:112-124 | a denied or failing check raises the limit error; an admitted call returns the handler's result; the store's new state is the one the limiter's check leaves |
| RateLimiter.DeniedKeepsInvariant | app/utils/rate_limiter.py:85-91 | a denied call, whose instant is added and removed again, leaves the log equal to the recent admissions with every window within the limit |
| RateLimiter.AdmittedKeepsInvariant | app/utils/rate_limiter.py:78-81 | an admitted call, made when the current window has room, keeps the log equal to the recent admissions with every window within the limit |
| CostCalculator.CalculateTokenCosts | app/services/helpers/cost_calculator.py:29-42 | the total is input cost plus output cost; no tokens cost (0, 0, 0) |
| CostCalculator.CostsArePerToken | app/services/helpers/cost_calculator.py:30-35 | each cost is its token count times its configured per-token price |
| CostCalculator.CostIsAdditive | app/services/helpers/cost_calculator.py:34-36 | pricing two calls separately sums to pricing their combined tokens |
| CostCalculator.CostIsMonotone | app/services/helpers/cost_calculator.py:34-36 | with non-negative prices a call costs at least 0, and more tokens never cost less |
| CostCalculator.GetPricingInfo | app/services/helpers/cost_calculator.py:44-51 | exactly the four keys, holding the configured prices, model and provider |
| CostCalculator.PricingInfoDeterminesPricing | app/services/helpers/cost_calculator.py:44-51 | equal pricing info means equal configuration: nothing is lost |
| MessageConverter.ConvertOne | app/services/helpers/message_converter.py:28-36 | `user` gives a human message and `assistant` an AI message with the same content; other roles give nothing |
| MessageConverter.Converted | app/services/helpers/message_converter.py:25-38 | the output is never longer than the input |
| MessageConverter.ChatMessagesToLanggraphMessages | app/services/helpers/message_converter.py:25-38 | the loop's list is the message-by-message conversion of the input |
| MessageConverter.ConvertedConcat | app/services/helpers/message_converter.py:27-36 | converting a concatenation converts each part in order |
| MessageConverter.ConvertedLength | app/services/helpers/message_converter.py:25-38 | the output has one message per user or assistant input |
| MessageConverter.ConvertedPositionwise | app/services/helpers/message_converter.py:27-31 | without unknown roles, position k keeps the content of input k and is human iff that input is `user` |
| MessageConverter.UnknownRoleSkipped | app/services/helpers/message_converter.py:32-36 | a message with another role leaves no trace in the output |
| SuggestionValidators.ValidateContext | app/services/helpers/suggestion_validators.py:12-17 | accepted iff the value is a `SuggestionContext` member, which is returned unchanged |
| SuggestionValidators.ValidateLimit | app/services/helpers/suggestion_validators.py:19-28 | accepted iff an integer in 1..`MAX_SUGGESTION_LIMIT`, returned unchanged; a positive limit above the bound gets the "too large" error |
| SuggestionValidators.PlainStringRejected | app/services/helpers/suggestion_validators.py:15-16 | the plain text `anonymous`, not being a member, is rejected |
| ChatValidators.ValidateSessionId | app/services/helpers/chat_validators.py:16-29 | accepted iff a non-blank string of at most 255 characters once stripped, which is returned; None gets "Session ID is required" |
| ChatValidators.ValidateAccountId | app/services/helpers/chat_validators.py:31-47 | None and blank strings give no account; rejected iff a non-string or longer than 255 once stripped; otherwise the stripped id |
| ChatValidators.ValidateMessageContent | app/services/helpers/chat_validators.py:49-62 | accepted iff a string that is non-empty and at most 100000 characters once stripped, which is returned |
| ChatValidators.ValidateMessageRole | app/services/helpers/chat_validators.py:64-69 | accepted iff `user` or `assistant`, returned unchanged |
| ChatValidators.ValidateConversationId | app/services/helpers/chat_validators.py:71-76 | accepted iff a positive integer, returned unchanged |
| ChatValidators.ValidateLimit | app/services/helpers/chat_validators.py:78-87 | accepted iff an integer in 1..1000, returned unchanged |
| ChatValidators.SessionIdFixedPoint | app/services/helpers/chat_validators.py:25-29 | an accepted session id validates to itself |
| ChatValidators.AccountIdFixedPoint | app/services/helpers/chat_validators.py:40-47 | an accepted account id validates to itself |
| ChatValidators.MessageContentFixedPoint | app/services/helpers/chat_validators.py:55-62 | accepted content validates to itself, whatever the role |
| ChatValidators.TrueIsALimit | app/services/helpers/chat_validators.py:74-81 | `True`, an `int` in Python, passes as the limit 1, and `False` is not a positive id |
| ChatEndpoint.RateCheckFirst | app/api/endpoints/chat.py:105-124 | a rate-limited message gets the rate error frame and close code 1013, whatever the cost ledger and the text |
| ChatEndpoint.OptionalText | app/api/endpoints/chat.py:171-173 | an optional request field is accepted iff null or a string, and a string is kept |
| ChatEndpoint.MakeRequest | app/api/endpoints/chat.py:182 | a request is built iff the query is a string and the account id and network are null or strings, and it holds exactly those values |
| ChatEndpoint.Admit | app/api/endpoints/chat.py:215-237 | a flow starts iff the query is non-empty (for a query) and the network is non-empty, with exactly the request and continuation; otherwise the message is closed with 1013 |
| ChatEndpoint.DispatchMessage | app/api/endpoints/chat.py:158-213 | a non-object message gets the internal error; `close` is recognised exactly; a started query carries the request built from its fields and non-empty content; a started continuation carries its UUID message id; every started flow has a non-empty network |
| ChatEndpoint.Dispatch | app/api/endpoints/chat.py:105-213 | a message that fails the rate or the cost check is closed with 1013; a flow starts or a close is accepted only after both checks pass and the text parses |
| ChatEndpoint.DispatchMessageAsWritten | app/api/endpoints/chat.py:158-215 | as written: never starts a flow; it answers like the corrected dispatch or with the internal error, and a `query` with content or a `continue_from_message` with a message id always gets the internal error |
| ChatEndpoint.DispatchAsWritten | app/api/endpoints/chat.py:105-215 | as written: a message that fails the rate or the cost check is closed with 1013 as in the corrected dispatch; otherwise the outcome is the corrected one or the internal error, and never a started flow |
| ChatEndpoint.AsWrittenStartsNothing | app/api/endpoints/chat.py:182-338 | as written no message starts a flow: a query with content or a continuation with a message id that passes the checks is answered "Internal server error" |
| ChatEndpoint.AsWrittenDiffersOnlyOnRequests | app/api/endpoints/chat.py:182-338 | the as-written and corrected dispatches agree except where the corrected one builds a request, and every flow the corrected one starts is an internal error as written |
| ChatEndpoint.CostCheckSecond | app/api/endpoints/chat.py:126-156 | a message over the cost budget gets the cost error frame and 1013 before its text is parsed |
| ChatEndpoint.InvalidJsonKeepsOpen | app/api/endpoints/chat.py:158-323 | text that does not parse gets `Invalid JSON format` and the connection stays open |
| ChatEndpoint.NoUserMessageUnreachable | app/api/endpoints/chat.py:174-225 | the "No user message found" rejection can never be sent, since a query's content was already required |
| ChatEndpoint.CloseCodes | app/api/endpoints/chat.py:106-338 | every rejection closes with 1007 or 1013 after one error frame; the messages that keep the connection open get one error frame |
| ChatEndpoint.StartedFlowsAreWellFormed | app/api/endpoints/chat.py:169-237 | in the corrected dispatch, a flow starts only after both checks pass, for a query with content or a continuation with a UUID id, and always with a network |
| ChatEndpoint.QueryStartsFlow | app/api/endpoints/chat.py:169-239 | in the corrected dispatch, a query with text content and a network starts a flow with exactly those fields |
| ChatEndpoint.TokenFrames | app/api/endpoints/chat.py:260-272 | one token frame per token, in production order |
| ChatEndpoint.IdFrames | app/api/endpoints/chat.py:274-283 | one id frame for each id that is set, and nothing else |
| ChatEndpoint.CompletedFlowFrames | app/api/endpoints/chat.py:260-288 | a completed flow sends its tokens in order and ends with exactly one completion frame and no error frame |
| ChatEndpoint.FailedFlowFrames | app/api/endpoints/chat.py:297-314 | a failing flow sends its tokens, then exactly one error frame, and no completion frame |
| ChatEndpoint.CancelActive | app/api/endpoints/chat.py:83-92 | afterwards no flow is active, a running active flow is cancelled, and no new flow runs |
| ChatEndpoint.AfterKeepsOneRunning | app/api/endpoints/chat.py:235-317 | handling any message keeps at most one flow running, the active one |
| ChatEndpoint.NothingRunsBeforeStart | app/api/endpoints/chat.py:235-237 | once a running active flow is cancelled nothing runs |
| ChatEndpoint.StartCancelsRunning | app/api/endpoints/chat.py:235-317 | starting a flow while another runs cancels that one first and makes the new one active |
| ChatEndpoint.CloseRequestEndsSession | app/api/endpoints/chat.py:161-167 | `close` cancels a running flow, sends `{"closed": true}` once, closes with 1000 and leaves nothing running |
| ChatEndpoint.Session.constructor | app/api/endpoints/chat.py:71-81 | a new connection has sent nothing, started nothing and has no active flow |
| ChatEndpoint.Session.CancelActiveFlow | app/api/endpoints/chat.py:83-92 | the connection's state becomes the cancelled state |
| ChatEndpoint.Session.HandleMessage | app/api/endpoints/chat.py:97-338 | the state after one message is the corrected dispatch of the rate verdict, the cost verdict and the text; the cost limiter is read only after the rate check passed |
| ChatEndpoint.Session.Apply | app/api/endpoints/chat.py:120-317 | the outcome is sent, closed, cancelled or started as the dispatch says |
| ChatEndpoint.Session.StreamTokens | app/api/endpoints/chat.py:260-272 | the sent frames grow by exactly the token frames, in order |
| ChatEndpoint.Session.FinishFlow | app/api/endpoints/chat.py:251-314 | a positive reported cost is recorded against both ledgers and nothing else is; the end frames are sent and the flow is finished |
| ChatEndpoint.Session.Disconnect | app/api/endpoints/chat.py:340-348 | a disconnect cancels the active flow |
| ChatEndpoint.StreamThenFinish | app/api/endpoints/chat.py:259-314 | streaming then finishing sends exactly the flow's frames |
| ToolCallParser.FixPythonSyntax | app/services/helpers/tool_call_parser.py:189-201 | after the repair none of the six Python spellings (`: True`, `:None`, ...) remains |
| ToolCallParser.FixPythonSyntaxIdempotent | app/services/helpers/tool_call_parser.py:189-201 | repairing Python literals twice equals repairing them once |
| ToolCallParser.FixPythonSyntaxNoop | app/services/helpers/tool_call_parser.py:192-199 | a text without the six spellings is left unchanged |
| ToolCallParser.FixMissingBraces | app/services/helpers/tool_call_parser.py:170-187 | the result starts with the Python-repaired text and only `}` and `]` are appended |
| ToolCallParser.FixMissingBracesBalances | app/services/helpers/tool_call_parser.py:170-187 | the brace repair only appends, adds max(0, #`{` - #`}`) closing braces and max(0, #`[` - #`]`) closing brackets, and adds no opener |
| ToolCallParser.FixMissingBracesIdempotent | app/services/helpers/tool_call_parser.py:170-187 | repairing an already repaired text changes nothing |
| ToolCallParser.AppendClosersKeepsClean | app/services/helpers/tool_call_parser.py:181-185 | appended closers create no Python spelling |
| ToolCallParser.ValidateToolCall | app/services/helpers/tool_call_parser.py:203-212 | a call is returned iff the value is a dict whose `tool_call` is a dict with `name`, and it is that inner dict |
| ToolCallParser.TryParseJson | app/services/helpers/tool_call_parser.py:151-168 | whatever comes back names a tool |
| ToolCallParser.ValidCandidateNeedsNoRepair | app/services/helpers/tool_call_parser.py:153-157 | a candidate that parses after the Python repair is validated without the brace repair |
| ToolCallParser.MatchEnd | app/services/helpers/tool_call_parser.py:72-102 | a reported end lies at or after the start and holds a `}` |
| ToolCallParser.BracesInStringsInert | app/services/helpers/tool_call_parser.py:85-92 | inside a string any character but a quote or a backslash leaves depth and state unchanged |
| ToolCallParser.EscapedQuoteInert | app/services/helpers/tool_call_parser.py:75-83 | a backslash makes the next character, even a quote, inert |
| ToolCallParser.Scan | app/services/helpers/tool_call_parser.py:47-116 | every call the scanner keeps names a tool |
| ToolCallParser.FindObjectEnd | app/services/helpers/tool_call_parser.py:65-102 | the brace-counting loop finds the end the matching specification gives |
| ToolCallParser.ExtractMultipleJsonObjects | app/services/helpers/tool_call_parser.py:47-116 | the scanning loop returns the scan of the whole content |
| ToolCallParser.ObjectStep | app/services/helpers/tool_call_parser.py:60-114 | each pass strictly advances the index; the calls found plus the scan of the rest are the scan from the old index |
| ToolCallParser.ParseClosedObject | app/services/helpers/tool_call_parser.py:92-100 | a complete object contributes its validated call and scanning resumes after its `}` |
| ToolCallParser.ParseOpenObject | app/services/helpers/tool_call_parser.py:104-114 | an unterminated object is brace-repaired, parsed once, and ends the scan |
| ToolCallParser.MatchEndShift | app/services/helpers/tool_call_parser.py:72-102 | text in front of the scanned part does not change where an object closes |
| ToolCallParser.MatchEndPrefix | app/services/helpers/tool_call_parser.py:72-102 | text after an object that already closed does not change where it closes |
| ToolCallParser.ScanShift | app/services/helpers/tool_call_parser.py:47-116 | scanning from an offset is scanning the suffix |
| ToolCallParser.ScanConcat | app/services/helpers/tool_call_parser.py:47-116 | a complete object followed by more text yields its call first, then the calls of the rest: source order |
| ToolCallParser.ProseSkipped | app/services/helpers/tool_call_parser.py:53-63 | text without an opening brace contributes no call |
| ToolCallParser.ExtractFromCodeblock | app/services/helpers/tool_call_parser.py:123-133 | a result comes only from content with a json fence and is stripped |
| ToolCallParser.CodeblockBody | app/services/helpers/tool_call_parser.py:123-133 | content that is exactly one json fence yields its stripped body |
| ToolCallParser.ExtractFromBraces | app/services/helpers/tool_call_parser.py:135-145 | a result exists iff both braces occur, and a non-empty one runs from a `{` to a `}` |
| ToolCallParser.BracesSpan | app/services/helpers/tool_call_parser.py:135-145 | prose around a single brace span is cut away |
| ToolCallParser.BracesInverted | app/services/helpers/tool_call_parser.py:140-145 | a `}` before every `{` gives the empty slice |
| ToolCallParser.FirstParsed | app/services/helpers/tool_call_parser.py:37-45 | the fallback returns at most one call, and it names a tool |
| ToolCallParser.Candidates | app/services/helpers/tool_call_parser.py:15-19 | three strategies are tried, the last of which is the raw content itself |
| ToolCallParser.ParsedToolCalls | app/services/helpers/tool_call_parser.py:21-45 | every call names a tool; empty or blank content yields no call |
| ToolCallParser.FallbackYieldsAtMostOne | app/services/helpers/tool_call_parser.py:33-45 | when the scanner finds nothing, at most one call comes back |
| ToolCallParser.SingleObject | app/services/helpers/tool_call_parser.py:21-97 | a response that is one complete valid object yields exactly its call |
| ToolCallParser.ParseToolCalls | app/services/helpers/tool_call_parser.py:21-45 | the method's strategy loop returns the specified calls |
| ToolCallParser.ParseToolCall | app/services/helpers/tool_call_parser.py:118-121 | None iff no call parses; otherwise the first call |
| WorkflowBuilder.PyTail | app/services/helpers/workflow_builder.py:153 | Python's `s[-n:]`: the last n elements for positive n, the whole list for 0 |
| WorkflowBuilder.Summaries | app/services/helpers/workflow_builder.py:154-157 | one `Tool: {name} -> Result: {result}` line per record, in order |
| WorkflowBuilder.BuildToolContextAsWritten | app/services/helpers/workflow_builder.py:151-158 | as written, for `max_items >= 0` the context is the header and the summaries of the last `max_items` records, all of them when `max_items` is 0 or exceeds the count |
| WorkflowBuilder.BuildToolContext | app/services/helpers/workflow_builder.py:151-158 | corrected, the context is the header and the summaries of the last min(`max_items`, n) records, none when `max_items <= 0` |
| WorkflowBuilder.ZeroItemsKeepsAll | app/services/helpers/workflow_builder.py:151-158 | as written, `max_items == 0` keeps every record rather than none |
| WorkflowBuilder.RecentRecords | app/services/helpers/workflow_builder.py:153 | the kept records are the last `min(max_items, n)`, none when `max_items <= 0` |
| WorkflowBuilder.ToolContextLines | app/services/helpers/workflow_builder.py:151-158 | the context lines are the summaries of the most recent records, oldest first; for positive `max_items` the corrected and the as-written context agree |
| WorkflowBuilder.FindTool | app/services/helpers/workflow_builder.py:162-167 | the index found is the first tool whose name matches; none means no tool matches |
| WorkflowBuilder.ToolInput | app/services/helpers/workflow_builder.py:177-184 | `call_sdk_method` gets `{"method_name": m, "kwargs": all other params}`, every other tool its params unchanged |
| WorkflowBuilder.ToolResult | app/services/helpers/workflow_builder.py:160-191 | an unknown tool gives the "not found" error string |
| WorkflowBuilder.UnknownToolInvokesNothing | app/services/helpers/workflow_builder.py:169-172 | with no matching tool the result does not depend on any tool's behaviour |
| WorkflowBuilder.FirstMatchInvoked | app/services/helpers/workflow_builder.py:164-191 | the first matching tool is invoked; its failure becomes an error string instead of propagating |
| WorkflowBuilder.ExecuteTool | app/services/helpers/workflow_builder.py:160-191 | the search loop and invocation give the specified result |
| WorkflowBuilder.Prompt | app/services/helpers/workflow_builder.py:61-81 | with earlier tool calls the prompt ends with the tool context message |
| WorkflowBuilder.ModelStep | app/services/helpers/workflow_builder.py:59-106 | a reply is appended and the iteration count grows by one; a parsed call becomes pending, otherwise the reply is the final response; a failing LLM sets the apology |
| WorkflowBuilder.ToolStep | app/services/helpers/workflow_builder.py:112-147 | no pending call sets the error response; otherwise one record is appended, the pending call cleared and one result message appended |
| WorkflowBuilder.StepsKeepPendingNamed | app/services/helpers/workflow_builder.py:90-133 | both nodes keep pending calls named, so a tool step always appends exactly one record |
| WorkflowBuilder.GraphState.constructor | app/services/helpers/workflow_builder.py:59-63 | a fresh state holds the history and account, with no pending call and no iterations |
| WorkflowBuilder.GraphState.CallModelNode | app/services/helpers/workflow_builder.py:59-106 | the state becomes the model step on the LLM's reply to the prompt |
| WorkflowBuilder.GraphState.RecordReply | app/services/helpers/workflow_builder.py:83-106 | the state becomes the model step on the reply |
| WorkflowBuilder.GraphState.CallToolNode | app/services/helpers/workflow_builder.py:112-147 | the state becomes the tool step |
| WorkflowBuilder.Run | app/services/helpers/workflow_builder.py:46-48 | a run starts at `call_model` and visits one node per decision |
| WorkflowBuilder.ToolReturnsToModel | app/services/helpers/workflow_builder.py:48 | every visit to `call_tool` is followed by `call_model` |
| MirrorUtils.FormatEntityId | sdk/hiero_mirror/utils.py:17-72 | the rendering always has three `.`-separated parts |
| MirrorUtils.ParseEntityId | sdk/hiero_mirror/utils.py:32-60 | the empty string is rejected as empty; what a non-empty id parses to is MirrorUtils.ParseEntityIdAccepts with MirrorUtils.FromParts, and its round trip MirrorUtils.EntityIdRoundTrip |
| MirrorUtils.PartValue | sdk/hiero_mirror/utils.py:52-58 | a part is read exactly when Python's `int()` reads it, to the same value; otherwise the non-integer error names the part |
| MirrorUtils.FromParts | sdk/hiero_mirror/utils.py:50-58 | one to three parts are accepted iff each is an integer, read from the left into `num`, `realm.num` or `shard.realm.num` (missing leading parts are 0); otherwise the error names the first part from the left that is not an integer |
| MirrorUtils.FirstBadPartReported | sdk/hiero_mirror/utils.py:53-55 | in a two-part id whose first part is not an integer, the error names the first part whatever the second holds |
| MirrorUtils.ParseEntityIdAccepts | sdk/hiero_mirror/utils.py:44-60 | more than three parts is the format error; otherwise the parts are read |
| MirrorUtils.ValidateEntityId | sdk/hiero_mirror/utils.py:75-88 | true exactly when parsing succeeds |
| MirrorUtils.EntityIdRoundTrip | sdk/hiero_mirror/utils.py:17-60 | parsing the rendered id gives the id back, for every integer component |
| MirrorUtils.OnePartEntityId | sdk/hiero_mirror/utils.py:50-52 | `num` alone parses as 0.0.num |
| MirrorUtils.TwoPartEntityId | sdk/hiero_mirror/utils.py:53-55 | `realm.num` parses as 0.realm.num |
| MirrorUtils.NanosDigits | sdk/hiero_mirror/utils.py:141 | `ljust(9, "0")[:9]` gives exactly nine characters: the fraction padded with zeros or cut to nine |
| MirrorUtils.ParseTimestamp | sdk/hiero_mirror/utils.py:143-147 | without a `.`, the whole text is the seconds and the nanoseconds are 0; a non-integer raises |
| MirrorUtils.TimestampFraction | sdk/hiero_mirror/utils.py:137-142 | `seconds.fraction` of digits gives the seconds and the fraction scaled to nine places, below 10^9 |
| MirrorUtils.PadLeftZeros | sdk/hiero_mirror/utils.py:167 | the text is padded on the left with zeros to the width |
| MirrorUtils.FormatBalanceNoDecimals | sdk/hiero_mirror/utils.py:164-173 | as written, 50 units with no decimals render as `5.0`, which does not read as 50 |
| MirrorUtils.FormatZeroNoDecimals | sdk/hiero_mirror/utils.py:164-173 | as written, 0 with no decimals renders as the empty string |
| MirrorUtils.FormatBalanceAsWritten | sdk/hiero_mirror/utils.py:164-173 | as written, every non-zero balance renders with a `.` |
| MirrorUtils.FormatBalance | sdk/hiero_mirror/utils.py:164-173 | corrected, it is the as-written rendering whenever there are decimals; with none it starts with the integer's own digits |
| MirrorUtils.WholePart | sdk/hiero_mirror/utils.py:164-167 | the sign and integer part end with a digit and have no `.` |
| MirrorUtils.FormatBalanceShape | sdk/hiero_mirror/utils.py:164-173 | with decimals, the rendering is the signed integer part, then the fraction without trailing zeros, or `.0` |
| MirrorUtils.FormatBalanceDenotes | sdk/hiero_mirror/utils.py:150-173 | every rendering reads back as balance / 10^decimals; a non-zero balance shows a `.`; zero is `0` |
| MirrorUtils.RoundText | sdk/hiero_mirror/utils.py:167-171 | a non-zero whole number of units renders as its integer part with `.0` |
| MirrorUtils.ZeroBalance | sdk/hiero_mirror/utils.py:167 | a zero balance renders as `0` |
| MirrorUtils.FractionDenotes | sdk/hiero_mirror/utils.py:164-167 | a balance with a fractional part renders it without trailing zeros, reading back exactly |
| MirrorUtils.BalanceUnits | sdk/hiero_mirror/utils.py:160-161 | an integer is used as is; a string goes through `int()` |
| MirrorUtils.FormatBalanceOf | sdk/hiero_mirror/utils.py:150-173 | as written: a result exists iff the balance is an integer and the decimals are not negative; with at least one decimal it is the intended rendering and reads back as balance / 10^decimals; it shows a `.` when non-zero; with no decimals, 50 gives `5.0` as the code does |
| MirrorUtils.FormatHbarBalance | sdk/hiero_mirror/utils.py:176-185 | the same with 8 decimals |
| MirrorUtils.HexOfLengthAccepts | sdk/hiero_mirror/utils.py:197-223 | after lower-casing and dropping one `0x`, exactly n hex digits of either case |
| MirrorUtils.IsValidEvmAddress | sdk/hiero_mirror/utils.py:188-203 | valid iff 40 hex digits of either case, or `0x`/`0X` followed by 40 |
| MirrorUtils.IsValidTransactionHash | sdk/hiero_mirror/utils.py:206-223 | valid iff 64 or 96 hex digits of either case, or `0x`/`0X` followed by 64 or 96 |
| MirrorUtils.EvmAddressCaseInsensitive | sdk/hiero_mirror/utils.py:188-203 | upper and lower case are accepted alike |
| MirrorUtils.BeforeFinalNewline | sdk/hiero_mirror/utils.py:236 | Python's `$` ignores at most one final newline |
| MirrorUtils.ParseTransactionId | sdk/hiero_mirror/utils.py:227-251 | a rejection carries `Invalid transaction ID format: ` and the input; what an accepted id parses to is MirrorUtils.ParsedFromRuns and MirrorUtils.TransactionIdRoundTrip |
| MirrorUtils.TransactionIdAccountParses | sdk/hiero_mirror/utils.py:242-251 | the account text of a parsed id parses as the entity of its shard, realm and num |
| MirrorUtils.TransactionIdRoundTrip | sdk/hiero_mirror/utils.py:227-251 | rendering five numbers in the id layout and parsing gives them back |
| MirrorUtils.ParsedFromRuns | sdk/hiero_mirror/utils.py:236-251 | five digit runs in their places parse to their values, with the account as written |
| MirrorUtils.TrailingNewlineAccepted | sdk/hiero_mirror/utils.py:236-240 | one final newline is accepted and ignored; a second is rejected |
| MirrorQuery.BuildQueryParams | sdk/hiero_mirror/utils.py:254-290 | the loop's dict is the renamed, stringified non-None arguments |
| MirrorQuery.DottedIdRename | sdk/hiero_mirror/utils.py:267-268 | each listed `*_id` key becomes its stem with `.id`, and no underscore is left |
| MirrorQuery.QueryKey | sdk/hiero_mirror/utils.py:264-288 | a key outside the rename chain is used as it is; a renamed key that is not a dotted id loses its underscores and changes |
| MirrorQuery.QueryParams | sdk/hiero_mirror/utils.py:264-290 | arguments that are all None give the empty dict |
| MirrorQuery.QueryParamsDomain | sdk/hiero_mirror/utils.py:264-288 | a key is present iff some argument with a non-None value renames to it |
| MirrorQuery.QueryParamsLastWins | sdk/hiero_mirror/utils.py:264-288 | the value under a key is the text of the last non-None argument renamed to it |
| MirrorQuery.SerialNumberAlias | sdk/hiero_mirror/utils.py:281-288 | `serial_number` and `serialnumber` collide, and the later one wins |
| MirrorQuery.NormalizeOrder | sdk/hiero_mirror/utils.py:293-304 | None stays None; a text is lower-cased character by character |
| MirrorQuery.NormalizeOrderIdempotent | sdk/hiero_mirror/utils.py:293-304 | normalising twice is normalising once |
| MirrorQuery.NormalizeOrderValues | sdk/hiero_mirror/utils.py:293-304 | `ASC` and `Desc` become the enumeration values |
| MirrorQuery.ValidateLimit | sdk/hiero_mirror/utils.py:307-331 | None passes; otherwise accepted iff an integer in 1..100, returned unchanged, each rejection with its own message |
| MirrorQuery.ValidateLimitFixedPoint | sdk/hiero_mirror/utils.py:307-331 | an accepted limit validates to itself |
| MirrorQuery.ExtractNextLink | sdk/hiero_mirror/utils.py:347-367 | None iff there are no links or no next link; a link with `?` gives what follows the first `?`, otherwise the link itself |
| MirrorQuery.NextLinkQuery | sdk/hiero_mirror/utils.py:364-365 | the query of a `path?query` link comes back whole, even with further `?` |
| MirrorModels.ValidateNonNegative | sdk/hiero_mirror/models.py:124-131 | accepted iff a digit string or a non-negative integer; a digit string becomes its value; the error message is fixed |
| MirrorModels.ValidateNonNegativeFixedPoint | sdk/hiero_mirror/models.py:124-131 | a validated component validates to itself |
| MirrorModels.SignedStringRejected | sdk/hiero_mirror/models.py:126-130 | `"-1"` and -1 are rejected; `"007"` becomes 7 |
| MirrorModels.ValidatedEntityIdRoundTrip | sdk/hiero_mirror/models.py:118-134 | validated components make a non-negative id whose text parses back to it |
| MirrorModels.OrderOf | sdk/hiero_mirror/models.py:8-11 | a member exists iff the value is `asc` or `desc`, and it carries that value |
| MirrorModels.OrderValueRoundTrip | sdk/hiero_mirror/models.py:8-11 | every member is found again from its value, which normalisation leaves alone |
| MirrorExceptions.NewException | sdk/hiero_mirror/exceptions.py:9-18 | the exception keeps its message and code; absent response data is stored as an empty dict |
| MirrorExceptions.BadRequestError | sdk/hiero_mirror/exceptions.py:29-37 | the error is a bad-request error with status 400; without a message it says `Bad Request`; absent response data becomes an empty dict |
| MirrorExceptions.NotFoundError | sdk/hiero_mirror/exceptions.py:40-48 | the error is a not-found error with status 404; without a message it says `Not Found`; absent response data becomes an empty dict |
| MirrorExceptions.TooManyRequestsError | sdk/hiero_mirror/exceptions.py:51-59 | the error is a rate-limit error with status 429; without a message it says `Too Many Requests`; absent response data becomes an empty dict |
| MirrorExceptions.ServiceUnavailableError | sdk/hiero_mirror/exceptions.py:62-71 | the error is a service-unavailable error; the status defaults to 503 and the message to `Service Unavailable`; a given status or message is kept |
| MirrorExceptions.ValidationError | sdk/hiero_mirror/exceptions.py:74-85 | no status code; the data holds exactly the field and the value |
| MirrorExceptions.NetworkError | sdk/hiero_mirror/exceptions.py:88-97 | no status code; the data holds the text of the original error, `None` without one |
| MirrorExceptions.TimeoutError | sdk/hiero_mirror/exceptions.py:100-109 | no status code; the data holds exactly the timeout |
| MirrorExceptions.FixedStatusCodes | sdk/hiero_mirror/exceptions.py:29-109 | the 400, 404 and 429 classes carry exactly those codes; validation, network and timeout errors carry none |
| MirrorExceptions.ExceptionText | sdk/hiero_mirror/exceptions.py:20-23 | a set, non-zero code gives `[code] message`; otherwise the bare message, and a non-text message raises |
| MirrorExceptions.FirstEntryMessage | sdk/hiero_mirror/exceptions.py:122-123 | the first entry's message is read iff `messages` is a list whose first entry is a dict |
| MirrorExceptions.FirstMessage | sdk/hiero_mirror/exceptions.py:116-123 | no data or no `_status` gives `Unknown error`; any other message read comes from a `_status` dict with a `messages` list |
| MirrorExceptions.ExceptionFor | sdk/hiero_mirror/exceptions.py:125-134 | the class is chosen by the code (400, 404, 429, at least 500, else the base class) and keeps the code and message |
| MirrorExceptions.CreateExceptionFromResponse | sdk/hiero_mirror/exceptions.py:112-134 | when the first message can be read, the exception is the class of the code with that message |
| MirrorExceptions.NoStatusUnknownError | sdk/hiero_mirror/exceptions.py:116-118 | a body without `_status` gives `Unknown error`, whatever the code |
| MirrorExceptions.NotFoundText | sdk/hiero_mirror/exceptions.py:20-128 | a 404 body with one message gives a not-found error whose text is `[404] message` |
| MirrorExceptions.EntryMessages | sdk/hiero_mirror/exceptions.py:145-148 | an entry contributes one message when it is a dict with `message` or a text, none otherwise |
| MirrorExceptions.ExtractErrorMessages | sdk/hiero_mirror/exceptions.py:137-150 | the loop returns the messages of the entries, in order |
| MirrorExceptions.ErrorMessages | sdk/hiero_mirror/exceptions.py:137-150 | no data or no `_status` gives no messages; a non-empty list comes from a `_status` dict with a `messages` list |
| MirrorExceptions.EntriesMessagesConcat | sdk/hiero_mirror/exceptions.py:144-148 | the messages of concatenated entries are each part's in turn |
| MirrorExceptions.EntriesMessagesPositionwise | sdk/hiero_mirror/exceptions.py:144-148 | when every entry carries a message, there is one per entry, in order |
| MirrorExceptions.FirstListedIsExceptionMessage | sdk/hiero_mirror/exceptions.py:118-146 | the first listed message is the exception's message when the first entry is a dict with `message` |
| McpExceptions.NewError | mcp_servers/app/exceptions.py:11-22 | an empty or absent error code falls back to the class name, an absent context to an empty dict; message and cause are kept |
| McpExceptions.TextEntry | mcp_servers/app/exceptions.py:53-54 | an optional context entry is present exactly when its text is given and non-empty, and holds that text |
| McpExceptions.ValidationError | mcp_servers/app/exceptions.py:38-47 | the context holds the field exactly when one is given and the value's text exactly when the value is not `None`, nothing else |
| McpExceptions.ConfigurationError | mcp_servers/app/exceptions.py:50-55 | the configuration key is recorded only when given |
| McpExceptions.ServiceInitializationError | mcp_servers/app/exceptions.py:58-64 | the service is always in the context and the message is exactly "{service} initialization failed: {message}" |
| McpExceptions.SdkMethodNotFoundError | mcp_servers/app/exceptions.py:72-79 | the message names the method; the context holds the method and, only when the list is non-empty, the available methods |
| McpExceptions.TextList | mcp_servers/app/exceptions.py:78 | the list of method names is kept element for element |
| McpExceptions.SdkContext | mcp_servers/app/exceptions.py:86-88 | the method is always recorded, the parameters exactly when they are non-empty |
| McpExceptions.SdkParameterError | mcp_servers/app/exceptions.py:82-89 | the message is "Parameter error for '{method}': …" and the context is the shared SDK context |
| McpExceptions.SdkExecutionError | mcp_servers/app/exceptions.py:92-100 | the message is "Execution error for '{method}': …", the context is the shared SDK context and the cause is kept |
| McpExceptions.DatabaseConnectionError | mcp_servers/app/exceptions.py:108-116 | a non-empty connection string is recorded only through its host, never whole; no string, no context |
| McpExceptions.ConnectionHostOf | mcp_servers/app/exceptions.py:115 | for `user:pw@host/db` the recorded host is exactly `host`: the credentials and the path are stripped |
| McpExceptions.ConnectionHostUnknown | mcp_servers/app/exceptions.py:115 | a connection string without `@` records the host "unknown" |
| McpExceptions.ConnectionHost | mcp_servers/app/exceptions.py:115 | a string without `@` gives "unknown"; otherwise the host never contains a `/` |
| McpExceptions.DatabaseOperationError | mcp_servers/app/exceptions.py:119-125 | the operation is always recorded and named in the message |
| McpExceptions.VectorStoreInitializationError | mcp_servers/app/exceptions.py:133-138 | the message is exactly "Vector store initialization failed: {message}" and the cause is kept; the collection name is recorded only when given |
| McpExceptions.VectorStoreSearchError | mcp_servers/app/exceptions.py:141-146 | the message is exactly "Vector search failed: {message}" and the cause is kept; the query is always recorded |
| McpExceptions.EmbeddingError | mcp_servers/app/exceptions.py:149-154 | the message is exactly "Embedding generation failed: {message}" and the cause is kept; the context records the text's length, 0 when there is no text |
| McpExceptions.DocumentProcessingError | mcp_servers/app/exceptions.py:157-162 | the message is exactly "Document processing failed: {message}" and the cause is kept; the document path is recorded only when given |
| McpExceptions.OpenAIApiError | mcp_servers/app/exceptions.py:171-176 | the message is exactly "OpenAI API error: {message}" and the cause is kept; the model is recorded only when given |
| McpExceptions.HederaApiError | mcp_servers/app/exceptions.py:179-184 | the message is exactly "Hedera API error: {message}" and the cause is kept; the endpoint is recorded only when given |
| McpExceptions.ToDict | mcp_servers/app/exceptions.py:24-35 | the response always holds the error code, the message and `success: False`; the context exactly when non-empty and the cause exactly when present, nothing else |
| McpExceptions.DefaultErrorCode | mcp_servers/app/exceptions.py:20-35 | an error built without code, context or cause reports its class name as the error and has only the three base keys |
| McpExceptions.HandleException | mcp_servers/app/exceptions.py:187-214 | every response it returns is a failure with error and message; any exception that is not a server error is always handled |
| McpExceptions.HandleMergesContext | mcp_servers/app/exceptions.py:198-202 | extra context is merged over a server error's own context, the extra entries winning |
| McpExceptions.HandleEmptyContextRaises | mcp_servers/app/exceptions.py:198-201 | extra context for a server error that has no context of its own raises `KeyError` |
| McpExceptions.HandleWithoutContext | mcp_servers/app/exceptions.py:198-202 | without extra context a server error is reported by `to_dict` alone |
| McpExceptions.HandleOtherException | mcp_servers/app/exceptions.py:204-214 | another exception reports its class name and text, and carries the context exactly when non-empty context is given |
| SdkService.KwargsUpdate | mcp_servers/app/services/sdk_service.py:127-145 | a dict `kwargs` contributes its entries; non-blank JSON text contributes the decoded object, or nothing when it decodes to a non-object; it raises exactly when non-blank text does not decode; any other value contributes nothing |
| SdkService.Processed | mcp_servers/app/services/sdk_service.py:112-153 | parameters without a `kwargs` entry never fail to process |
| SdkService.ProcessParameters | mcp_servers/app/services/sdk_service.py:112-153 | the filtering loop yields exactly the parameters of the in-order specification (`kwargs` merged, None and "" dropped) or its decoding error |
| SdkService.ErrorPersists | mcp_servers/app/services/sdk_service.py:141-143 | once a prefix of the parameters raises, processing all of them raises the same error |
| SdkService.UndecodableKwargsRaises | mcp_servers/app/services/sdk_service.py:132-143 | a non-blank `kwargs` text that does not decode makes the whole processing raise, wherever it appears |
| SdkService.RegularDomain | mcp_servers/app/services/sdk_service.py:146-150 | without a `kwargs` entry, a key is in the result iff some entry with that key has a value other than None and "" |
| SdkService.RegularLastWins | mcp_servers/app/services/sdk_service.py:124-148 | a kept entry's value is the one in the result unless a later kept entry has the same key |
| SdkService.FalsyValuesKept | mcp_servers/app/services/sdk_service.py:146-150 | 0 and False are kept while None and "" are dropped |
| SdkService.KwargsEntryMerged | mcp_servers/app/services/sdk_service.py:127-145 | the `kwargs` entry is merged with its entries overriding earlier ones and the key `kwargs` itself is never copied; a non-dict, non-text value changes nothing |
| SdkService.GetAvailableMethods | mcp_servers/app/services/sdk_service.py:155-161 | the loop over `dir(client)` lists the public methods in `dir` order |
| SdkService.AvailableMethods | mcp_servers/app/services/sdk_service.py:155-161 | never more names than attributes, and none starts with `_` |
| SdkService.AvailableMethodsExact | mcp_servers/app/services/sdk_service.py:158-160 | a name is listed iff it is a callable attribute not starting with `_` |
| SdkService.FindAttribute | mcp_servers/app/services/sdk_service.py:51-59 | the attribute found has the name asked for; none is found only when no attribute has it |
| SdkService.CallMethod | mcp_servers/app/services/sdk_service.py:35-110 | success only for an existing callable method, decodable parameters and a call that returns, with the `{success, data, method_called, parameters_used}` dict; a missing method raises `SDKMethodNotFoundError` listing the available methods; undecodable `kwargs` raises `SDKParameterError` with the raw parameters; a `TypeError` from the call becomes `SDKParameterError` and any other error `SDKExecutionError`, both with the processed parameters |
| SdkService.RejectedBeforeCall | mcp_servers/app/services/sdk_service.py:51-70 | a missing, non-callable or undecodably parameterised method fails whatever the SDK would do: it is never called |
| SdkService.NotCallableError | mcp_servers/app/services/sdk_service.py:62-67 | a non-callable attribute raises `SDKMethodNotFoundError` whose context holds the method name alone |
| HealthMonitor.ServiceEntry | mcp_servers/app/health_monitor.py:66-68 | a check that returned a dict is reported as that dict; one that raised becomes `{healthy: False, error: str(exception)}` |
| HealthMonitor.Healthy | mcp_servers/app/health_monitor.py:72-75 | a check counts as healthy only when it returned a dict holding `healthy` |
| HealthMonitor.CountsPartition | mcp_servers/app/health_monitor.py:70-76 | every check is counted exactly once, as healthy or as unhealthy |
| HealthMonitor.AllHealthyCount | mcp_servers/app/health_monitor.py:56-73 | all checks are healthy iff the healthy count equals the number of checks |
| HealthMonitor.HealthStatus | mcp_servers/app/health_monitor.py:56-77 | the status has exactly the keys healthy, timestamp, services and summary; it is healthy iff all three checks are dicts with a truthy `healthy` |
| HealthMonitor.SummaryConsistent | mcp_servers/app/health_monitor.py:56-77 | healthy plus unhealthy services is 3, and the status is healthy iff all 3 are counted healthy |
| HealthMonitor.Monitor.constructor | mcp_servers/app/health_monitor.py:18-21 | a new monitor has no last check time and an empty cache |
| HealthMonitor.UseCache | mcp_servers/app/health_monitor.py:36-41 | a forced refresh, no previous check or an empty cache never uses the cache; using it means less than 30 seconds have passed |
| HealthMonitor.Monitor.CheckHealth | mcp_servers/app/health_monitor.py:23-91 | the cache is returned, and nothing changes, iff no refresh is forced, a check happened, the cache is non-empty and less than 30 s have passed; otherwise the fresh status is returned, replaces the cache and is stamped with this check's start time |
| HealthMonitor.FreshCheckIsCached | mcp_servers/app/health_monitor.py:21-41 | a fresh status is served from the cache for exactly the next 30 seconds, never when a refresh is forced |
| HealthMonitor.CheckSdkService | mcp_servers/app/health_monitor.py:93-127 | healthy iff the SDK lists at least one method, and then the count of methods is reported; errors are unhealthy |
| HealthMonitor.CheckDatabase | mcp_servers/app/health_monitor.py:129-166 | healthy iff the test query returns a value Python finds equal to 1; errors are unhealthy |
| HealthMonitor.CheckVectorServices | mcp_servers/app/health_monitor.py:168-211 | healthy iff the collection exists and the document processor is initialized; errors are unhealthy |
| HealthMonitor.OverallHealthy | mcp_servers/app/health_monitor.py:46-211 | the whole server is healthy iff the SDK lists methods, the database answers 1 and the vector store is ready |
| TextProcessor.ParameterTexts | mcp_servers/app/services/text_processor.py:43-52 | there are never more parameter texts than parameters |
| TextProcessor.ParameterTextsConcat | mcp_servers/app/services/text_processor.py:44-51 | the texts of two parameter lists in sequence are the texts of each, in order |
| TextProcessor.MalformedParameterSkipped | mcp_servers/app/services/text_processor.py:45-48 | a malformed parameter inserted anywhere leaves the parameter texts unchanged |
| TextProcessor.WellFormedParameterTexts | mcp_servers/app/services/text_processor.py:49-51 | when every parameter is a dict with name and description, there is one "{name} parameter {description}" per parameter, in order |
| TextProcessor.CollectParameterTexts | mcp_servers/app/services/text_processor.py:43-52 | the parameter loop yields exactly the specified parameter texts |
| TextProcessor.Characters | mcp_servers/app/services/text_processor.py:55-56 | extending the parts by a text adds its characters one by one |
| TextProcessor.StrItems | mcp_servers/app/services/text_processor.py:52 | the parameter texts are added as text parts one for one |
| TextProcessor.Texts | mcp_servers/app/services/text_processor.py:67 | the joined strings are exactly the text parts, in order |
| TextProcessor.UseCaseParts | mcp_servers/app/services/text_processor.py:55-56 | a list adds its items and a text its characters; any other value raises `TypeError` |
| TextProcessor.ReturnsPart | mcp_servers/app/services/text_processor.py:59-60 | a truthy `returns` that is not a dict raises; at most one part is added, a text starting with "returns ", and only for a dict with a truthy `type` |
| TextProcessor.CategoryPart | mcp_servers/app/services/text_processor.py:63-64 | exactly one part iff the category is truthy, and it ends with " functionality" |
| TextProcessor.SearchableParts | mcp_servers/app/services/text_processor.py:31-32 | a method without name or description raises `ValueError` |
| TextProcessor.SearchableText | mcp_servers/app/services/text_processor.py:20-70 | a method without name or description raises `ValueError`; the text is built iff the parts can be collected and all of them are texts |
| TextProcessor.CreateSearchableText | mcp_servers/app/services/text_processor.py:20-70 | `create_searchable_text`, with its parameter loop, gives exactly the specified text or exception |
| TextProcessor.NameAndDescriptionOnly | mcp_servers/app/services/text_processor.py:38-67 | a method with only a name and a description is described as "{name} {description}" |
| TextProcessor.NameAndDescriptionText | mcp_servers/app/services/text_processor.py:38-67 | whenever the optional parts contribute nothing, the text is the name and the description joined by a space |
| TextProcessor.SearchableTextOrder | mcp_servers/app/services/text_processor.py:36-67 | a fully documented method's text is name, description, parameter texts, use cases, "returns {type}" and "{category} functionality", space-joined in that order |
| TextProcessor.MalformedParameterIgnored | mcp_servers/app/services/text_processor.py:44-48 | inserting a malformed parameter into a method's list does not change its searchable text |
| TextProcessor.ParamNames | mcp_servers/app/services/text_processor.py:90 | the names of a parameter list are those of its elements |
| TextProcessor.ListNames | mcp_servers/app/services/text_processor.py:90 | the names are built iff every parameter is a dict with a name, and are then those names in order |
| TextProcessor.PrepareMetadata | mcp_servers/app/services/text_processor.py:72-98 | a missing name or description raises `ValueError`; metadata is built iff the parameter names can be read and `returns` is a dict (or absent); it then holds exactly the name, description, category (default "unknown"), parameter names in order, return type (default "unknown") and the method's JSON |
| TextProcessor.MethodDocument | mcp_servers/app/services/text_processor.py:113-125 | a method has a document iff both its text and its metadata can be built, and the document holds exactly those |
| TextProcessor.Contribution | mcp_servers/app/services/text_processor.py:112-129 | a method adds at most one document; an element that is not a dict ends the call with the error handler's own exception |
| TextProcessor.Documents | mcp_servers/app/services/text_processor.py:100-132 | never more documents than methods; the call raises iff some element is not a dict |
| TextProcessor.DocumentsConcat | mcp_servers/app/services/text_processor.py:112-125 | the documents of two method lists in sequence are the documents of each, in input order |
| TextProcessor.SingleDocument | mcp_servers/app/services/text_processor.py:112-129 | a single method yields its document, or none when it fails |
| TextProcessor.MalformedParameterSkipsDocument | mcp_servers/app/services/text_processor.py:44-129 | a method whose parameter list holds a text has a searchable text but its metadata raises, so it is skipped |
| TextProcessor.CreateDocument | mcp_servers/app/services/text_processor.py:113-125 | the loop body builds exactly the specified document of one method |
| TextProcessor.CreateDocuments | mcp_servers/app/services/text_processor.py:100-132 | the loop yields exactly the specified documents: one per method that processes, in input order, failures skipped |
| TextProcessor.DocumentsErrorPersists | mcp_servers/app/services/text_processor.py:127-129 | once a prefix of the methods raises, the whole call raises the same error |
| TextProcessor.LoadMethods | mcp_servers/app/services/text_processor.py:149-159 | the methods are returned iff the document is a dict whose `methods` (default: empty) is a list; a non-list raises `ValueError` |
| BigQuerySchema.FieldPath | mcp_servers/app/services/bigquery_schema_vector_store.py:78 | the path is the bare name at top level and "{parent}.{name}" under a parent |
| BigQuerySchema.FieldDescription | mcp_servers/app/services/bigquery_schema_vector_store.py:85 | an empty description becomes "Field {name} of type {type}"; a given one is kept |
| BigQuerySchema.FieldInfoOf | mcp_servers/app/services/bigquery_schema_vector_store.py:67-96 | name, type and mode are copied, the path and description follow their rules, and nested records exist exactly for a RECORD with sub-fields, one per sub-field |
| BigQuerySchema.FieldPathsConsistent | mcp_servers/app/services/bigquery_schema_vector_store.py:89-94 | at every depth a nested record's path is its parent's path extended by its own name |
| BigQuerySchema.TopLevelPaths | mcp_servers/app/services/bigquery_schema_vector_store.py:78-94 | a top-level record's path is its name and its children's paths are "{name}.{child}" |
| BigQuerySchema.ExtractFieldInfo | mcp_servers/app/services/bigquery_schema_vector_store.py:67-96 | the loop over the sub-fields builds exactly the specified field record |
| BigQuerySchema.TableSchema | mcp_servers/app/services/bigquery_schema_vector_store.py:98-138 | one record per top-level field in order; "{dataset}.{table}" as full id; the description defaults to "BigQuery table {id}"; partition information exists iff the table is partitioned, its field defaulting to "_PARTITIONTIME" |
| BigQuerySchema.ExtractTableSchema | mcp_servers/app/services/bigquery_schema_vector_store.py:98-138 | the loop over the top-level fields builds exactly the specified schema |
| BigQuerySchema.NestedLines | mcp_servers/app/services/bigquery_schema_vector_store.py:162-165 | one "Nested field …" line per direct child, in order |
| BigQuerySchema.FieldLinesCount | mcp_servers/app/services/bigquery_schema_vector_store.py:157-165 | the fields give one line each plus one per direct child; deeper descendants add none |
| BigQuerySchema.FieldLinesConcat | mcp_servers/app/services/bigquery_schema_vector_store.py:157-165 | the lines of two field lists in sequence are the lines of each, in order |
| BigQuerySchema.SchemaParts | mcp_servers/app/services/bigquery_schema_vector_store.py:150-169 | the text starts with "Table {id}" and the description, followed by exactly the field lines (and the partition part) |
| BigQuerySchema.SchemaPartsCount | mcp_servers/app/services/bigquery_schema_vector_store.py:150-169 | the text has two parts, one per field, one per direct child and one more when partitioned |
| BigQuerySchema.AppendNestedLines | mcp_servers/app/services/bigquery_schema_vector_store.py:162-165 | the inner loop appends exactly the child lines of one field |
| BigQuerySchema.CreateSchemaSearchableText | mcp_servers/app/services/bigquery_schema_vector_store.py:140-172 | the loops over fields and children build exactly the specified space-joined text |
| BigQuerySchema.SchemaMetadata | mcp_servers/app/services/bigquery_schema_vector_store.py:192-201 | the metadata records the ids, the number of top-level fields, whether the table is partitioned, the partition field or None, and the schema's JSON |
| BigQuerySchema.PartitionFieldIffPartitioned | mcp_servers/app/services/bigquery_schema_vector_store.py:118-198 | a partition field is recorded exactly when the table is partitioned, and the field count is the number of top-level fields |
| BigQuerySchema.SchemaDocuments | mcp_servers/app/services/bigquery_schema_vector_store.py:183-212 | never more documents than tables |
| BigQuerySchema.SchemaDocumentsCount | mcp_servers/app/services/bigquery_schema_vector_store.py:183-212 | exactly one document per table found: a failing table is skipped and no other |
| BigQuerySchema.SchemaDocumentsConcat | mcp_servers/app/services/bigquery_schema_vector_store.py:183-212 | the documents of two table lists in sequence are the documents of each, in order |
| BigQuerySchema.LoadSchemaDocuments | mcp_servers/app/services/bigquery_schema_vector_store.py:174-212 | the load loop builds exactly the specified documents, skipping failures |
| VectorStore.StrictParameterTexts | mcp_servers/app/services/vector_store_service.py:106-112 | the texts are built iff every parameter is a dict with name and description, and are then the same texts the text processor builds |
| VectorStore.SdkSearchableText | mcp_servers/app/services/vector_store_service.py:96-127 | a method without name or description raises `KeyError` |
| VectorStore.SdkTextMatchesProcessorText | mcp_servers/app/services/vector_store_service.py:96-127 | with well-formed parameters the SDK text equals the text processor's searchable text |
| VectorStore.SdkTextRejectsMalformed | mcp_servers/app/services/vector_store_service.py:106-112 | a malformed parameter, which the text processor would skip, makes the SDK text raise |
| VectorStore.SdkDocument | mcp_servers/app/services/vector_store_service.py:61-82 | a method has a document iff it is a dict whose text and metadata can both be built, and the document holds exactly those |
| VectorStore.SdkDocuments | mcp_servers/app/services/vector_store_service.py:59-82 | the documents are built iff every method builds, one per method in order |
| VectorStore.SdkDocumentsAllOrNothing | mcp_servers/app/services/vector_store_service.py:61-94 | one method that cannot be a document fails the whole load |
| VectorStore.LoadSdkDocuments | mcp_servers/app/services/vector_store_service.py:50-82 | the load loop builds exactly the specified documents or the first error |
| VectorStore.CreateSdkDocument | mcp_servers/app/services/vector_store_service.py:61-82 | the loop body builds exactly the specified document of one method, or its error |
| VectorStore.SdkErrorPersists | mcp_servers/app/services/vector_store_service.py:92-94 | once a prefix of the methods fails, the whole load fails with the same error |
| BigQueryService.DescLine | mcp_servers/app/services/bigquery_service.py:53 | every field line starts with the current indentation prefix |
| BigQueryService.SchemaDesc | mcp_servers/app/services/bigquery_service.py:49-58 | there is at least one line per field |
| BigQueryService.SchemaDescCount | mcp_servers/app/services/bigquery_service.py:52-57 | there is exactly one line per field, counting the fields below a RECORD at any depth |
| BigQueryService.SchemaDescIndented | mcp_servers/app/services/bigquery_service.py:53-56 | every line carries the caller's prefix, and nested lines carry it followed by at least one tab |
| BigQueryService.FlatSchemaDesc | mcp_servers/app/services/bigquery_service.py:52-54 | without RECORD fields the description is exactly one line per field, in order |
| BigQueryService.BuildSchemaDesc | mcp_servers/app/services/bigquery_service.py:49-58 | the loop with its recursive call for a RECORD builds exactly the specified lines |
| BigQueryService.TableLines | mcp_servers/app/services/bigquery_service.py:71-73 | a table's lines begin with "Schema for table {id}:" and end with a blank line |
| BigQueryService.SchemaLines | mcp_servers/app/services/bigquery_service.py:69-74 | every table contributes at least two lines |
| BigQueryService.SchemaTextNonEmpty | mcp_servers/app/services/bigquery_service.py:62-76 | a dataset with at least one table has a non-empty schema text, so the cache is reused once filled |
| BigQueryService.CollectSchemaLines | mcp_servers/app/services/bigquery_service.py:66-74 | the loop over the tables builds exactly the specified lines, in listing order |
| BigQueryService.EntryOf | mcp_servers/app/services/bigquery_service.py:95-105 | a table's entry has a (truthy) partition field iff the table is time-partitioned |
| BigQueryService.Lookup | mcp_servers/app/services/bigquery_service.py:102 | a key found maps to a value stored under it; nothing is found only when no entry has the key |
| BigQueryService.Put | mcp_servers/app/services/bigquery_service.py:102 | assigning an existing key keeps the dict's size; a new key is appended last |
| BigQueryService.PutLookup | mcp_servers/app/services/bigquery_service.py:102 | after the assignment the key maps to the new value and every other key to its previous value |
| BigQueryService.PartitionInfo | mcp_servers/app/services/bigquery_service.py:90-105 | never more entries than tables |
| BigQueryService.PartitionInfoKeys | mcp_servers/app/services/bigquery_service.py:93-105 | the dict has an entry for exactly the listed table ids |
| BigQueryService.PartitionInfoLookup | mcp_servers/app/services/bigquery_service.py:93-105 | a table id's entry is that of the last table listed under it |
| BigQueryService.PartitionInfoNonEmpty | mcp_servers/app/services/bigquery_service.py:86-107 | a non-empty listing fills the dict, so the cache is reused once filled |
| BigQueryService.CollectPartitionInfo | mcp_servers/app/services/bigquery_service.py:90-105 | the loop over the tables builds exactly the specified dict |
| BigQueryService.TableEntry | mcp_servers/app/services/bigquery_service.py:95-100 | the loop body's entry for a table is the specified entry: None and False unless the table is time-partitioned |
| BigQueryService.Partitioned | mcp_servers/app/services/bigquery_service.py:183 | never more entries than given; an entry is summarised iff it is one of the given entries with a truthy partition field |
| BigQueryService.PartitionedCounts | mcp_servers/app/services/bigquery_service.py:183 | each entry is kept as many times as it occurs when its partition field is truthy, and never otherwise |
| BigQueryService.PartitionedConcat | mcp_servers/app/services/bigquery_service.py:183 | filtering two dicts in sequence filters each, in order |
| BigQueryService.PartitionSummary | mcp_servers/app/services/bigquery_service.py:180-184 | no partitioned table gives the empty text; otherwise the text splits at newlines back into exactly the summary lines |
| BigQueryService.SummaryListsPartitionedTables | mcp_servers/app/services/bigquery_service.py:93-184 | a listed table reaches the partition summary iff it is time-partitioned |
| BigQueryService.ContainsPrepend | mcp_servers/app/services/bigquery_service.py:134 | a substring occurrence survives text added in front |
| BigQueryService.AnyKeyword | mcp_servers/app/services/bigquery_service.py:134 | true iff some keyword occurs in the text |
| BigQueryService.IsHistoricalQuery | mcp_servers/app/services/bigquery_service.py:115-134 | historical iff the lower-cased question contains one of the listed keywords |
| BigQueryService.HistoricalMonotone | mcp_servers/app/services/bigquery_service.py:115-134 | adding text before or after a historical question keeps it historical |
| BigQueryService.KeywordInsideWord | mcp_servers/app/services/bigquery_service.py:128-134 | keywords match inside words: any question containing "to" (as in "total") counts as historical |
| BigQueryService.DropSqlFence | mcp_servers/app/services/bigquery_service.py:206-207 | a leading "```sql" is dropped, anything else is left alone |
| BigQueryService.DropClosingFence | mcp_servers/app/services/bigquery_service.py:208-209 | a trailing "```" is dropped, anything else is left alone |
| BigQueryService.CleanSql | mcp_servers/app/services/bigquery_service.py:205-210 | the cleaned query has no surrounding whitespace and is never longer than the model's answer |
| BigQueryService.FencesDropped | mcp_servers/app/services/bigquery_service.py:206-209 | both fences of a fenced query come off |
| BigQueryService.CleanFencedSql | mcp_servers/app/services/bigquery_service.py:205-210 | a stripped query wrapped in a "```sql" fence on lines of its own comes out exactly unwrapped |
| BigQueryService.CleanPlainSql | mcp_servers/app/services/bigquery_service.py:205-210 | a stripped query without fences is left exactly as it is |
| BigQueryService.PromptVariables | mcp_servers/app/services/bigquery_service.py:197-202 | the prompt receives exactly the question, the schema, the partition summary and the dataset id, each under its own key |
| BigQueryService.GenerateSqlResult | mcp_servers/app/services/bigquery_service.py:157-229 | a successful answer always carries a `sql_query` text |
| BigQueryService.GenerateSqlAnswer | mcp_servers/app/services/bigquery_service.py:157-229 | `is_historical` is true iff the question is historical, and a question that is not gets the fixed refusal; success iff the schema, the partition dict and the model call all succeed; otherwise an error and no query |
| BigQueryService.GeneratedSqlIsClean | mcp_servers/app/services/bigquery_service.py:204-221 | a generated query has been through the cleanup, so it never starts or ends with whitespace |
| BigQueryService.QueryResult | mcp_servers/app/services/bigquery_service.py:241-269 | the query is echoed; success iff the job ran, and then the data holds every row as a dict, in order, with their count; otherwise an error and no data |
| BigQueryService.ExecuteQuery | mcp_servers/app/services/bigquery_service.py:231-269 | the row loop builds exactly the specified result |
| BigQueryService.TextToSqlResult | mcp_servers/app/services/bigquery_service.py:271-302 | a generation without success is returned unchanged; otherwise the answer has exactly the seven keys, success iff the query ran, the row count (0 on failure) and an error exactly when it failed |
| BigQueryService.Service.constructor | mcp_servers/app/services/bigquery_service.py:34-41 | a new service has both caches empty |
| BigQueryService.Service.FetchSchema | mcp_servers/app/services/bigquery_service.py:60-82 | the cached text while it is non-empty; otherwise the listing's text, which fills the cache; a failure leaves it as it was; the partition cache is untouched |
| BigQueryService.SchemaFetchAsWritten | mcp_servers/app/services/bigquery_service.py:60-82 | as written, a cache hit or a failing listing behaves as intended; an uncached successful listing raises on its second iteration, after the cache was filled |
| BigQueryService.AsWrittenSchemaFetchFailsFirst | mcp_servers/app/services/bigquery_service.py:66-77 | as written the first uncached fetch fails though the intended one succeeds with the text now cached, and the next call returns that cache |
| BigQueryService.Service.GetPartitionedFields | mcp_servers/app/services/bigquery_service.py:84-113 | the cached dict while it is non-empty; otherwise the listing's dict, which fills the cache; a failure leaves it as it was; the schema cache is untouched |
| BigQueryService.Service.GenerateSql | mcp_servers/app/services/bigquery_service.py:157-229 | the result is the specified generation; a non-historical question touches neither cache; otherwise each cache is filled by its own successful fetch, the partitions only after the schema succeeded |
| BigQueryService.Service.TextToSqlQuery | mcp_servers/app/services/bigquery_service.py:271-302 | the pipeline's answer is the specified combination of generation and execution; a non-historical question touches neither cache; otherwise each cache is filled by its own successful fetch |
| BigQueryService.NotHistoricalShortCircuits | mcp_servers/app/services/bigquery_service.py:169-286 | a non-historical question gets the refusal whatever the schema, the model and the database would do |
| GraphQLService.FormatType | mcp_servers/app/services/graphql_service.py:152-161 | rendering succeeds iff every NON_NULL and LIST wrapper wraps a type; NON_NULL renders its inner type followed by `!`, LIST its inner type in brackets |
| GraphQLService.FormatTypeRoundTrip | mcp_servers/app/services/graphql_service.py:152-161 | the rendered type can be read back to the exact wrapper structure and name: rendering loses only the kinds of named types |
| GraphQLService.FieldLine | mcp_servers/app/services/graphql_service.py:115-118 | a field line exists iff its type renders, and starts with "  {name}: {type}" |
| GraphQLService.FieldLines | mcp_servers/app/services/graphql_service.py:114-118 | the lines exist iff every field's type renders, and are one per field, in order |
| GraphQLService.SectionLines | mcp_servers/app/services/graphql_service.py:111-136 | an OBJECT with fields gets "Fields:" and one line per field, an INPUT_OBJECT with input fields "Input Fields:" and one per input field, an ENUM with values "Values:" and one per value; other kinds get no section |
| GraphQLService.DescriptionLines | mcp_servers/app/services/graphql_service.py:107-109 | a description line is written exactly when the description is non-empty |
| GraphQLService.TypeLines | mcp_servers/app/services/graphql_service.py:102-138 | a type's lines are its heading, its description line, its section and a blank line, and exist iff the section can be rendered |
| GraphQLService.SchemaLines | mcp_servers/app/services/graphql_service.py:102-138 | the lines exist iff every type's section renders, with at least two lines per type |
| GraphQLService.RelevantSchemas | mcp_servers/app/services/graphql_service.py:68-150 | no types raises "No relevant schemas found"; otherwise the text exists iff every type's section renders |
| GraphQLService.RelevantSchemasAsWritten | mcp_servers/app/services/graphql_service.py:93-97 | any type with a null description makes the search raise `TypeError` in its logging loop; with all descriptions present it equals the corrected search |
| GraphQLService.NullDescriptionFailsSearch | mcp_servers/app/services/graphql_service.py:93-109 | a type with a null description fails the search as written, though the formatting would render it as its heading alone |
| GraphQLService.SchemaLinesPrefix | mcp_servers/app/services/graphql_service.py:102-138 | the lines of the types begin with the lines of the first type |
| GraphQLService.SchemaTextStartsWithFirstType | mcp_servers/app/services/graphql_service.py:102-146 | the schema text opens with the heading of the best-ranked type |
| GraphQLService.JoinStartsWithFirst | mcp_servers/app/services/graphql_service.py:141 | a newline-joined text starts with its first line |
| GraphQLService.AppendFieldLines | mcp_servers/app/services/graphql_service.py:114-118 | the field loop appends exactly the field lines, or fails when one type cannot be rendered |
| GraphQLService.AppendValueLines | mcp_servers/app/services/graphql_service.py:132-136 | the value loop appends exactly one line per enum value |
| GraphQLService.FormatSchemaType | mcp_servers/app/services/graphql_service.py:102-138 | formatting one type yields exactly its specified lines |
| GraphQLService.FormatRelevantSchemas | mcp_servers/app/services/graphql_service.py:88-146 | the formatting loop yields exactly the specified schema text or failure |
| GraphQLService.SchemaLinesErrorPersists | mcp_servers/app/services/graphql_service.py:102-150 | once a prefix of the types fails, the whole formatting fails with the same error |
| GraphQLService.DropOpeningFence | mcp_servers/app/services/graphql_service.py:285-288 | a leading "```graphql" is dropped, else a leading "```", else nothing |
| GraphQLService.CutAtMarker | mcp_servers/app/services/graphql_service.py:291-308 | the result is a prefix of the text; it ends before the first occurrence of the first end marker (in list order) that occurs, and the text is kept whole when none occurs |
| GraphQLService.CleanGraphQL | mcp_servers/app/services/graphql_service.py:282-310 | the cleaned query has no surrounding whitespace |
| GraphQLService.BeforeFirstOccurrence | mcp_servers/app/services/graphql_service.py:305-307 | the text before the first occurrence of a pattern does not contain it |
| GraphQLService.CutRemovesFence | mcp_servers/app/services/graphql_service.py:291-308 | cutting at the end markers leaves no code fence |
| GraphQLService.CleanGraphQLHasNoFence | mcp_servers/app/services/graphql_service.py:282-310 | no code fence ever survives the cleanup |
| GraphQLService.ClosingFenceFirst | mcp_servers/app/services/graphql_service.py:291-308 | in a fenced query without inner fences, the first fence found is the closing one |
| GraphQLService.CleanFencedGraphQL | mcp_servers/app/services/graphql_service.py:282-310 | a stripped query fenced as "```graphql" on lines of its own comes out exactly bare |
| GraphQLService.CutWithoutMarkers | mcp_servers/app/services/graphql_service.py:305-308 | cutting at markers none of which occurs keeps the text whole |
| GraphQLService.CleanPlainGraphQL | mcp_servers/app/services/graphql_service.py:282-310 | a stripped query with no fence and no end marker is left exactly as it is |
| GraphQLService.NoFenceKept | mcp_servers/app/services/graphql_service.py:285-288 | a text without a fence keeps its start |
| GraphQLService.CleanGraphQLQuery | mcp_servers/app/services/graphql_service.py:282-310 | the cleanup with its loop over the markers yields exactly the specified query |
| GraphQLService.PromptFor | mcp_servers/app/services/graphql_service.py:253-275 | the prompt always carries the question and schema, and the retry context (previous query, error, attempt) exactly when both a previous query and an error are given |
| GraphQLService.Generate | mcp_servers/app/services/graphql_service.py:231-330 | generation succeeds iff the search, the corrected schema formatting (GraphQLService.RelevantSchemas, the corrected half of its Findings row) and the model call succeed, and the query is then the model's answer after cleanup, stripped and fence-free; a failure's error starts with "Failed to generate GraphQL query: " |
| GraphQLService.GenerationDict | mcp_servers/app/services/graphql_service.py:316-330 | the dict has success, question and attempt number, plus exactly the query on success or exactly the error on failure |
| GraphQLService.ItemMessages | mcp_servers/app/services/graphql_service.py:375 | the messages exist iff every error is a dict, one message per error |
| GraphQLService.ErrorMessages | mcp_servers/app/services/graphql_service.py:374-375 | a list's messages are its items' messages; any other value that does not raise gives none |
| GraphQLService.MessageTexts | mcp_servers/app/services/graphql_service.py:386 | the joined texts are exactly the messages, in order |
| GraphQLService.Execute | mcp_servers/app/services/graphql_service.py:332-436 | success iff the response is a dict without `errors`, with its `data` (default empty) and the length of its text; a failure with GraphQL errors keeps them and its error starts with "GraphQL errors: "; a timeout gives its fixed error |
| GraphQLService.GraphQLErrorsJoined | mcp_servers/app/services/graphql_service.py:373-390 | GraphQL errors with text messages fail with all messages joined by "; " in order, and the error list is kept |
| GraphQLService.ExecutionDict | mcp_servers/app/services/graphql_service.py:384-436 | the dict always echoes the query; success gives exactly data, query and response size; failure gives the error, no data, and the GraphQL errors exactly when there are some |
| GraphQLService.AnswerDict | mcp_servers/app/services/graphql_service.py:480-568 | the dict reports success iff answered, the question and the attempts made; an answer carries its query and data, a give-up its error naming `max_retries` |
| GraphQLService.Attempts | mcp_servers/app/services/graphql_service.py:452-569 | past `max_retries` no attempt is made and the failure reports `max_retries`; a failure after an attempt gives its own reason |
| GraphQLService.UnboundSearchGivesUp | mcp_servers/app/services/graphql_service.py:231-250 | when every schema search fails with `AttributeError`, the attempts from any start up to `max_retries` end unanswered with that generation failure, reporting `max_retries` attempts |
| GraphQLService.AttemptsAsWritten | mcp_servers/app/services/graphql_service.py:438-569 | as written, with the `VectorStoreService` store: never answers; with at least one retry allowed it gives up with the `AttributeError` generation failure after `max_retries` attempts |
| GraphQLService.FailureUsesAllAttempts | mcp_servers/app/services/graphql_service.py:476-569 | when the pipeline gives up it reports `max_retries` attempts |
| GraphQLService.AnswerWithinBudget | mcp_servers/app/services/graphql_service.py:452-544 | an answer comes at an attempt between the current one and `max_retries` |
| GraphQLService.AnsweredQueryIsClean | mcp_servers/app/services/graphql_service.py:282-544 | an answered query is stripped and has no code fence |
| GraphQLService.NoAttemptAllowed | mcp_servers/app/services/graphql_service.py:452-569 | with `max_retries` below 1 no attempt is made and the failure reports `max_retries` attempts |
| GraphQLService.AttemptSucceeds | mcp_servers/app/services/graphql_service.py:464-544 | an attempt whose generation and execution succeed ends the pipeline with that attempt's query and data |
| GraphQLService.GenerationFailureRetries | mcp_servers/app/services/graphql_service.py:471-478 | a generation failure before the last attempt keeps the previous query and passes its error to the next attempt |
| GraphQLService.ExecutionFailureRetries | mcp_servers/app/services/graphql_service.py:253-513 | an execution failure before the last attempt gives the next attempt the retry prompt with the query just generated and "Query execution failed: {error}" |
| GraphQLService.TextToGraphQLQuery | mcp_servers/app/services/graphql_service.py:438-569 | the retry loop's answer is exactly the specified attempts from attempt 1 with no previous query or error, each attempt generating with the corrected schema search |
| DocumentProcessor.Increment | mcp_servers/app/services/document_processor.py:84 | a category already counted keeps the table's length; a new one is appended with count 1 |
| DocumentProcessor.IncrementCounts | mcp_servers/app/services/document_processor.py:84 | counting a category adds one to its count and to no other, and one to the total |
| DocumentProcessor.IncrementKeys | mcp_servers/app/services/document_processor.py:84 | counting lists no category but those already listed and the one counted |
| DocumentProcessor.IncrementDistinct | mcp_servers/app/services/document_processor.py:84 | counting keeps every category listed once |
| DocumentProcessor.CategoryOf | mcp_servers/app/services/document_processor.py:83 | a method's category is its `category` entry or "unknown"; it fails iff the method is not a dict or the category is a list (unhashable) |
| DocumentProcessor.CategoryCounts | mcp_servers/app/services/document_processor.py:82-84 | the counts exist iff every method has a usable category |
| DocumentProcessor.CategoryCountsSum | mcp_servers/app/services/document_processor.py:76-84 | the counts sum to the number of methods, each category's count is the number of its methods, and no category is listed twice |
| DocumentProcessor.MethodsOf | mcp_servers/app/services/document_processor.py:81 | a document without `methods` has none, one with a list has its items; a non-dict document fails |
| DocumentProcessor.CountCategories | mcp_servers/app/services/document_processor.py:76-84 | the counting loop yields exactly the specified counts or the first failure |
| DocumentProcessor.CountErrorPersists | mcp_servers/app/services/document_processor.py:82-96 | once a prefix of the methods fails, the whole count fails with the same error |
| DocumentProcessor.Keep | mcp_servers/app/services/document_processor.py:114-115 | the filter never keeps more results than it is given |
| DocumentProcessor.KeepMembers | mcp_servers/app/services/document_processor.py:114-115 | a result is kept iff it is one of the results, a dict, and its category equals the asked one, ignoring case |
| DocumentProcessor.KeepCounts | mcp_servers/app/services/document_processor.py:114-115 | each result is kept as many times as it occurs when in the category, never otherwise |
| DocumentProcessor.KeepConcat | mcp_servers/app/services/document_processor.py:114-115 | filtering two lists in sequence filters each, in order |
| DocumentProcessor.FilterByCategory | mcp_servers/app/services/document_processor.py:114-115 | the filter succeeds iff every result is a dict whose category is text, and then keeps exactly the results in the category |
| DocumentProcessor.EnhancedQuery | mcp_servers/app/services/document_processor.py:105-107 | the query is extended by " category:{c}" exactly when a non-empty category is given |
| DocumentProcessor.SearchFailure | mcp_servers/app/services/document_processor.py:124-131 | a failed search reports the error, no methods and a count of 0 |
| DocumentProcessor.SearchSuccess | mcp_servers/app/services/document_processor.py:117-122 | a successful search reports the methods and their count, and no error |
| DocumentProcessor.FirstByName | mcp_servers/app/services/document_processor.py:143-147 | a result found is one of the results and is named exactly as asked |
| DocumentProcessor.FirstByNameFinds | mcp_servers/app/services/document_processor.py:143-145 | a named result preceded only by comparable results of other names is the one returned |
| DocumentProcessor.PlannedBuild | mcp_servers/app/services/document_processor.py:33-41 | a forced rebuild rebuilds; otherwise a missing index is built from the file and an existing one is kept |
| DocumentProcessor.VerifyIndex | mcp_servers/app/services/document_processor.py:52-64 | the index is verified iff the probe query returns results; no results raises the verification error |
| DocumentProcessor.InitOutcome | mcp_servers/app/services/document_processor.py:22-50 | a missing file raises "Documentation file not found: {path}"; initialisation succeeds iff the file exists, the index check works, the planned build (if any) succeeds and the probe finds results; it then reports the planned build |
| DocumentProcessor.Processor.constructor | mcp_servers/app/services/document_processor.py:17-20 | a new processor has no documentation path and is not initialised |
| DocumentProcessor.Processor.InitializeFromFile | mcp_servers/app/services/document_processor.py:22-50 | the outcome is the specified one; an existing file becomes the documentation path; the processor becomes ready exactly when initialisation succeeds, and a failure leaves its readiness as it was |
| DocumentProcessor.Processor.GetMethodStats | mcp_servers/app/services/document_processor.py:66-96 | refused before initialisation; a failing store check gives its error; statistics report the store's `document_count` (default 0), index name and status and the documentation path; categories are counted, exactly, only when the documentation file exists; an initialised processor with a healthy store whose file (if any) reads and counts always gets statistics |
| DocumentProcessor.Processor.SearchMethods | mcp_servers/app/services/document_processor.py:98-131 | refused before initialisation; the count is always the number of methods returned; without a category the store's results are returned as they are, with one the query names it and exactly the results in that category are kept |
| DocumentProcessor.Processor.GetMethodByName | mcp_servers/app/services/document_processor.py:133-151 | `None` before initialisation or when the search fails; otherwise the first result named exactly as asked |
| DocumentProcessor.Processor.RefreshIndex | mcp_servers/app/services/document_processor.py:153-173 | without a documentation path it fails with "No documentation path set" and changes nothing; otherwise it re-initialises with a forced rebuild, keeps the path, becomes ready if the rebuild succeeds (a failure leaves readiness as it was) and reports the new statistics, or the error |
| DocumentProcessor.Processor.GetStatus | mcp_servers/app/services/document_processor.py:175-181 | the status reports readiness and the path as they are, and a documentation file iff a path is set and the file exists |
| DocumentProcessor.FreshProcessorRefusesSearch | mcp_servers/app/services/document_processor.py:101-131 | a processor that is not initialised answers every search with the refusal, no methods and a count of 0 |
| ExplorerMain.AccountIdOfIntegers | mcp_external/app/main.py:25-46 | every `shard.realm.num` written from three integers is accepted |
| ExplorerMain.AccountIdRejectsNonInteger | mcp_external/app/main.py:41-46 | a part that `int()` rejects makes the id invalid |
| ExplorerMain.IsValidAccountId | mcp_external/app/main.py:25-46 | a valid id contains a dot, and each of its `.`-separated parts is read by `int()` |
| ExplorerMain.Rejection | mcp_external/app/main.py:78-91 | a request is rejected iff its network is not mainnet or testnet, or it has a non-empty account id that is invalid; an unknown network is rejected first, with the list of valid networks |
| ExplorerMain.AskExplorer | mcp_external/app/main.py:50-123 | success iff the guards pass and the API returns a non-empty answer; success carries exactly the answer, the network and the account id; any failure carries exactly `success` and an error text |
| ExplorerMain.RejectedBeforeConnecting | mcp_external/app/main.py:78-91 | a rejected request gets the rejection as its error whatever the API would do: the API is never called |
| ExplorerMain.EmptyAccountIdUnchecked | mcp_external/app/main.py:86-87 | an empty account id is treated as no account id by the guards |
| ExplorerMain.ExceptionIsFailure | mcp_external/app/main.py:116-123 | an exception from the API becomes a failure "Error querying Hedera blockchain: {error}" |

## Left out

- Some runtime behaviour is outside the model: I/O, logging, `asyncio` scheduling, concurrency between requests and process start-up. Settings are loaded from the environment and become parameters.
- Some external services are parameters: the language model, the embeddings, the vector database, BigQuery, the GraphQL endpoint, the Mirror node, the MCP client connection and the Hedera SDK client. A call to one of them is a function parameter that returns its answer or the exception it raised.
- Floating-point money is modelled with mathematical reals, and `Decimal` rounding contexts are not modelled. Time is an integer instant, not a float of seconds.
- String case-folding (`lower`) covers the ASCII letters only. `strip` removes the characters Python's `str.strip()` treats as whitespace.
- `str.isdigit` (MirrorModels.ValidateNonNegative) is modelled as accepting the ASCII digits only. Python also accepts other Unicode digits there.
- MirrorUtils.PartValue reads what Python's `int()` reads from ASCII text: surrounding whitespace, one optional sign, and digits with single `_` separators. Python's `int()` also reads other Unicode decimal digits, and the model rejects those.
- ExplorerMain.IsValidAccountId inherits the same restriction: an id part written with non-ASCII decimal digits is rejected by the model and accepted by Python.
- Hashing (`hashlib.sha256`), `json.dumps` and `str()` of arbitrary values are function parameters. The model proves nothing about their output beyond what the callers rely on.
- `IPRateLimiter` does not appear in the source this model covers. In the chat endpoint the rate-limit verdict is therefore an input.
- The expiry that the rate limiter sets on its sorted sets (`expire`) is not modelled. Pruning by score already removes every entry that expiry could remove before the next read.
- `MAX_SUGGESTION_LIMIT` is a parameter of the suggestion validators, not a constant.
- The order of keys in the Mirror query-parameter dictionary is not modelled. Parameters are a map.
- `get_network_urls` in the Mirror utilities is not part of this model. It is a constant lookup table.
- McpExceptions.HandleException returns the merged dictionary as a value. In the source, `to_dict` shares the exception's own `context` dict, so the `update` also changes the exception. That aliasing is not captured.
- `HederaSDKService.__init__` and `get_method_signature` are not part of this model. They inspect the SDK client by reflection, and the model gives the method table as an input.
- TextProcessor.UseCaseParts treats a dict value of `use_cases` as not iterable (`TypeError`). Python would add the dict's keys in insertion order, which the model's maps do not carry.
- Several vector store operations are not part of this model: `add_documents`, `initialize_vector_store`, `retrieve_methods`, `check_index_exists` and `check_collection_exists`. They are calls into the vector database. The BigQuery functions of mcp_servers/app/services/vector_store_service.py (lines 199-369) are modelled once, as `BigQuerySchema`.
- The health probes of the health monitor (database, vector store, LLM) are inputs.
- `BigQueryService` leaves several things out:
  - the `RuntimeError` of a missing client;
  - the page iterator of the table listing itself: its second iteration, `len(list(tables))` on the logging line, is modelled only by the error it raises (see Findings);
  - the wording of the prompt template;
  - the outer `except`, which no reachable path raises into.
  - A `None` column description is rendered as the empty text.
- `GraphQLService` leaves several things out:
  - the pipeline's final `except` (mcp_servers/app/services/graphql_service.py:546-561), which is unreachable because every step returns its own error;
  - the text of exception messages, which are reduced to the exception class name;
  - `initialize_schema_vector_store` and `check_collection_exists`;
  - the prompt wording (lines 177-229) and the stop sequences.
- `DocumentProcessor` does not merge keys that are equal to Python but distinct as values (`1`, `1.0`, `True`). Its final printing of the results is not modelled.
- `ExplorerMain.AskExplorer`: the MCP connection and the streaming of the answer are the `fetch` parameter. The model therefore covers what the tool does with the answer, not how it is collected.
- ChatEndpoint.StartedFlowsAreWellFormed is proved of the corrected dispatch. As written no flow ever starts (ChatEndpoint.AsWrittenStartsNothing); see Findings.
- ChatEndpoint.QueryStartsFlow is proved of the corrected dispatch. As written a query is answered "Internal server error" and starts nothing; see Findings.
- ChatEndpoint.Session.HandleMessage takes its new state from the corrected dispatch. As written every query with content and every continuation with an id is answered "Internal server error" and starts no flow (ChatEndpoint.AsWrittenStartsNothing); see Findings.
- MirrorUtils.ParseTransactionId matches `\d` against the ASCII digits only. Python's `re` matches every Unicode decimal digit for `\d` in a `str` pattern and `int()` reads them, so an id such as `١.٢.٣-4-5` parses in Python and is rejected by the model.
- WorkflowBuilder.Prompt builds the tool context with the corrected WorkflowBuilder.BuildToolContext. As written, `max_tool_context_items` 0 sends every tool record and a negative value drops the oldest ones; the two agree for every positive value (WorkflowBuilder.ToolContextLines); see Findings.
- WorkflowBuilder.GraphState.CallModelNode sends the corrected WorkflowBuilder.Prompt, so it inherits the same difference for `max_tool_context_items` at most 0.
- GraphQLService.Generate formats the search results with the corrected GraphQLService.RelevantSchemas. As written, a retrieved type whose `description` is `null` makes generation fail with `TypeError`; the two agree whenever every description is present (the ensures of GraphQLService.RelevantSchemasAsWritten); see Findings.
- GraphQLService.Attempts generates each attempt with GraphQLService.Generate. As written, a search result with a `null` description fails every attempt, so the pipeline retries up to `max_retries` and then reports failure.
- GraphQLService.TextToGraphQLQuery runs GraphQLService.Attempts and inherits the same difference.
- GraphQLService.AttemptSucceeds, GraphQLService.TextToGraphQLQuery and the other pipeline members take the schema search as a parameter that can succeed. As written the service binds a `VectorStoreService` (mcp_servers/app/services/vector_store_service.py:17-31), which has neither `vector_search_service` nor `retrieve_graphql_schemas`, so no attempt succeeds (see Findings and GraphQLService.AttemptsAsWritten).
- DocumentProcessor.Processor and its methods take the document store as parameters with an awaitable `check_index_exists`, `rebuild_index`, `load_methods_from_documentation`, `retrieve_methods` and `health_check` (mcp_servers/app/services/document_processor.py:31, 37, 73 and onwards). The store is annotated as `VectorStoreService` (mcp_servers/app/services/document_processor.py:9, 17), whose `check_index_exists` is synchronous and which has no `rebuild_index` or `health_check`; the model assumes a store that offers the interface the processor calls.
- MirrorUtils.FormatBalanceOf follows the code as written; its rendering and denotation are stated only for one or more decimals, and with no decimals it keeps the stripping of the integer's own zeros (see Findings).
- GraphQLService.SchemaType holds a retrieved schema with its `name` and `kind` already present. A retrieved schema without `name`, `kind` or `description` makes `schema_data[...]` raise `KeyError` (mcp_servers/app/services/graphql_service.py:103-105), and that failure is not modelled.
- The chat endpoint's generic "Service error" handlers for exceptions raised by the agent are reduced to one error outcome.
- Every oracle parameter (LLM, store, HTTP) is a total function. Timeouts are modelled as the errors they raise.

## Findings

Each row has two halves in the model:

- The as-written member models the code as it stands. These lemmas exhibit the discrepancies:
  - `MirrorUtils.FormatBalanceNoDecimals` and `MirrorUtils.FormatZeroNoDecimals`;
  - `WorkflowBuilder.ZeroItemsKeepsAll`;
  - `GraphQLService.NullDescriptionFailsSearch`;
  - `ChatEndpoint.AsWrittenStartsNothing` and `ChatEndpoint.AsWrittenDiffersOnlyOnRequests`;
  - `BigQueryService.AsWrittenSchemaFetchFailsFirst`;
  - `GraphQLService.UnboundSearchGivesUp` and the contract of `GraphQLService.AttemptsAsWritten`.
- The corrected member is what the rest of the model uses, except `MirrorUtils.FormatBalanceOf`, which formats as written. Its intended property is proved by:
  - `MirrorUtils.FormatBalanceDenotes`;
  - `WorkflowBuilder.RecentRecords` and `WorkflowBuilder.ToolContextLines`;
  - the contract of `GraphQLService.RelevantSchemas`;
  - `ChatEndpoint.QueryStartsFlow` and `ChatEndpoint.StartedFlowsAreWellFormed`;
  - the contract of `BigQueryService.Service.FetchSchema` and `BigQueryService.SchemaTextNonEmpty`;
  - `GraphQLService.AttemptSucceeds` and the contract of `GraphQLService.Attempts`.

| source | as written | input that shows it | evidently intended | confidence | as-written member | corrected member |
|---|---|---|---|---|---|---|
| sdk/hiero_mirror/utils.py:164-173 | with `decimals == 0`, `rstrip("0")` strips the integer's own zeros, so 50 renders as `5.0` and 0 as the empty text | `format_balance(50, 0)` | 50 renders as `50.0`, and 0 as `0` | high, not executed | MirrorUtils.FormatBalanceAsWritten | MirrorUtils.FormatBalance |
| app/services/helpers/workflow_builder.py:153 | `tool_calls_made[-max_items:]` with `max_items == 0` is the whole list | `_build_tool_context(calls, 0)` with non-empty `calls` | no previous results when no items are wanted | medium, not executed | WorkflowBuilder.BuildToolContextAsWritten | WorkflowBuilder.BuildToolContext |
| mcp_servers/app/services/graphql_service.py:93-97 | a schema whose `description` is present but `null` makes `[:50]` raise `TypeError`, and the search fails | a retrieved type `{"name": "Account", "description": null}` | a null description is logged as "No description" | medium, not executed | GraphQLService.RelevantSchemasAsWritten | GraphQLService.RelevantSchemas |
| app/api/endpoints/chat.py:182-215 | `ChatRequest` (app/schemas/chat.py:7-14) declares only `query` with `min_length=1`, so `chat_request.account_id` raises `AttributeError` and `ChatRequest(query="")` raises a validation error; the generic handler answers "Internal server error" | `{"type": "query", "content": "hi", "network": "mainnet"}` | a query with content and a network starts a flow; a continuation with a valid id starts one too | high, not executed | ChatEndpoint.DispatchAsWritten | ChatEndpoint.Dispatch |
| mcp_servers/app/services/bigquery_service.py:66-77 | `list_tables` returns a page iterator; the loop consumes it and `len(list(tables))` iterates it again, which raises `ValueError` ("Iterator has already started") after the cache was filled | a first `_fetch_schema()` call on a dataset with one table | the first call returns the schema text it just cached | medium, not executed (depends on the BigQuery client's iterator) | BigQueryService.SchemaFetchAsWritten | BigQueryService.Service.FetchSchema |
| mcp_servers/app/services/graphql_service.py:231-250 | the schema store is a `VectorStoreService` (mcp_servers/app/services/vector_store_service.py:17-31), which has no `vector_search_service` attribute and no `retrieve_graphql_schemas` method; `generate_graphql` reads the attribute at line 246 (also lines 84 and 167), so every generation fails with `AttributeError` and `text_to_graphql_query` gives up after `max_retries` attempts | any question to `text_to_graphql_query` | the store answers the schema search and an attempt can succeed | high, not executed | GraphQLService.AttemptsAsWritten | GraphQLService.Attempts |

=== FILE: bigquery_schema.dfy ===
/**
 * `BigQuerySchema`: the schema documents both vector stores build from
 * BigQuery tables (the schema vector store and the unified vector store share
 * this logic). A table's fields become a tree of field records with dotted
 * full paths; the table becomes a searchable text and a metadata dict. The
 * BigQuery client (`get_table`) and `json.dumps` are parameters.
 */
module BigQuerySchema {
  import opened Wrappers
  import opened Strings
  import opened PyJson
  import TextProcessor

  /** A BigQuery schema field; an absent or empty description is `""`. */
  datatype SchemaField = SchemaField(name: string, fieldType: string, mode: string, description: string,
                                     fields: seq<SchemaField>)

  /**
   * The record `_extract_field_info` builds. Its `nested_fields` entry exists
   * only for a RECORD with sub-fields, so it is present exactly when `nested` is
   * non-empty.
   */
  datatype FieldInfo = FieldInfo(name: string, fullPath: string, fieldType: string, mode: string,
                                 description: string, nested: seq<FieldInfo>)

  /** `"{parent}.{name}"` under a non-empty parent path, the bare name otherwise. */
  function FieldPath(parentPath: string, name: string): (r: string)
    ensures parentPath == "" ==> r == name
    ensures parentPath != "" ==> r == parentPath + "." + name
  {
    if parentPath != "" then parentPath + "." + name else name
  }

  /** The description, or `"Field {name} of type {type}"` when it is empty. */
  function FieldDescription(f: SchemaField): (r: string)
    ensures f.description != "" ==> r == f.description
    ensures f.description == "" ==> r == "Field " + f.name + " of type " + f.fieldType
  {
    if f.description != "" then f.description else "Field " + f.name + " of type " + f.fieldType
  }

  /** Whether a field gets nested records: a RECORD with at least one sub-field. */
  predicate HasNested(f: SchemaField)
  {
    f.fieldType == "RECORD" && |f.fields| > 0
  }

  /** `_extract_field_info(field, parent_path)`. */
  function FieldInfoOf(f: SchemaField, parentPath: string): (r: FieldInfo)
    ensures r.name == f.name && r.fieldType == f.fieldType && r.mode == f.mode
    ensures r.fullPath == FieldPath(parentPath, f.name)
    ensures r.description == FieldDescription(f)
    ensures |r.nested| > 0 <==> HasNested(f)
    ensures HasNested(f) ==> |r.nested| == |f.fields|
    decreases f
  {
    var path := FieldPath(parentPath, f.name);
    FieldInfo(f.name, path, f.fieldType, f.mode, FieldDescription(f),
              if HasNested(f) then seq(|f.fields|, i requires 0 <= i < |f.fields| => FieldInfoOf(f.fields[i], path))
              else [])
  }

  /**
   * Every nested record's path is its parent's path extended by its name, all
   * the way down.
   */
  predicate PathsConsistent(info: FieldInfo)
    decreases info
  {
    forall i :: 0 <= i < |info.nested| ==>
      info.nested[i].fullPath == FieldPath(info.fullPath, info.nested[i].name) && PathsConsistent(info.nested[i])
  }

  /** The records `_extract_field_info` builds have consistent dotted paths at every depth. */
  lemma {:induction false} FieldPathsConsistent(f: SchemaField, parentPath: string)
    ensures PathsConsistent(FieldInfoOf(f, parentPath))
    decreases f
  {
    var info := FieldInfoOf(f, parentPath);
    forall i | 0 <= i < |info.nested|
      ensures info.nested[i].fullPath == FieldPath(info.fullPath, info.nested[i].name)
      ensures PathsConsistent(info.nested[i])
    {
      assert info.nested[i] == FieldInfoOf(f.fields[i], info.fullPath);
      FieldPathsConsistent(f.fields[i], info.fullPath);
    }
  }

  /** A top-level record's path is the field name; its children's paths are `"{name}.{child}"`. */
  lemma TopLevelPaths(f: SchemaField)
    requires f.name != "" && HasNested(f)
    ensures FieldInfoOf(f, "").fullPath == f.name
    ensures forall i :: 0 <= i < |f.fields| ==>
              FieldInfoOf(f, "").nested[i].fullPath == f.name + "." + f.fields[i].name
  {
    var info := FieldInfoOf(f, "");
    forall i | 0 <= i < |f.fields|
      ensures info.nested[i].fullPath == f.name + "." + f.fields[i].name
    {
      assert info.nested[i] == FieldInfoOf(f.fields[i], f.name);
    }
  }

  /** `_extract_field_info`, with the loop over the sub-fields. */
  method ExtractFieldInfo(f: SchemaField, parentPath: string) returns (info: FieldInfo)
    ensures info == FieldInfoOf(f, parentPath)
    decreases f
  {
    var path := if parentPath != "" then parentPath + "." + f.name else f.name;
    var description := if f.description != "" then f.description else "Field " + f.name + " of type " + f.fieldType;
    info := FieldInfo(f.name, path, f.fieldType, f.mode, description, []);
    if f.fieldType == "RECORD" && |f.fields| > 0 {
      var nested: seq<FieldInfo> := [];
      var n := 0;
      while n < |f.fields|
        invariant 0 <= n <= |f.fields|
        invariant |nested| == n && forall i :: 0 <= i < n ==> nested[i] == FieldInfoOf(f.fields[i], path)
      {
        var child := ExtractFieldInfo(f.fields[n], path);
        nested := nested + [child];
        n := n + 1;
      }
      assert nested == seq(|f.fields|, i requires 0 <= i < |f.fields| => FieldInfoOf(f.fields[i], path));
      info := info.(nested := nested);
    }
  }

  /** The table's time partitioning; an absent or empty field is `""`. */
  datatype Partitioning = Partitioning(field: string, partitionType: string)

  /** A BigQuery table as `get_table` returns it; an absent or empty description is `""`. */
  datatype Table = Table(tableId: string, description: string, schema: seq<SchemaField>,
                         partitioning: Option<Partitioning>, requirePartitionFilter: Json,
                         created: Option<string>, modified: Option<string>, numRows: Option<int>)

  datatype PartitionInfo = PartitionInfo(field: string, partitionType: string, requireFilter: Json)

  /** The structured schema `_extract_table_schema` returns. */
  datatype SchemaData = SchemaData(tableId: string, fullTableId: string, description: string, fields: seq<FieldInfo>,
                                   partitionInfo: Option<PartitionInfo>, created: Option<string>,
                                   modified: Option<string>, numRows: Option<int>, datasetId: string)

  const DEFAULT_PARTITION_FIELD := "_PARTITIONTIME"

  /**
   * `_extract_table_schema`: the top-level fields' records, the partition
   * (field defaulting to `_PARTITIONTIME`), `"{dataset}.{table}"` and the
   * description defaulting to `"BigQuery table {id}"`.
   */
  function TableSchema(table: Table, datasetId: string): (r: SchemaData)
    ensures r.tableId == table.tableId && r.fullTableId == datasetId + "." + table.tableId && r.datasetId == datasetId
    ensures r.description == if table.description != "" then table.description else "BigQuery table " + table.tableId
    ensures |r.fields| == |table.schema| && forall i :: 0 <= i < |table.schema| ==> r.fields[i] == FieldInfoOf(table.schema[i], "")
    ensures r.partitionInfo.Some? <==> table.partitioning.Some?
    ensures r.partitionInfo.Some? ==>
              r.partitionInfo.value.field
              == (if table.partitioning.value.field != "" then table.partitioning.value.field else DEFAULT_PARTITION_FIELD)
  {
    var partitionInfo := match table.partitioning
      case None => None
      case Some(p) =>
        Some(PartitionInfo(if p.field != "" then p.field else DEFAULT_PARTITION_FIELD, p.partitionType,
                           table.requirePartitionFilter));
    SchemaData(table.tableId, datasetId + "." + table.tableId,
               if table.description != "" then table.description else "BigQuery table " + table.tableId,
               seq(|table.schema|, i requires 0 <= i < |table.schema| => FieldInfoOf(table.schema[i], "")),
               partitionInfo, table.created, table.modified, table.numRows, datasetId)
  }

  /** `_extract_table_schema`, with the loop over the top-level fields. */
  method ExtractTableSchema(table: Table, datasetId: string) returns (schema: SchemaData)
    ensures schema == TableSchema(table, datasetId)
  {
    var fields: seq<FieldInfo> := [];
    var n := 0;
    while n < |table.schema|
      invariant 0 <= n <= |table.schema|
      invariant |fields| == n && forall i :: 0 <= i < n ==> fields[i] == FieldInfoOf(table.schema[i], "")
    {
      var info := ExtractFieldInfo(table.schema[n], "");
      fields := fields + [info];
      n := n + 1;
    }
    var partitionInfo: Option<PartitionInfo> := None;
    if table.partitioning.Some? {
      var p := table.partitioning.value;
      partitionInfo := Some(PartitionInfo(if p.field != "" then p.field else DEFAULT_PARTITION_FIELD, p.partitionType,
                                          table.requirePartitionFilter));
    }
    schema := SchemaData(table.tableId, datasetId + "." + table.tableId,
                         if table.description != "" then table.description else "BigQuery table " + table.tableId,
                         fields, partitionInfo, table.created, table.modified, table.numRows, datasetId);
  }

  /** `"Field {name} {type} {description}"`. */
  function FieldLine(info: FieldInfo): string
  {
    "Field " + info.name + " " + info.fieldType + " " + info.description
  }

  /** `"Nested field {full_path} {type} {description}"`. */
  function NestedLine(info: FieldInfo): string
  {
    "Nested field " + info.fullPath + " " + info.fieldType + " " + info.description
  }

  /** The nested lines of one field: its direct children only. */
  function NestedLines(info: FieldInfo): (r: seq<string>)
    ensures |r| == |info.nested| && forall j :: 0 <= j < |r| ==> r[j] == NestedLine(info.nested[j])
  {
    seq(|info.nested|, j requires 0 <= j < |info.nested| => NestedLine(info.nested[j]))
  }

  /** The lines of the fields: each field's line followed by its children's lines. */
  function FieldLines(fields: seq<FieldInfo>): seq<string>
  {
    if fields == [] then []
    else FieldLines(fields[..|fields| - 1]) + [FieldLine(fields[|fields| - 1])] + NestedLines(fields[|fields| - 1])
  }

  /** One more field adds its line and its children's lines. */
  lemma FieldLinesStep(fields: seq<FieldInfo>, n: nat)
    requires n < |fields|
    ensures FieldLines(fields[..n + 1]) == FieldLines(fields[..n]) + [FieldLine(fields[n])] + NestedLines(fields[n])
  {
    assert fields[..n + 1][..n] == fields[..n];
  }

  /** The number of direct children of the fields. */
  function ChildCount(fields: seq<FieldInfo>): nat
  {
    if fields == [] then 0
    else ChildCount(fields[..|fields| - 1]) + |NestedLines(fields[|fields| - 1])|
  }

  /** One line per field and one per direct child; deeper descendants add none. */
  lemma {:induction false} FieldLinesCount(fields: seq<FieldInfo>)
    ensures |FieldLines(fields)| == |fields| + ChildCount(fields)
  {
    if fields != [] {
      FieldLinesCount(fields[..|fields| - 1]);
    }
  }

  /** The lines of a concatenation are the lines of the parts. */
  lemma {:induction false} FieldLinesConcat(a: seq<FieldInfo>, b: seq<FieldInfo>)
    ensures FieldLines(a + b) == FieldLines(a) + FieldLines(b)
    decreases |b|
  {
    if b == [] {
      assert a + b == a;
    } else {
      var b' := b[..|b| - 1];
      assert (a + b)[..|a + b| - 1] == a + b';
      FieldLinesConcat(a, b');
    }
  }

  /**
   * The parts of the searchable text: `"Table {id}"`, the description, the
   * field lines, then `"Partitioned by {field}"` when partitioned.
   */
  function SchemaParts(schema: SchemaData): (r: seq<string>)
    ensures |r| >= 2 && r[0] == "Table " + schema.tableId && r[1] == schema.description
    ensures r[2..] == FieldLines(schema.fields)
                      + (if schema.partitionInfo.Some? then ["Partitioned by " + schema.partitionInfo.value.field] else [])
  {
    ["Table " + schema.tableId, schema.description] + FieldLines(schema.fields)
    + (if schema.partitionInfo.Some? then ["Partitioned by " + schema.partitionInfo.value.field] else [])
  }

  /** `_create_searchable_text`: the parts joined by single spaces. */
  function SchemaSearchableText(schema: SchemaData): string
  {
    Join(SchemaParts(schema), " ")
  }

  /** The text has two parts, one per field, one per direct child and one for a partition. */
  lemma SchemaPartsCount(schema: SchemaData)
    ensures |SchemaParts(schema)| == 2 + |schema.fields| + ChildCount(schema.fields) + (if schema.partitionInfo.Some? then 1 else 0)
  {
    FieldLinesCount(schema.fields);
  }

  /** The inner loop of `_create_searchable_text`: one line per direct child. */
  method AppendNestedLines(parts: seq<string>, field: FieldInfo) returns (r: seq<string>)
    ensures r == parts + NestedLines(field)
  {
    var children := field.nested;
    r := parts;
    var j := 0;
    while j < |children|
      invariant 0 <= j <= |children|
      invariant r == parts + NestedLines(field)[..j]
    {
      assert NestedLines(field)[..j + 1] == NestedLines(field)[..j] + [NestedLine(children[j])];
      r := r + ["Nested field " + children[j].fullPath + " " + children[j].fieldType + " " + children[j].description];
      j := j + 1;
    }
    assert NestedLines(field)[..j] == NestedLines(field);
  }

  /** `_create_searchable_text`, with the loops over the fields and their children. */
  method CreateSchemaSearchableText(schema: SchemaData) returns (text: string)
    ensures text == SchemaSearchableText(schema)
  {
    var parts := ["Table " + schema.tableId, schema.description];
    var n := 0;
    while n < |schema.fields|
      invariant 0 <= n <= |schema.fields|
      invariant parts == ["Table " + schema.tableId, schema.description] + FieldLines(schema.fields[..n])
    {
      var field := schema.fields[n];
      FieldLinesStep(schema.fields, n);
      parts := parts + [FieldLine(field)];
      if |field.nested| > 0 {
        parts := AppendNestedLines(parts, field);
      } else {
        assert parts + NestedLines(field) == parts;
      }
      n := n + 1;
    }
    assert schema.fields[..|schema.fields|] == schema.fields;
    if schema.partitionInfo.Some? {
      parts := parts + ["Partitioned by " + schema.partitionInfo.value.field];
    } else {
      assert parts + [] == parts;
    }
    assert parts == SchemaParts(schema);
    text := Join(parts, " ");
  }

  /**
   * The metadata of a table's document: ids, description, the number of
   * top-level fields, whether and by which field it is partitioned, and the
   * schema's JSON text.
   */
  function SchemaMetadata(schema: SchemaData, dumps: SchemaData -> string): (r: map<string, Json>)
    ensures "field_count" in r && r["field_count"] == Int(|schema.fields|)
    ensures "has_partition" in r && r["has_partition"] == Bool(schema.partitionInfo.Some?)
    ensures "partition_field" in r
            && r["partition_field"] == if schema.partitionInfo.Some? then Str(schema.partitionInfo.value.field) else Null
    ensures "table_id" in r && r["table_id"] == Str(schema.tableId)
    ensures "full_table_id" in r && r["full_table_id"] == Str(schema.fullTableId)
    ensures "schema_data" in r && r["schema_data"] == Str(dumps(schema))
  {
    map["table_id" := Str(schema.tableId), "full_table_id" := Str(schema.fullTableId),
        "description" := Str(schema.description), "field_count" := Int(|schema.fields|),
        "has_partition" := Bool(schema.partitionInfo.Some?),
        "partition_field" := (if schema.partitionInfo.Some? then Str(schema.partitionInfo.value.field) else Null),
        "dataset_id" := Str(schema.datasetId), "schema_data" := Str(dumps(schema))]
  }

  /** A partition field is recorded exactly when the table is partitioned. */
  lemma PartitionFieldIffPartitioned(table: Table, datasetId: string, dumps: SchemaData -> string)
    ensures var m := SchemaMetadata(TableSchema(table, datasetId), dumps);
            (m["has_partition"] == Bool(true) <==> table.partitioning.Some?)
            && (m["partition_field"] != Null <==> table.partitioning.Some?)
            && m["field_count"] == Int(|table.schema|)
  {
  }

  /** The document of one table. */
  function TableDocument(table: Table, datasetId: string, dumps: SchemaData -> string): TextProcessor.Document
  {
    var schema := TableSchema(table, datasetId);
    TextProcessor.Document(SchemaSearchableText(schema), SchemaMetadata(schema, dumps))
  }

  /**
   * The documents the load loop builds: one per table that `get_table`
   * returned, in order; a table whose lookup failed is skipped.
   */
  function SchemaDocuments(tables: seq<Result<Table, string>>, datasetId: string, dumps: SchemaData -> string): (r: seq<TextProcessor.Document>)
    ensures |r| <= |tables|
  {
    if tables == [] then []
    else
      var last := tables[|tables| - 1];
      SchemaDocuments(tables[..|tables| - 1], datasetId, dumps)
      + (if last.Ok? then [TableDocument(last.value, datasetId, dumps)] else [])
  }

  /** The number of tables that were found. */
  function FoundCount(tables: seq<Result<Table, string>>): nat
  {
    if tables == [] then 0 else FoundCount(tables[..|tables| - 1]) + (if tables[|tables| - 1].Ok? then 1 else 0)
  }

  /** One document per table found: a failure skips its table and no other. */
  lemma {:induction false} SchemaDocumentsCount(tables: seq<Result<Table, string>>, datasetId: string, dumps: SchemaData -> string)
    ensures |SchemaDocuments(tables, datasetId, dumps)| == FoundCount(tables)
  {
    if tables != [] {
      SchemaDocumentsCount(tables[..|tables| - 1], datasetId, dumps);
    }
  }

  /** The documents of a concatenation are the documents of the parts, in order. */
  lemma {:induction false} SchemaDocumentsConcat(a: seq<Result<Table, string>>, b: seq<Result<Table, string>>,
                                                 datasetId: string, dumps: SchemaData -> string)
    ensures SchemaDocuments(a + b, datasetId, dumps) == SchemaDocuments(a, datasetId, dumps) + SchemaDocuments(b, datasetId, dumps)
    decreases |b|
  {
    if b == [] {
      assert a + b == a;
    } else {
      var b' := b[..|b| - 1];
      assert (a + b)[..|a + b| - 1] == a + b';
      SchemaDocumentsConcat(a, b', datasetId, dumps);
    }
  }

  /** The load loop: extract, render and describe each table found, skipping failures. */
  method LoadSchemaDocuments(tables: seq<Result<Table, string>>, datasetId: string, dumps: SchemaData -> string)
    returns (documents: seq<TextProcessor.Document>)
    ensures documents == SchemaDocuments(tables, datasetId, dumps)
  {
    documents := [];
    var n := 0;
    while n < |tables|
      invariant 0 <= n <= |tables|
      invariant documents == SchemaDocuments(tables[..n], datasetId, dumps)
    {
      assert tables[..n + 1][..n] == tables[..n];
      if tables[n].Ok? {
        var schema := ExtractTableSchema(tables[n].value, datasetId);
        var text := CreateSchemaSearchableText(schema);
        documents := documents + [TextProcessor.Document(text, SchemaMetadata(schema, dumps))];
      }
      n := n + 1;
    }
    assert tables[..|tables|] == tables;
  }
}

=== FILE: bigquery_service.dfy ===
/**
 * `BigQueryService`: text-to-SQL over a BigQuery dataset. A question that is
 * not historical is turned away; otherwise the dataset's schema text and its
 * partition summary (each cached once fetched) go to the language model, whose
 * answer is cleaned of a ```` ```sql ```` fence and executed. The BigQuery
 * client (the table listing and the query job), the language model and
 * Python's `str()` are parameters.
 */
module BigQueryService {
  import opened Wrappers
  import opened Strings
  import opened PyJson
  import opened BigQuerySchema

  // ---------------------------------------------------------------------
  // Schema description
  // ---------------------------------------------------------------------

  /** `"{prefix}Name: {name}, Type: {type}, Mode: {mode}"`. */
  function DescLine(f: SchemaField, prefix: string): (r: string)
    ensures StartsWith(r, prefix)
  {
    prefix + "Name: " + f.name + ", Type: " + f.fieldType + ", Mode: " + f.mode
  }

  /**
   * `_build_schema_desc(fields, prefix)`: one line per field in pre-order; the
   * children of a RECORD follow its line, indented by one more tab. The
   * children of any other type are not described.
   */
  function SchemaDesc(fields: seq<SchemaField>, prefix: string): (r: seq<string>)
    ensures |r| >= |fields|
    decreases fields
  {
    if fields == [] then []
    else
      var f := fields[|fields| - 1];
      SchemaDesc(fields[..|fields| - 1], prefix) + [DescLine(f, prefix)]
      + (if f.fieldType == "RECORD" then SchemaDesc(f.fields, prefix + "\t") else [])
  }

  /** The number of fields described: every field, and below a RECORD its fields, at any depth. */
  function DescribedCount(fields: seq<SchemaField>): nat
    decreases fields
  {
    if fields == [] then 0
    else
      var f := fields[|fields| - 1];
      DescribedCount(fields[..|fields| - 1]) + 1 + (if f.fieldType == "RECORD" then DescribedCount(f.fields) else 0)
  }

  /** One line per described field. */
  lemma {:induction false} SchemaDescCount(fields: seq<SchemaField>, prefix: string)
    ensures |SchemaDesc(fields, prefix)| == DescribedCount(fields)
    decreases fields
  {
    if fields != [] {
      var f := fields[|fields| - 1];
      SchemaDescCount(fields[..|fields| - 1], prefix);
      if f.fieldType == "RECORD" {
        SchemaDescCount(f.fields, prefix + "\t");
      }
    }
  }

  /** Every line carries the prefix; nested lines carry it followed by at least one tab. */
  lemma {:induction false} SchemaDescIndented(fields: seq<SchemaField>, prefix: string)
    ensures forall j :: 0 <= j < |SchemaDesc(fields, prefix)| ==> StartsWith(SchemaDesc(fields, prefix)[j], prefix)
    decreases fields
  {
    if fields != [] {
      var f := fields[|fields| - 1];
      var init := SchemaDesc(fields[..|fields| - 1], prefix);
      SchemaDescIndented(fields[..|fields| - 1], prefix);
      var children := if f.fieldType == "RECORD" then SchemaDesc(f.fields, prefix + "\t") else [];
      if f.fieldType == "RECORD" {
        SchemaDescIndented(f.fields, prefix + "\t");
        forall j | 0 <= j < |children| ensures StartsWith(children[j], prefix) {
          assert StartsWith(children[j], prefix + "\t");
          assert children[j][..|prefix|] == (prefix + "\t")[..|prefix|];
        }
      }
      var r := init + [DescLine(f, prefix)] + children;
      assert r == SchemaDesc(fields, prefix);
      forall j | 0 <= j < |r| ensures StartsWith(r[j], prefix) {
        if j < |init| {
          assert r[j] == init[j];
        } else if j == |init| {
          assert r[j] == DescLine(f, prefix);
        } else {
          assert r[j] == children[j - |init| - 1];
        }
      }
    }
  }

  /** Without RECORD fields the description is exactly one line per field, in order. */
  lemma {:induction false} FlatSchemaDesc(fields: seq<SchemaField>, prefix: string)
    requires forall i :: 0 <= i < |fields| ==> fields[i].fieldType != "RECORD"
    ensures |SchemaDesc(fields, prefix)| == |fields|
    ensures forall i :: 0 <= i < |fields| ==> SchemaDesc(fields, prefix)[i] == DescLine(fields[i], prefix)
  {
    if fields != [] {
      var init := fields[..|fields| - 1];
      FlatSchemaDesc(init, prefix);
      assert SchemaDesc(fields, prefix) == SchemaDesc(init, prefix) + [DescLine(fields[|fields| - 1], prefix)];
    }
  }

  /** `_build_schema_desc`, with its loop over the fields and its recursive call for a RECORD. */
  method BuildSchemaDesc(fields: seq<SchemaField>, prefix: string) returns (desc: seq<string>)
    ensures desc == SchemaDesc(fields, prefix)
    decreases fields
  {
    desc := [];
    var n := 0;
    while n < |fields|
      invariant 0 <= n <= |fields|
      invariant desc == SchemaDesc(fields[..n], prefix)
    {
      var f := fields[n];
      assert fields[..n + 1][..n] == fields[..n];
      assert fields[..n + 1][n] == f;
      desc := desc + [prefix + "Name: " + f.name + ", Type: " + f.fieldType + ", Mode: " + f.mode];
      if f.fieldType == "RECORD" {
        var sub := BuildSchemaDesc(f.fields, prefix + "\t");
        desc := desc + sub;
      } else {
        assert desc + [] == desc;
      }
      n := n + 1;
    }
    assert fields[..|fields|] == fields;
  }

  /** The lines `_fetch_schema` adds for one table: a heading, the description, a blank line. */
  function TableLines(table: Table): (r: seq<string>)
    ensures |r| >= 2 && r[0] == "Schema for table " + table.tableId + ":" && r[|r| - 1] == ""
  {
    ["Schema for table " + table.tableId + ":"] + SchemaDesc(table.schema, "") + [""]
  }

  /** The lines of all tables, in listing order. */
  function SchemaLines(tables: seq<Table>): (r: seq<string>)
    ensures |r| >= 2 * |tables|
  {
    if tables == [] then [] else SchemaLines(tables[..|tables| - 1]) + TableLines(tables[|tables| - 1])
  }

  /** The schema text `_fetch_schema` caches: the lines joined by newlines. */
  function SchemaText(tables: seq<Table>): string
  {
    Join(SchemaLines(tables), "\n")
  }

  /** A dataset with at least one table has a non-empty schema text, so the cache is reused once filled. */
  lemma SchemaTextNonEmpty(tables: seq<Table>)
    requires tables != []
    ensures SchemaText(tables) != ""
  {
    var lines := SchemaLines(tables);
    var init := SchemaLines(tables[..|tables| - 1]);
    var last := TableLines(tables[|tables| - 1]);
    assert lines == init + last;
    if init == [] {
      assert lines[0] == last[0];
    } else {
      assert lines[0] == init[0];
    }
    assert |lines| >= 2;
    assert SchemaText(tables) == lines[0] + "\n" + Join(lines[1..], "\n");
  }

  /** The loop of `_fetch_schema` over the listed tables. */
  method CollectSchemaLines(tables: seq<Table>) returns (schemas: seq<string>)
    ensures schemas == SchemaLines(tables)
  {
    schemas := [];
    var n := 0;
    while n < |tables|
      invariant 0 <= n <= |tables|
      invariant schemas == SchemaLines(tables[..n])
    {
      assert tables[..n + 1][..n] == tables[..n];
      var table := tables[n];
      var schemaDesc := ["Schema for table " + table.tableId + ":"];
      var desc := BuildSchemaDesc(table.schema, "");
      schemaDesc := schemaDesc + desc;
      schemaDesc := schemaDesc + [""];
      schemas := schemas + schemaDesc;
      n := n + 1;
    }
    assert tables[..|tables|] == tables;
  }

  // ---------------------------------------------------------------------
  // Partition information
  // ---------------------------------------------------------------------

  /** A `partition_info` entry: the partition field (None when unpartitioned) and the filter flag. */
  datatype PartitionEntry = PartitionEntry(partitionField: Json, requirePartitionFilter: Json)

  /** A Python dict from table ids to entries, in insertion order. */
  type PartitionMap = seq<(string, PartitionEntry)>

  /** The entry of one table: its partition field (defaulting to `_PARTITIONTIME`) and filter flag, or None and False. */
  function EntryOf(table: Table): (r: PartitionEntry)
    ensures Truthy(r.partitionField) <==> table.partitioning.Some?
  {
    match table.partitioning
    case None => PartitionEntry(Null, Bool(false))
    case Some(p) =>
      PartitionEntry(Str(if p.field != "" then p.field else DEFAULT_PARTITION_FIELD), table.requirePartitionFilter)
  }

  /** `d.get(key)`: the value of the first entry with the key. */
  function Lookup(d: PartitionMap, key: string): (r: Option<PartitionEntry>)
    ensures r.Some? ==> (key, r.value) in d
    ensures r.None? <==> forall i :: 0 <= i < |d| ==> d[i].0 != key
  {
    if d == [] then None else if d[0].0 == key then Some(d[0].1) else Lookup(d[1..], key)
  }

  /** `d[key] = value`: an existing key keeps its place and takes the value; a new key goes last. */
  function Put(d: PartitionMap, key: string, value: PartitionEntry): (r: PartitionMap)
    ensures Lookup(d, key).Some? ==> |r| == |d|
    ensures Lookup(d, key).None? ==> r == d + [(key, value)]
  {
    if d == [] then [(key, value)]
    else if d[0].0 == key then [(key, value)] + d[1..]
    else [d[0]] + Put(d[1..], key, value)
  }

  /** After `d[key] = value` the key maps to the value and every other key to what it mapped to before. */
  lemma {:induction false} PutLookup(d: PartitionMap, key: string, value: PartitionEntry, k: string)
    ensures Lookup(Put(d, key, value), k) == if k == key then Some(value) else Lookup(d, k)
  {
    if d != [] && d[0].0 != key {
      PutLookup(d[1..], key, value, k);
      assert Put(d, key, value)[1..] == Put(d[1..], key, value);
    }
  }

  /** The dict `_get_partitioned_fields` builds: one entry per table id, the last listed table's. */
  function PartitionInfo(tables: seq<Table>): (r: PartitionMap)
    ensures |r| <= |tables|
  {
    if tables == [] then []
    else
      var last := tables[|tables| - 1];
      Put(PartitionInfo(tables[..|tables| - 1]), last.tableId, EntryOf(last))
  }

  /** The dict has an entry for exactly the listed table ids. */
  lemma {:induction false} PartitionInfoKeys(tables: seq<Table>, id: string)
    ensures Lookup(PartitionInfo(tables), id).None? <==> forall i :: 0 <= i < |tables| ==> tables[i].tableId != id
  {
    if tables != [] {
      var init := tables[..|tables| - 1];
      var last := tables[|tables| - 1];
      PartitionInfoKeys(init, id);
      PutLookup(PartitionInfo(init), last.tableId, EntryOf(last), id);
      assert forall i :: 0 <= i < |init| ==> init[i] == tables[i];
    }
  }

  /** A table id's entry is that of the last table listed with it. */
  lemma {:induction false} PartitionInfoLookup(tables: seq<Table>, i: nat)
    requires i < |tables| && forall j :: i < j < |tables| ==> tables[j].tableId != tables[i].tableId
    ensures Lookup(PartitionInfo(tables), tables[i].tableId) == Some(EntryOf(tables[i]))
  {
    var n := |tables| - 1;
    if i == n {
      PartitionInfoLastKey(tables);
    } else {
      var init := tables[..n];
      PartitionInfoOtherKey(tables, tables[i].tableId);
      assert init[i] == tables[i];
      assert forall j :: i < j < |init| ==> init[j] == tables[j];
      PartitionInfoLookup(init, i);
    }
  }

  /** The last table listed owns the entry of its id. */
  lemma PartitionInfoLastKey(tables: seq<Table>)
    requires tables != []
    ensures Lookup(PartitionInfo(tables), tables[|tables| - 1].tableId) == Some(EntryOf(tables[|tables| - 1]))
  {
    var n := |tables| - 1;
    PartitionInfoStep(tables, n);
    assert tables[..n + 1] == tables;
    PutLookup(PartitionInfo(tables[..n]), tables[n].tableId, EntryOf(tables[n]), tables[n].tableId);
  }

  /** Any other id keeps the entry it had before the last table. */
  lemma PartitionInfoOtherKey(tables: seq<Table>, id: string)
    requires tables != [] && id != tables[|tables| - 1].tableId
    ensures Lookup(PartitionInfo(tables), id) == Lookup(PartitionInfo(tables[..|tables| - 1]), id)
  {
    var n := |tables| - 1;
    PartitionInfoStep(tables, n);
    assert tables[..n + 1] == tables;
    PutLookup(PartitionInfo(tables[..n]), tables[n].tableId, EntryOf(tables[n]), id);
  }

  /** A non-empty listing fills the dict, so the cache is reused once filled. */
  lemma PartitionInfoNonEmpty(tables: seq<Table>)
    requires tables != []
    ensures PartitionInfo(tables) != []
  {
    PartitionInfoKeys(tables, tables[0].tableId);
  }

  /** One more table puts its entry into the dict of the tables before it. */
  lemma PartitionInfoStep(tables: seq<Table>, n: nat)
    requires n < |tables|
    ensures PartitionInfo(tables[..n + 1]) == Put(PartitionInfo(tables[..n]), tables[n].tableId, EntryOf(tables[n]))
  {
    assert tables[..n + 1][..n] == tables[..n];
  }

  /** The loop body's entry for one table: None and False unless the table is partitioned. */
  method TableEntry(table: Table) returns (entry: PartitionEntry)
    ensures entry == EntryOf(table)
  {
    var partitionField := Null;
    var requirePartitionFilter := Bool(false);
    if table.partitioning.Some? {
      var field := table.partitioning.value.field;
      partitionField := Str(if field != "" then field else "_PARTITIONTIME");
      requirePartitionFilter := table.requirePartitionFilter;
    }
    entry := PartitionEntry(partitionField, requirePartitionFilter);
  }

  /** The loop of `_get_partitioned_fields` over the listed tables. */
  method CollectPartitionInfo(tables: seq<Table>) returns (info: PartitionMap)
    ensures info == PartitionInfo(tables)
  {
    info := [];
    var n := 0;
    while n < |tables|
      invariant 0 <= n <= |tables|
      invariant info == PartitionInfo(tables[..n])
    {
      PartitionInfoStep(tables, n);
      var table := tables[n];
      var entry := TableEntry(table);
      info := Put(info, table.tableId, entry);
      n := n + 1;
    }
    assert tables[..|tables|] == tables;
  }

  /** The entries with a (truthy) partition field, in dict order. */
  function Partitioned(info: PartitionMap): (r: PartitionMap)
    ensures |r| <= |info|
    ensures forall x :: x in r <==> x in info && Truthy(x.1.partitionField)
  {
    if info == [] then []
    else Partitioned(info[..|info| - 1]) + (if Truthy(info[|info| - 1].1.partitionField) then [info[|info| - 1]] else [])
  }

  /** Each partitioned entry is kept as often as it occurs, and no other entry is. */
  lemma {:induction false} PartitionedCounts(info: PartitionMap, x: (string, PartitionEntry))
    ensures multiset(Partitioned(info))[x] == if Truthy(x.1.partitionField) then multiset(info)[x] else 0
    decreases |info|
  {
    if info != [] {
      PartitionedCounts(info[..|info| - 1], x);
      assert info == info[..|info| - 1] + [info[|info| - 1]];
    }
  }

  /**
   * The entries of two dict parts in sequence are the entries of each, in
   * turn: with the single-entry case this fixes the summary's order, which is
   * the dict's.
   */
  lemma {:induction false} PartitionedConcat(a: PartitionMap, b: PartitionMap)
    ensures Partitioned(a + b) == Partitioned(a) + Partitioned(b)
    decreases |b|
  {
    if b == [] {
      assert a + b == a;
    } else {
      var init, last := b[..|b| - 1], b[|b| - 1];
      var ab := a + b;
      var lastPart := if Truthy(last.1.partitionField) then [last] else [];
      assert ab[..|ab| - 1] == a + init && ab[|ab| - 1] == last;
      assert Partitioned(ab) == Partitioned(a + init) + lastPart;
      assert Partitioned(b) == Partitioned(init) + lastPart;
      PartitionedConcat(a, init);
    }
  }

  /** ``"Table `{tbl}`: partitioned by `{field}` (require_partition_filter={flag})"``. */
  function PartitionLine(entry: (string, PartitionEntry), show: Json -> string): string
  {
    "Table `" + entry.0 + "`: partitioned by `" + PyStr(entry.1.partitionField, show)
    + "` (require_partition_filter=" + PyStr(entry.1.requirePartitionFilter, show) + ")"
  }

  /** One summary line per entry, in dict order. */
  function PartitionLines(entries: PartitionMap, show: Json -> string): (r: seq<string>)
    ensures |r| == |entries|
    ensures forall j :: 0 <= j < |entries| ==> r[j] == PartitionLine(entries[j], show)
  {
    if entries == [] then []
    else PartitionLines(entries[..|entries| - 1], show) + [PartitionLine(entries[|entries| - 1], show)]
  }

  /** The partition summary given to the model: one line per partitioned table, newline-joined. */
  function PartitionSummary(info: PartitionMap, show: Json -> string): (r: string)
    ensures (forall x :: x in info ==> !Truthy(x.1.partitionField)) ==> r == ""
    ensures var lines := PartitionLines(Partitioned(info), show);
            lines != [] && (forall j :: 0 <= j < |lines| ==> '\n' !in lines[j]) ==> Split(r, '\n') == lines
  {
    var lines := PartitionLines(Partitioned(info), show);
    assert (forall x :: x in info ==> !Truthy(x.1.partitionField)) ==> Partitioned(info) == [] by {
      if Partitioned(info) != [] {
        assert Partitioned(info)[0] in Partitioned(info);
      }
    }
    if lines != [] && (forall j :: 0 <= j < |lines| ==> '\n' !in lines[j]) then
      SplitJoin(lines, '\n');
      Join(lines, "\n")
    else Join(lines, "\n")
  }

  /**
   * A listed table is summarised iff it is time-partitioned (for the last
   * table listed under its id): unpartitioned tables never reach the prompt.
   */
  lemma SummaryListsPartitionedTables(tables: seq<Table>, i: nat)
    requires i < |tables| && forall j :: i < j < |tables| ==> tables[j].tableId != tables[i].tableId
    ensures (tables[i].tableId, EntryOf(tables[i])) in Partitioned(PartitionInfo(tables)) <==> tables[i].partitioning.Some?
  {
    PartitionInfoLookup(tables, i);
  }

  // ---------------------------------------------------------------------
  // Question classification and SQL cleanup
  // ---------------------------------------------------------------------

  /** The words and phrases that mark a question as historical. */
  const HISTORICAL_KEYWORDS: seq<string> := [
    "historical", "history", "over time", "trend", "trends", "trending",
    "in 2024", "in 2025", "last month", "last year", "past", "previous",
    "since", "between", "from", "to", "during", "period", "timeframe",
    "biggest", "largest", "top", "holders", "as of", "before", "after",
    "growth", "decline", "change", "evolution", "progression"]

  /** Python's `any(kw in text for kw in keywords)`, keyword by keyword. */
  function AnyKeyword(text: string, keywords: seq<string>): (r: bool)
    ensures r <==> exists i :: 0 <= i < |keywords| && Contains(text, keywords[i])
  {
    if keywords == [] then false
    else if Contains(text, keywords[0]) then true
    else
      assert forall i :: 1 <= i < |keywords| ==> keywords[i] == keywords[1..][i - 1];
      AnyKeyword(text, keywords[1..])
  }

  /** `_is_historical_query`: the lower-cased question contains some keyword, anywhere. */
  function IsHistoricalQuery(question: string): (r: bool)
    ensures r <==> exists i :: 0 <= i < |HISTORICAL_KEYWORDS| && Contains(Lower(question), HISTORICAL_KEYWORDS[i])
  {
    AnyKeyword(Lower(question), HISTORICAL_KEYWORDS)
  }

  /** A substring occurrence survives text added in front. */
  lemma ContainsPrepend(a: string, b: string, p: string)
    requires Contains(b, p)
    ensures Contains(a + b, p)
  {
    var k :| 0 <= k <= |b| - |p| && OccursAt(b, k, p);
    assert (a + b)[|a| + k..|a| + k + |p|] == b[k..k + |p|];
    assert OccursAt(a + b, |a| + k, p);
  }

  /** Adding text before or after a historical question keeps it historical. */
  lemma HistoricalMonotone(question: string, before: string, after: string)
    requires IsHistoricalQuery(question)
    ensures IsHistoricalQuery(before + question + after)
  {
    var i :| 0 <= i < |HISTORICAL_KEYWORDS| && Contains(Lower(question), HISTORICAL_KEYWORDS[i]);
    LowerConcat(before, question);
    LowerConcat(before + question, after);
    ContainsPrepend(Lower(before), Lower(question), HISTORICAL_KEYWORDS[i]);
    ContainsExtend(Lower(before) + Lower(question), Lower(after), HISTORICAL_KEYWORDS[i]);
  }

  /** Keywords match inside words: any question containing "to", as in "total", counts as historical. */
  lemma KeywordInsideWord(question: string)
    requires Contains(Lower(question), "to")
    ensures IsHistoricalQuery(question)
  {
    assert HISTORICAL_KEYWORDS[15] == "to";
  }

  /** Drops a leading ```` ```sql ````. */
  function DropSqlFence(s: string): (r: string)
    ensures |r| <= |s|
    ensures StartsWith(s, "```sql") ==> r == s[6..]
    ensures !StartsWith(s, "```sql") ==> r == s
  {
    if StartsWith(s, "```sql") then s[6..] else s
  }

  /** Drops a trailing ```` ``` ````. */
  function DropClosingFence(s: string): (r: string)
    ensures |r| <= |s|
    ensures EndsWith(s, "```") ==> r == s[..|s| - 3]
    ensures !EndsWith(s, "```") ==> r == s
  {
    if EndsWith(s, "```") then s[..|s| - 3] else s
  }

  /** The cleanup in `generate_sql`: strip, drop a leading ```` ```sql ````, drop a trailing ```` ``` ````, strip. */
  function CleanSql(raw: string): (r: string)
    ensures Stripped(r) && |r| <= |raw|
  {
    Strip(DropClosingFence(DropSqlFence(Strip(raw))))
  }

  /** The fences of `"```sql\n" + q + "\n```"` come off as a whole. */
  lemma FencesDropped(q: string)
    ensures DropClosingFence(DropSqlFence("```sql\n" + q + "\n```")) == "\n" + q + "\n"
  {
    var raw := "```sql\n" + q + "\n```";
    assert raw[..6] == "```sql";
    var s := raw[6..];
    assert s == "\n" + q + "\n```";
    assert s[|s| - 3..] == "```";
    assert s[..|s| - 3] == "\n" + q + "\n";
  }

  /** A query the model wrapped in a ```` ```sql ```` fence on lines of its own comes out unwrapped. */
  lemma CleanFencedSql(q: string)
    requires Stripped(q)
    ensures CleanSql("```sql\n" + q + "\n```") == q
  {
    var raw := "```sql\n" + q + "\n```";
    assert raw[0] == '`' && raw[|raw| - 1] == '`';
    StripNoop(raw);
    FencesDropped(q);
    StripNewlines(q);
  }

  /** A bare stripped query with no fence is left as it is. */
  lemma CleanPlainSql(q: string)
    requires Stripped(q) && !StartsWith(q, "```sql") && !EndsWith(q, "```")
    ensures CleanSql(q) == q
  {
    StripNoop(q);
  }

  // ---------------------------------------------------------------------
  // Generation and execution
  // ---------------------------------------------------------------------

  const NOT_HISTORICAL_ERROR := "This question doesn't appear to be historical/time-based. Use real-time SDK methods instead."

  /** The answer to a question that is not historical. */
  function NotHistorical(question: string): (r: map<string, Json>)
    ensures "error" in r && "success" !in r && "sql_query" !in r
    ensures "question" in r && r["question"] == Str(question)
    ensures "is_historical" in r && r["is_historical"] == Bool(false)
  {
    map["error" := Str(NOT_HISTORICAL_ERROR), "is_historical" := Bool(false), "question" := Str(question)]
  }

  /** The answer when fetching or generating raised. */
  function GenerationFailure(question: string, error: string): (r: map<string, Json>)
    ensures "error" in r && r["error"] == Str("Failed to generate SQL query: " + error)
    ensures "success" !in r && "sql_query" !in r
    ensures "question" in r && r["question"] == Str(question)
    ensures "is_historical" in r && r["is_historical"] == Bool(true)
  {
    map["error" := Str("Failed to generate SQL query: " + error), "question" := Str(question), "is_historical" := Bool(true)]
  }

  /** The answer carrying a generated query. */
  function SqlGenerated(question: string, sqlQuery: string): (r: map<string, Json>)
    ensures "success" in r && r["success"] == Bool(true)
    ensures "sql_query" in r && r["sql_query"] == Str(sqlQuery)
    ensures "question" in r && r["question"] == Str(question)
    ensures "is_historical" in r && r["is_historical"] == Bool(true)
    ensures "error" !in r
  {
    map["success" := Bool(true), "sql_query" := Str(sqlQuery), "question" := Str(question), "is_historical" := Bool(true)]
  }

  /** The variables the SQL prompt is filled with. */
  function PromptVariables(question: string, schema: string, partitionSummary: string, datasetId: string)
    : (r: map<string, string>)
    ensures r.Keys == {"question", "schema", "partitioned_fields_str", "dataset_id"}
    ensures r["question"] == question && r["schema"] == schema && r["partitioned_fields_str"] == partitionSummary
    ensures r["dataset_id"] == datasetId
  {
    map["question" := question, "schema" := schema, "partitioned_fields_str" := partitionSummary,
        "dataset_id" := datasetId]
  }

  /**
   * `generate_sql` given the outcomes of the schema and partition fetches
   * and the model `invoke`, which receives the prompt's variables.
   */
  function GenerateSqlResult(question: string, schema: Result<string, string>, partitions: Result<PartitionMap, string>,
                             datasetId: string, invoke: map<string, string> -> Result<string, string>,
                             show: Json -> string): (r: map<string, Json>)
    ensures "success" in r ==> "sql_query" in r && r["sql_query"].Str?
  {
    if !IsHistoricalQuery(question) then NotHistorical(question)
    else if schema.Err? then GenerationFailure(question, schema.error)
    else if partitions.Err? then GenerationFailure(question, partitions.error)
    else
      var variables := PromptVariables(question, schema.value, PartitionSummary(partitions.value, show), datasetId);
      match invoke(variables)
      case Err(e) => GenerationFailure(question, e)
      case Ok(raw) => SqlGenerated(question, CleanSql(raw))
  }

  /**
   * What `generate_sql` answers: `is_historical` says whether the question is
   * historical and a question that is not is answered at once; the answer
   * succeeds exactly when the schema, the partition dict and the model all
   * delivered, and otherwise carries an error and no query.
   */
  lemma GenerateSqlAnswer(question: string, schema: Result<string, string>, partitions: Result<PartitionMap, string>,
                          datasetId: string, invoke: map<string, string> -> Result<string, string>, show: Json -> string)
    ensures var r := GenerateSqlResult(question, schema, partitions, datasetId, invoke, show);
            "is_historical" in r && (r["is_historical"] == Bool(true) <==> IsHistoricalQuery(question))
            && "question" in r && r["question"] == Str(question)
            && (!IsHistoricalQuery(question) ==> r == NotHistorical(question))
    ensures var r := GenerateSqlResult(question, schema, partitions, datasetId, invoke, show);
            "success" in r <==> IsHistoricalQuery(question) && schema.Ok? && partitions.Ok?
                                && invoke(PromptVariables(question, schema.value, PartitionSummary(partitions.value, show), datasetId)).Ok?
    ensures var r := GenerateSqlResult(question, schema, partitions, datasetId, invoke, show);
            ("success" in r ==> r["success"] == Bool(true)) && ("success" !in r ==> "error" in r && "sql_query" !in r)
  {
  }

  /** A generated query has been through the cleanup, so it never has surrounding whitespace. */
  lemma GeneratedSqlIsClean(question: string, schema: Result<string, string>, partitions: Result<PartitionMap, string>,
                            datasetId: string, invoke: map<string, string> -> Result<string, string>, show: Json -> string)
    ensures var r := GenerateSqlResult(question, schema, partitions, datasetId, invoke, show);
            "success" in r ==> Stripped(r["sql_query"].s)
  {
  }

  /** `execute_query`'s result: the rows and their number, or the error; the query is echoed. */
  function QueryResult(sqlQuery: string, outcome: Result<seq<map<string, Json>>, string>): (r: map<string, Json>)
    ensures "sql_query" in r && r["sql_query"] == Str(sqlQuery)
    ensures "success" in r <==> outcome.Ok?
    ensures outcome.Ok? ==> r["success"] == Bool(true) && "row_count" in r && r["row_count"] == Int(|outcome.value|)
                            && "data" in r && r["data"].Arr? && |r["data"].items| == |outcome.value|
                            && forall i :: 0 <= i < |outcome.value| ==> r["data"].items[i] == Obj(outcome.value[i])
    ensures outcome.Err? ==> "error" in r && "data" !in r && "row_count" !in r
  {
    match outcome
    case Ok(rows) =>
      map["success" := Bool(true), "data" := Arr(seq(|rows|, i requires 0 <= i < |rows| => Obj(rows[i]))),
          "row_count" := Int(|rows|), "sql_query" := Str(sqlQuery)]
    case Err(e) => map["error" := Str("Failed to execute query: " + e), "sql_query" := Str(sqlQuery)]
  }

  /** `execute_query`, with the loop that turns the rows into dicts. */
  method ExecuteQuery(sqlQuery: string, execute: string -> Result<seq<map<string, Json>>, string>)
    returns (r: map<string, Json>)
    ensures r == QueryResult(sqlQuery, execute(sqlQuery))
  {
    var outcome := execute(sqlQuery);
    if outcome.Err? {
      return map["error" := Str("Failed to execute query: " + outcome.error), "sql_query" := Str(sqlQuery)];
    }
    var results := outcome.value;
    var data: seq<Json> := [];
    var n := 0;
    while n < |results|
      invariant 0 <= n <= |results|
      invariant data == seq(n, i requires 0 <= i < n => Obj(results[i]))
    {
      data := data + [Obj(results[n])];
      n := n + 1;
    }
    r := map["success" := Bool(true), "data" := Arr(data), "row_count" := Int(|data|), "sql_query" := Str(sqlQuery)];
  }

  /**
   * `text_to_sql_query` given the generation's result: a result without
   * success is returned as it is; otherwise the query's execution is combined
   * with the question.
   */
  function TextToSqlResult(question: string, generated: map<string, Json>,
                           execute: string -> Result<seq<map<string, Json>>, string>): (r: map<string, Json>)
    requires "success" in generated ==> "sql_query" in generated && generated["sql_query"].Str?
    ensures !Truthy(GetOr(generated, "success", Null)) ==> r == generated
    ensures Truthy(GetOr(generated, "success", Null)) ==>
              var sql := generated["sql_query"].s;
              r.Keys == {"success", "question", "sql_query", "data", "row_count", "error", "is_historical"}
              && r["success"] == Bool(execute(sql).Ok?) && r["sql_query"] == Str(sql) && r["question"] == Str(question)
              && r["is_historical"] == Bool(true)
              && r["row_count"] == Int(if execute(sql).Ok? then |execute(sql).value| else 0)
              && (r["error"] == Null <==> execute(sql).Ok?)
  {
    if !Truthy(GetOr(generated, "success", Null)) then generated
    else
      var sql := generated["sql_query"].s;
      var execution := QueryResult(sql, execute(sql));
      map["success" := GetOr(execution, "success", Bool(false)), "question" := Str(question),
          "sql_query" := Str(sql), "data" := GetOr(execution, "data", Arr([])),
          "row_count" := GetOr(execution, "row_count", Int(0)), "error" := GetOr(execution, "error", Null),
          "is_historical" := Bool(true)]
  }

  /** The cached schema text, or the outcome of fetching it when the cache is empty. */
  function SchemaOutcome(cache: string, listing: Result<seq<Table>, string>): Result<string, string>
  {
    if cache != "" then Ok(cache)
    else match listing
      case Ok(tables) => Ok(SchemaText(tables))
      case Err(e) => Err(e)
  }

  /** What google-api-core's page iterator raises when it is iterated a second time. */
  const ITERATOR_STARTED := "Iterator has already started"

  /**
   * `_fetch_schema` as written: the outcome and the new cache. The table
   * listing is a page iterator that the loop consumes; after the cache is
   * filled, the log line iterates it again (`len(list(tables))`), which
   * raises, so an uncached fetch fills the cache and still fails.
   */
  function SchemaFetchAsWritten(cache: string, listing: Result<seq<Table>, string>): (r: (Result<string, string>, string))
    ensures cache != "" ==> r == (Ok(cache), cache)
    ensures cache == "" && listing.Err? ==> r == (Err(listing.error), cache)
    ensures cache == "" && listing.Ok? ==> r == (Err(ITERATOR_STARTED), SchemaText(listing.value))
  {
    if cache != "" then (Ok(cache), cache)
    else match listing
      case Ok(tables) => (Err(ITERATOR_STARTED), SchemaText(tables))
      case Err(e) => (Err(e), cache)
  }

  /**
   * The as-written fetch agrees with the intended one except on an uncached,
   * successful listing: there it fails, while the cache holds exactly the
   * text the intended fetch returns, which the next call then serves.
   */
  lemma AsWrittenSchemaFetchFailsFirst(cache: string, listing: Result<seq<Table>, string>, next: Result<seq<Table>, string>)
    ensures var written := SchemaFetchAsWritten(cache, listing);
            var intended := SchemaOutcome(cache, listing);
            (cache == "" && listing.Ok? ==> written.0.Err? && intended == Ok(written.1))
            && (!(cache == "" && listing.Ok?) ==> written.0 == intended)
    ensures var written := SchemaFetchAsWritten(cache, listing);
            written.1 != "" ==> SchemaFetchAsWritten(written.1, next) == (Ok(written.1), written.1)
  {
  }

  /** The cached partition dict, or the outcome of building it when the cache is empty. */
  function PartitionOutcome(cache: PartitionMap, listing: Result<seq<Table>, string>): Result<PartitionMap, string>
  {
    if cache != [] then Ok(cache)
    else match listing
      case Ok(tables) => Ok(PartitionInfo(tables))
      case Err(e) => Err(e)
  }

  /**
   * The service for one dataset. `schemaCache` is `""` and `partitionCache`
   * empty until a fetch fills them (the source's `None` behaves as the empty
   * value: both are refetched).
   */
  class Service {
    const datasetId: string
    var schemaCache: string
    var partitionCache: PartitionMap

    constructor(datasetId: string)
      ensures this.datasetId == datasetId && schemaCache == "" && partitionCache == []
    {
      this.datasetId := datasetId;
      schemaCache := "";
      partitionCache := [];
    }

    /** `_fetch_schema`: the cache when it is filled; otherwise the listing's schema text, which fills it. */
    method FetchSchema(listing: Result<seq<Table>, string>) returns (r: Result<string, string>)
      modifies this
      ensures r == SchemaOutcome(old(schemaCache), listing)
      ensures schemaCache == (if r.Ok? then r.value else old(schemaCache))
      ensures partitionCache == old(partitionCache)
    {
      if schemaCache != "" {
        return Ok(schemaCache);
      }
      if listing.Err? {
        return Err(listing.error);
      }
      var schemas := CollectSchemaLines(listing.value);
      schemaCache := Join(schemas, "\n");
      r := Ok(schemaCache);
    }

    /** `_get_partitioned_fields`: the cache when it is filled; otherwise the listing's dict, which fills it. */
    method GetPartitionedFields(listing: Result<seq<Table>, string>) returns (r: Result<PartitionMap, string>)
      modifies this
      ensures r == PartitionOutcome(old(partitionCache), listing)
      ensures partitionCache == (if r.Ok? then r.value else old(partitionCache))
      ensures schemaCache == old(schemaCache)
    {
      if partitionCache != [] {
        return Ok(partitionCache);
      }
      if listing.Err? {
        return Err(listing.error);
      }
      var info := CollectPartitionInfo(listing.value);
      partitionCache := info;
      r := Ok(info);
    }

    /**
     * `generate_sql`: a question that is not historical is answered before
     * either cache is touched; otherwise the schema is fetched, then (if that
     * worked) the partition dict, then the model is asked.
     */
    method GenerateSql(question: string, schemaListing: Result<seq<Table>, string>,
                       partitionListing: Result<seq<Table>, string>,
                       invoke: map<string, string> -> Result<string, string>, show: Json -> string)
      returns (r: map<string, Json>)
      modifies this
      ensures r == GenerateSqlResult(question, SchemaOutcome(old(schemaCache), schemaListing),
                                     PartitionOutcome(old(partitionCache), partitionListing), datasetId, invoke, show)
      ensures !IsHistoricalQuery(question) ==> schemaCache == old(schemaCache) && partitionCache == old(partitionCache)
      ensures IsHistoricalQuery(question) ==>
                var schema := SchemaOutcome(old(schemaCache), schemaListing);
                schemaCache == (if schema.Ok? then schema.value else old(schemaCache))
      ensures IsHistoricalQuery(question) ==>
                var schema := SchemaOutcome(old(schemaCache), schemaListing);
                var partitions := PartitionOutcome(old(partitionCache), partitionListing);
                partitionCache == (if schema.Ok? && partitions.Ok? then partitions.value else old(partitionCache))
    {
      ghost var schemaOutcome := SchemaOutcome(schemaCache, schemaListing);
      ghost var partitionOutcome := PartitionOutcome(partitionCache, partitionListing);
      ghost var expected := GenerateSqlResult(question, schemaOutcome, partitionOutcome, datasetId, invoke, show);
      if !IsHistoricalQuery(question) {
        assert expected == NotHistorical(question);
        return NotHistorical(question);
      }
      var schema := FetchSchema(schemaListing);
      assert schema == schemaOutcome;
      if schema.Err? {
        assert expected == GenerationFailure(question, schema.error);
        return GenerationFailure(question, schema.error);
      }
      var partitions := GetPartitionedFields(partitionListing);
      assert partitions == partitionOutcome;
      if partitions.Err? {
        assert expected == GenerationFailure(question, partitions.error);
        return GenerationFailure(question, partitions.error);
      }
      var summary := PartitionSummary(partitions.value, show);
      var generated := invoke(PromptVariables(question, schema.value, summary, datasetId));
      if generated.Err? {
        assert expected == GenerationFailure(question, generated.error);
        return GenerationFailure(question, generated.error);
      }
      var sqlQuery := CleanSql(generated.value);
      assert expected == SqlGenerated(question, sqlQuery);
      r := SqlGenerated(question, sqlQuery);
    }

    /**
     * `text_to_sql_query`: generate, and when that succeeded execute the
     * query; a generation without success is returned unchanged.
     */
    method TextToSqlQuery(question: string, schemaListing: Result<seq<Table>, string>,
                          partitionListing: Result<seq<Table>, string>,
                          invoke: map<string, string> -> Result<string, string>, show: Json -> string,
                          execute: string -> Result<seq<map<string, Json>>, string>)
      returns (r: map<string, Json>)
      modifies this
      ensures var generated := GenerateSqlResult(question, SchemaOutcome(old(schemaCache), schemaListing),
                                                 PartitionOutcome(old(partitionCache), partitionListing),
                                                 datasetId, invoke, show);
              r == TextToSqlResult(question, generated, execute)
      ensures !IsHistoricalQuery(question) ==> schemaCache == old(schemaCache) && partitionCache == old(partitionCache)
      ensures IsHistoricalQuery(question) ==>
                var schema := SchemaOutcome(old(schemaCache), schemaListing);
                schemaCache == (if schema.Ok? then schema.value else old(schemaCache))
      ensures IsHistoricalQuery(question) ==>
                var schema := SchemaOutcome(old(schemaCache), schemaListing);
                var partitions := PartitionOutcome(old(partitionCache), partitionListing);
                partitionCache == (if schema.Ok? && partitions.Ok? then partitions.value else old(partitionCache))
    {
      var generated := GenerateSql(question, schemaListing, partitionListing, invoke, show);
      if !Truthy(GetOr(generated, "success", Null)) {
        return generated;
      }
      var sqlQuery := generated["sql_query"].s;
      var execution := ExecuteQuery(sqlQuery, execute);
      r := map["success" := GetOr(execution, "success", Bool(false)), "question" := Str(question),
               "sql_query" := Str(sqlQuery), "data" := GetOr(execution, "data", Arr([])),
               "row_count" := GetOr(execution, "row_count", Int(0)), "error" := GetOr(execution, "error", Null),
               "is_historical" := Bool(true)];
    }
  }

  /** A question that is not historical never reaches the schema, the model or the database. */
  lemma NotHistoricalShortCircuits(question: string, schema: Result<string, string>, partitions: Result<PartitionMap, string>,
                                   datasetId: string, invoke: map<string, string> -> Result<string, string>,
                                   show: Json -> string, execute: string -> Result<seq<map<string, Json>>, string>)
    requires !IsHistoricalQuery(question)
    ensures TextToSqlResult(question, GenerateSqlResult(question, schema, partitions, datasetId, invoke, show), execute)
            == NotHistorical(question)
  {
  }
}

=== FILE: chat_endpoint.dfy ===
/**
 * The chat WebSocket (`websocket_chat`): per-message admission and dispatch,
 * the frames a flow streams, and the connection's flow bookkeeping.
 */
module ChatEndpoint {
  import opened Wrappers
  import opened Strings
  import opened PyJson
  import opened Connections
  import CostLimiter
  import RedisStore

  /** WebSocket close codes used by the endpoint. */
  const CLOSE_NORMAL := 1000
  const CLOSE_INVALID_PAYLOAD := 1007
  const CLOSE_TRY_AGAIN_LATER := 1013

  const INVALID_JSON := "Invalid JSON format"
  const INTERNAL_ERROR := "Internal server error"
  const NO_USER_MESSAGE := "No user message found in request"
  const NO_NETWORK := "No network found in request"

  /** A JSON object sent to the client. */
  datatype Frame =
    | Token(token: string)
    | AssistantMsgId(assistantId: string)
    | UserMsgId(userId: string)
    | Complete
    | Closed
    | Error(message: string)

  datatype ChatRequest = ChatRequest(query: string, accountId: Option<string>, network: Option<string>)

  /** A flow waiting to run: its request and the message it continues from, if any. */
  datatype FlowStart = FlowStart(request: ChatRequest, continueFrom: Option<string>)

  /** What the endpoint does with one received message. */
  datatype Outcome =
    | Reply(frame: Frame)                  // one frame; the connection stays open
    | CloseWith(frame: Frame, code: int)   // one frame, then the connection is closed
    | CloseRequested                       // cancel the flow, send `{"closed": true}`, close with 1000
    | Start(flow: FlowStart)               // start a flow, cancelling a running one

  /** The configured limits quoted in the rejection messages. */
  datatype Settings = Settings(
    rateLimitMaxRequests: int, rateLimitWindowSeconds: int,
    globalRateLimitMaxRequests: int, globalRateLimitWindowSeconds: int,
    perUserCostLimit: real, perUserCostPeriodSeconds: int,
    globalCostLimit: real, globalCostPeriodSeconds: int)

  /**
   * The library calls the endpoint makes on message text: `json.loads`,
   * `str()` of a JSON value, `str()` of a float, and whether `UUID(s)` accepts
   * a string.
   */
  datatype Codec = Codec(
    loads: string -> Option<Json>,
    show: Json -> string,
    showFloat: real -> string,
    isUuid: string -> bool)

  function RateLimitMessage(s: Settings): string
  {
    "Rate limit exceeded. Limits: " + IntToString(s.rateLimitMaxRequests) + " per IP per "
    + IntToString(s.rateLimitWindowSeconds) + "s, " + IntToString(s.globalRateLimitMaxRequests)
    + " global per " + IntToString(s.globalRateLimitWindowSeconds) + "s."
  }

  function CostLimitMessage(s: Settings, codec: Codec): string
  {
    "Cost limit exceeded. Limits: $" + codec.showFloat(s.perUserCostLimit) + " per user per "
    + IntToString(s.perUserCostPeriodSeconds) + "s, $" + codec.showFloat(s.globalCostLimit)
    + " global per " + IntToString(s.globalCostPeriodSeconds) + "s."
  }

  /** An `Optional[str]` request field: `None` for null, `Some(v)` for a string, and a failure otherwise. */
  function OptionalText(v: Json): (r: Result<Option<string>, string>)
    ensures r.Ok? <==> v.Null? || v.Str?
    ensures v.Str? ==> r == Ok(Some(v.s))
  {
    match v
    case Null => Ok(None)
    case Str(s) => Ok(Some(s))
    case _ => Err("not a string")
  }

  /** Building a `ChatRequest`; a field of the wrong type fails validation. */
  function MakeRequest(query: Json, accountId: Json, network: Json): (r: Option<ChatRequest>)
    ensures r.Some? <==> query.Str? && (accountId.Null? || accountId.Str?) && (network.Null? || network.Str?)
    ensures r.Some? ==> r.value.query == query.s
                        && r.value.accountId == (if accountId.Str? then Some(accountId.s) else None)
                        && r.value.network == (if network.Str? then Some(network.s) else None)
  {
    if query.Str? && OptionalText(accountId).Ok? && OptionalText(network).Ok? then
      Some(ChatRequest(query.s, OptionalText(accountId).value, OptionalText(network).value))
    else None
  }

  /**
   * What happens to one received message: the rate check, then the cost
   * check, then parsing and the type dispatch.
   */
  function Dispatch(rateOk: bool, costOk: bool, data: string, s: Settings, codec: Codec): (r: Outcome)
    ensures !(rateOk && costOk) ==> r.CloseWith? && r.code == CLOSE_TRY_AGAIN_LATER
    ensures r.Start? || r == CloseRequested ==> rateOk && costOk && codec.loads(data).Some?
  {
    if !rateOk then CloseWith(Error(RateLimitMessage(s)), CLOSE_TRY_AGAIN_LATER)
    else if !costOk then CloseWith(Error(CostLimitMessage(s, codec)), CLOSE_TRY_AGAIN_LATER)
    else match codec.loads(data)
      case None => Reply(Error(INVALID_JSON))
      case Some(msg) => DispatchMessage(msg, codec)
  }

  /** The type dispatch on a parsed message; a non-object fails on `.get` with an internal error. */
  function DispatchMessage(msg: Json, codec: Codec): (r: Outcome)
    ensures !msg.Obj? ==> r == Reply(Error(INTERNAL_ERROR))
    ensures r == CloseRequested <==> msg.Obj? && GetOr(msg.fields, "type", Null) == Str("close")
    ensures r.Start? ==> msg.Obj? && r.flow.request.network.Some? && r.flow.request.network.value != ""
    ensures r.Start? && r.flow.continueFrom.None? ==>
              GetOr(msg.fields, "type", Null) == Str("query") && r.flow.request.query != ""
              && Some(r.flow.request) == MakeRequest(GetOr(msg.fields, "content", Null), GetOr(msg.fields, "account_id", Null),
                                                     GetOr(msg.fields, "network", Null))
    ensures r.Start? && r.flow.continueFrom.Some? ==>
              GetOr(msg.fields, "type", Null) == Str("continue_from_message")
              && GetOr(msg.fields, "message_id", Null) == Str(r.flow.continueFrom.value) && codec.isUuid(r.flow.continueFrom.value)
  {
    if !msg.Obj? then Reply(Error(INTERNAL_ERROR))
    else
      var m := msg.fields;
      var kind := GetOr(m, "type", Null);
      if kind == Str("close") then CloseRequested
      else if kind == Str("query") then
        var content := GetOr(m, "content", Null);
        if !Truthy(content) then
          CloseWith(Error("content is required for query type"), CLOSE_INVALID_PAYLOAD)
        else
          match MakeRequest(content, GetOr(m, "account_id", Null), GetOr(m, "network", Null))
          case None => Reply(Error(INTERNAL_ERROR))
          case Some(req) => Admit(req, true, None)
      else if kind == Str("continue_from_message") then
        var messageId := GetOr(m, "message_id", Null);
        if !Truthy(messageId) then
          CloseWith(Error("message_id is required for continue_from_message type"), CLOSE_INVALID_PAYLOAD)
        else
          match MakeRequest(Str(""), GetOr(m, "account_id", Null), GetOr(m, "network", Null))
          case None => Reply(Error(INTERNAL_ERROR))
          case Some(req) =>
            if !messageId.Str? then Reply(Error(INTERNAL_ERROR))
            else if !codec.isUuid(messageId.s) then
              CloseWith(Error("Invalid message_id format"), CLOSE_INVALID_PAYLOAD)
            else Admit(req, false, Some(messageId.s))
      else CloseWith(Error("Unknown message type: " + codec.show(kind)), CLOSE_INVALID_PAYLOAD)
  }

  /** The checks on a built request before its flow starts. */
  function Admit(req: ChatRequest, isQuery: bool, continueFrom: Option<string>): (r: Outcome)
    ensures r.Start? <==> (req.query != "" || !isQuery) && req.network.Some? && req.network.value != ""
    ensures r.Start? ==> r.flow == FlowStart(req, continueFrom)
    ensures !r.Start? ==> r.CloseWith? && r.code == CLOSE_TRY_AGAIN_LATER
  {
    if req.query == "" && isQuery then CloseWith(Error(NO_USER_MESSAGE), CLOSE_TRY_AGAIN_LATER)
    else if req.network.None? || req.network.value == "" then CloseWith(Error(NO_NETWORK), CLOSE_TRY_AGAIN_LATER)
    else Start(FlowStart(req, continueFrom))
  }

  // ------------------------------------------------------------ the dispatch as written

  /**
   * The type dispatch as the endpoint is written. The `ChatRequest` schema
   * declares only `query` (at least one character), so a query's request is
   * built without `account_id` and `network` and the endpoint's next read of
   * `chat_request.account_id` raises `AttributeError`; a continuation's
   * `ChatRequest(query="")` fails the length check. Both exceptions reach
   * the generic handler, which replies "Internal server error" and keeps the
   * connection open.
   */
  function DispatchMessageAsWritten(msg: Json, codec: Codec): (r: Outcome)
    ensures !r.Start?
    ensures r == DispatchMessage(msg, codec) || r == Reply(Error(INTERNAL_ERROR))
    ensures msg.Obj? && GetOr(msg.fields, "type", Null) == Str("query") && Truthy(GetOr(msg.fields, "content", Null)) ==>
              r == Reply(Error(INTERNAL_ERROR))
    ensures msg.Obj? && GetOr(msg.fields, "type", Null) == Str("continue_from_message")
            && Truthy(GetOr(msg.fields, "message_id", Null)) ==>
              r == Reply(Error(INTERNAL_ERROR))
  {
    if !msg.Obj? then Reply(Error(INTERNAL_ERROR))
    else
      var m := msg.fields;
      var kind := GetOr(m, "type", Null);
      if kind == Str("close") then CloseRequested
      else if kind == Str("query") then
        if !Truthy(GetOr(m, "content", Null)) then
          CloseWith(Error("content is required for query type"), CLOSE_INVALID_PAYLOAD)
        else Reply(Error(INTERNAL_ERROR))
      else if kind == Str("continue_from_message") then
        if !Truthy(GetOr(m, "message_id", Null)) then
          CloseWith(Error("message_id is required for continue_from_message type"), CLOSE_INVALID_PAYLOAD)
        else Reply(Error(INTERNAL_ERROR))
      else CloseWith(Error("Unknown message type: " + codec.show(kind)), CLOSE_INVALID_PAYLOAD)
  }

  /** One received message as the endpoint is written: the same checks, then the dispatch as written. */
  function DispatchAsWritten(rateOk: bool, costOk: bool, data: string, s: Settings, codec: Codec): (r: Outcome)
    ensures !r.Start?
    ensures !(rateOk && costOk) ==> r == Dispatch(rateOk, costOk, data, s, codec)
    ensures r == Dispatch(rateOk, costOk, data, s, codec) || r == Reply(Error(INTERNAL_ERROR))
  {
    if !rateOk then CloseWith(Error(RateLimitMessage(s)), CLOSE_TRY_AGAIN_LATER)
    else if !costOk then CloseWith(Error(CostLimitMessage(s, codec)), CLOSE_TRY_AGAIN_LATER)
    else match codec.loads(data)
      case None => Reply(Error(INVALID_JSON))
      case Some(msg) => DispatchMessageAsWritten(msg, codec)
  }

  /**
   * As written, no message ever starts a flow: every query with content and
   * every continuation with a message id is answered "Internal server error",
   * while the connection stays open.
   */
  lemma AsWrittenStartsNothing(rateOk: bool, costOk: bool, data: string, s: Settings, codec: Codec)
    ensures !DispatchAsWritten(rateOk, costOk, data, s, codec).Start?
    ensures rateOk && costOk && codec.loads(data).Some? && codec.loads(data).value.Obj? ==>
              var m := codec.loads(data).value.fields;
              ((GetOr(m, "type", Null) == Str("query") && Truthy(GetOr(m, "content", Null)))
               || (GetOr(m, "type", Null) == Str("continue_from_message") && Truthy(GetOr(m, "message_id", Null))))
              ==> DispatchAsWritten(rateOk, costOk, data, s, codec) == Reply(Error(INTERNAL_ERROR))
  {
  }

  /**
   * The dispatch as written and the corrected one differ only where the
   * corrected one builds a request: there the code as written answers with
   * the internal error instead.
   */
  lemma AsWrittenDiffersOnlyOnRequests(rateOk: bool, costOk: bool, data: string, s: Settings, codec: Codec)
    ensures var written, intended := DispatchAsWritten(rateOk, costOk, data, s, codec), Dispatch(rateOk, costOk, data, s, codec);
            written == intended || written == Reply(Error(INTERNAL_ERROR))
    ensures Dispatch(rateOk, costOk, data, s, codec).Start? ==>
              DispatchAsWritten(rateOk, costOk, data, s, codec) == Reply(Error(INTERNAL_ERROR))
  {
  }

  /** A rate-limited message is rejected with 1013 whatever the cost ledger and the message say. */
  lemma RateCheckFirst(costOk: bool, data: string, s: Settings, codec: Codec)
    ensures Dispatch(false, costOk, data, s, codec) == CloseWith(Error(RateLimitMessage(s)), CLOSE_TRY_AGAIN_LATER)
  {
  }

  /** A message over the cost budget is rejected with 1013 before its text is parsed. */
  lemma CostCheckSecond(data: string, s: Settings, codec: Codec)
    ensures Dispatch(true, false, data, s, codec) == CloseWith(Error(CostLimitMessage(s, codec)), CLOSE_TRY_AGAIN_LATER)
  {
  }

  /** Text that does not parse gets an error frame and leaves the connection open. */
  lemma InvalidJsonKeepsOpen(data: string, s: Settings, codec: Codec)
    requires codec.loads(data).None?
    ensures Dispatch(true, true, data, s, codec) == Reply(Error(INVALID_JSON))
  {
  }

  /** A query's content is truthy and a string, so "No user message found in request" is never sent. */
  lemma NoUserMessageUnreachable(rateOk: bool, costOk: bool, data: string, s: Settings, codec: Codec)
    ensures Dispatch(rateOk, costOk, data, s, codec) != CloseWith(Error(NO_USER_MESSAGE), CLOSE_TRY_AGAIN_LATER)
  {
  }

  /**
   * Every close uses 1000, 1007 or 1013, and only a `"close"` message closes
   * with 1000; the messages that leave the connection open get one error frame.
   */
  lemma CloseCodes(rateOk: bool, costOk: bool, data: string, s: Settings, codec: Codec)
    ensures var o := Dispatch(rateOk, costOk, data, s, codec);
            (o.CloseWith? ==> o.frame.Error? && (o.code == CLOSE_INVALID_PAYLOAD || o.code == CLOSE_TRY_AGAIN_LATER))
            && (o.Reply? ==> o.frame == Error(INVALID_JSON) || o.frame == Error(INTERNAL_ERROR))
  {
  }

  /**
   * A flow starts only for an admitted, well-formed message: a query with
   * non-empty content, or a continuation with a UUID message id, and a network
   * in either case.
   */
  lemma StartedFlowsAreWellFormed(rateOk: bool, costOk: bool, data: string, s: Settings, codec: Codec)
    requires Dispatch(rateOk, costOk, data, s, codec).Start?
    ensures var f := Dispatch(rateOk, costOk, data, s, codec).flow;
            rateOk && costOk && codec.loads(data).Some? && codec.loads(data).value.Obj?
            && f.request.network.Some? && f.request.network.value != ""
            && (f.continueFrom.None? ==>
                  f.request.query != "" && GetOr(codec.loads(data).value.fields, "type", Null) == Str("query"))
            && (f.continueFrom.Some? ==>
                  codec.isUuid(f.continueFrom.value) && f.request.query == ""
                  && GetOr(codec.loads(data).value.fields, "type", Null) == Str("continue_from_message"))
  {
  }

  /** A query with text content and a network starts a flow with exactly those fields. */
  lemma QueryStartsFlow(data: string, content: string, network: string, s: Settings, codec: Codec)
    requires content != "" && network != ""
    requires codec.loads(data) == Some(Obj(map["type" := Str("query"), "content" := Str(content), "network" := Str(network)]))
    ensures Dispatch(true, true, data, s, codec) == Start(FlowStart(ChatRequest(content, None, Some(network)), None))
  {
    var m := map["type" := Str("query"), "content" := Str(content), "network" := Str(network)];
    assert GetOr(m, "type", Null) == Str("query");
    assert GetOr(m, "content", Null) == Str(content);
    assert GetOr(m, "network", Null) == Str(network);
    assert "account_id" !in m;
  }

  // ------------------------------------------------------------ flow frames

  /** The ways a flow can end: completion (with the stored message ids) or an exception. */
  datatype FlowEnd =
    | Completed(assistantId: Option<string>, userId: Option<string>)
    | ServiceFailure(detail: string)   // ValidationError or ChatServiceError
    | LlmFailure                       // LLMServiceError
    | OtherFailure

  function TokenFrames(tokens: seq<string>): (r: seq<Frame>)
    ensures |r| == |tokens| && forall i :: 0 <= i < |tokens| ==> r[i] == Token(tokens[i])
  {
    if tokens == [] then [] else TokenFrames(tokens[..|tokens| - 1]) + [Token(tokens[|tokens| - 1])]
  }

  /** The stored message ids, assistant first, each only when present. */
  function IdFrames(assistantId: Option<string>, userId: Option<string>): (r: seq<Frame>)
    ensures forall i :: 0 <= i < |r| ==> r[i].AssistantMsgId? || r[i].UserMsgId?
    ensures |r| == (if assistantId.Some? then 1 else 0) + (if userId.Some? then 1 else 0)
  {
    (if assistantId.Some? then [AssistantMsgId(assistantId.value)] else [])
    + (if userId.Some? then [UserMsgId(userId.value)] else [])
  }

  /** The frames sent once the token stream ends. */
  function EndFrames(end: FlowEnd): seq<Frame>
  {
    match end
    case Completed(a, u) => IdFrames(a, u) + [Complete]
    case ServiceFailure(detail) => [Error("Service error: " + detail)]
    case LlmFailure => [Error("AI service temporarily unavailable. Please try again.")]
    case OtherFailure => [Error(INTERNAL_ERROR)]
  }

  /** Everything a flow that runs to its end sends: its tokens in order, then its end frames. */
  function FlowFrames(tokens: seq<string>, end: FlowEnd): seq<Frame>
  {
    TokenFrames(tokens) + EndFrames(end)
  }

  function CountFrames(frames: seq<Frame>, f: Frame): nat
  {
    if frames == [] then 0
    else CountFrames(frames[..|frames| - 1], f) + (if frames[|frames| - 1] == f then 1 else 0)
  }

  lemma {:induction false} CountFramesAbsent(frames: seq<Frame>, f: Frame)
    requires f !in frames
    ensures CountFrames(frames, f) == 0
    decreases |frames|
  {
    if frames != [] {
      CountFramesAbsent(frames[..|frames| - 1], f);
    }
  }

  /**
   * A completed flow sends its tokens in order, then the assistant id and the
   * user id when present, and ends with exactly one completion frame and no
   * error frame.
   */
  lemma CompletedFlowFrames(tokens: seq<string>, a: Option<string>, u: Option<string>)
    ensures var frames := FlowFrames(tokens, Completed(a, u));
            frames[..|tokens|] == TokenFrames(tokens)
            && frames[|frames| - 1] == Complete
            && CountFrames(frames, Complete) == 1
            && forall i :: 0 <= i < |frames| ==> !frames[i].Error?
  {
    var body := TokenFrames(tokens) + IdFrames(a, u);
    CompletedBody(tokens, a, u);
    AppendedOnce(body, Complete);
    assert (body + [Complete])[..|tokens|] == body[..|tokens|];
  }

  /** A frame appended to frames without it and without errors occurs once, and no error is sent. */
  lemma AppendedOnce(body: seq<Frame>, f: Frame)
    requires f !in body && !f.Error?
    requires forall i :: 0 <= i < |body| ==> !body[i].Error?
    ensures CountFrames(body + [f], f) == 1
    ensures forall i :: 0 <= i < |body + [f]| ==> !(body + [f])[i].Error?
  {
    assert (body + [f])[..|body|] == body;
    CountFramesAbsent(body, f);
  }

  lemma CompletedBody(tokens: seq<string>, a: Option<string>, u: Option<string>)
    ensures var body := TokenFrames(tokens) + IdFrames(a, u);
            FlowFrames(tokens, Completed(a, u)) == body + [Complete]
            && body[..|tokens|] == TokenFrames(tokens)
            && Complete !in body
            && forall i :: 0 <= i < |body| ==> !body[i].Error?
  {
    var body := TokenFrames(tokens) + IdFrames(a, u);
    forall i | 0 <= i < |body| ensures !body[i].Error? && body[i] != Complete {
      if i >= |tokens| {
        assert body[i] == IdFrames(a, u)[i - |tokens|];
      }
    }
  }

  /** A failing flow sends its tokens and then exactly one error frame, and no completion frame. */
  lemma FailedFlowFrames(tokens: seq<string>, end: FlowEnd)
    requires !end.Completed?
    ensures var frames := FlowFrames(tokens, end);
            frames[..|tokens|] == TokenFrames(tokens)
            && |frames| == |tokens| + 1 && frames[|tokens|].Error?
            && Complete !in frames
  {
  }

  // ------------------------------------------------------------ the connection

  /**
   * The state of one connection: the frames sent, the close code once closed,
   * the flows started (numbered from 0), `active_flow_task` as the number of
   * the last started flow, and the flows that finished or were cancelled.
   */
  datatype SessionState = SessionState(
    sent: seq<Frame>,
    closeCode: Option<int>,
    started: seq<FlowStart>,
    active: Option<nat>,
    finished: set<nat>,
    cancelled: set<nat>)

  predicate Running(st: SessionState, id: nat)
  {
    id < |st.started| && id !in st.finished && id !in st.cancelled
  }

  /** At most one flow runs, and it is the active one. */
  ghost predicate OneRunning(st: SessionState)
  {
    (st.active.Some? ==> st.active.value < |st.started|)
    && forall id: nat :: Running(st, id) ==> st.active == Some(id)
  }

  /** `cancel_active_flow`: a running active flow is cancelled, and there is no active flow afterwards. */
  function CancelActive(st: SessionState): (r: SessionState)
    ensures r.active.None? && r.sent == st.sent && r.started == st.started && r.finished == st.finished
    ensures st.active.Some? && Running(st, st.active.value) ==> st.active.value in r.cancelled
    ensures forall id: nat :: Running(r, id) ==> Running(st, id) && st.active != Some(id)
  {
    var cancelled := if st.active.Some? && Running(st, st.active.value) then st.cancelled + {st.active.value}
                     else st.cancelled;
    st.(active := None, cancelled := cancelled)
  }

  /** The connection after handling one message. */
  function After(st: SessionState, o: Outcome): SessionState
  {
    match o
    case Reply(f) => st.(sent := st.sent + [f])
    case CloseWith(f, code) => st.(sent := st.sent + [f], closeCode := Some(code))
    case CloseRequested =>
      var c := CancelActive(st);
      c.(sent := c.sent + [Closed], closeCode := Some(CLOSE_NORMAL))
    case Start(flow) =>
      var c := if st.active.Some? && Running(st, st.active.value) then CancelActive(st) else st;
      c.(started := c.started + [flow], active := Some(|c.started|))
  }

  /** Handling a message keeps at most one flow running. */
  lemma AfterKeepsOneRunning(st: SessionState, o: Outcome)
    requires OneRunning(st)
    ensures OneRunning(After(st, o))
  {
    if o.Start? {
      var c := if st.active.Some? && Running(st, st.active.value) then CancelActive(st) else st;
      NothingRunsBeforeStart(st);
      var r := After(st, o);
      forall id: nat | Running(r, id) ensures r.active == Some(id) {
        assert id < |c.started| ==> Running(c, id);
      }
    }
  }

  /** Once a running active flow is cancelled, no flow runs. */
  lemma NothingRunsBeforeStart(st: SessionState)
    requires OneRunning(st)
    ensures var c := if st.active.Some? && Running(st, st.active.value) then CancelActive(st) else st;
            forall id: nat :: !Running(c, id)
  {
  }

  /** Starting a flow while another still runs cancels that one first. */
  lemma StartCancelsRunning(st: SessionState, flow: FlowStart)
    requires OneRunning(st)
    requires st.active.Some? && Running(st, st.active.value)
    ensures var r := After(st, Start(flow));
            st.active.value in r.cancelled && r.active == Some(|st.started|)
            && r.started == st.started + [flow] && r.sent == st.sent
  {
  }

  /** A `"close"` message cancels a running flow, sends one closed frame and closes with 1000. */
  lemma CloseRequestEndsSession(st: SessionState)
    requires OneRunning(st)
    ensures var r := After(st, CloseRequested);
            r.sent == st.sent + [Closed] && r.closeCode == Some(CLOSE_NORMAL)
            && (forall id: nat :: !Running(r, id))
            && (st.active.Some? && Running(st, st.active.value) ==> st.active.value in r.cancelled)
  {
    var c := CancelActive(st);
    var r := After(st, CloseRequested);
    forall id: nat ensures !Running(r, id) {
      assert Running(r, id) == Running(c, id);
    }
  }

  /** The connection for one WebSocket, as `websocket_chat`'s local state. */
  class Session {
    var sent: seq<Frame>
    var closeCode: Option<int>
    var started: seq<FlowStart>
    var active: Option<nat>
    var finished: set<nat>
    var cancelled: set<nat>

    constructor()
      ensures State() == SessionState([], None, [], None, {}, {})
    {
      sent := [];
      closeCode := None;
      started := [];
      active := None;
      finished := {};
      cancelled := {};
    }

    function State(): SessionState
      reads this
    {
      SessionState(sent, closeCode, started, active, finished, cancelled)
    }

    method CancelActiveFlow()
      modifies this
      ensures State() == CancelActive(old(State()))
    {
      if active.Some? && active.value < |started| && active.value !in finished && active.value !in cancelled {
        cancelled := cancelled + {active.value};
      }
      active := None;
    }

    /**
     * One received message: the rate verdict is an input (its limiter is not
     * part of this model), and the cost limiter is consulted only when the
     * rate check passed.
     */
    method HandleMessage(data: string, rateOk: bool, costs: CostLimiter.CostLimiter, conn: Connection,
                         s: Settings, codec: Codec)
      requires closeCode.None? && costs.Valid()
      modifies this
      ensures State() == After(old(State()), Dispatch(rateOk, costs.Allows(conn), data, s, codec))
    {
      var outcome;
      if !rateOk {
        outcome := CloseWith(Error(RateLimitMessage(s)), CLOSE_TRY_AGAIN_LATER);
      } else {
        var costOk := costs.IsAllowed(conn);
        if !costOk {
          outcome := CloseWith(Error(CostLimitMessage(s, codec)), CLOSE_TRY_AGAIN_LATER);
        } else {
          match codec.loads(data)
          case None =>
            outcome := Reply(Error(INVALID_JSON));
          case Some(msg) =>
            outcome := DispatchMessage(msg, codec);
        }
      }
      assert outcome == Dispatch(rateOk, costs.Allows(conn), data, s, codec);
      Apply(outcome);
    }

    /** Sends, closes, cancels or starts a flow as the outcome says. */
    method Apply(outcome: Outcome)
      modifies this
      ensures State() == After(old(State()), outcome)
    {
      match outcome
      case Reply(f) =>
        sent := sent + [f];
      case CloseWith(f, code) =>
        sent := sent + [f];
        closeCode := Some(code);
      case CloseRequested =>
        CancelActiveFlow();
        sent := sent + [Closed];
        closeCode := Some(CLOSE_NORMAL);
      case Start(flow) =>
        if active.Some? && active.value < |started| && active.value !in finished && active.value !in cancelled {
          CancelActiveFlow();
        }
        active := Some(|started|);
        started := started + [flow];
    }

    /** The running flow `id` streams its tokens, one frame each, in order. */
    method StreamTokens(id: nat, tokens: seq<string>)
      requires Running(State(), id)
      modifies this`sent
      ensures sent == old(sent) + TokenFrames(tokens)
    {
      var i := 0;
      while i < |tokens|
        invariant 0 <= i <= |tokens|
        invariant sent == old(sent) + TokenFrames(tokens[..i])
      {
        assert tokens[..i + 1][..i] == tokens[..i];
        sent := sent + [Token(tokens[i])];
        i := i + 1;
      }
      assert tokens[..i] == tokens;
    }

    /**
     * The running flow `id` ends: a reported total cost above zero is
     * recorded against both cost ledgers, the end frames are sent, and the
     * flow is finished.
     */
    method FinishFlow(id: nat, end: FlowEnd, totalCost: real, costs: CostLimiter.CostLimiter, conn: Connection)
      requires Running(State(), id) && costs.Valid()
      modifies this`sent, this`finished, costs.ipLimiter.store`counters
      ensures sent == old(sent) + EndFrames(end) && finished == old(finished) + {id}
      ensures costs.store().counters ==
        if totalCost > 0.0 then costs.Recorded(old(costs.store().counters), conn, totalCost)
        else old(costs.store().counters)
    {
      if totalCost > 0.0 {
        costs.RecordCost(conn, totalCost);
      }
      sent := sent + EndFrames(end);
      finished := finished + {id};
    }

    /** The client disconnected: the active flow is cancelled. */
    method Disconnect()
      modifies this
      ensures State() == CancelActive(old(State()))
    {
      CancelActiveFlow();
    }
  }

  /** A flow whose tokens and end are both sent has sent exactly its flow frames. */
  lemma StreamThenFinish(before: seq<Frame>, tokens: seq<string>, end: FlowEnd)
    ensures (before + TokenFrames(tokens)) + EndFrames(end) == before + FlowFrames(tokens, end)
  {
  }
}

=== FILE: chat_validators.dfy ===
/**
 * `ChatValidators`: the guards the chat service applies to session ids,
 * account ids, message content and roles, conversation ids and history
 * limits. Arguments are Python values (`PyJson.Json`); a rejection is the
 * `ValidationError` message.
 */
module ChatValidators {
  import opened Wrappers
  import opened Strings
  import opened PyJson

  const MAX_SESSION_ID_LENGTH: nat := 255
  const MAX_ACCOUNT_ID_LENGTH: nat := 255
  const MAX_MESSAGE_CONTENT_LENGTH: nat := 100000
  const MAX_CONVERSATION_LIMIT: nat := 1000

  const USER_ROLE := "user"
  const ASSISTANT_ROLE := "assistant"

  /** `validate_session_id`: required, a non-blank string, at most 255 characters once stripped. */
  function ValidateSessionId(sessionId: Json): (r: Result<string, string>)
    ensures r.Ok? <==> sessionId.Str? && !AllSpace(sessionId.s) && |Strip(sessionId.s)| <= MAX_SESSION_ID_LENGTH
    ensures r.Ok? ==> r.value == Strip(sessionId.s) && r.value != []
    ensures sessionId.Null? ==> r == Err("Session ID is required")
  {
    if sessionId.Null? then Err("Session ID is required")
    else if !sessionId.Str? || |Strip(sessionId.s)| == 0 then Err("Session ID must be a non-empty string")
    else
      var stripped := Strip(sessionId.s);
      if |stripped| > MAX_SESSION_ID_LENGTH then Err("Session ID too long (max 255 characters)")
      else Ok(stripped)
  }

  /** `validate_account_id`: None and blank strings mean no account; non-strings and long ids are rejected. */
  function ValidateAccountId(accountId: Json): (r: Result<Option<string>, string>)
    ensures accountId.Null? ==> r == Ok(None)
    ensures accountId.Str? && AllSpace(accountId.s) ==> r == Ok(None)
    ensures r.Err? <==> !accountId.Null? && (!accountId.Str? || |Strip(accountId.s)| > MAX_ACCOUNT_ID_LENGTH)
    ensures r.Ok? && r.value.Some? ==> accountId.Str? && r.value.value == Strip(accountId.s) && r.value.value != []
  {
    if accountId.Null? then Ok(None)
    else if !accountId.Str? then Err("Account ID must be a string")
    else
      var stripped := Strip(accountId.s);
      if |stripped| == 0 then Ok(None)
      else if |stripped| > MAX_ACCOUNT_ID_LENGTH then Err("Account ID too long (max 255 characters)")
      else Ok(Some(stripped))
  }

  /** `validate_message_content`: a string that is non-empty and at most 100000 characters once stripped. */
  function ValidateMessageContent(content: Json, role: string): (r: Result<string, string>)
    ensures r.Ok? <==> content.Str? && !AllSpace(content.s) && |Strip(content.s)| <= MAX_MESSAGE_CONTENT_LENGTH
    ensures r.Ok? ==> r.value == Strip(content.s)
    ensures r.Err? ==> StartsWith(r.error, "Message content ")
  {
    if !content.Str? then Err("Message content must be a string for role '" + role + "'")
    else
      var stripped := Strip(content.s);
      if |stripped| == 0 then Err("Message content cannot be empty for role '" + role + "'")
      else if |stripped| > MAX_MESSAGE_CONTENT_LENGTH then
        Err("Message content too long for role '" + role + "' (max 100KB)")
      else Ok(stripped)
  }

  /** `validate_message_role`: exactly the two stored roles. */
  function ValidateMessageRole(role: string): (r: Result<string, string>)
    ensures r.Ok? <==> role == USER_ROLE || role == ASSISTANT_ROLE
    ensures r.Ok? ==> r.value == role
  {
    if role != USER_ROLE && role != ASSISTANT_ROLE then
      Err("Invalid role: " + role + ". Must be 'user' or 'assistant'")
    else Ok(role)
  }

  /** `validate_conversation_id`: a positive integer, returned unchanged. */
  function ValidateConversationId(conversationId: Json): (r: Result<Json, string>)
    ensures r.Ok? <==> IsPyInt(conversationId) && PyIntValue(conversationId) > 0
    ensures r.Ok? ==> r.value == conversationId
  {
    if !IsPyInt(conversationId) || PyIntValue(conversationId) <= 0 then
      Err("Conversation ID must be a positive integer")
    else Ok(conversationId)
  }

  /** `validate_limit`: an integer in 1..1000, returned unchanged. */
  function ValidateLimit(limit: Json): (r: Result<Json, string>)
    ensures r.Ok? <==> IsPyInt(limit) && 1 <= PyIntValue(limit) <= MAX_CONVERSATION_LIMIT
    ensures r.Ok? ==> r.value == limit
  {
    if !IsPyInt(limit) || PyIntValue(limit) <= 0 then Err("Limit must be a positive integer")
    else if PyIntValue(limit) > MAX_CONVERSATION_LIMIT then Err("Limit too large (max 1000 messages)")
    else Ok(limit)
  }

  /** An accepted session id validates to itself. */
  lemma SessionIdFixedPoint(sessionId: Json)
    requires ValidateSessionId(sessionId).Ok?
    ensures ValidateSessionId(Str(ValidateSessionId(sessionId).value)) == ValidateSessionId(sessionId)
  {
    StripIdempotent(sessionId.s);
  }

  /** An accepted account id validates to itself. */
  lemma AccountIdFixedPoint(accountId: Json)
    requires ValidateAccountId(accountId).Ok? && ValidateAccountId(accountId).value.Some?
    ensures ValidateAccountId(Str(ValidateAccountId(accountId).value.value)) == ValidateAccountId(accountId)
  {
    StripIdempotent(accountId.s);
  }

  /** Accepted content validates to itself, whatever the role. */
  lemma MessageContentFixedPoint(content: Json, role: string, role': string)
    requires ValidateMessageContent(content, role).Ok?
    ensures ValidateMessageContent(Str(ValidateMessageContent(content, role).value), role') == ValidateMessageContent(content, role)
  {
    StripIdempotent(content.s);
  }

  /** Python's `True` passes as the integer 1. */
  lemma TrueIsALimit()
    ensures ValidateLimit(Bool(true)) == Ok(Bool(true))
    ensures ValidateConversationId(Bool(false)).Err?
  {
  }
}

=== FILE: connections.dfy ===
/** The parts of a WebSocket connection the limiters look at. */
module Connections {
  import opened Wrappers

  /**
   * `client` is Starlette's `websocket.client` (None when the server did not
   * record a peer; otherwise its host, possibly ""). Header names are stored
   * lower-case, since Starlette looks them up case-insensitively.
   */
  datatype Connection = Connection(client: Option<string>, headers: map<string, string>)

  /** `websocket.headers.get(name, "")`. */
  function Header(conn: Connection, name: string): string
  {
    if name in conn.headers then conn.headers[name] else ""
  }
}

=== FILE: cost_calculator.dfy ===
/**
 * The price of one LLM call from its token counts (`CostCalculator`).
 * Prices are per token, in US dollars, as configured.
 */
module CostCalculator {
  import opened PyJson

  /** The configured pricing: dollars per input token and per output token, and the model in use. */
  datatype Pricing = Pricing(inputCostPerToken: real, outputCostPerToken: real, model: string, provider: string)

  /** The triple `(input_cost, output_cost, total_cost)`. */
  datatype Costs = Costs(inputCost: real, outputCost: real, totalCost: real)

  function CalculateTokenCosts(p: Pricing, inputTokens: int, outputTokens: int): (c: Costs)
    ensures c.totalCost == c.inputCost + c.outputCost
    ensures inputTokens == 0 && outputTokens == 0 ==> c == Costs(0.0, 0.0, 0.0)
  {
    var inputCost := inputTokens as real * p.inputCostPerToken;
    var outputCost := outputTokens as real * p.outputCostPerToken;
    Costs(inputCost, outputCost, inputCost + outputCost)
  }

  /** Each part of the price is the token count times its per-token price. */
  lemma CostsArePerToken(p: Pricing, inputTokens: int, outputTokens: int)
    ensures CalculateTokenCosts(p, inputTokens, outputTokens).inputCost == inputTokens as real * p.inputCostPerToken
    ensures CalculateTokenCosts(p, inputTokens, outputTokens).outputCost == outputTokens as real * p.outputCostPerToken
  {
  }

  /** Pricing two calls separately costs the same as pricing their combined tokens. */
  lemma CostIsAdditive(p: Pricing, in1: int, out1: int, in2: int, out2: int)
    ensures CalculateTokenCosts(p, in1 + in2, out1 + out2).totalCost
            == CalculateTokenCosts(p, in1, out1).totalCost + CalculateTokenCosts(p, in2, out2).totalCost
  {
    assert (in1 + in2) as real * p.inputCostPerToken == in1 as real * p.inputCostPerToken + in2 as real * p.inputCostPerToken;
    assert (out1 + out2) as real * p.outputCostPerToken == out1 as real * p.outputCostPerToken + out2 as real * p.outputCostPerToken;
  }

  /** With non-negative prices, more tokens never cost less, and a call never costs less than nothing. */
  lemma CostIsMonotone(p: Pricing, in1: int, out1: int, in2: int, out2: int)
    requires p.inputCostPerToken >= 0.0 && p.outputCostPerToken >= 0.0
    requires 0 <= in1 <= in2 && 0 <= out1 <= out2
    ensures 0.0 <= CalculateTokenCosts(p, in1, out1).totalCost <= CalculateTokenCosts(p, in2, out2).totalCost
  {
    NonNegativeProduct(in1 as real, p.inputCostPerToken);
    NonNegativeProduct(out1 as real, p.outputCostPerToken);
    NonNegativeProduct((in2 - in1) as real, p.inputCostPerToken);
    NonNegativeProduct((out2 - out1) as real, p.outputCostPerToken);
    assert in2 as real * p.inputCostPerToken == in1 as real * p.inputCostPerToken + (in2 - in1) as real * p.inputCostPerToken;
    assert out2 as real * p.outputCostPerToken == out1 as real * p.outputCostPerToken + (out2 - out1) as real * p.outputCostPerToken;
  }

  lemma NonNegativeProduct(x: real, y: real)
    requires x >= 0.0 && y >= 0.0
    ensures x * y >= 0.0
  {
  }

  /** `get_pricing_info`: the configured prices, model and provider, unchanged. */
  function GetPricingInfo(p: Pricing): (info: map<string, Json>)
    ensures info.Keys == {"input_cost_per_token", "output_cost_per_token", "model", "provider"}
    ensures info["input_cost_per_token"] == Float(p.inputCostPerToken)
    ensures info["output_cost_per_token"] == Float(p.outputCostPerToken)
    ensures info["model"] == Str(p.model) && info["provider"] == Str(p.provider)
  {
    map["input_cost_per_token" := Float(p.inputCostPerToken),
        "output_cost_per_token" := Float(p.outputCostPerToken),
        "model" := Str(p.model),
        "provider" := Str(p.provider)]
  }

  /** The pricing can be read back from the pricing info. */
  lemma PricingInfoDeterminesPricing(p: Pricing, q: Pricing)
    requires GetPricingInfo(p) == GetPricingInfo(q)
    ensures p == q
  {
    assert GetPricingInfo(p)["input_cost_per_token"] == GetPricingInfo(q)["input_cost_per_token"];
    assert GetPricingInfo(p)["output_cost_per_token"] == GetPricingInfo(q)["output_cost_per_token"];
    assert GetPricingInfo(p)["model"] == GetPricingInfo(q)["model"];
    assert GetPricingInfo(p)["provider"] == GetPricingInfo(q)["provider"];
  }
}

=== FILE: cost_limiter.dfy ===
/**
 * Spending limits on LLM usage: one ledger per client address and one
 * global ledger, each a Redis float counter whose period starts at the
 * first spend recorded in it.
 */
module CostLimiter {
  import opened Wrappers
  import opened Strings
  import opened Connections
  import RedisStore

  const IP_KEY_PREFIX := "cost_limit:ip:"
  const GLOBAL_KEY := "cost_limit:global"

  const DEFAULT_IP_MAX_COST := 1.0
  const DEFAULT_IP_PERIOD_SECONDS := 168
  const DEFAULT_GLOBAL_MAX_COST := 10.0
  const DEFAULT_GLOBAL_PERIOD_SECONDS := 8760

  /**
   * The address the ledger is keyed by: the client host, or "unknown" when
   * there is no client; the proxy headers are consulted only when the host is "".
   */
  function RealIp(conn: Connection): (r: string)
    ensures conn.client.None? ==> r == "unknown"
    ensures conn.client.Some? && conn.client.value != "" ==> r == conn.client.value
    ensures conn.client == Some("") && Strip(Split(Header(conn, "x-forwarded-for"), ',')[0]) != "" ==>
              r == Strip(Split(Header(conn, "x-forwarded-for"), ',')[0])
  {
    var host := if conn.client.Some? then conn.client.value else "unknown";
    var forwarded := Strip(Split(Header(conn, "x-forwarded-for"), ',')[0]);
    if host != "" then host
    else if forwarded != "" then forwarded
    else if Header(conn, "x-real-ip") != "" then Header(conn, "x-real-ip")
    else if Header(conn, "cf-connecting-ip") != "" then Header(conn, "cf-connecting-ip")
    else Header(conn, "x-original-forwarded-for")
  }

  /** The address cut to 45 characters, or "unknown" when there is none. */
  function NormalizedIp(conn: Connection): (r: string)
    ensures 0 < |r| <= 45
    ensures RealIp(conn) == "" ==> r == "unknown"
    ensures RealIp(conn) != "" ==>
              |r| == (if |RealIp(conn)| < 45 then |RealIp(conn)| else 45) && r == RealIp(conn)[..|r|]
  {
    var ip := RealIp(conn);
    if ip != "" then Take(ip, 45) else "unknown"
  }

  /** The ledger identifier: the first 32 hex digits of the SHA-256 of the normalized address. */
  function IpIdentifier(conn: Connection, sha256Hex: string -> string): (r: string)
    ensures var h := sha256Hex(NormalizedIp(conn));
            |r| == (if |h| < 32 then |h| else 32) && r == h[..|r|]
  {
    Take(sha256Hex(NormalizedIp(conn)), 32)
  }

  /** The per-address ledger key; the identifier can be read back from it. */
  function IpKey(ipId: string): (r: string)
    ensures |r| == |IP_KEY_PREFIX| + |ipId|
    ensures r[..|IP_KEY_PREFIX|] == IP_KEY_PREFIX && r[|IP_KEY_PREFIX|..] == ipId
  {
    IP_KEY_PREFIX + ipId
  }

  /** Ledger usage as the limiter reads it: `float(GET key or 0)`. */
  function Usage(counters: map<string, RedisStore.Counter>, now: int, key: string): real
  {
    RedisStore.GetCounter(counters, now, key).GetOr(0.0)
  }

  /**
   * A recorded spend: a key with no live value is SET with the spend and a
   * TTL of one period; a live key is incremented and keeps its TTL.
   */
  function Charge(counters: map<string, RedisStore.Counter>, now: int, key: string, cost: real, period: int)
    : map<string, RedisStore.Counter>
  {
    match RedisStore.GetCounter(counters, now, key)
    case None => counters[key := RedisStore.Counter(cost, Some(now + period))]
    case Some(_) => counters[key := RedisStore.Counter(counters[key].amount + cost, counters[key].expiresAt)]
  }

  /** The per-address ledger and the global ledger never share a key. */
  lemma KeysDistinct(ipId: string)
    ensures IpKey(ipId) != GLOBAL_KEY
  {
    assert IpKey(ipId)[11] == 'i';
    assert GLOBAL_KEY[11] == 'g';
  }

  /** Distinct identifiers get distinct ledgers. */
  lemma IpKeyInjective(a: string, b: string)
    requires IpKey(a) == IpKey(b)
    ensures a == b
  {
    assert a == IpKey(a)[|IP_KEY_PREFIX|..];
    assert b == IpKey(b)[|IP_KEY_PREFIX|..];
  }

  /** A connected client with a non-empty host is keyed by that host, whatever its headers say. */
  lemma HostShadowsHeaders(conn: Connection, other: map<string, string>)
    requires conn.client.Some? && conn.client.value != ""
    ensures RealIp(conn) == conn.client.value
    ensures RealIp(Connection(conn.client, other)) == RealIp(conn)
  {
  }

  /** Without a client the address is "unknown": proxy headers are never consulted then. */
  lemma NoClientIsUnknown(headers: map<string, string>)
    ensures NormalizedIp(Connection(None, headers)) == "unknown"
  {
  }

  /** The identifier depends only on the first 45 characters of the address. */
  lemma {:induction false} IdentifierUsesFirst45(c1: Connection, c2: Connection, sha256Hex: string -> string)
    requires RealIp(c1) != "" && RealIp(c2) != ""
    requires Take(RealIp(c1), 45) == Take(RealIp(c2), 45)
    ensures IpIdentifier(c1, sha256Hex) == IpIdentifier(c2, sha256Hex)
  {
    assert NormalizedIp(c1) == NormalizedIp(c2);
  }

  /** A spend adds exactly its amount to the ledger it is recorded in. */
  lemma {:induction false} ChargeAdds(counters: map<string, RedisStore.Counter>, now: int, key: string, cost: real, period: int)
    requires period > 0
    ensures Usage(Charge(counters, now, key, cost, period), now, key) == Usage(counters, now, key) + cost
  {
    match RedisStore.GetCounter(counters, now, key)
    case None =>
    case Some(_) =>
      assert RedisStore.Live(counters[key], now);
  }

  /** A spend leaves every other ledger alone. */
  lemma ChargeFrames(counters: map<string, RedisStore.Counter>, now: int, key: string, cost: real, period: int, other: string)
    requires other != key
    ensures other in Charge(counters, now, key, cost, period) <==> other in counters
    ensures other in counters ==> Charge(counters, now, key, cost, period)[other] == counters[other]
  {
  }

  /**
   * The first spend in a period fixes when the period ends; later spends in
   * the same period do not move it.
   */
  lemma ChargeKeepsPeriodEnd(counters: map<string, RedisStore.Counter>, now: int, key: string, cost: real, period: int)
    ensures RedisStore.GetCounter(counters, now, key).None? ==>
      Charge(counters, now, key, cost, period)[key].expiresAt == Some(now + period)
    ensures RedisStore.GetCounter(counters, now, key).Some? ==>
      Charge(counters, now, key, cost, period)[key].expiresAt == counters[key].expiresAt
  {
  }

  /**
   * The limit gates calls, not spends: a ledger just under its limit admits a
   * call whose recorded cost then takes it over the limit.
   */
  lemma RecordingCanExceedLimit()
    ensures var before := map[GLOBAL_KEY := RedisStore.Counter(9.5, Some(100))];
            var after := Charge(before, 0, GLOBAL_KEY, 2.0, DEFAULT_GLOBAL_PERIOD_SECONDS);
            Usage(before, 0, GLOBAL_KEY) < DEFAULT_GLOBAL_MAX_COST && Usage(after, 0, GLOBAL_KEY) > DEFAULT_GLOBAL_MAX_COST
  {
    ChargeAdds(map[GLOBAL_KEY := RedisStore.Counter(9.5, Some(100))], 0, GLOBAL_KEY, 2.0, DEFAULT_GLOBAL_PERIOD_SECONDS);
  }

  /** Once the period set by the first spend is over, the ledger reads zero again. */
  lemma ExpiredLedgerReadsZero(counters: map<string, RedisStore.Counter>, now: int, key: string)
    requires key in counters && counters[key].expiresAt.Some? && now >= counters[key].expiresAt.value
    ensures Usage(counters, now, key) == 0.0
  {
  }

  /** The per-address limiter (`IPCostLimiter`). */
  class IPCostLimiter {
    const store: RedisStore.Store
    const maxCost: real
    const periodSeconds: int

    constructor(store: RedisStore.Store, maxCost: real, periodSeconds: int)
      ensures this.store == store && this.maxCost == maxCost && this.periodSeconds == periodSeconds
    {
      this.store := store;
      this.maxCost := maxCost;
      this.periodSeconds := periodSeconds;
    }

    /** Whether the limiter lets a call through; a failing store lets everything through. */
    predicate Admits(ipId: string)
      reads store
    {
      !store.reachable || Usage(store.counters, store.now, IpKey(ipId)) < maxCost
    }

    method IsWithinLimits(ipId: string) returns (ok: bool)
      ensures ok <==> Admits(ipId)
      ensures store.reachable ==> (ok <==> Usage(store.counters, store.now, IpKey(ipId)) < maxCost)
    {
      if !store.reachable {
        return true;
      }
      var current := store.Get(IpKey(ipId)).GetOr(0.0);
      ok := current < maxCost;
    }

    method RecordCost(ipId: string, cost: real)
      modifies store`counters
      ensures store.counters ==
        if cost <= 0.0 || !store.reachable then old(store.counters)
        else Charge(old(store.counters), store.now, IpKey(ipId), cost, periodSeconds)
    {
      if cost <= 0.0 || !store.reachable {
        return;
      }
      var key := IpKey(ipId);
      if store.Get(key).None? {
        store.Set(key, cost, periodSeconds);
      } else {
        store.IncrByFloat(key, cost);
      }
    }

    method GetCurrentUsage(ipId: string) returns (usage: real)
      ensures usage == if store.reachable then Usage(store.counters, store.now, IpKey(ipId)) else 0.0
    {
      if !store.reachable {
        return 0.0;
      }
      usage := store.Get(IpKey(ipId)).GetOr(0.0);
    }
  }

  /** The limiter over all clients together (`GlobalCostLimiter`). */
  class GlobalCostLimiter {
    const store: RedisStore.Store
    const maxCost: real
    const periodSeconds: int

    constructor(store: RedisStore.Store, maxCost: real, periodSeconds: int)
      ensures this.store == store && this.maxCost == maxCost && this.periodSeconds == periodSeconds
    {
      this.store := store;
      this.maxCost := maxCost;
      this.periodSeconds := periodSeconds;
    }

    predicate Admits()
      reads store
    {
      !store.reachable || Usage(store.counters, store.now, GLOBAL_KEY) < maxCost
    }

    method IsWithinLimits() returns (ok: bool)
      ensures ok <==> Admits()
      ensures store.reachable ==> (ok <==> Usage(store.counters, store.now, GLOBAL_KEY) < maxCost)
    {
      if !store.reachable {
        return true;
      }
      var current := store.Get(GLOBAL_KEY).GetOr(0.0);
      ok := current < maxCost;
    }

    method RecordCost(cost: real)
      modifies store`counters
      ensures store.counters ==
        if cost <= 0.0 || !store.reachable then old(store.counters)
        else Charge(old(store.counters), store.now, GLOBAL_KEY, cost, periodSeconds)
    {
      if cost <= 0.0 || !store.reachable {
        return;
      }
      if store.Get(GLOBAL_KEY).None? {
        store.Set(GLOBAL_KEY, cost, periodSeconds);
      } else {
        store.IncrByFloat(GLOBAL_KEY, cost);
      }
    }

    method GetCurrentUsage() returns (usage: real)
      ensures usage == if store.reachable then Usage(store.counters, store.now, GLOBAL_KEY) else 0.0
    {
      if !store.reachable {
        return 0.0;
      }
      usage := store.Get(GLOBAL_KEY).GetOr(0.0);
    }
  }

  /** Both ledgers over one store (`CostLimiter`). */
  class CostLimiter {
    const ipLimiter: IPCostLimiter
    const globalLimiter: GlobalCostLimiter
    const sha256Hex: string -> string

    constructor(store: RedisStore.Store, ipMax: real, ipPeriod: int, globalMax: real, globalPeriod: int,
                sha256Hex: string -> string)
      ensures Valid() && ipLimiter.store == store
      ensures ipLimiter.maxCost == ipMax && ipLimiter.periodSeconds == ipPeriod
      ensures globalLimiter.maxCost == globalMax && globalLimiter.periodSeconds == globalPeriod
      ensures this.sha256Hex == sha256Hex
    {
      ipLimiter := new IPCostLimiter(store, ipMax, ipPeriod);
      globalLimiter := new GlobalCostLimiter(store, globalMax, globalPeriod);
      this.sha256Hex := sha256Hex;
    }

    /** The two limiters share one Redis store. */
    predicate Valid()
    {
      ipLimiter.store == globalLimiter.store
    }

    /**
     * A call is allowed when both ledgers admit it. The global ledger is
     * consulted first; both checks only read, so the order shows only in logging.
     */
    predicate Allows(conn: Connection)
      reads ipLimiter.store, globalLimiter.store
    {
      globalLimiter.Admits() && ipLimiter.Admits(IpIdentifier(conn, sha256Hex))
    }

    method IsAllowed(conn: Connection) returns (ok: bool)
      requires Valid()
      ensures ok <==> Allows(conn)
      ensures !ipLimiter.store.reachable ==> ok
    {
      var ipId := IpIdentifier(conn, sha256Hex);
      var globalOk := globalLimiter.IsWithinLimits();
      if !globalOk {
        return false;
      }
      ok := ipLimiter.IsWithinLimits(ipId);
    }

    /** Records a positive spend in the address's ledger and then in the global one. */
    method RecordCost(conn: Connection, cost: real)
      requires Valid()
      modifies ipLimiter.store`counters
      ensures store().counters == Recorded(old(store().counters), conn, cost)
    {
      if cost <= 0.0 {
        return;
      }
      var ipId := IpIdentifier(conn, sha256Hex);
      ipLimiter.RecordCost(ipId, cost);
      globalLimiter.RecordCost(cost);
    }

    function store(): RedisStore.Store
    {
      ipLimiter.store
    }

    /**
     * The ledgers after a spend is recorded: unchanged for a non-positive
     * spend or a failing store, otherwise charged to the caller's ledger and
     * then to the global one.
     */
    function Recorded(counters: map<string, RedisStore.Counter>, conn: Connection, cost: real)
      : map<string, RedisStore.Counter>
      reads ipLimiter.store
    {
      if cost <= 0.0 || !store().reachable then counters
      else Charge(Charge(counters, store().now, IpKey(IpIdentifier(conn, sha256Hex)), cost, ipLimiter.periodSeconds),
                  store().now, GLOBAL_KEY, cost, globalLimiter.periodSeconds)
    }
  }

  /**
   * A recorded call cost adds the same amount to the caller's ledger and to
   * the global ledger, and to no other ledger.
   */
  lemma {:induction false} RecordChargesBoth(counters: map<string, RedisStore.Counter>, now: int, ipId: string,
                                             cost: real, ipPeriod: int, globalPeriod: int, other: string)
    requires ipPeriod > 0 && globalPeriod > 0
    requires other != IpKey(ipId) && other != GLOBAL_KEY
    ensures var after := Charge(Charge(counters, now, IpKey(ipId), cost, ipPeriod), now, GLOBAL_KEY, cost, globalPeriod);
            Usage(after, now, IpKey(ipId)) == Usage(counters, now, IpKey(ipId)) + cost
            && Usage(after, now, GLOBAL_KEY) == Usage(counters, now, GLOBAL_KEY) + cost
            && Usage(after, now, other) == Usage(counters, now, other)
  {
    var mid := Charge(counters, now, IpKey(ipId), cost, ipPeriod);
    KeysDistinct(ipId);
    ChargeAdds(counters, now, IpKey(ipId), cost, ipPeriod);
    ChargeFrames(counters, now, IpKey(ipId), cost, ipPeriod, GLOBAL_KEY);
    ChargeAdds(mid, now, GLOBAL_KEY, cost, globalPeriod);
    ChargeFrames(mid, now, GLOBAL_KEY, cost, globalPeriod, IpKey(ipId));
    ChargeFrames(counters, now, IpKey(ipId), cost, ipPeriod, other);
    ChargeFrames(mid, now, GLOBAL_KEY, cost, globalPeriod, other);
  }
}

=== FILE: document_processor.dfy ===
/**
 * `DocumentProcessor`: the SDK-method documentation index behind the MCP
 * server. Initialisation points it at a documentation file, builds or
 * rebuilds the vector index when needed and marks it ready only after a
 * probe query returns results; searches are refused until then. The file
 * system, the vector store and the JSON file contents are parameters.
 */
module DocumentProcessor {
  import opened Wrappers
  import opened Strings
  import opened PyJson

  // ---------------------------------------------------------------------
  // Category counts
  // ---------------------------------------------------------------------

  /** `category_stats`: the categories in first-seen order, each with its count. */
  type CategoryStats = seq<(Json, nat)>

  /** The count of a category; 0 for one never seen. */
  function CountOf(stats: CategoryStats, c: Json): nat
  {
    if stats == [] then 0
    else if stats[0].0 == c then stats[0].1
    else CountOf(stats[1..], c)
  }

  /** The sum of all counts. */
  function Total(stats: CategoryStats): nat
  {
    if stats == [] then 0 else stats[0].1 + Total(stats[1..])
  }

  /** No category is listed twice. */
  predicate DistinctCategories(stats: CategoryStats)
  {
    forall i, j :: 0 <= i < j < |stats| ==> stats[i].0 != stats[j].0
  }

  /** `category_stats[c] = category_stats.get(c, 0) + 1`: a seen category is counted in place, a new one appended. */
  function Increment(stats: CategoryStats, c: Json): (r: CategoryStats)
    ensures |r| == |stats| || r == stats + [(c, 1)]
  {
    if stats == [] then [(c, 1)]
    else if stats[0].0 == c then [(c, stats[0].1 + 1)] + stats[1..]
    else [stats[0]] + Increment(stats[1..], c)
  }

  /** Incrementing adds one to that category's count and to no other. */
  lemma {:induction false} IncrementCounts(stats: CategoryStats, c: Json, d: Json)
    ensures CountOf(Increment(stats, c), d) == CountOf(stats, d) + (if c == d then 1 else 0)
    ensures Total(Increment(stats, c)) == Total(stats) + 1
  {
    if stats != [] && stats[0].0 != c {
      IncrementCounts(stats[1..], c, d);
      assert Increment(stats, c)[1..] == Increment(stats[1..], c);
    } else if stats != [] {
      assert Increment(stats, c)[1..] == stats[1..];
    }
  }

  /** Incrementing lists no category but the ones listed and the one counted. */
  lemma {:induction false} IncrementKeys(stats: CategoryStats, c: Json)
    ensures forall i :: 0 <= i < |Increment(stats, c)| ==>
              Increment(stats, c)[i].0 == c || exists j :: 0 <= j < |stats| && stats[j].0 == Increment(stats, c)[i].0
  {
    var r := Increment(stats, c);
    if stats != [] && stats[0].0 != c {
      IncrementKeys(stats[1..], c);
      var rest := Increment(stats[1..], c);
      forall i | 0 < i < |r|
        ensures r[i].0 == c || exists j :: 0 <= j < |stats| && stats[j].0 == r[i].0
      {
        assert r[i] == rest[i - 1];
        if rest[i - 1].0 != c {
          var j :| 0 <= j < |stats[1..]| && stats[1..][j].0 == rest[i - 1].0;
          assert stats[j + 1].0 == r[i].0;
        }
      }
      assert r[0] == stats[0];
    } else if stats != [] {
      forall i | 0 < i < |r|
        ensures r[i] == stats[i]
      {
      }
    }
  }

  /** Incrementing keeps the categories distinct. */
  lemma {:induction false} IncrementDistinct(stats: CategoryStats, c: Json)
    requires DistinctCategories(stats)
    ensures DistinctCategories(Increment(stats, c))
  {
    var r := Increment(stats, c);
    if stats != [] && stats[0].0 != c {
      IncrementDistinct(stats[1..], c);
      IncrementKeys(stats[1..], c);
      var rest := Increment(stats[1..], c);
      assert r == [stats[0]] + rest;
      forall i | 0 < i < |r|
        ensures r[i].0 != r[0].0
      {
        assert r[i] == rest[i - 1];
        if rest[i - 1].0 != c {
          var j :| 0 <= j < |stats[1..]| && stats[1..][j].0 == rest[i - 1].0;
          assert stats[j + 1].0 == rest[i - 1].0;
        }
      }
      forall i, j | 0 < i < j < |r|
        ensures r[i].0 != r[j].0
      {
        assert r[i] == rest[i - 1] && r[j] == rest[j - 1];
      }
    } else if stats != [] {
      forall i | 0 <= i < |r|
        ensures r[i].0 == stats[i].0
      {
      }
    }
  }

  /** The category of one method: its `category`, or `"unknown"`; a list or dict cannot be a key. */
  function CategoryOf(m: Json): (r: Result<Json, string>)
    ensures r.Ok? <==> m.Obj? && !GetOr(m.fields, "category", Str("unknown")).Arr?
                       && !GetOr(m.fields, "category", Str("unknown")).Obj?
    ensures r.Ok? ==> r.value == GetOr(m.fields, "category", Str("unknown"))
  {
    if !m.Obj? then Err("AttributeError")
    else
      var c := GetOr(m.fields, "category", Str("unknown"));
      if c.Arr? || c.Obj? then Err("TypeError") else Ok(c)
  }

  /** How many of the methods are in category `c`. */
  function Occurrences(methods: seq<Json>, c: Json): nat
  {
    if methods == [] then 0
    else Occurrences(methods[..|methods| - 1], c) + (if CategoryOf(methods[|methods| - 1]) == Ok(c) then 1 else 0)
  }

  /** The counting loop of `get_method_stats`, method by method; the first method that fails raises. */
  function CategoryCounts(methods: seq<Json>): (r: Result<CategoryStats, string>)
    ensures r.Ok? <==> forall i :: 0 <= i < |methods| ==> CategoryOf(methods[i]).Ok?
  {
    if methods == [] then Ok([])
    else
      var init := methods[..|methods| - 1];
      assert forall i :: 0 <= i < |init| ==> init[i] == methods[i];
      match CategoryCounts(init)
      case Err(e) => Err(e)
      case Ok(stats) =>
        match CategoryOf(methods[|methods| - 1])
        case Err(e) => Err(e)
        case Ok(c) => Ok(Increment(stats, c))
  }

  /**
   * The counts account for every method: they sum to the number of methods,
   * each category's count is the number of its methods, and no category is
   * listed twice.
   */
  lemma {:induction false} CategoryCountsSum(methods: seq<Json>, c: Json)
    requires CategoryCounts(methods).Ok?
    ensures Total(CategoryCounts(methods).value) == |methods|
    ensures CountOf(CategoryCounts(methods).value, c) == Occurrences(methods, c)
    ensures DistinctCategories(CategoryCounts(methods).value)
  {
    if methods != [] {
      var init := methods[..|methods| - 1];
      CategoryCountsSum(init, c);
      var stats := CategoryCounts(init).value;
      var d := CategoryOf(methods[|methods| - 1]).value;
      IncrementCounts(stats, d, c);
      IncrementDistinct(stats, d);
    }
  }

  /** The method list of the documentation: `doc.get("methods", [])`, which must be iterable as dicts. */
  function MethodsOf(doc: Json): (r: Result<seq<Json>, string>)
    ensures doc.Obj? && "methods" !in doc.fields ==> r == Ok([])
    ensures doc.Obj? && "methods" in doc.fields && doc.fields["methods"].Arr? ==> r == Ok(doc.fields["methods"].items)
    ensures !doc.Obj? ==> r.Err?
  {
    if !doc.Obj? then Err("AttributeError")
    else
      match GetOr(doc.fields, "methods", Arr([]))
      case Arr(items) => Ok(items)
      case Str(s) => if s == "" then Ok([]) else Err("AttributeError")
      case Obj(m) => if |m| == 0 then Ok([]) else Err("AttributeError")
      case _ => Err("TypeError")
  }

  /** The counting loop of `get_method_stats`. */
  method CountCategories(methods: seq<Json>) returns (r: Result<CategoryStats, string>)
    ensures r == CategoryCounts(methods)
  {
    var stats: CategoryStats := [];
    var n := 0;
    while n < |methods|
      invariant 0 <= n <= |methods|
      invariant CategoryCounts(methods[..n]) == Ok(stats)
    {
      assert methods[..n + 1][..n] == methods[..n];
      assert methods[..n + 1][n] == methods[n];
      var category := CategoryOf(methods[n]);
      if category.Err? {
        CountErrorPersists(methods, n + 1);
        return Err(category.error);
      }
      stats := Increment(stats, category.value);
      n := n + 1;
    }
    assert methods[..|methods|] == methods;
    r := Ok(stats);
  }

  /** Once a prefix fails, the whole count fails with the same error. */
  lemma {:induction false} CountErrorPersists(methods: seq<Json>, n: nat)
    requires n <= |methods| && CategoryCounts(methods[..n]).Err?
    ensures CategoryCounts(methods) == CategoryCounts(methods[..n])
    decreases |methods| - n
  {
    if n < |methods| {
      assert methods[..n + 1][..n] == methods[..n];
      CountErrorPersists(methods, n + 1);
    } else {
      assert methods[..n] == methods;
    }
  }

  // ---------------------------------------------------------------------
  // Search filters
  // ---------------------------------------------------------------------

  /** The category of a search result, which must be text: `r.get("category", "")`. */
  predicate FilterableResult(r: Json)
  {
    r.Obj? && GetOr(r.fields, "category", Str("")).Str?
  }

  /** A result in the category, ignoring case. */
  predicate InCategory(r: Json, c: string)
    requires FilterableResult(r)
  {
    Lower(GetOr(r.fields, "category", Str("")).s) == Lower(c)
  }

  /** A result the filter keeps: a dict whose text category is the one asked for. */
  predicate Kept(r: Json, c: string)
  {
    FilterableResult(r) && InCategory(r, c)
  }

  /**
   * The results in the category, in order. `FilterByCategory` applies it only
   * when every result is filterable, as the code raises otherwise.
   */
  function Keep(results: seq<Json>, c: string): (r: seq<Json>)
    ensures |r| <= |results|
  {
    if results == [] then []
    else
      var rest := Keep(results[1..], c);
      assert results == [results[0]] + results[1..];
      if Kept(results[0], c) then [results[0]] + rest else rest
  }

  /** Every result in the category is kept as often as it occurs, and no other result is. */
  lemma {:induction false} KeepCounts(results: seq<Json>, c: string, x: Json)
    ensures multiset(Keep(results, c))[x] == if Kept(x, c) then multiset(results)[x] else 0
    decreases |results|
  {
    if results != [] {
      KeepCounts(results[1..], c, x);
      assert results == [results[0]] + results[1..];
    }
  }

  /** The kept results are the results in the category, and only those. */
  lemma KeepMembers(results: seq<Json>, c: string)
    ensures forall x :: x in Keep(results, c) <==> x in results && Kept(x, c)
  {
    forall x
      ensures x in Keep(results, c) <==> x in results && Kept(x, c)
    {
      KeepCounts(results, c, x);
    }
  }

  lemma ConcatAssoc<T>(x: seq<T>, y: seq<T>, z: seq<T>)
    ensures x + (y + z) == (x + y) + z
  {
  }

  /**
   * Filtering two result lists in sequence filters each in turn: together
   * with the filter of a single result this fixes the order of the kept
   * results, which is their order in the input.
   */
  lemma {:induction false} KeepConcat(a: seq<Json>, b: seq<Json>, c: string)
    ensures Keep(a + b, c) == Keep(a, c) + Keep(b, c)
    decreases |a|
  {
    var ab := a + b;
    if a == [] {
      assert ab == b;
    } else {
      var tail := a[1..] + b;
      KeepConcat(a[1..], b, c);
      var head := if Kept(a[0], c) then [a[0]] else [];
      assert Keep(ab, c) == head + Keep(tail, c) by {
        assert ab[0] == a[0] && ab[1..] == tail;
      }
      assert Keep(a, c) == head + Keep(a[1..], c);
      ConcatAssoc(head, Keep(a[1..], c), Keep(b, c));
    }
  }

  /** The post-filter of `search_methods`: a result that is not a dict or whose category is not text raises. */
  function FilterByCategory(results: seq<Json>, c: string): (r: Result<seq<Json>, string>)
    ensures r.Ok? <==> forall i :: 0 <= i < |results| ==> FilterableResult(results[i])
    ensures r.Ok? ==> r.value == Keep(results, c)
  {
    if forall i :: 0 <= i < |results| ==> FilterableResult(results[i]) then Ok(Keep(results, c))
    else Err("AttributeError")
  }

  /** The query sent to the vector store: the category, when given, is appended as `" category:{c}"`. */
  function EnhancedQuery(query: string, categoryFilter: Option<string>): (r: string)
    ensures StartsWith(r, query)
    ensures categoryFilter.Some? && categoryFilter.value != "" ==> r == query + " category:" + categoryFilter.value
    ensures categoryFilter.None? || categoryFilter.value == "" ==> r == query
  {
    if categoryFilter.Some? && categoryFilter.value != "" then
      assert (query + " category:" + categoryFilter.value)[..|query|] == query;
      query + " category:" + categoryFilter.value
    else query
  }

  /** The failure `search_methods` returns: no methods, a count of 0. */
  function SearchFailure(query: string, error: string): (r: map<string, Json>)
    ensures "results_count" in r && r["results_count"] == Int(0) && "methods" in r && r["methods"] == Arr([])
    ensures "error" in r && r["error"] == Str(error)
  {
    map["query" := Str(query), "error" := Str(error), "results_count" := Int(0), "methods" := Arr([])]
  }

  /** The result `search_methods` returns: the count is the length of the methods. */
  function SearchSuccess(query: string, categoryFilter: Option<string>, methods: seq<Json>): (r: map<string, Json>)
    ensures "results_count" in r && "methods" in r && r["methods"] == Arr(methods) && r["results_count"] == Int(|r["methods"].items|)
    ensures "error" !in r
  {
    map["query" := Str(query), "category_filter" := (if categoryFilter.Some? then Str(categoryFilter.value) else Null),
        "results_count" := Int(|methods|), "methods" := Arr(methods)]
  }

  // ---------------------------------------------------------------------
  // Exact name lookup
  // ---------------------------------------------------------------------

  /** A result whose `method_name` is the name. */
  predicate NamedResult(r: Json, name: string)
  {
    r.Obj? && "method_name" in r.fields && r.fields["method_name"] == Str(name)
  }

  /** A result that can be compared by name: a dict with a `method_name`. */
  predicate ComparableResult(r: Json)
  {
    r.Obj? && "method_name" in r.fields
  }

  /**
   * The loop of `get_method_by_name`: the first result named exactly `name`;
   * `None` if there is none, or if a result before it cannot be compared
   * (the exception is caught and gives `None`).
   */
  function FirstByName(results: seq<Json>, name: string): (r: Option<Json>)
    ensures r.Some? ==> exists i :: 0 <= i < |results| && results[i] == r.value && NamedResult(results[i], name)
                                    && forall j :: 0 <= j < i ==> ComparableResult(results[j]) && !NamedResult(results[j], name)
  {
    if results == [] then None
    else if !ComparableResult(results[0]) then None
    else if NamedResult(results[0], name) then Some(results[0])
    else
      var r := FirstByName(results[1..], name);
      assert r.Some? ==> exists i :: 0 <= i < |results| && results[i] == r.value && NamedResult(results[i], name)
                                     && forall j :: 0 <= j < i ==> ComparableResult(results[j]) && !NamedResult(results[j], name) by {
        if r.Some? {
          var rest := results[1..];
          var i :| 0 <= i < |rest| && rest[i] == r.value && NamedResult(rest[i], name)
                   && forall j :: 0 <= j < i ==> ComparableResult(rest[j]) && !NamedResult(rest[j], name);
          assert results[i + 1] == rest[i];
          forall j | 0 <= j < i + 1
            ensures ComparableResult(results[j]) && !NamedResult(results[j], name)
          {
            if j > 0 {
              assert results[j] == rest[j - 1];
            }
          }
        }
      }
      r
  }

  /** A named result preceded only by comparable results of other names is the one found. */
  lemma {:induction false} FirstByNameFinds(results: seq<Json>, name: string, i: nat)
    requires i < |results| && NamedResult(results[i], name)
    requires forall j :: 0 <= j < i ==> ComparableResult(results[j]) && !NamedResult(results[j], name)
    ensures FirstByName(results, name) == Some(results[i])
  {
    if i > 0 {
      assert forall j :: 0 <= j < i - 1 ==> results[1..][j] == results[j + 1];
      FirstByNameFinds(results[1..], name, i - 1);
    }
  }

  // ---------------------------------------------------------------------
  // The processor
  // ---------------------------------------------------------------------

  /** How the index is brought up: rebuilt, built from the file, or left as it is. */
  datatype BuildAction = Rebuild | Load | Skip

  /** A forced rebuild rebuilds; otherwise a missing index is built and an existing one kept. */
  function PlannedBuild(forceRebuild: bool, indexExists: bool): (r: BuildAction)
    ensures r == Rebuild <==> forceRebuild
    ensures r == Load <==> !forceRebuild && !indexExists
    ensures r == Skip <==> !forceRebuild && indexExists
  {
    if forceRebuild then Rebuild else if !indexExists then Load else Skip
  }

  const NOT_VERIFIED := "Index verification failed: no results returned for test query"

  /** `_verify_index`: the probe query must return results. */
  function VerifyIndex(probe: Result<seq<Json>, string>): (r: Result<(), string>)
    ensures r.Ok? <==> probe.Ok? && |probe.value| > 0
    ensures probe.Ok? && |probe.value| == 0 ==> r == Err(NOT_VERIFIED)
  {
    match probe
    case Err(e) => Err(e)
    case Ok(results) => if |results| == 0 then Err(NOT_VERIFIED) else Ok(())
  }

  /**
   * `initialize_from_file` given whether the file fileExists, the index check,
   * the outcome of each build and the probe query: the build performed, or
   * the exception raised.
   */
  function InitOutcome(path: string, forceRebuild: bool, fileExists: string -> bool, indexCheck: Result<bool, string>,
                       build: BuildAction -> Result<(), string>, probe: Result<seq<Json>, string>): (r: Result<BuildAction, string>)
    ensures !fileExists(path) ==> r == Err("Documentation file not found: " + path)
    ensures r.Ok? <==> fileExists(path) && indexCheck.Ok?
                       && (PlannedBuild(forceRebuild, indexCheck.value) == Skip || build(PlannedBuild(forceRebuild, indexCheck.value)).Ok?)
                       && probe.Ok? && |probe.value| > 0
    ensures r.Ok? ==> r.value == PlannedBuild(forceRebuild, indexCheck.value)
  {
    if !fileExists(path) then Err("Documentation file not found: " + path)
    else
      match indexCheck
      case Err(e) => Err(e)
      case Ok(indexExists) =>
        var action := PlannedBuild(forceRebuild, indexExists);
        var built := if action == Skip then Ok(()) else build(action);
        if built.Err? then Err(built.error)
        else
          match VerifyIndex(probe)
          case Err(e) => Err(e)
          case Ok(_) => Ok(action)
  }

  /** What `get_method_stats` reports, or its error. */
  datatype MethodStats =
    | Stats(totalMethods: Json, categories: CategoryStats, indexName: Json, status: Json, documentationFile: Option<string>)
    | StatsError(error: string)

  /** What `refresh_index` reports. */
  datatype RefreshResult = Refreshed(stats: MethodStats) | RefreshFailed(message: string)

  /** What `get_status` reports. */
  datatype ProcessorStatus = ProcessorStatus(initialized: bool, documentationPath: Option<string>, hasDocumentationFile: bool)

  const NOT_INITIALIZED := "Document processor not initialized"

  /** The processor: the documentation file it was pointed at (`None` at first) and whether it is ready. */
  class Processor {
    var documentationPath: Option<string>
    var isInitialized: bool

    constructor()
      ensures documentationPath == None && !isInitialized
    {
      documentationPath := None;
      isInitialized := false;
    }

    /** Python's truth value of `documentation_path`. */
    predicate HasPath()
      reads this
    {
      documentationPath.Some? && documentationPath.value != ""
    }

    /**
     * `initialize_from_file`: a missing file raises and changes nothing; an
     * existing one becomes the documentation path; the processor becomes
     * ready only if the build (when one is planned) and the probe succeed,
     * and a failure never makes it unready again.
     */
    method InitializeFromFile(path: string, forceRebuild: bool, fileExists: string -> bool, indexCheck: Result<bool, string>,
                              build: BuildAction -> Result<(), string>, probe: Result<seq<Json>, string>)
      returns (r: Result<BuildAction, string>)
      modifies this
      ensures r == InitOutcome(path, forceRebuild, fileExists, indexCheck, build, probe)
      ensures documentationPath == (if fileExists(path) then Some(path) else old(documentationPath))
      ensures isInitialized == (old(isInitialized) || r.Ok?)
    {
      if !fileExists(path) {
        return Err("Documentation file not found: " + path);
      }
      documentationPath := Some(path);
      if indexCheck.Err? {
        return Err(indexCheck.error);
      }
      var indexExists := indexCheck.value;
      var action := Skip;
      if forceRebuild || !indexExists {
        if forceRebuild {
          action := Rebuild;
        } else {
          action := Load;
        }
        var built := build(action);
        if built.Err? {
          return Err(built.error);
        }
      }
      var verified := VerifyIndex(probe);
      if verified.Err? {
        return Err(verified.error);
      }
      isInitialized := true;
      r := Ok(action);
    }

    /**
     * `get_method_stats` given the vector store's health, whether files exist
     * and the documentation file's JSON: refused before initialisation; the
     * categories are counted only when the documentation file exists.
     */
    function GetMethodStats(health: Result<map<string, Json>, string>, fileExists: string -> bool,
                            docFile: Result<Json, string>): (r: MethodStats)
      reads this
      ensures !isInitialized ==> r == StatsError(NOT_INITIALIZED)
      ensures isInitialized && health.Err? ==> r == StatsError(health.error)
      ensures r.Stats? ==> isInitialized && health.Ok? && r.documentationFile == documentationPath
      ensures r.Stats? ==> r.totalMethods == GetOr(health.value, "document_count", Int(0))
                           && r.indexName == GetOr(health.value, "index_name", Null)
                           && r.status == GetOr(health.value, "status", Null)
      ensures isInitialized && health.Ok?
              && (HasPath() && fileExists(documentationPath.value) ==>
                    docFile.Ok? && MethodsOf(docFile.value).Ok? && CategoryCounts(MethodsOf(docFile.value).value).Ok?)
              ==> r.Stats?
      ensures r.Stats? && !(HasPath() && fileExists(documentationPath.value)) ==> r.categories == []
      ensures r.Stats? && HasPath() && fileExists(documentationPath.value) ==>
                docFile.Ok? && MethodsOf(docFile.value).Ok? && CategoryCounts(MethodsOf(docFile.value).value) == Ok(r.categories)
    {
      if !isInitialized then StatsError(NOT_INITIALIZED)
      else
        match health
        case Err(e) => StatsError(e)
        case Ok(h) =>
          var counts :=
            if HasPath() && fileExists(documentationPath.value) then
              match docFile
              case Err(e) => Err(e)
              case Ok(doc) =>
                match MethodsOf(doc)
                case Err(e) => Err(e)
                case Ok(methods) => CategoryCounts(methods)
            else Ok([]);
          match counts
          case Err(e) => StatsError(e)
          case Ok(stats) =>
            Stats(GetOr(h, "document_count", Int(0)), stats, GetOr(h, "index_name", Null), GetOr(h, "status", Null),
                  documentationPath)
    }

    /**
     * `search_methods` given the vector store's `retrieve`: refused before
     * initialisation; with a category, the query names it and only results in
     * that category (ignoring case) are kept.
     */
    function SearchMethods(query: string, k: int, categoryFilter: Option<string>,
                           retrieve: (string, int) -> Result<seq<Json>, string>): (r: map<string, Json>)
      reads this
      ensures !isInitialized ==> r == SearchFailure(query, NOT_INITIALIZED)
      ensures "results_count" in r && "methods" in r && r["methods"].Arr? && r["results_count"] == Int(|r["methods"].items|)
      ensures "error" !in r && (categoryFilter.None? || categoryFilter.value == "") ==>
                retrieve(query, k).Ok? && r["methods"] == Arr(retrieve(query, k).value)
      ensures "error" !in r && categoryFilter.Some? && categoryFilter.value != "" ==>
                var found := retrieve(query + " category:" + categoryFilter.value, k);
                found.Ok? && FilterByCategory(found.value, categoryFilter.value) == Ok(r["methods"].items)
    {
      if !isInitialized then SearchFailure(query, NOT_INITIALIZED)
      else
        var filterOn := categoryFilter.Some? && categoryFilter.value != "";
        match retrieve(EnhancedQuery(query, categoryFilter), k)
        case Err(e) => SearchFailure(query, e)
        case Ok(results) =>
          var kept := if filterOn then FilterByCategory(results, categoryFilter.value) else Ok(results);
          match kept
          case Err(e) => SearchFailure(query, e)
          case Ok(methods) => SearchSuccess(query, categoryFilter, methods)
    }

    /**
     * `get_method_by_name` given the vector store's `retrieve`: `None` before
     * initialisation or when the search raises; otherwise the first result
     * named exactly `methodName`.
     */
    method GetMethodByName(methodName: string, retrieve: (string, int) -> Result<seq<Json>, string>) returns (r: Option<Json>)
      ensures !isInitialized ==> r == None
      ensures isInitialized ==>
                var found := retrieve("method:" + methodName, 10);
                r == if found.Err? then None else FirstByName(found.value, methodName)
    {
      if !isInitialized {
        return None;
      }
      var found := retrieve("method:" + methodName, 10);
      if found.Err? {
        return None;
      }
      var results := found.value;
      var n := 0;
      while n < |results|
        invariant 0 <= n <= |results|
        invariant FirstByName(results, methodName) == FirstByName(results[n..], methodName)
      {
        var result := results[n];
        assert results[n..][0] == result && results[n..][1..] == results[n + 1..];
        if !ComparableResult(result) {
          return None;
        }
        if result.fields["method_name"] == Str(methodName) {
          return Some(result);
        }
        n := n + 1;
      }
      r := None;
    }

    /**
     * `refresh_index`: without a documentation path it reports an error and
     * changes nothing; otherwise it re-initialises from that path with a
     * forced rebuild and reports the new statistics, or the exception raised.
     */
    method RefreshIndex(fileExists: string -> bool, indexCheck: Result<bool, string>, build: BuildAction -> Result<(), string>,
                        probe: Result<seq<Json>, string>, health: Result<map<string, Json>, string>,
                        docFile: Result<Json, string>) returns (r: RefreshResult)
      modifies this
      ensures !old(HasPath()) ==> r == RefreshFailed("No documentation path set")
                                  && documentationPath == old(documentationPath) && isInitialized == old(isInitialized)
      ensures old(HasPath()) ==>
                var init := InitOutcome(old(documentationPath).value, true, fileExists, indexCheck, build, probe);
                documentationPath == old(documentationPath) && isInitialized == (old(isInitialized) || init.Ok?)
                && (init.Err? ==> r == RefreshFailed(init.error))
                && (init.Ok? ==> init.value == Rebuild && isInitialized && r == Refreshed(GetMethodStats(health, fileExists, docFile)))
    {
      if !HasPath() {
        return RefreshFailed("No documentation path set");
      }
      var init := InitializeFromFile(documentationPath.value, true, fileExists, indexCheck, build, probe);
      if init.Err? {
        return RefreshFailed(init.error);
      }
      var stats := GetMethodStats(health, fileExists, docFile);
      r := Refreshed(stats);
    }

    /** `get_status`: ready or not, the documentation path, and whether that file exists. */
    function GetStatus(fileExists: string -> bool): (r: ProcessorStatus)
      reads this
      ensures r.hasDocumentationFile <==> HasPath() && fileExists(documentationPath.value)
      ensures r.initialized == isInitialized && r.documentationPath == documentationPath
    {
      ProcessorStatus(isInitialized, documentationPath, HasPath() && fileExists(documentationPath.value))
    }
  }

  /** A fresh processor refuses searches, whatever the query. */
  lemma FreshProcessorRefusesSearch(p: Processor, query: string, k: int, categoryFilter: Option<string>,
                                    retrieve: (string, int) -> Result<seq<Json>, string>)
    requires !p.isInitialized
    ensures var r := p.SearchMethods(query, k, categoryFilter, retrieve);
            r["results_count"] == Int(0) && r["methods"] == Arr([]) && r["error"] == Str(NOT_INITIALIZED)
  {
  }
}

=== FILE: explorer_main.dfy ===
/**
 * `ExplorerMain`: the `ask_explorer` tool the external MCP server exposes to
 * other AI agents. The network and the optional account id are checked before
 * the AI Explorer API is called; the call itself (connecting and collecting
 * the streamed answer) is a parameter.
 */
module ExplorerMain {
  import opened Wrappers
  import opened Strings
  import opened PyJson

  /**
   * `_is_valid_account_id`: exactly three `.`-separated parts, each of which
   * `PyInt` reads (so signs, surrounding whitespace and underscores between
   * digits pass); an id without a dot is a single part, so it is invalid.
   */
  function IsValidAccountId(accountId: string): (r: bool)
    ensures r ==> '.' in accountId
    ensures r ==> forall i :: 0 <= i < |Split(accountId, '.')| ==> PyInt(Split(accountId, '.')[i]).Some?
  {
    var parts := Split(accountId, '.');
    |parts| == 3 && forall i :: 0 <= i < |parts| ==> PyInt(parts[i]).Some?
  }

  /** Every `shard.realm.num` written from three integers is accepted. */
  lemma AccountIdOfIntegers(shard: int, realm: int, num: int)
    ensures IsValidAccountId(IntToString(shard) + "." + IntToString(realm) + "." + IntToString(num))
  {
    var parts := [IntToString(shard), IntToString(realm), IntToString(num)];
    assert Join(parts[2..], ".") == IntToString(num);
    assert Join(parts[1..], ".") == IntToString(realm) + "." + IntToString(num);
    assert Join(parts, ".") == IntToString(shard) + "." + IntToString(realm) + "." + IntToString(num);
    SplitJoin(parts, '.');
    PyIntOfIntToString(shard);
    PyIntOfIntToString(realm);
    PyIntOfIntToString(num);
  }

  /** A part that `int()` rejects makes the id invalid, whatever the other parts. */
  lemma AccountIdRejectsNonInteger(accountId: string, i: nat)
    requires i < |Split(accountId, '.')| && PyInt(Split(accountId, '.')[i]).None?
    ensures !IsValidAccountId(accountId)
  {
  }

  const VALID_NETWORKS: seq<string> := ["mainnet", "testnet"]

  /** The rejection of the guards, if any: an unknown network first, then a malformed account id. */
  function Rejection(network: string, accountId: Option<string>): (r: Option<string>)
    ensures r.None? <==> network in VALID_NETWORKS && (accountId.None? || accountId.value == "" || IsValidAccountId(accountId.value))
    ensures network !in VALID_NETWORKS ==> r == Some("Invalid network '" + network + "'. Must be one of: " + "mainnet, testnet")
  {
    if network !in VALID_NETWORKS then
      assert Join(VALID_NETWORKS, ", ") == "mainnet, testnet" by {
        assert VALID_NETWORKS[1..] == ["testnet"];
        assert Join(VALID_NETWORKS, ", ") == "mainnet" + ", " + "testnet";
      }
      Some("Invalid network '" + network + "'. Must be one of: " + Join(VALID_NETWORKS, ", "))
    else if accountId.Some? && accountId.value != "" && !IsValidAccountId(accountId.value) then
      Some("Invalid account ID format '" + accountId.value + "'. Expected format: 0.0.123")
    else None
  }

  const NO_RESPONSE := "No response received from the Hedera AI Explorer. Please try again."

  /**
   * `ask_explorer` given the API call `fetch` (its answer, or the text of the
   * exception it raised): the guards first, then an empty answer is a failure
   * and any other answer is returned with the network and account id.
   */
  function AskExplorer(question: string, network: string, accountId: Option<string>,
                       fetch: (string, string, Option<string>) -> Result<string, string>): (r: map<string, Json>)
    ensures "success" in r && (r["success"] == Bool(true) || r["success"] == Bool(false))
    ensures r["success"] == Bool(true) <==>
              Rejection(network, accountId).None? && fetch(question, network, accountId).Ok?
              && fetch(question, network, accountId).value != ""
    ensures r["success"] == Bool(true) ==>
              r == map["success" := Bool(true), "response" := Str(fetch(question, network, accountId).value),
                       "network" := Str(network), "account_id" := (if accountId.Some? then Str(accountId.value) else Null)]
    ensures r["success"] == Bool(false) ==> r.Keys == {"success", "error"} && r["error"].Str?
  {
    match Rejection(network, accountId)
    case Some(error) => map["success" := Bool(false), "error" := Str(error)]
    case None =>
      match fetch(question, network, accountId)
      case Err(e) => map["success" := Bool(false), "error" := Str("Error querying Hedera blockchain: " + e)]
      case Ok(response) =>
        if response == "" then map["success" := Bool(false), "error" := Str(NO_RESPONSE)]
        else
          map["success" := Bool(true), "response" := Str(response), "network" := Str(network),
              "account_id" := (if accountId.Some? then Str(accountId.value) else Null)]
  }

  /** A rejected request never reaches the API: its result is the same whatever the call would do. */
  lemma RejectedBeforeConnecting(question: string, network: string, accountId: Option<string>,
                                 fetch: (string, string, Option<string>) -> Result<string, string>,
                                 other: (string, string, Option<string>) -> Result<string, string>)
    requires Rejection(network, accountId).Some?
    ensures AskExplorer(question, network, accountId, fetch) == AskExplorer(question, network, accountId, other)
    ensures AskExplorer(question, network, accountId, fetch)["error"] == Str(Rejection(network, accountId).value)
  {
  }

  /** An empty account id is not checked: it behaves as no account id at all, apart from the echo. */
  lemma EmptyAccountIdUnchecked(network: string)
    ensures Rejection(network, Some("")) == Rejection(network, None)
  {
  }

  /** An exception from the API becomes a failure carrying its text. */
  lemma ExceptionIsFailure(question: string, network: string, accountId: Option<string>,
                           fetch: (string, string, Option<string>) -> Result<string, string>)
    requires Rejection(network, accountId).None? && fetch(question, network, accountId).Err?
    ensures AskExplorer(question, network, accountId, fetch)
            == map["success" := Bool(false),
                   "error" := Str("Error querying Hedera blockchain: " + fetch(question, network, accountId).error)]
  {
  }
}

=== FILE: graphql_service.dfy ===
/**
 * `GraphQLService`: text-to-GraphQL against the Hgraph API. The schema types
 * the vector search finds are rendered as prompt text, the language model's
 * answer is cut down to the bare query, the query is posted, and the whole
 * pipeline is retried with the previous query and error as context. The
 * vector search, the language model, the HTTP exchange and Python's `str()`
 * are parameters.
 */
module GraphQLService {
  import opened Wrappers
  import opened Strings
  import opened PyJson

  // ---------------------------------------------------------------------
  // Type references
  // ---------------------------------------------------------------------

  /**
   * An introspection type reference: its kind, its name (`""` for null) and
   * the type it wraps (`None` for null).
   */
  datatype TypeInfo = TypeInfo(kind: string, name: string, ofType: Option<TypeInfo>)

  /** Every NON_NULL or LIST wrapper wraps a type, all the way down. */
  predicate WellFormedType(t: TypeInfo)
    decreases t
  {
    (t.kind == "NON_NULL" || t.kind == "LIST") ==> t.ofType.Some? && WellFormedType(t.ofType.value)
  }

  /**
   * `_format_type`: NON_NULL renders its inner type followed by `!`, LIST its
   * inner type in brackets, any other kind its name, or `Unknown` without one.
   * A wrapper without an inner type makes the lookup of the inner kind raise.
   */
  function FormatType(t: TypeInfo): (r: Result<string, string>)
    ensures r.Ok? <==> WellFormedType(t)
    ensures r.Ok? && t.kind == "NON_NULL" ==> r.value == FormatType(t.ofType.value).value + "!"
    ensures r.Ok? && t.kind == "LIST" ==> r.value == "[" + FormatType(t.ofType.value).value + "]"
    decreases t
  {
    if t.kind == "NON_NULL" || t.kind == "LIST" then
      match t.ofType
      case None => Err("TypeError")
      case Some(inner) =>
        match FormatType(inner)
        case Err(e) => Err(e)
        case Ok(s) => Ok(if t.kind == "NON_NULL" then s + "!" else "[" + s + "]")
    else if t.name != "" then Ok(t.name)
    else Ok("Unknown")
  }

  /** The structure a rendered type shows: wrappers around a name. */
  datatype TypeShape = NonNullShape(inner: TypeShape) | ListShape(inner: TypeShape) | NamedShape(name: string)

  /** The shape of a well-formed type reference; a nameless named type shows as `Unknown`. */
  function ShapeOf(t: TypeInfo): TypeShape
    requires WellFormedType(t)
    decreases t
  {
    if t.kind == "NON_NULL" then NonNullShape(ShapeOf(t.ofType.value))
    else if t.kind == "LIST" then ListShape(ShapeOf(t.ofType.value))
    else NamedShape(if t.name != "" then t.name else "Unknown")
  }

  /** Reads a rendered type back: a trailing `!` first, then surrounding brackets, else a name. */
  function ParseType(s: string): TypeShape
    decreases |s|
  {
    if |s| > 0 && s[|s| - 1] == '!' then NonNullShape(ParseType(s[..|s| - 1]))
    else if |s| >= 2 && s[0] == '[' && s[|s| - 1] == ']' then ListShape(ParseType(s[1..|s| - 1]))
    else NamedShape(s)
  }

  /** Names without `!` or `[`, as GraphQL names are. */
  predicate PlainNames(t: TypeInfo)
    decreases t
  {
    (forall i :: 0 <= i < |t.name| ==> t.name[i] != '!' && t.name[i] != '[')
    && (t.ofType.Some? ==> PlainNames(t.ofType.value))
  }

  /** The rendering loses nothing but the kinds of named types: reading it back gives the shape. */
  lemma {:induction false} FormatTypeRoundTrip(t: TypeInfo)
    requires WellFormedType(t) && PlainNames(t)
    ensures ParseType(FormatType(t).value) == ShapeOf(t)
    decreases t
  {
    var s := FormatType(t).value;
    if t.kind == "NON_NULL" {
      var inner := FormatType(t.ofType.value).value;
      FormatTypeRoundTrip(t.ofType.value);
      assert s == inner + "!";
      assert s[..|s| - 1] == inner;
    } else if t.kind == "LIST" {
      var inner := FormatType(t.ofType.value).value;
      FormatTypeRoundTrip(t.ofType.value);
      assert s == "[" + inner + "]";
      assert s[1..|s| - 1] == inner;
    } else if t.name != "" {
      assert s == t.name;
      assert s[0] != '[' && s[|s| - 1] != '!';
    } else {
      assert s == "Unknown";
    }
  }

  // ---------------------------------------------------------------------
  // Schema text
  // ---------------------------------------------------------------------

  /** A field or input field: name, type and description (`""` for none). */
  datatype FieldDef = FieldDef(name: string, fieldType: TypeInfo, description: string)

  /** An enum value: name and description (`""` for none). */
  datatype EnumValue = EnumValue(name: string, description: string)

  /**
   * A schema type the vector search returns: name, kind, description
   * (`None` for null) and its fields, input fields and enum values (empty
   * when absent or null).
   */
  datatype SchemaType = SchemaType(name: string, kind: string, description: Option<string>,
                                   fields: seq<FieldDef>, inputFields: seq<FieldDef>, enumValues: seq<EnumValue>)

  const NO_SCHEMAS := "No relevant schemas found for the query"

  /** `"  {name}: {type}"`, followed by `" - {description}"` when there is one. */
  function FieldLine(f: FieldDef): (r: Result<string, string>)
    ensures r.Ok? <==> WellFormedType(f.fieldType)
    ensures r.Ok? ==> StartsWith(r.value, "  " + f.name + ": " + FormatType(f.fieldType).value)
  {
    match FormatType(f.fieldType)
    case Err(e) => Err(e)
    case Ok(t) =>
      var head := "  " + f.name + ": " + t;
      Ok(if f.description != "" then head + " - " + f.description else head)
  }

  /** The lines of the fields, in order; the first field whose type cannot be rendered raises. */
  function FieldLines(fields: seq<FieldDef>): (r: Result<seq<string>, string>)
    ensures r.Ok? <==> forall i :: 0 <= i < |fields| ==> WellFormedType(fields[i].fieldType)
    ensures r.Ok? ==> |r.value| == |fields| && forall i :: 0 <= i < |fields| ==> r.value[i] == FieldLine(fields[i]).value
  {
    if fields == [] then Ok([])
    else
      var init := fields[..|fields| - 1];
      assert forall i :: 0 <= i < |init| ==> init[i] == fields[i];
      match FieldLines(init)
      case Err(e) => Err(e)
      case Ok(lines) =>
        match FieldLine(fields[|fields| - 1])
        case Err(e) => Err(e)
        case Ok(line) => Ok(lines + [line])
  }

  /** `"  {name}"`, followed by `" - {description}"` when there is one. */
  function ValueLine(v: EnumValue): string
  {
    var head := "  " + v.name;
    if v.description != "" then head + " - " + v.description else head
  }

  /** The section a type's kind calls for: its fields, its input fields or its values, when it has any. */
  function SectionLines(t: SchemaType): (r: Result<seq<string>, string>)
    ensures t.kind == "OBJECT" && |t.fields| > 0 ==> r.Ok? ==> |r.value| == 1 + |t.fields| && r.value[0] == "Fields:"
    ensures t.kind == "INPUT_OBJECT" && |t.inputFields| > 0 ==> r.Ok? ==> |r.value| == 1 + |t.inputFields| && r.value[0] == "Input Fields:"
    ensures t.kind == "ENUM" && |t.enumValues| > 0 ==> r == Ok(["Values:"] + seq(|t.enumValues|, i requires 0 <= i < |t.enumValues| => ValueLine(t.enumValues[i])))
    ensures t.kind != "OBJECT" && t.kind != "INPUT_OBJECT" && t.kind != "ENUM" ==> r == Ok([])
  {
    if t.kind == "OBJECT" && |t.fields| > 0 then
      match FieldLines(t.fields)
      case Err(e) => Err(e)
      case Ok(lines) => Ok(["Fields:"] + lines)
    else if t.kind == "INPUT_OBJECT" && |t.inputFields| > 0 then
      match FieldLines(t.inputFields)
      case Err(e) => Err(e)
      case Ok(lines) => Ok(["Input Fields:"] + lines)
    else if t.kind == "ENUM" && |t.enumValues| > 0 then
      Ok(["Values:"] + seq(|t.enumValues|, i requires 0 <= i < |t.enumValues| => ValueLine(t.enumValues[i])))
    else Ok([])
  }

  /** `"Description: {d}"` when the description is non-empty. */
  function DescriptionLines(t: SchemaType): (r: seq<string>)
    ensures |r| <= 1
    ensures |r| == 1 <==> t.description.Some? && t.description.value != ""
  {
    if t.description.Some? && t.description.value != "" then ["Description: " + t.description.value] else []
  }

  /** The heading line of a type. */
  function Heading(t: SchemaType): string
  {
    "GraphQL " + t.kind + " " + t.name + ":"
  }

  /** The lines of one type: its heading, its description, its section, a blank line. */
  function TypeLines(t: SchemaType): (r: Result<seq<string>, string>)
    ensures r.Ok? <==> SectionLines(t).Ok?
    ensures r.Ok? ==> r.value == [Heading(t)] + DescriptionLines(t) + SectionLines(t).value + [""]
  {
    match SectionLines(t)
    case Err(e) => Err(e)
    case Ok(section) => Ok([Heading(t)] + DescriptionLines(t) + section + [""])
  }

  /** The lines of all types, in the order the search ranked them. */
  function SchemaLines(types: seq<SchemaType>): (r: Result<seq<string>, string>)
    ensures r.Ok? <==> forall i :: 0 <= i < |types| ==> SectionLines(types[i]).Ok?
    ensures r.Ok? ==> |r.value| >= 2 * |types|
  {
    if types == [] then Ok([])
    else
      var init := types[..|types| - 1];
      assert forall i :: 0 <= i < |init| ==> init[i] == types[i];
      match SchemaLines(init)
      case Err(e) => Err(e)
      case Ok(lines) =>
        match TypeLines(types[|types| - 1])
        case Err(e) => Err(e)
        case Ok(more) => Ok(lines + more)
  }

  /**
   * The schema text of `_get_relevant_schemas`: no types raises; otherwise
   * the lines joined by newlines.
   */
  function RelevantSchemas(types: seq<SchemaType>): (r: Result<string, string>)
    ensures types == [] ==> r == Err(NO_SCHEMAS)
    ensures types != [] ==> (r.Ok? <==> forall i :: 0 <= i < |types| ==> SectionLines(types[i]).Ok?)
  {
    if types == [] then Err(NO_SCHEMAS)
    else
      match SchemaLines(types)
      case Err(e) => Err(e)
      case Ok(lines) => Ok(Join(lines, "\n"))
  }

  /**
   * `_get_relevant_schemas` as written: its logging loop slices each
   * description (`[:50]`) before the text is built, and slicing a null
   * description raises.
   */
  function RelevantSchemasAsWritten(types: seq<SchemaType>): (r: Result<string, string>)
    ensures (exists i :: 0 <= i < |types| && types[i].description.None?) ==> r == Err("TypeError")
    ensures (forall i :: 0 <= i < |types| ==> types[i].description.Some?) ==> r == RelevantSchemas(types)
  {
    if types == [] then Err(NO_SCHEMAS)
    else if exists i :: 0 <= i < |types| && types[i].description.None? then Err("TypeError")
    else RelevantSchemas(types)
  }

  /**
   * A type with a null description fails the whole search as written,
   * though the formatting handles it: the text is its heading, a newline,
   * and no description line.
   */
  lemma NullDescriptionFailsSearch(t: SchemaType)
    requires t.description.None? && SectionLines(t) == Ok([])
    ensures RelevantSchemasAsWritten([t]) == Err("TypeError")
    ensures RelevantSchemas([t]) == Ok(Heading(t) + "\n")
  {
    var types := [t];
    assert types[0].description.None?;
    assert DescriptionLines(t) == [];
    var lines := [Heading(t), ""];
    assert SectionLines(t).value == [];
    assert [Heading(t)] + DescriptionLines(t) + SectionLines(t).value + [""] == lines;
    assert TypeLines(t) == Ok(lines);
    assert types[..0] == [];
    assert SchemaLines(types) == Ok([] + lines);
    assert [] + lines == lines;
    assert lines[1..] == [""];
    assert Join(lines[1..], "\n") == "";
    assert Join(lines, "\n") == Heading(t) + "\n" + "";
    assert Heading(t) + "\n" + "" == Heading(t) + "\n";
    assert RelevantSchemas(types) == Ok(Join(lines, "\n"));
  }

  /** The lines of a list of types begin with the lines of its first type. */
  lemma {:induction false} SchemaLinesPrefix(types: seq<SchemaType>)
    requires types != [] && SchemaLines(types).Ok?
    ensures TypeLines(types[0]).Ok?
    ensures var first := TypeLines(types[0]).value;
            |first| <= |SchemaLines(types).value| && SchemaLines(types).value[..|first|] == first
  {
    var init := types[..|types| - 1];
    if init == [] {
      assert SchemaLines(types).value == [] + TypeLines(types[0]).value;
    } else {
      assert init[0] == types[0];
      SchemaLinesPrefix(init);
      var first := TypeLines(types[0]).value;
      var lines := SchemaLines(init).value;
      assert SchemaLines(types).value == lines + TypeLines(types[|types| - 1]).value;
      assert (lines + TypeLines(types[|types| - 1]).value)[..|first|] == lines[..|first|];
    }
  }

  /** The schema text opens with the heading of the best-ranked type. */
  lemma SchemaTextStartsWithFirstType(types: seq<SchemaType>)
    requires RelevantSchemas(types).Ok?
    ensures StartsWith(RelevantSchemas(types).value, Heading(types[0]))
  {
    SchemaLinesPrefix(types);
    var lines := SchemaLines(types).value;
    assert lines[0] == Heading(types[0]);
    JoinStartsWithFirst(lines, "\n");
  }

  /** A joined text starts with its first part. */
  lemma JoinStartsWithFirst(parts: seq<string>, sep: string)
    requires |parts| > 0
    ensures StartsWith(Join(parts, sep), parts[0])
  {
    if |parts| > 1 {
      assert (parts[0] + sep + Join(parts[1..], sep))[..|parts[0]|] == parts[0];
    }
  }

  /** The field loop of `_get_relevant_schemas` for one section. */
  method AppendFieldLines(lines: seq<string>, fields: seq<FieldDef>) returns (r: Result<seq<string>, string>)
    ensures FieldLines(fields).Ok? ==> r == Ok(lines + FieldLines(fields).value)
    ensures FieldLines(fields).Err? ==> r.Err?
  {
    var out := lines;
    var n := 0;
    while n < |fields|
      invariant 0 <= n <= |fields|
      invariant FieldLines(fields[..n]).Ok? && out == lines + FieldLines(fields[..n]).value
    {
      assert fields[..n + 1][..n] == fields[..n];
      assert fields[..n + 1][n] == fields[n];
      var field := fields[n];
      var typeText := FormatType(field.fieldType);
      if typeText.Err? {
        assert !WellFormedType(fields[n].fieldType);
        return Err(typeText.error);
      }
      var fieldLine := "  " + field.name + ": " + typeText.value;
      if field.description != "" {
        fieldLine := fieldLine + " - " + field.description;
      }
      assert FieldLine(field) == Ok(fieldLine);
      out := out + [fieldLine];
      n := n + 1;
    }
    assert fields[..|fields|] == fields;
    r := Ok(out);
  }

  /** The value loop of `_get_relevant_schemas` for an enum. */
  method AppendValueLines(lines: seq<string>, values: seq<EnumValue>) returns (r: seq<string>)
    ensures r == lines + seq(|values|, i requires 0 <= i < |values| => ValueLine(values[i]))
  {
    r := lines;
    var n := 0;
    while n < |values|
      invariant 0 <= n <= |values|
      invariant r == lines + seq(n, i requires 0 <= i < n => ValueLine(values[i]))
    {
      var value := values[n];
      var valueLine := "  " + value.name;
      if value.description != "" {
        valueLine := valueLine + " - " + value.description;
      }
      assert valueLine == ValueLine(values[n]);
      r := r + [valueLine];
      n := n + 1;
    }
  }

  /** The loop of `_get_relevant_schemas` that formats one type. */
  method FormatSchemaType(t: SchemaType) returns (r: Result<seq<string>, string>)
    ensures r == TypeLines(t)
  {
    var schemaLines := ["GraphQL " + t.kind + " " + t.name + ":"];
    if t.description.Some? && t.description.value != "" {
      schemaLines := schemaLines + ["Description: " + t.description.value];
    }
    assert schemaLines == [Heading(t)] + DescriptionLines(t);
    ghost var head := schemaLines;
    if t.kind == "OBJECT" && |t.fields| > 0 {
      var withFields := AppendFieldLines(schemaLines + ["Fields:"], t.fields);
      if withFields.Err? {
        return Err(FieldLines(t.fields).error);
      }
      schemaLines := withFields.value;
    } else if t.kind == "INPUT_OBJECT" && |t.inputFields| > 0 {
      var withFields := AppendFieldLines(schemaLines + ["Input Fields:"], t.inputFields);
      if withFields.Err? {
        return Err(FieldLines(t.inputFields).error);
      }
      schemaLines := withFields.value;
    } else if t.kind == "ENUM" && |t.enumValues| > 0 {
      schemaLines := AppendValueLines(schemaLines + ["Values:"], t.enumValues);
    }
    assert SectionLines(t).Ok? && schemaLines == head + SectionLines(t).value;
    r := Ok(schemaLines + [""]);
  }

  /** The formatting loop of `_get_relevant_schemas` over the types found. */
  method FormatRelevantSchemas(types: seq<SchemaType>) returns (r: Result<string, string>)
    ensures r == RelevantSchemas(types)
  {
    if types == [] {
      return Err(NO_SCHEMAS);
    }
    var formatted: seq<string> := [];
    var n := 0;
    while n < |types|
      invariant 0 <= n <= |types|
      invariant SchemaLines(types[..n]) == Ok(formatted)
    {
      assert types[..n + 1][..n] == types[..n];
      assert types[..n + 1][n] == types[n];
      var lines := FormatSchemaType(types[n]);
      if lines.Err? {
        SchemaLinesErrorPersists(types, n + 1);
        return Err(lines.error);
      }
      formatted := formatted + lines.value;
      n := n + 1;
    }
    assert types[..|types|] == types;
    r := Ok(Join(formatted, "\n"));
  }

  /** Once a prefix of the types fails, the whole list fails with the same error. */
  lemma {:induction false} SchemaLinesErrorPersists(types: seq<SchemaType>, n: nat)
    requires n <= |types| && SchemaLines(types[..n]).Err?
    ensures SchemaLines(types) == SchemaLines(types[..n])
    decreases |types| - n
  {
    if n < |types| {
      assert types[..n + 1][..n] == types[..n];
      SchemaLinesErrorPersists(types, n + 1);
    } else {
      assert types[..n] == types;
    }
  }

  // ---------------------------------------------------------------------
  // Query cleanup
  // ---------------------------------------------------------------------

  /** The markers that end the query, in the order they are tried. */
  const END_MARKERS: seq<string> := [
    "```", "**Explanation:", "**Note:", "*If you need", "Explanation:", "Note:",
    "\n\n**", "\n\n*", "\n\nExplanation", "\n\nNote"]

  /** Drops a leading ```` ```graphql ````, or else a leading ```` ``` ````. */
  function DropOpeningFence(s: string): (r: string)
    ensures StartsWith(s, "```graphql") ==> r == s[10..]
    ensures !StartsWith(s, "```graphql") && StartsWith(s, "```") ==> r == s[3..]
    ensures !StartsWith(s, "```") && !StartsWith(s, "```graphql") ==> r == s
  {
    if StartsWith(s, "```graphql") then s[10..]
    else if StartsWith(s, "```") then s[3..]
    else s
  }

  /**
   * Cuts the text before the first occurrence of the first marker (in list
   * order) that occurs in it; without any, the text is kept whole.
   */
  function CutAtMarker(s: string, markers: seq<string>): (r: string)
    ensures |r| <= |s| && r == s[..|r|]
    ensures |markers| > 0 && Contains(s, markers[0]) ==> r == s[..Find(s, markers[0], 0)]
    ensures |markers| > 0 && !Contains(s, markers[0]) ==> r == CutAtMarker(s, markers[1..])
  {
    if markers == [] then s
    else if Contains(s, markers[0]) then
      var k :| 0 <= k <= |s| - |markers[0]| && OccursAt(s, k, markers[0]);
      assert Find(s, markers[0], 0) != -1;
      s[..Find(s, markers[0], 0)]
    else CutAtMarker(s, markers[1..])
  }

  /** The cleanup in `generate_graphql`: strip, drop the opening fence, cut at the first end marker, strip. */
  function CleanGraphQL(raw: string): (r: string)
    ensures Stripped(r)
  {
    Strip(CutAtMarker(DropOpeningFence(Strip(raw)), END_MARKERS))
  }

  /** The text before the first occurrence of a non-empty pattern does not contain it. */
  lemma BeforeFirstOccurrence(s: string, p: string)
    requires |p| > 0 && Contains(s, p)
    ensures 0 <= Find(s, p, 0) && !Contains(s[..Find(s, p, 0)], p)
  {
    var f := Find(s, p, 0);
    assert f >= 0 by {
      var k :| 0 <= k <= |s| - |p| && OccursAt(s, k, p);
    }
    forall k | 0 <= k <= f - |p|
      ensures !OccursAt(s[..f], k, p)
    {
      assert s[..f][k..k + |p|] == s[k..k + |p|];
      assert !OccursAt(s, k, p);
    }
  }

  /** Cutting before the first fence leaves no fence. */
  lemma CutRemovesFence(s: string)
    ensures !Contains(CutAtMarker(s, END_MARKERS), "```")
  {
    var cut := CutAtMarker(s, END_MARKERS);
    assert END_MARKERS[0] == "```";
    if Contains(s, "```") {
      BeforeFirstOccurrence(s, "```");
    } else {
      SliceNoContains(s, 0, |cut|, "```");
      assert s[0..|cut|] == cut;
    }
  }

  /** No code fence survives the cleanup. */
  lemma CleanGraphQLHasNoFence(raw: string)
    ensures !Contains(CleanGraphQL(raw), "```")
  {
    var cut := CutAtMarker(DropOpeningFence(Strip(raw)), END_MARKERS);
    CutRemovesFence(DropOpeningFence(Strip(raw)));
    var a := StripOffset(cut);
    SliceNoContains(cut, a, a + |Strip(cut)|, "```");
  }

  /** In `"\n" + q + "\n```"` the first fence is the closing one when `q` has none. */
  lemma ClosingFenceFirst(q: string)
    requires !Contains(q, "```")
    ensures var s := "\n" + q + "\n```"; Contains(s, "```") && Find(s, "```", 0) == |q| + 2
  {
    var s := "\n" + q + "\n```";
    assert OccursAt(s, |q| + 2, "```");
    forall k | 0 <= k < |q| + 2
      ensures !OccursAt(s, k, "```")
    {
      if k == 0 {
        assert s[k..k + 3][0] == '\n';
      } else if k + 3 <= |q| + 1 {
        assert s[k..k + 3] == q[k - 1..k + 2];
        assert !OccursAt(q, k - 1, "```");
      } else {
        assert s[k..k + 3][|q| + 1 - k] == '\n';
      }
    }
    FindFirst(s, "```", 0, |q| + 2);
  }

  /** A query fenced as ```` ```graphql ```` on lines of its own comes out bare. */
  lemma CleanFencedGraphQL(q: string)
    requires Stripped(q) && !Contains(q, "```")
    ensures CleanGraphQL("```graphql\n" + q + "\n```") == q
  {
    var raw := "```graphql\n" + q + "\n```";
    assert raw[0] == '`' && raw[|raw| - 1] == '`';
    StripNoop(raw);
    assert raw[..10] == "```graphql";
    var s := raw[10..];
    assert s == "\n" + q + "\n```";
    assert DropOpeningFence(raw) == s;
    ClosingFenceFirst(q);
    assert END_MARKERS[0] == "```";
    assert CutAtMarker(s, END_MARKERS) == s[..|q| + 2];
    assert s[..|q| + 2] == "\n" + q + "\n";
    StripNewlines(q);
  }

  /** Cutting at markers none of which occurs keeps the text. */
  lemma {:induction false} CutWithoutMarkers(s: string, markers: seq<string>)
    requires forall i :: 0 <= i < |markers| ==> !Contains(s, markers[i])
    ensures CutAtMarker(s, markers) == s
  {
    if markers != [] {
      assert forall i :: 0 <= i < |markers[1..]| ==> markers[1..][i] == markers[i + 1];
      CutWithoutMarkers(s, markers[1..]);
    }
  }

  /** A bare stripped query with no fence and no end marker is left as it is. */
  lemma CleanPlainGraphQL(q: string)
    requires Stripped(q)
    requires forall i :: 0 <= i < |END_MARKERS| ==> !Contains(q, END_MARKERS[i])
    ensures CleanGraphQL(q) == q
  {
    StripNoop(q);
    NoFenceKept(q);
    CutWithoutMarkers(q, END_MARKERS);
  }

  /** A text without a fence keeps its start. */
  lemma NoFenceKept(q: string)
    requires !Contains(q, END_MARKERS[0])
    ensures DropOpeningFence(q) == q
  {
    assert END_MARKERS[0] == "```";
    if |q| >= 3 {
      assert !OccursAt(q, 0, "```");
      assert q[..3] == q[0..3];
      if |q| >= 10 {
        assert q[..10][..3] == q[..3];
        assert "```graphql"[..3] == "```";
      }
    }
  }

  /** The cleanup of `generate_graphql`, with its loop over the end markers. */
  method CleanGraphQLQuery(raw: string) returns (query: string)
    ensures query == CleanGraphQL(raw)
  {
    query := Strip(raw);
    if StartsWith(query, "```graphql") {
      query := query[10..];
    } else if StartsWith(query, "```") {
      query := query[3..];
    }
    ghost var s := query;
    ghost var cut := CutAtMarker(s, END_MARKERS);
    var i := 0;
    while i < |END_MARKERS|
      invariant 0 <= i <= |END_MARKERS|
      invariant query == s && cut == CutAtMarker(s, END_MARKERS[i..])
    {
      var marker := END_MARKERS[i];
      assert END_MARKERS[i..][0] == marker && END_MARKERS[i..][1..] == END_MARKERS[i + 1..];
      if Contains(query, marker) {
        query := query[..Find(query, marker, 0)];
        break;
      }
      i := i + 1;
    }
    assert query == cut;
    query := Strip(query);
  }

  // ---------------------------------------------------------------------
  // Generation
  // ---------------------------------------------------------------------

  /** The context a retry prompt adds. */
  datatype RetryContext = RetryContext(previousQuery: string, errorMessage: string, attemptNumber: int)

  /** The variables the prompt is filled with; `retry` selects the prompt with error context. */
  datatype PromptInput = PromptInput(question: string, schema: string, retry: Option<RetryContext>)

  /** The prompt input: the retry prompt exactly when both a previous query and an error are given. */
  function PromptFor(question: string, schema: string, previousQuery: Option<string>, errorMessage: Option<string>,
                     attempt: int): (r: PromptInput)
    ensures r.question == question && r.schema == schema
    ensures r.retry.Some? <==> previousQuery.Some? && errorMessage.Some?
    ensures r.retry.Some? ==> r.retry.value == RetryContext(previousQuery.value, errorMessage.value, attempt)
  {
    if previousQuery.Some? && errorMessage.Some? then
      PromptInput(question, schema, Some(RetryContext(previousQuery.value, errorMessage.value, attempt)))
    else PromptInput(question, schema, None)
  }

  /** What `generate_graphql` reports: the cleaned query, or the error. */
  datatype Generation = Generated(query: string) | GenerationFailed(error: string)

  const GENERATION_FAILED := "Failed to generate GraphQL query: "

  /**
   * `generate_graphql` given the outcome of the schema search (which may
   * raise) and the model `invoke`: the schema text and the prompt it selects
   * go to the model, and its answer is cleaned.
   */
  function Generate(question: string, search: Result<seq<SchemaType>, string>, previousQuery: Option<string>,
                    errorMessage: Option<string>, attempt: int,
                    invoke: PromptInput -> Result<string, string>): (r: Generation)
    ensures r.Generated? <==>
              search.Ok? && RelevantSchemas(search.value).Ok?
              && invoke(PromptFor(question, RelevantSchemas(search.value).value, previousQuery, errorMessage, attempt)).Ok?
    ensures r.Generated? ==>
              r.query == CleanGraphQL(invoke(PromptFor(question, RelevantSchemas(search.value).value,
                                                       previousQuery, errorMessage, attempt)).value)
    ensures r.Generated? ==> Stripped(r.query) && !Contains(r.query, "```")
    ensures r.GenerationFailed? ==> StartsWith(r.error, GENERATION_FAILED)
  {
    var schema := if search.Err? then Err(search.error) else RelevantSchemas(search.value);
    if schema.Err? then GenerationFailed(GENERATION_FAILED + schema.error)
    else
      match invoke(PromptFor(question, schema.value, previousQuery, errorMessage, attempt))
      case Err(e) => GenerationFailed(GENERATION_FAILED + e)
      case Ok(raw) =>
        CleanGraphQLHasNoFence(raw);
        Generated(CleanGraphQL(raw))
  }

  /** The dict `generate_graphql` returns for a generation. */
  function GenerationDict(question: string, g: Generation, attempt: int): (r: map<string, Json>)
    ensures "success" in r && r["success"] == Bool(g.Generated?)
    ensures "question" in r && r["question"] == Str(question) && "attempt_number" in r && r["attempt_number"] == Int(attempt)
    ensures g.Generated? <==> "graphql_query" in r
    ensures g.Generated? ==> r["graphql_query"] == Str(g.query) && |r| == 4
    ensures g.GenerationFailed? <==> "error" in r
    ensures g.GenerationFailed? ==> r["error"] == Str(g.error) && |r| == 4
  {
    match g
    case Generated(query) =>
      map["success" := Bool(true), "graphql_query" := Str(query), "question" := Str(question),
          "attempt_number" := Int(attempt)]
    case GenerationFailed(error) =>
      map["success" := Bool(false), "error" := Str(error), "question" := Str(question),
          "attempt_number" := Int(attempt)]
  }

  // ---------------------------------------------------------------------
  // Execution
  // ---------------------------------------------------------------------

  /** What the HTTP exchange gave: a JSON body, an error status, a timeout, or another failure. */
  datatype HttpOutcome = Response(body: Json) | StatusError(status: int, text: string) | TimedOut | Failed(text: string)

  /** What `execute_graphql` reports: the data and the length of its text, or the error and any GraphQL errors. */
  datatype Execution = Executed(data: Json, responseSize: int) | ExecutionFailed(error: string, errors: Option<Json>)

  /** The messages of a list of errors: each must be a dict; a missing message is `"Unknown error"`. */
  function ItemMessages(items: seq<Json>): (r: Result<seq<Json>, string>)
    ensures r.Ok? <==> forall i :: 0 <= i < |items| ==> items[i].Obj?
    ensures r.Ok? ==> |r.value| == |items|
                      && forall i :: 0 <= i < |items| ==> r.value[i] == GetOr(items[i].fields, "message", Str("Unknown error"))
  {
    if forall i :: 0 <= i < |items| ==> items[i].Obj? then
      Ok(seq(|items|, i requires 0 <= i < |items| => GetOr(items[i].fields, "message", Str("Unknown error"))))
    else Err("AttributeError")
  }

  /**
   * The comprehension over `errors`: a list's items; the characters of a text
   * and the keys of a dict have no `get`; other values cannot be iterated.
   */
  function ErrorMessages(errors: Json): (r: Result<seq<Json>, string>)
    ensures errors.Arr? ==> r == ItemMessages(errors.items)
    ensures !errors.Arr? && r.Ok? ==> r.value == []
  {
    match errors
    case Arr(items) => ItemMessages(items)
    case Str(s) => if s == "" then Ok([]) else Err("AttributeError")
    case Obj(m) => if |m| == 0 then Ok([]) else Err("AttributeError")
    case _ => Err("TypeError")
  }

  /** Whether every message is a text, as `"; ".join` needs. */
  predicate AllStr(messages: seq<Json>)
  {
    forall i :: 0 <= i < |messages| ==> messages[i].Str?
  }

  /** The texts of the messages. */
  function MessageTexts(messages: seq<Json>): (r: seq<string>)
    requires AllStr(messages)
    ensures |r| == |messages| && forall i :: 0 <= i < |r| ==> messages[i] == Str(r[i])
  {
    seq(|messages|, i requires 0 <= i < |messages| => messages[i].s)
  }

  /** The exception a non-dict body raises: `in` on it, then `[...]` or `.get`. */
  function NonDictBodyError(body: Json): string
  {
    match body
    case Str(s) => if Contains(s, "errors") then "TypeError" else "AttributeError"
    case Arr(items) => if Str("errors") in items then "TypeError" else "AttributeError"
    case _ => "TypeError"
  }

  const EXECUTION_FAILED := "Failed to execute query: "

  /**
   * `execute_graphql` given the HTTP outcome: a body with an `errors` entry
   * fails with the error messages joined by `"; "`; any other dict body
   * succeeds with its `data` and the length of its text; an error status, a
   * timeout and any exception fail with their own messages.
   */
  function Execute(outcome: HttpOutcome, show: Json -> string): (r: Execution)
    ensures r.Executed? <==> outcome.Response? && outcome.body.Obj? && "errors" !in outcome.body.fields
    ensures r.Executed? ==> r.data == GetOr(outcome.body.fields, "data", Obj(map[])) && r.responseSize == |PyStr(r.data, show)|
    ensures r.ExecutionFailed? && r.errors.Some? ==>
              outcome.Response? && outcome.body.Obj? && "errors" in outcome.body.fields
              && r.errors.value == outcome.body.fields["errors"] && StartsWith(r.error, "GraphQL errors: ")
    ensures outcome.TimedOut? ==> r == ExecutionFailed("GraphQL query timed out after 30 seconds", None)
  {
    match outcome
    case Response(body) =>
      if !body.Obj? then ExecutionFailed(EXECUTION_FAILED + NonDictBodyError(body), None)
      else if "errors" in body.fields then
        var errors := body.fields["errors"];
        match ErrorMessages(errors)
        case Err(e) => ExecutionFailed(EXECUTION_FAILED + e, None)
        case Ok(messages) =>
          if !AllStr(messages) then ExecutionFailed(EXECUTION_FAILED + "TypeError", None)
          else ExecutionFailed("GraphQL errors: " + Join(MessageTexts(messages), "; "), Some(errors))
      else
        var data := GetOr(body.fields, "data", Obj(map[]));
        Executed(data, |PyStr(data, show)|)
    case StatusError(status, text) => ExecutionFailed("HTTP error " + IntToString(status) + ": " + text, None)
    case TimedOut => ExecutionFailed("GraphQL query timed out after 30 seconds", None)
    case Failed(text) => ExecutionFailed(EXECUTION_FAILED + text, None)
  }

  /** GraphQL errors with text messages are reported joined by `"; "`, in order, and the list is kept. */
  lemma GraphQLErrorsJoined(fields: map<string, Json>, items: seq<Json>, show: Json -> string)
    requires "errors" in fields && fields["errors"] == Arr(items)
    requires forall i :: 0 <= i < |items| ==> items[i].Obj? && "message" in items[i].fields && items[i].fields["message"].Str?
    ensures Execute(Response(Obj(fields)), show)
            == ExecutionFailed("GraphQL errors: " + Join(seq(|items|, i requires 0 <= i < |items| => items[i].fields["message"].s), "; "),
                               Some(Arr(items)))
  {
    var messages := ItemMessages(items).value;
    assert AllStr(messages);
    assert MessageTexts(messages) == seq(|items|, i requires 0 <= i < |items| => items[i].fields["message"].s);
  }

  /** The dict `execute_graphql` returns for an execution. */
  function ExecutionDict(query: string, e: Execution): (r: map<string, Json>)
    ensures "success" in r && r["success"] == Bool(e.Executed?)
    ensures "graphql_query" in r && r["graphql_query"] == Str(query)
    ensures e.Executed? ==> r.Keys == {"success", "data", "graphql_query", "response_size"}
                            && r["data"] == e.data && r["response_size"] == Int(e.responseSize)
    ensures e.ExecutionFailed? ==> "error" in r && r["error"] == Str(e.error) && "data" !in r
    ensures e.ExecutionFailed? ==> ("errors" in r <==> e.errors.Some?)
  {
    match e
    case Executed(data, size) =>
      map["success" := Bool(true), "data" := data, "graphql_query" := Str(query), "response_size" := Int(size)]
    case ExecutionFailed(error, None) =>
      map["success" := Bool(false), "error" := Str(error), "graphql_query" := Str(query)]
    case ExecutionFailed(error, Some(errors)) =>
      map["success" := Bool(false), "error" := Str(error), "graphql_query" := Str(query), "errors" := errors]
  }

  // ---------------------------------------------------------------------
  // The retry loop
  // ---------------------------------------------------------------------

  /** Why the pipeline gave up: the last generation failed, the last execution failed, or no attempt was made. */
  datatype GiveUp = GenerationGaveUp(error: string) | ExecutionGaveUp(error: string) | NoAttempts

  /** What `text_to_graphql_query` reports: the data with the query, or why it gave up; and the attempts made. */
  datatype Answer =
    | Answered(query: string, data: Json, responseSize: int, totalAttempts: int)
    | Unanswered(reason: GiveUp, failedQuery: Option<string>, totalAttempts: int)

  /** The error text of a give-up, which names `max_retries`. */
  function GiveUpMessage(reason: GiveUp, maxRetries: int): string
  {
    match reason
    case GenerationGaveUp(error) =>
      "Failed to generate GraphQL after " + IntToString(maxRetries) + " attempts. Last error: " + error
    case ExecutionGaveUp(error) =>
      "Query execution failed after " + IntToString(maxRetries) + " attempts. Last error: " + error
    case NoAttempts =>
      "Text-to-GraphQL pipeline failed after " + IntToString(maxRetries) + " attempts"
  }

  /** The dict `text_to_graphql_query` returns for an answer. */
  function AnswerDict(question: string, maxRetries: int, a: Answer): (r: map<string, Json>)
    ensures "success" in r && r["success"] == Bool(a.Answered?)
    ensures "question" in r && r["question"] == Str(question)
    ensures "total_attempts" in r && r["total_attempts"] == Int(a.totalAttempts)
    ensures a.Answered? ==> "graphql_query" in r && r["graphql_query"] == Str(a.query) && "data" in r && r["data"] == a.data
    ensures a.Unanswered? ==> "error" in r && r["error"] == Str(GiveUpMessage(a.reason, maxRetries))
                              && ("graphql_query" in r <==> a.failedQuery.Some?)
  {
    match a
    case Answered(query, data, size, total) =>
      map["success" := Bool(true), "question" := Str(question), "graphql_query" := Str(query), "data" := data,
          "response_size" := Int(size), "total_attempts" := Int(total)]
    case Unanswered(reason, None, total) =>
      map["success" := Bool(false), "error" := Str(GiveUpMessage(reason, maxRetries)), "question" := Str(question),
          "total_attempts" := Int(total)]
    case Unanswered(reason, Some(query), total) =>
      map["success" := Bool(false), "error" := Str(GiveUpMessage(reason, maxRetries)), "question" := Str(question),
          "graphql_query" := Str(query), "total_attempts" := Int(total)]
  }

  /**
   * The pipeline from attempt `attempt` on, with the previous query and the
   * last error so far: each attempt generates (with the retry prompt when
   * both are known) and executes; a failure before the last attempt carries
   * its error (and a generated query) to the next one. `search` and
   * `respond` give each attempt's schema search and HTTP outcome.
   */
  function Attempts(question: string, maxRetries: int, attempt: int, previousQuery: Option<string>,
                    lastError: Option<string>, search: int -> Result<seq<SchemaType>, string>,
                    invoke: PromptInput -> Result<string, string>, respond: (int, string) -> HttpOutcome,
                    show: Json -> string): (r: Answer)
    ensures attempt > maxRetries ==> r == Unanswered(NoAttempts, None, maxRetries)
    ensures attempt <= maxRetries && r.Unanswered? ==> r.reason != NoAttempts
    decreases maxRetries - attempt
  {
    if attempt > maxRetries then Unanswered(NoAttempts, None, maxRetries)
    else
      match Generate(question, search(attempt), previousQuery, lastError, attempt, invoke)
      case GenerationFailed(error) =>
        if attempt < maxRetries then
          Attempts(question, maxRetries, attempt + 1, previousQuery, Some(error), search, invoke, respond, show)
        else Unanswered(GenerationGaveUp(error), None, attempt)
      case Generated(query) =>
        match Execute(respond(attempt, query), show)
        case ExecutionFailed(error, _) =>
          if attempt < maxRetries then
            Attempts(question, maxRetries, attempt + 1, Some(query), Some("Query execution failed: " + error),
                     search, invoke, respond, show)
          else Unanswered(ExecutionGaveUp(error), Some(query), attempt)
        case Executed(data, size) => Answered(query, data, size, attempt)
  }

  /** A failure reports all `max_retries` attempts as made (or none allowed). */
  lemma {:induction false} FailureUsesAllAttempts(question: string, maxRetries: int, attempt: int, previousQuery: Option<string>,
                                                lastError: Option<string>, search: int -> Result<seq<SchemaType>, string>,
                                                invoke: PromptInput -> Result<string, string>,
                                                respond: (int, string) -> HttpOutcome, show: Json -> string)
    ensures var r := Attempts(question, maxRetries, attempt, previousQuery, lastError, search, invoke, respond, show);
            r.Unanswered? ==> r.totalAttempts == maxRetries
    decreases maxRetries - attempt
  {
    var g := Generate(question, search(attempt), previousQuery, lastError, attempt, invoke);
    if attempt < maxRetries {
      if g.GenerationFailed? {
        FailureUsesAllAttempts(question, maxRetries, attempt + 1, previousQuery, Some(g.error), search, invoke, respond, show);
      } else {
        var e := Execute(respond(attempt, g.query), show);
        if e.ExecutionFailed? {
          FailureUsesAllAttempts(question, maxRetries, attempt + 1, Some(g.query), Some("Query execution failed: " + e.error),
                               search, invoke, respond, show);
        }
      }
    }
  }

  /** An answer comes at an attempt from the current one up to `max_retries`. */
  lemma {:induction false} AnswerWithinBudget(question: string, maxRetries: int, attempt: int, previousQuery: Option<string>,
                                                lastError: Option<string>, search: int -> Result<seq<SchemaType>, string>,
                                                invoke: PromptInput -> Result<string, string>,
                                                respond: (int, string) -> HttpOutcome, show: Json -> string)
    ensures var r := Attempts(question, maxRetries, attempt, previousQuery, lastError, search, invoke, respond, show);
            r.Answered? ==> attempt <= r.totalAttempts <= maxRetries
    decreases maxRetries - attempt
  {
    var g := Generate(question, search(attempt), previousQuery, lastError, attempt, invoke);
    if attempt < maxRetries {
      if g.GenerationFailed? {
        AnswerWithinBudget(question, maxRetries, attempt + 1, previousQuery, Some(g.error), search, invoke, respond, show);
      } else {
        var e := Execute(respond(attempt, g.query), show);
        if e.ExecutionFailed? {
          AnswerWithinBudget(question, maxRetries, attempt + 1, Some(g.query), Some("Query execution failed: " + e.error),
                               search, invoke, respond, show);
        }
      }
    }
  }

  /** The query of an answer is a cleaned one: stripped and without a fence. */
  lemma {:induction false} AnsweredQueryIsClean(question: string, maxRetries: int, attempt: int, previousQuery: Option<string>,
                                                lastError: Option<string>, search: int -> Result<seq<SchemaType>, string>,
                                                invoke: PromptInput -> Result<string, string>,
                                                respond: (int, string) -> HttpOutcome, show: Json -> string)
    ensures var r := Attempts(question, maxRetries, attempt, previousQuery, lastError, search, invoke, respond, show);
            r.Answered? ==> Stripped(r.query) && !Contains(r.query, "```")
    decreases maxRetries - attempt
  {
    var g := Generate(question, search(attempt), previousQuery, lastError, attempt, invoke);
    if attempt < maxRetries {
      if g.GenerationFailed? {
        AnsweredQueryIsClean(question, maxRetries, attempt + 1, previousQuery, Some(g.error), search, invoke, respond, show);
      } else {
        var e := Execute(respond(attempt, g.query), show);
        if e.ExecutionFailed? {
          AnsweredQueryIsClean(question, maxRetries, attempt + 1, Some(g.query), Some("Query execution failed: " + e.error),
                               search, invoke, respond, show);
        }
      }
    }
  }

  /** Without any attempt allowed, the pipeline fails at once and reports `max_retries` attempts. */
  lemma NoAttemptAllowed(question: string, maxRetries: int, search: int -> Result<seq<SchemaType>, string>,
                         invoke: PromptInput -> Result<string, string>, respond: (int, string) -> HttpOutcome,
                         show: Json -> string)
    requires maxRetries < 1
    ensures Attempts(question, maxRetries, 1, None, None, search, invoke, respond, show)
            == Unanswered(NoAttempts, None, maxRetries)
  {
  }

  /** An attempt whose generation and execution both succeed ends the pipeline with that attempt's data. */
  lemma AttemptSucceeds(question: string, maxRetries: int, attempt: int, previousQuery: Option<string>,
                        lastError: Option<string>, search: int -> Result<seq<SchemaType>, string>,
                        invoke: PromptInput -> Result<string, string>,
                        respond: (int, string) -> HttpOutcome, show: Json -> string, query: string, body: map<string, Json>)
    requires 1 <= attempt <= maxRetries
    requires Generate(question, search(attempt), previousQuery, lastError, attempt, invoke) == Generated(query)
    requires respond(attempt, query) == Response(Obj(body)) && "errors" !in body
    ensures var r := Attempts(question, maxRetries, attempt, previousQuery, lastError, search, invoke, respond, show);
            r.Answered? && r.totalAttempts == attempt && r.query == query && r.data == GetOr(body, "data", Obj(map[]))
  {
  }

  /**
   * A generation failure before the last attempt keeps the previous query
   * and passes its error on to the next attempt.
   */
  lemma GenerationFailureRetries(question: string, maxRetries: int, attempt: int, previousQuery: Option<string>,
                                 lastError: Option<string>, search: int -> Result<seq<SchemaType>, string>,
                                 invoke: PromptInput -> Result<string, string>,
                                 respond: (int, string) -> HttpOutcome, show: Json -> string, error: string)
    requires 1 <= attempt < maxRetries
    requires Generate(question, search(attempt), previousQuery, lastError, attempt, invoke) == GenerationFailed(error)
    ensures Attempts(question, maxRetries, attempt, previousQuery, lastError, search, invoke, respond, show)
            == Attempts(question, maxRetries, attempt + 1, previousQuery, Some(error), search, invoke, respond, show)
  {
  }

  /**
   * An execution failure before the last attempt gives the next attempt the
   * retry prompt with the query just generated and the execution error.
   */
  lemma ExecutionFailureRetries(question: string, maxRetries: int, attempt: int, previousQuery: Option<string>,
                                lastError: Option<string>, search: int -> Result<seq<SchemaType>, string>,
                                invoke: PromptInput -> Result<string, string>,
                                respond: (int, string) -> HttpOutcome, show: Json -> string, query: string, error: string,
                                errors: Option<Json>, schema: string)
    requires 1 <= attempt < maxRetries
    requires Generate(question, search(attempt), previousQuery, lastError, attempt, invoke) == Generated(query)
    requires Execute(respond(attempt, query), show) == ExecutionFailed(error, errors)
    ensures Attempts(question, maxRetries, attempt, previousQuery, lastError, search, invoke, respond, show)
            == Attempts(question, maxRetries, attempt + 1, Some(query), Some("Query execution failed: " + error),
                        search, invoke, respond, show)
    ensures PromptFor(question, schema, Some(query), Some("Query execution failed: " + error), attempt + 1).retry
            == Some(RetryContext(query, "Query execution failed: " + error, attempt + 1))
  {
  }

  /**
   * The schema store as the service is written: it is a `VectorStoreService`,
   * which has neither a `vector_search_service` attribute nor a
   * `retrieve_graphql_schemas` method, so every schema search raises
   * `AttributeError` before anything is retrieved.
   */
  const STORE_ATTRIBUTE_ERROR := "AttributeError"

  function UnboundStoreSearch(attempt: int): Result<seq<SchemaType>, string>
  {
    Err(STORE_ATTRIBUTE_ERROR)
  }

  /** With the unbound store every attempt fails to generate, up to the last one. */
  lemma {:induction false} UnboundSearchGivesUp(question: string, maxRetries: int, attempt: int,
                                              previousQuery: Option<string>, lastError: Option<string>,
                                              invoke: PromptInput -> Result<string, string>,
                                              respond: (int, string) -> HttpOutcome, show: Json -> string)
    requires 1 <= attempt <= maxRetries
    ensures Attempts(question, maxRetries, attempt, previousQuery, lastError, UnboundStoreSearch, invoke, respond, show)
            == Unanswered(GenerationGaveUp(GENERATION_FAILED + STORE_ATTRIBUTE_ERROR), None, maxRetries)
    decreases maxRetries - attempt
  {
    if attempt < maxRetries {
      UnboundSearchGivesUp(question, maxRetries, attempt + 1, previousQuery,
                           Some(GENERATION_FAILED + STORE_ATTRIBUTE_ERROR), invoke, respond, show);
    }
  }

  /**
   * The retry loop as written, every attempt searching through the unbound
   * store: it never answers. Whatever the model and the endpoint would do,
   * it spends all `max_retries` attempts and gives up with the generation
   * error.
   */
  function AttemptsAsWritten(question: string, maxRetries: int, invoke: PromptInput -> Result<string, string>,
                             respond: (int, string) -> HttpOutcome, show: Json -> string): (r: Answer)
    ensures !r.Answered?
    ensures maxRetries >= 1 ==> r == Unanswered(GenerationGaveUp(GENERATION_FAILED + STORE_ATTRIBUTE_ERROR), None, maxRetries)
  {
    if maxRetries < 1 then Attempts(question, maxRetries, 1, None, None, UnboundStoreSearch, invoke, respond, show)
    else
      UnboundSearchGivesUp(question, maxRetries, 1, None, None, invoke, respond, show);
      Attempts(question, maxRetries, 1, None, None, UnboundStoreSearch, invoke, respond, show)
  }

  /** `text_to_graphql_query`, with its retry loop. */
  method TextToGraphQLQuery(question: string, maxRetries: int, search: int -> Result<seq<SchemaType>, string>,
                            invoke: PromptInput -> Result<string, string>, respond: (int, string) -> HttpOutcome,
                            show: Json -> string) returns (r: map<string, Json>)
    ensures r == AnswerDict(question, maxRetries, Attempts(question, maxRetries, 1, None, None, search, invoke, respond, show))
  {
    var lastError: Option<string> := None;
    var previousQuery: Option<string> := None;
    var attempt := 1;
    while attempt <= maxRetries
      invariant attempt >= 1
      invariant Attempts(question, maxRetries, 1, None, None, search, invoke, respond, show)
                == Attempts(question, maxRetries, attempt, previousQuery, lastError, search, invoke, respond, show)
      decreases maxRetries - attempt
    {
      var graphqlResult := Generate(question, search(attempt), previousQuery, lastError, attempt, invoke);
      if graphqlResult.GenerationFailed? {
        lastError := Some(graphqlResult.error);
        if attempt < maxRetries {
          attempt := attempt + 1;
          continue;
        }
        return AnswerDict(question, maxRetries, Unanswered(GenerationGaveUp(lastError.value), None, attempt));
      }
      var graphqlQuery := graphqlResult.query;
      previousQuery := Some(graphqlQuery);
      var executionResult := Execute(respond(attempt, graphqlQuery), show);
      if executionResult.ExecutionFailed? {
        var executionError := executionResult.error;
        if attempt < maxRetries {
          lastError := Some("Query execution failed: " + executionError);
          attempt := attempt + 1;
          continue;
        }
        return AnswerDict(question, maxRetries, Unanswered(ExecutionGaveUp(executionError), Some(graphqlQuery), attempt));
      }
      return AnswerDict(question, maxRetries, Answered(graphqlQuery, executionResult.data, executionResult.responseSize, attempt));
    }
    r := AnswerDict(question, maxRetries, Unanswered(NoAttempts, None, maxRetries));
  }
}

=== FILE: health_monitor.dfy ===
/**
 * `HealthMonitor`: the MCP server's health check. The three service checks
 * (SDK, database, vector store) are aggregated into one status, which is
 * cached for 30 seconds. Times are whole microseconds since the epoch;
 * `isoformat` is a parameter. The service probes themselves (the SDK client,
 * a `SELECT 1` on the database, the vector collection) are inputs.
 */
module HealthMonitor {
  import opened Wrappers
  import opened Strings
  import opened PyJson

  /** The cache lifetime: 30 seconds. */
  const CACHE_DURATION_MICROS: int := 30 * 1000000

  /** What `asyncio.gather(..., return_exceptions=True)` yields for one check: a dict, or the exception raised. */
  datatype CheckResult = Report(fields: map<string, Json>) | Raised(text: string)

  /** A check counts as healthy when it is a dict whose `healthy` entry is truthy. */
  function Healthy(c: CheckResult): (r: bool)
    ensures r ==> c.Report? && "healthy" in c.fields
  {
    c.Report? && Truthy(GetOr(c.fields, "healthy", Bool(false)))
  }

  /** The entry reported for one service: its dict, or the exception's text as an unhealthy entry. */
  function ServiceEntry(c: CheckResult): (r: map<string, Json>)
    ensures c.Raised? ==> r == map["healthy" := Bool(false), "error" := Str(c.text)]
    ensures c.Report? ==> r == c.fields
  {
    match c
    case Report(fields) => fields
    case Raised(text) => map["healthy" := Bool(false), "error" := Str(text)]
  }

  /** The number of healthy checks. */
  function HealthyCount(checks: seq<CheckResult>): nat
  {
    if checks == [] then 0 else HealthyCount(checks[..|checks| - 1]) + (if Healthy(checks[|checks| - 1]) then 1 else 0)
  }

  /** The number of unhealthy checks. */
  function UnhealthyCount(checks: seq<CheckResult>): nat
  {
    if checks == [] then 0 else UnhealthyCount(checks[..|checks| - 1]) + (if Healthy(checks[|checks| - 1]) then 0 else 1)
  }

  /** Every check is counted once, as healthy or as unhealthy. */
  lemma {:induction false} CountsPartition(checks: seq<CheckResult>)
    ensures HealthyCount(checks) + UnhealthyCount(checks) == |checks|
  {
    if checks != [] {
      CountsPartition(checks[..|checks| - 1]);
    }
  }

  /** All checks are healthy iff every one is counted as healthy. */
  lemma {:induction false} AllHealthyCount(checks: seq<CheckResult>)
    ensures (forall i :: 0 <= i < |checks| ==> Healthy(checks[i])) <==> HealthyCount(checks) == |checks|
  {
    if checks != [] {
      var init := checks[..|checks| - 1];
      AllHealthyCount(init);
      CountsPartition(init);
      if forall i :: 0 <= i < |checks| ==> Healthy(checks[i]) {
        assert forall i :: 0 <= i < |init| ==> Healthy(init[i]) by {
          forall i | 0 <= i < |init| ensures Healthy(init[i]) {
            assert init[i] == checks[i];
          }
        }
      } else {
        var j :| 0 <= j < |checks| && !Healthy(checks[j]);
        if j < |init| {
          assert init[j] == checks[j];
        }
      }
    }
  }

  /** The aggregated status of one fresh check. */
  function HealthStatus(now: int, sdk: CheckResult, db: CheckResult, vector: CheckResult, isoformat: int -> string): (r: map<string, Json>)
    ensures r.Keys == {"healthy", "timestamp", "services", "summary"}
    ensures r["healthy"] == Bool(Healthy(sdk) && Healthy(db) && Healthy(vector))
  {
    var checks := [sdk, db, vector];
    map[
      "healthy" := Bool(Healthy(sdk) && Healthy(db) && Healthy(vector)),
      "timestamp" := Str(isoformat(now)),
      "services" := Obj(map["sdk" := Obj(ServiceEntry(sdk)), "database" := Obj(ServiceEntry(db)),
                            "vector_store" := Obj(ServiceEntry(vector))]),
      "summary" := Obj(map["total_services" := Int(3), "healthy_services" := Int(HealthyCount(checks)),
                           "unhealthy_services" := Int(UnhealthyCount(checks))])]
  }

  /** The summary counts add up to the three services, and all are healthy iff the status is. */
  lemma SummaryConsistent(now: int, sdk: CheckResult, db: CheckResult, vector: CheckResult, isoformat: int -> string)
    ensures var checks := [sdk, db, vector];
            HealthyCount(checks) + UnhealthyCount(checks) == 3
            && (HealthStatus(now, sdk, db, vector, isoformat)["healthy"] == Bool(true) <==> HealthyCount(checks) == 3)
  {
    var checks := [sdk, db, vector];
    CountsPartition(checks);
    AllHealthyCount(checks);
    assert (forall i :: 0 <= i < |checks| ==> Healthy(checks[i])) <==> Healthy(sdk) && Healthy(db) && Healthy(vector) by {
      assert checks[0] == sdk && checks[1] == db && checks[2] == vector;
    }
  }

  /**
   * The cached status is used iff the refresh is not forced, a previous check
   * exists, the cache is non-empty and less than 30 seconds have passed.
   */
  function UseCache(forceRefresh: bool, lastCheckTime: Option<int>, statusCache: map<string, Json>, now: int): (r: bool)
    ensures forceRefresh || lastCheckTime.None? || statusCache == map[] ==> !r
    ensures r ==> now < lastCheckTime.value + CACHE_DURATION_MICROS
  {
    !forceRefresh && lastCheckTime.Some? && |statusCache| > 0 && now - lastCheckTime.value < CACHE_DURATION_MICROS
  }

  /** The monitor: the time of the last fresh check and its status. */
  class Monitor {
    var lastCheckTime: Option<int>
    var statusCache: map<string, Json>

    constructor()
      ensures lastCheckTime.None? && statusCache == map[]
    {
      lastCheckTime := None;
      statusCache := map[];
    }

    /**
     * `check_health`: the cached status while it is fresh; otherwise the status
     * of the three checks, which replaces the cache and stamps it with `now`.
     */
    method CheckHealth(forceRefresh: bool, now: int, sdk: CheckResult, db: CheckResult, vector: CheckResult,
                       isoformat: int -> string) returns (status: map<string, Json>)
      modifies this
      ensures UseCache(forceRefresh, old(lastCheckTime), old(statusCache), now) ==>
                status == old(statusCache) && lastCheckTime == old(lastCheckTime) && statusCache == old(statusCache)
      ensures !UseCache(forceRefresh, old(lastCheckTime), old(statusCache), now) ==>
                status == HealthStatus(now, sdk, db, vector, isoformat)
                && statusCache == status && lastCheckTime == Some(now)
    {
      if !forceRefresh && lastCheckTime.Some? && |statusCache| > 0
         && now - lastCheckTime.value < CACHE_DURATION_MICROS {
        return statusCache;
      }
      status := HealthStatus(now, sdk, db, vector, isoformat);
      statusCache := status;
      lastCheckTime := Some(now);
    }
  }

  /** A fresh status is served from the cache for the next 30 seconds, unless a refresh is forced. */
  lemma FreshCheckIsCached(now: int, later: int, sdk: CheckResult, db: CheckResult, vector: CheckResult, isoformat: int -> string)
    requires now <= later < now + CACHE_DURATION_MICROS
    ensures UseCache(false, Some(now), HealthStatus(now, sdk, db, vector, isoformat), later)
    ensures !UseCache(true, Some(now), HealthStatus(now, sdk, db, vector, isoformat), later)
    ensures !UseCache(false, Some(now), HealthStatus(now, sdk, db, vector, isoformat), now + CACHE_DURATION_MICROS)
  {
    assert "healthy" in HealthStatus(now, sdk, db, vector, isoformat);
  }

  /** What the SDK probe found: the available methods, an SDK error, or another error. */
  datatype SdkProbe = Methods(names: seq<string>) | SdkFailure(message: string, errorCode: string) | SdkCrash(text: string)

  /** `_check_sdk_service`: healthy iff the SDK lists at least one method. */
  function CheckSdkService(probe: SdkProbe, timestamp: string): (r: map<string, Json>)
    ensures "healthy" in r && (r["healthy"] == Bool(true) <==> probe.Methods? && |probe.names| > 0)
    ensures r["healthy"] == Bool(true) || r["healthy"] == Bool(false)
    ensures probe.Methods? && |probe.names| > 0 ==> "available_methods_count" in r && r["available_methods_count"] == Int(|probe.names|)
  {
    match probe
    case Methods(names) =>
      if |names| == 0 then map["healthy" := Bool(false), "error" := Str("SDK service returned no available methods")]
      else map["healthy" := Bool(true), "available_methods_count" := Int(|names|), "last_check" := Str(timestamp)]
    case SdkFailure(message, code) =>
      map["healthy" := Bool(false), "error" := Str("SDK Error: " + message), "error_code" := Str(code)]
    case SdkCrash(text) =>
      map["healthy" := Bool(false), "error" := Str("Unexpected error: " + text)]
  }

  /** What the database probe found: the value of `SELECT 1`, a database error, or another error. */
  datatype DatabaseProbe = TestValue(value: Json) | DatabaseFailure(message: string, errorCode: string) | DatabaseCrash(text: string)

  /** Python's `v == 1`: true for the int 1, for `True` and for the float 1.0. */
  predicate EqualsOne(v: Json)
  {
    v == Int(1) || v == Bool(true) || v == Float(1.0)
  }

  /** `_check_database`: healthy iff the test query returns a value equal to 1. */
  function CheckDatabase(probe: DatabaseProbe, timestamp: string): (r: map<string, Json>)
    ensures "healthy" in r && (r["healthy"] == Bool(true) <==> probe.TestValue? && EqualsOne(probe.value))
    ensures r["healthy"] == Bool(true) || r["healthy"] == Bool(false)
  {
    match probe
    case TestValue(v) =>
      if !EqualsOne(v) then map["healthy" := Bool(false), "error" := Str("Database test query returned unexpected result")]
      else map["healthy" := Bool(true), "last_check" := Str(timestamp)]
    case DatabaseFailure(message, code) =>
      map["healthy" := Bool(false), "error" := Str("Database Error: " + message), "error_code" := Str(code)]
    case DatabaseCrash(text) =>
      map["healthy" := Bool(false), "error" := Str("Unexpected error: " + text)]
  }

  /** What the vector-store probe found: the collection and processor flags, or an error. */
  datatype VectorProbe =
    | Flags(collectionExists: bool, processorInitialized: bool)
    | VectorFailure(message: string, errorCode: string)
    | VectorCrash(text: string)

  /** `_check_vector_services`: healthy iff the collection exists and the processor is initialized. */
  function CheckVectorServices(probe: VectorProbe, collectionName: string, timestamp: string): (r: map<string, Json>)
    ensures "healthy" in r && (r["healthy"] == Bool(true) <==> probe.Flags? && probe.collectionExists && probe.processorInitialized)
    ensures r["healthy"] == Bool(true) || r["healthy"] == Bool(false)
  {
    match probe
    case Flags(exists_, initialized) =>
      if !exists_ then map["healthy" := Bool(false), "error" := Str("Vector collection '" + collectionName + "' does not exist")]
      else if !initialized then map["healthy" := Bool(false), "error" := Str("Document processor is not initialized")]
      else map["healthy" := Bool(true), "collection_exists" := Bool(true), "document_processor_initialized" := Bool(true),
               "last_check" := Str(timestamp)]
    case VectorFailure(message, code) =>
      map["healthy" := Bool(false), "error" := Str("Vector Store Error: " + message), "error_code" := Str(code)]
    case VectorCrash(text) =>
      map["healthy" := Bool(false), "error" := Str("Unexpected error: " + text)]
  }

  /** The overall status is healthy iff the SDK lists methods, the database answers 1 and the vector store is ready. */
  lemma OverallHealthy(now: int, sdk: SdkProbe, db: DatabaseProbe, vector: VectorProbe, name: string, isoformat: int -> string)
    ensures var t := isoformat(now);
            HealthStatus(now, Report(CheckSdkService(sdk, t)), Report(CheckDatabase(db, t)),
                         Report(CheckVectorServices(vector, name, t)), isoformat)["healthy"] == Bool(true)
            <==> (sdk.Methods? && |sdk.names| > 0) && (db.TestValue? && EqualsOne(db.value))
                 && (vector.Flags? && vector.collectionExists && vector.processorInitialized)
  {
  }
}

=== FILE: mcp_exceptions.dfy ===
/**
 * `McpExceptions`: the error hierarchy of the MCP server. Every error carries
 * a message, an error code (the class name by default), a context dict and an
 * optional cause; `to_dict` turns it into the error response, and
 * `handle_exception` does the same for any exception. The text of a cause is
 * `str(cause)`; Python values other than text are rendered by a `show`
 * parameter standing for `str()`.
 */
module McpExceptions {
  import opened Wrappers
  import opened Strings
  import opened PyJson

  /** An MCP server error: its class, message, error code, context and the text of its cause. */
  datatype McpServerError = McpServerError(
    className: string, message: string, errorCode: string, context: map<string, Json>, cause: Option<string>)

  /**
   * The base constructor: an empty or absent error code becomes the class name,
   * an absent context an empty one.
   */
  function NewError(className: string, message: string, errorCode: Option<string>,
                    context: Option<map<string, Json>>, cause: Option<string>): (r: McpServerError)
    ensures r.errorCode == (if errorCode.Some? && errorCode.value != "" then errorCode.value else className)
    ensures r.context == (if context.Some? then context.value else map[])
    ensures r.className == className && r.message == message && r.cause == cause
  {
    var code := if errorCode.Some? && errorCode.value != "" then errorCode.value else className;
    McpServerError(className, message, code, context.GetOr(map[]), cause)
  }

  /** A context entry present only when its text is given and non-empty (Python's `if value:`). */
  function TextEntry(key: string, value: Option<string>): (r: map<string, Json>)
    ensures key in r <==> value.Some? && value.value != ""
    ensures r.Keys <= {key}
    ensures key in r ==> r[key] == Str(value.value)
  {
    if value.Some? && value.value != "" then map[key := Str(value.value)] else map[]
  }

  /** `ValidationError`: the field when given, the value's text when it is not None. */
  function ValidationError(message: string, field: Option<string>, value: Json, show: Json -> string): (r: McpServerError)
    ensures r.errorCode == "ValidationError" && r.message == message && r.cause.None?
    ensures "field" in r.context <==> field.Some? && field.value != ""
    ensures "value" in r.context <==> !value.Null?
    ensures "value" in r.context ==> r.context["value"] == Str(PyStr(value, show))
    ensures r.context.Keys <= {"field", "value"}
  {
    var withValue := if value.Null? then map[] else map["value" := Str(PyStr(value, show))];
    NewError("ValidationError", message, Some("ValidationError"), Some(TextEntry("field", field) + withValue), None)
  }

  /** `ConfigurationError`: the configuration key when given. */
  function ConfigurationError(message: string, configKey: Option<string>): (r: McpServerError)
    ensures r.errorCode == "ConfigurationError" && r.message == message
    ensures r.context == TextEntry("config_key", configKey)
  {
    NewError("ConfigurationError", message, Some("ConfigurationError"), Some(TextEntry("config_key", configKey)), None)
  }

  /** `ServiceInitializationError`: the service is always recorded, and named in the message. */
  function ServiceInitializationError(serviceName: string, message: string, cause: Option<string>): (r: McpServerError)
    ensures r.errorCode == "ServiceInitializationError" && r.cause == cause
    ensures r.context == map["service" := Str(serviceName)]
    ensures r.message == serviceName + " initialization failed: " + message
  {
    NewError("ServiceInitializationError", serviceName + " initialization failed: " + message, Some("ServiceInitializationError"),
             Some(map["service" := Str(serviceName)]), cause)
  }

  /** `SDKMethodNotFoundError`: the method, and the available methods when the list is non-empty. */
  function SdkMethodNotFoundError(methodName: string, availableMethods: Option<seq<string>>): (r: McpServerError)
    ensures r.errorCode == "SDKMethodNotFoundError" && r.className == "SDKMethodNotFoundError"
    ensures r.message == "SDK method '" + methodName + "' not found"
    ensures "method_name" in r.context && r.context["method_name"] == Str(methodName)
    ensures "available_methods" in r.context <==> availableMethods.Some? && |availableMethods.value| > 0
    ensures r.context.Keys <= {"method_name", "available_methods"}
  {
    var listed := if availableMethods.Some? && |availableMethods.value| > 0
                  then map["available_methods" := Arr(TextList(availableMethods.value))] else map[];
    NewError("SDKMethodNotFoundError", "SDK method '" + methodName + "' not found", Some("SDKMethodNotFoundError"),
             Some(map["method_name" := Str(methodName)] + listed), None)
  }

  /** A list of texts as a Python list. */
  function TextList(names: seq<string>): (r: seq<Json>)
    ensures |r| == |names| && forall i :: 0 <= i < |names| ==> r[i] == Str(names[i])
  {
    if names == [] then [] else [Str(names[0])] + TextList(names[1..])
  }

  /** The context shared by the SDK parameter and execution errors. */
  function SdkContext(methodName: string, parameters: Option<map<string, Json>>): (r: map<string, Json>)
    ensures "method_name" in r && r["method_name"] == Str(methodName)
    ensures "parameters" in r <==> parameters.Some? && |parameters.value| > 0
    ensures "parameters" in r ==> r["parameters"] == Obj(parameters.value)
    ensures r.Keys <= {"method_name", "parameters"}
  {
    map["method_name" := Str(methodName)]
      + (if parameters.Some? && |parameters.value| > 0 then map["parameters" := Obj(parameters.value)] else map[])
  }

  /** `SDKParameterError`: the method, and the parameters when non-empty. */
  function SdkParameterError(methodName: string, message: string, parameters: Option<map<string, Json>>): (r: McpServerError)
    ensures r.errorCode == "SDKParameterError" && r.context == SdkContext(methodName, parameters)
    ensures r.message == "Parameter error for '" + methodName + "': " + message
  {
    NewError("SDKParameterError", "Parameter error for '" + methodName + "': " + message, Some("SDKParameterError"),
             Some(SdkContext(methodName, parameters)), None)
  }

  /** `SDKExecutionError`: as the parameter error, with a cause. */
  function SdkExecutionError(methodName: string, message: string, parameters: Option<map<string, Json>>, cause: Option<string>): (r: McpServerError)
    ensures r.errorCode == "SDKExecutionError" && r.context == SdkContext(methodName, parameters) && r.cause == cause
    ensures r.message == "Execution error for '" + methodName + "': " + message
  {
    NewError("SDKExecutionError", "Execution error for '" + methodName + "': " + message, Some("SDKExecutionError"),
             Some(SdkContext(methodName, parameters)), cause)
  }

  /**
   * The host recorded for a connection string: after the last `@`, up to the
   * first `/`; "unknown" without an `@`.
   */
  function ConnectionHost(connection: string): (r: string)
    ensures '@' !in connection ==> r == "unknown"
    ensures '@' in connection ==> '/' !in r
  {
    if '@' in connection then
      var afterAt := Split(connection, '@')[|Split(connection, '@')| - 1];
      Split(afterAt, '/')[0]
    else "unknown"
  }

  /** `DatabaseConnectionError`: the host of a non-empty connection string, never the whole string. */
  function DatabaseConnectionError(message: string, connectionString: Option<string>, cause: Option<string>): (r: McpServerError)
    ensures r.errorCode == "DatabaseConnectionError" && r.cause == cause
    ensures r.message == "Database connection failed: " + message
    ensures "connection_host" in r.context <==> connectionString.Some? && connectionString.value != ""
    ensures "connection_host" in r.context ==> r.context["connection_host"] == Str(ConnectionHost(connectionString.value))
    ensures r.context.Keys <= {"connection_host"}
  {
    var context := if connectionString.Some? && connectionString.value != ""
                   then map["connection_host" := Str(ConnectionHost(connectionString.value))] else map[];
    NewError("DatabaseConnectionError", "Database connection failed: " + message, Some("DatabaseConnectionError"),
             Some(context), cause)
  }

  /** The credentials before the `@` and the path after the host are left out of the host. */
  lemma ConnectionHostOf(credentials: string, host: string, path: string)
    requires '@' !in host && '/' !in host && '@' !in path
    ensures ConnectionHost(credentials + "@" + host + "/" + path) == host
  {
    var rest := host + "/" + path;
    var s := credentials + "@" + rest;
    assert s == credentials + ['@'] + rest;
    assert credentials + "@" + host + "/" + path == s;
    assert '@' !in rest;
    assert '@' in s by {
      assert s[|credentials|] == '@';
    }
    SplitLastPart(credentials, '@', rest);
    assert rest == host + ['/'] + path;
    SplitPrefix(host, '/', path);
  }

  /** A connection string without `@` records "unknown". */
  lemma ConnectionHostUnknown(connection: string)
    requires connection != "" && '@' !in connection
    ensures DatabaseConnectionError("", Some(connection), None).context == map["connection_host" := Str("unknown")]
  {
  }

  /** `DatabaseOperationError`: the operation is always recorded. */
  function DatabaseOperationError(operation: string, message: string, cause: Option<string>): (r: McpServerError)
    ensures r.errorCode == "DatabaseOperationError" && r.context == map["operation" := Str(operation)]
    ensures r.message == "Database operation '" + operation + "' failed: " + message
  {
    NewError("DatabaseOperationError", "Database operation '" + operation + "' failed: " + message,
             Some("DatabaseOperationError"), Some(map["operation" := Str(operation)]), cause)
  }

  /** `VectorStoreInitializationError`: the collection when given. */
  function VectorStoreInitializationError(message: string, collectionName: Option<string>, cause: Option<string>): (r: McpServerError)
    ensures r.errorCode == "VectorStoreInitializationError" && r.context == TextEntry("collection_name", collectionName)
    ensures r.message == "Vector store initialization failed: " + message && r.cause == cause
  {
    NewError("VectorStoreInitializationError", "Vector store initialization failed: " + message,
             Some("VectorStoreInitializationError"), Some(TextEntry("collection_name", collectionName)), cause)
  }

  /** `VectorStoreSearchError`: the query is always recorded. */
  function VectorStoreSearchError(query: string, message: string, cause: Option<string>): (r: McpServerError)
    ensures r.errorCode == "VectorStoreSearchError" && r.context == map["query" := Str(query)]
    ensures r.message == "Vector search failed: " + message && r.cause == cause
  {
    NewError("VectorStoreSearchError", "Vector search failed: " + message, Some("VectorStoreSearchError"),
             Some(map["query" := Str(query)]), cause)
  }

  /** `EmbeddingError`: the length of the text, 0 when there is none. */
  function EmbeddingError(text: Option<string>, message: string, cause: Option<string>): (r: McpServerError)
    ensures r.errorCode == "EmbeddingError" && r.message == "Embedding generation failed: " + message && r.cause == cause
    ensures r.context == map["text_length" := Int(if text.Some? then |text.value| else 0)]
  {
    var length := if text.Some? && text.value != "" then |text.value| else 0;
    NewError("EmbeddingError", "Embedding generation failed: " + message, Some("EmbeddingError"),
             Some(map["text_length" := Int(length)]), cause)
  }

  /** `DocumentProcessingError`: the document path when given. */
  function DocumentProcessingError(documentPath: Option<string>, message: string, cause: Option<string>): (r: McpServerError)
    ensures r.errorCode == "DocumentProcessingError" && r.context == TextEntry("document_path", documentPath)
    ensures r.message == "Document processing failed: " + message && r.cause == cause
  {
    NewError("DocumentProcessingError", "Document processing failed: " + message, Some("DocumentProcessingError"),
             Some(TextEntry("document_path", documentPath)), cause)
  }

  /** `OpenAIAPIError`: the model when given. */
  function OpenAIApiError(message: string, model: Option<string>, cause: Option<string>): (r: McpServerError)
    ensures r.errorCode == "OpenAIAPIError" && r.context == TextEntry("model", model)
    ensures r.message == "OpenAI API error: " + message && r.cause == cause
  {
    NewError("OpenAIAPIError", "OpenAI API error: " + message, Some("OpenAIAPIError"), Some(TextEntry("model", model)), cause)
  }

  /** `HederaAPIError`: the endpoint when given. */
  function HederaApiError(message: string, endpoint: Option<string>, cause: Option<string>): (r: McpServerError)
    ensures r.errorCode == "HederaAPIError" && r.context == TextEntry("endpoint", endpoint)
    ensures r.message == "Hedera API error: " + message && r.cause == cause
  {
    NewError("HederaAPIError", "Hedera API error: " + message, Some("HederaAPIError"), Some(TextEntry("endpoint", endpoint)), cause)
  }

  /**
   * `to_dict`: error code, message and `success: False`, with the context only
   * when it is non-empty and the cause only when there is one.
   */
  function ToDict(e: McpServerError): (r: map<string, Json>)
    ensures "error" in r && "message" in r && "success" in r
    ensures "context" in r <==> |e.context| > 0
    ensures "cause" in r <==> e.cause.Some?
    ensures r.Keys <= {"error", "message", "success", "context", "cause"}
    ensures r["error"] == Str(e.errorCode) && r["message"] == Str(e.message) && r["success"] == Bool(false)
    ensures "context" in r ==> r["context"] == Obj(e.context)
    ensures "cause" in r ==> r["cause"] == Str(e.cause.value)
  {
    var base := map["error" := Str(e.errorCode), "message" := Str(e.message), "success" := Bool(false)];
    var withContext := if |e.context| > 0 then base["context" := Obj(e.context)] else base;
    if e.cause.Some? then withContext["cause" := Str(e.cause.value)] else withContext
  }

  /** An error without a code of its own reports its class name. */
  lemma DefaultErrorCode(className: string, message: string)
    ensures ToDict(NewError(className, message, None, None, None))
            == map["error" := Str(className), "message" := Str(message), "success" := Bool(false)]
  {
  }

  /** Any exception `handle_exception` may be given: a server error, or another exception's class and text. */
  datatype AnyException = ServerError(error: McpServerError) | OtherException(className: string, text: string)

  /**
   * `handle_exception`: a server error becomes its `to_dict`, with the extra
   * context merged into its own; any other exception becomes its class name and
   * text, with the extra context. Merging into a server error that has no context
   * indexes a missing `"context"` and raises a `KeyError`.
   */
  function HandleException(exc: AnyException, context: Option<map<string, Json>>): (r: Result<map<string, Json>, string>)
    ensures r.Ok? ==> "error" in r.value && "message" in r.value && "success" in r.value && r.value["success"] == Bool(false)
    ensures exc.OtherException? ==> r.Ok?
  {
    var extra := context.Some? && |context.value| > 0;
    match exc
    case ServerError(e) =>
      var d := ToDict(e);
      if !extra then Ok(d)
      else if "context" !in d then Err("KeyError")
      else Ok(d["context" := Obj(d["context"].fields + context.value)])
    case OtherException(className, text) =>
      var d := map["error" := Str(className), "message" := Str(text), "success" := Bool(false)];
      if extra then Ok(d["context" := Obj(context.value)]) else Ok(d)
  }

  /** Extra context is merged over the error's own context, the extra entries winning. */
  lemma HandleMergesContext(e: McpServerError, context: map<string, Json>)
    requires |e.context| > 0 && |context| > 0
    ensures HandleException(ServerError(e), Some(context)) == Ok(ToDict(e)["context" := Obj(e.context + context)])
  {
  }

  /** Extra context for a server error without context of its own raises. */
  lemma HandleEmptyContextRaises(e: McpServerError, context: map<string, Json>)
    requires |e.context| == 0 && |context| > 0
    ensures HandleException(ServerError(e), Some(context)) == Err("KeyError")
  {
    assert "context" !in ToDict(e);
  }

  /** Without extra context a server error is reported by `to_dict` alone. */
  lemma HandleWithoutContext(e: McpServerError, context: Option<map<string, Json>>)
    requires context.None? || |context.value| == 0
    ensures HandleException(ServerError(e), context) == Ok(ToDict(e))
  {
  }

  /** Another exception reports its class and text, and the context only when one is given. */
  lemma HandleOtherException(className: string, text: string, context: Option<map<string, Json>>)
    ensures var r := HandleException(OtherException(className, text), context).value;
            r["error"] == Str(className) && r["message"] == Str(text)
            && ("context" in r <==> context.Some? && |context.value| > 0)
            && ("context" in r ==> r["context"] == Obj(context.value))
  {
  }
}

=== FILE: message_converter.dfy ===
/**
 * `MessageConverter.chat_messages_to_langgraph_messages`: stored chat
 * messages become the agent's conversation messages. User messages become
 * human messages, assistant messages become AI messages, and any other role
 * is skipped.
 */
module MessageConverter {

  /** A stored chat message: its role text and its content. */
  datatype ChatMessage = ChatMessage(role: string, content: string)

  /** The agent's conversation messages. */
  datatype Message =
    | SystemMessage(content: string)
    | HumanMessage(content: string)
    | AIMessage(content: string)

  predicate KnownRole(m: ChatMessage)
  {
    m.role == "user" || m.role == "assistant"
  }

  /** The conversion of one stored message: none for an unknown role. */
  function ConvertOne(m: ChatMessage): (r: seq<Message>)
    ensures |r| == (if KnownRole(m) then 1 else 0)
    ensures m.role == "user" ==> r == [HumanMessage(m.content)]
    ensures m.role == "assistant" ==> r == [AIMessage(m.content)]
  {
    if m.role == "user" then [HumanMessage(m.content)]
    else if m.role == "assistant" then [AIMessage(m.content)]
    else []
  }

  /** The converted list, message by message in input order. */
  function Converted(chat: seq<ChatMessage>): (r: seq<Message>)
    ensures |r| <= |chat|
  {
    if chat == [] then [] else Converted(chat[..|chat| - 1]) + ConvertOne(chat[|chat| - 1])
  }

  /** The number of stored messages with a user or assistant role. */
  function KnownCount(chat: seq<ChatMessage>): nat
  {
    if chat == [] then 0 else KnownCount(chat[..|chat| - 1]) + (if KnownRole(chat[|chat| - 1]) then 1 else 0)
  }

  /** `chat_messages_to_langgraph_messages`: the append loop. */
  method ChatMessagesToLanggraphMessages(chat: seq<ChatMessage>) returns (messages: seq<Message>)
    ensures messages == Converted(chat)
  {
    messages := [];
    var n := 0;
    while n < |chat|
      invariant 0 <= n <= |chat|
      invariant messages == Converted(chat[..n])
    {
      var m := chat[n];
      if m.role == "user" {
        messages := messages + [HumanMessage(m.content)];
      } else if m.role == "assistant" {
        messages := messages + [AIMessage(m.content)];
      }
      assert chat[..n + 1][..n] == chat[..n];
      n := n + 1;
    }
    assert chat[..|chat|] == chat;
  }

  /** Converting a concatenation converts each part, in order. */
  lemma {:induction false} ConvertedConcat(a: seq<ChatMessage>, b: seq<ChatMessage>)
    ensures Converted(a + b) == Converted(a) + Converted(b)
    decreases |b|
  {
    if b == [] {
      assert a + b == a;
    } else {
      assert (a + b)[..|a + b| - 1] == a + b[..|b| - 1];
      ConvertedConcat(a, b[..|b| - 1]);
    }
  }

  /** One output message per user or assistant message. */
  lemma {:induction false} ConvertedLength(chat: seq<ChatMessage>)
    ensures |Converted(chat)| == KnownCount(chat)
  {
    if chat != [] {
      ConvertedLength(chat[..|chat| - 1]);
    }
  }

  /** Without unknown roles, the conversion is positionwise: same content, matching kind. */
  lemma {:induction false} ConvertedPositionwise(chat: seq<ChatMessage>)
    requires forall k :: 0 <= k < |chat| ==> KnownRole(chat[k])
    ensures |Converted(chat)| == |chat|
    ensures forall k :: 0 <= k < |chat| ==> Converted(chat)[k].content == chat[k].content
    ensures forall k :: 0 <= k < |chat| ==> (Converted(chat)[k].HumanMessage? <==> chat[k].role == "user")
  {
    if chat != [] {
      ConvertedPositionwise(chat[..|chat| - 1]);
    }
  }

  /** Messages with other roles (system, tool, ...) disappear without a trace. */
  lemma {:induction false} UnknownRoleSkipped(before: seq<ChatMessage>, m: ChatMessage, after: seq<ChatMessage>)
    requires !KnownRole(m)
    ensures Converted(before + [m] + after) == Converted(before) + Converted(after)
  {
    var single := [m];
    assert Converted(single) == [] by {
      assert single[..0] == [];
    }
    ConvertedConcat(before, single);
    ConvertedConcat(before + single, after);
  }
}

=== FILE: mirror_exceptions.dfy ===
/**
 * `MirrorExceptions`: the errors of the Mirror-Node SDK. An HTTP status code
 * and the decoded response body become an exception of the matching class,
 * carrying the first message of the body's `_status.messages`; the body's
 * messages can also be listed. Values read from the body are Python values
 * (`PyJson.Json`); a Python error raised while reading a malformed body is
 * the `Err` of a `Result`, named by its class.
 */
module MirrorExceptions {
  import opened Wrappers
  import opened Strings
  import opened PyJson

  /** The exception classes. */
  datatype ErrorKind =
    | MirrorNode
    | BadRequest
    | NotFound
    | TooManyRequests
    | ServiceUnavailable
    | Validation
    | Network
    | Timeout

  /** An exception: its class, message, optional status code and response data. */
  datatype MirrorNodeException = MirrorNodeException(
    kind: ErrorKind, message: Json, statusCode: Option<int>, responseData: map<string, Json>)

  const DEFAULT_MESSAGE := "Unknown error"

  /** The base constructor: absent response data is stored as an empty dict. */
  function NewException(kind: ErrorKind, message: Json, statusCode: Option<int>, responseData: Option<map<string, Json>>): (r: MirrorNodeException)
    ensures r.kind == kind && r.message == message && r.statusCode == statusCode
    ensures responseData.Some? ==> r.responseData == responseData.value
    ensures responseData.None? ==> r.responseData == map[]
  {
    MirrorNodeException(kind, message, statusCode, responseData.GetOr(map[]))
  }

  /** `BadRequestError`: code 400, with "Bad Request" when no message is given. */
  function BadRequestError(message: Option<Json>, responseData: Option<map<string, Json>>): (r: MirrorNodeException)
    ensures r.kind == BadRequest && r.statusCode == Some(400)
    ensures r.message == if message.Some? then message.value else Str("Bad Request")
    ensures r.responseData == if responseData.Some? then responseData.value else map[]
  {
    NewException(BadRequest, message.GetOr(Str("Bad Request")), Some(400), responseData)
  }

  /** `NotFoundError`: code 404, with "Not Found" when no message is given. */
  function NotFoundError(message: Option<Json>, responseData: Option<map<string, Json>>): (r: MirrorNodeException)
    ensures r.kind == NotFound && r.statusCode == Some(404)
    ensures r.message == if message.Some? then message.value else Str("Not Found")
    ensures r.responseData == if responseData.Some? then responseData.value else map[]
  {
    NewException(NotFound, message.GetOr(Str("Not Found")), Some(404), responseData)
  }

  /** `TooManyRequestsError`: code 429, with "Too Many Requests" when no message is given. */
  function TooManyRequestsError(message: Option<Json>, responseData: Option<map<string, Json>>): (r: MirrorNodeException)
    ensures r.kind == TooManyRequests && r.statusCode == Some(429)
    ensures r.message == if message.Some? then message.value else Str("Too Many Requests")
    ensures r.responseData == if responseData.Some? then responseData.value else map[]
  {
    NewException(TooManyRequests, message.GetOr(Str("Too Many Requests")), Some(429), responseData)
  }

  /**
   * `ServiceUnavailableError`: the given code, 503 by default, with
   * "Service Unavailable" when no message is given.
   */
  function ServiceUnavailableError(message: Option<Json>, statusCode: Option<int>, responseData: Option<map<string, Json>>)
    : (r: MirrorNodeException)
    ensures r.kind == ServiceUnavailable
    ensures r.statusCode == if statusCode.Some? then statusCode else Some(503)
    ensures r.message == if message.Some? then message.value else Str("Service Unavailable")
    ensures r.responseData == if responseData.Some? then responseData.value else map[]
  {
    NewException(ServiceUnavailable, message.GetOr(Str("Service Unavailable")), Some(statusCode.GetOr(503)), responseData)
  }

  /** A validation error records the offending field and value, and has no status code. */
  function ValidationError(message: string, field: Option<string>, value: Json): (r: MirrorNodeException)
    ensures r.kind == Validation && r.statusCode.None?
    ensures r.responseData.Keys == {"field", "value"} && r.responseData["value"] == value
    ensures r.responseData["field"] == (if field.Some? then Str(field.value) else Null)
  {
    var f := if field.Some? then Str(field.value) else Null;
    NewException(Validation, Str(message), None, Some(map["field" := f, "value" := value]))
  }

  /** A network error records the text of the original error (`None` without one). */
  function NetworkError(message: string, originalError: Option<string>): (r: MirrorNodeException)
    ensures r.kind == Network && r.statusCode.None?
    ensures r.responseData == map["original_error" := Str(originalError.GetOr("None"))]
  {
    NewException(Network, Str(message), None, Some(map["original_error" := Str(originalError.GetOr("None"))]))
  }

  /** A timeout error records the timeout in seconds, if known. */
  function TimeoutError(message: string, timeout: Option<real>): (r: MirrorNodeException)
    ensures r.kind == Timeout && r.statusCode.None?
    ensures r.responseData.Keys == {"timeout"}
    ensures r.responseData["timeout"] == (if timeout.Some? then Float(timeout.value) else Null)
  {
    var t := if timeout.Some? then Float(timeout.value) else Null;
    NewException(Timeout, Str(message), None, Some(map["timeout" := t]))
  }

  /** The subclasses for 400, 404 and 429 carry exactly those codes. */
  lemma FixedStatusCodes(message: Json, data: Option<map<string, Json>>)
    ensures BadRequestError(Some(message), data).statusCode == Some(400)
    ensures NotFoundError(Some(message), data).statusCode == Some(404)
    ensures TooManyRequestsError(Some(message), data).statusCode == Some(429)
    ensures ValidationError("", None, Null).statusCode.None?
    ensures NetworkError("", None).statusCode.None? && TimeoutError("", None).statusCode.None?
  {
  }

  /**
   * `__str__`: `[code] message` when the code is set and non-zero, else the bare
   * message. `show` is Python's `str()` on a message that is not text; returning
   * a non-text message from `__str__` raises a `TypeError`.
   */
  function ExceptionText(e: MirrorNodeException, show: Json -> string): (r: Result<string, string>)
    ensures e.statusCode.Some? && e.statusCode.value != 0 ==>
              r.Ok? && StartsWith(r.value, "[" + IntToString(e.statusCode.value) + "] ")
    ensures (e.statusCode.None? || e.statusCode.value == 0) ==>
              (r.Ok? <==> e.message.Str?) && (r.Ok? ==> r.value == e.message.s)
  {
    var text := PyStr(e.message, show);
    if e.statusCode.Some? && e.statusCode.value != 0 then
      var prefix := "[" + IntToString(e.statusCode.value) + "] ";
      assert (prefix + text)[..|prefix|] == prefix;
      Ok(prefix + text)
    else if e.message.Str? then Ok(e.message.s)
    else Err("TypeError")
  }

  /** The message of the first entry of a truthy `messages` value. */
  function FirstEntryMessage(messages: Json): (r: Result<Json, string>)
    requires Truthy(messages)
    ensures r.Ok? <==> messages.Arr? && messages.items[0].Obj?
  {
    match messages
    case Arr(items) =>
      (match items[0]
       case Obj(m) => Ok(GetOr(m, "message", Str(DEFAULT_MESSAGE)))
       case _ => Err("AttributeError"))
    case Obj(_) => Err("KeyError")
    case Str(_) => Err("AttributeError")
    case _ => Err("TypeError")
  }

  /**
   * The message `create_exception_from_response` uses: the `message` of the
   * first entry of `_status.messages` when there is one, else "Unknown error".
   * A `_status` or `messages` of an unexpected shape raises.
   */
  function FirstMessage(responseData: Option<map<string, Json>>): (r: Result<Json, string>)
    ensures responseData.None? || "_status" !in responseData.value ==> r == Ok(Str(DEFAULT_MESSAGE))
    ensures r.Ok? && r.value != Str(DEFAULT_MESSAGE) ==>
              responseData.Some? && "_status" in responseData.value && responseData.value["_status"].Obj?
              && "messages" in responseData.value["_status"].fields
              && responseData.value["_status"].fields["messages"].Arr?
  {
    if responseData.None? || |responseData.value| == 0 || "_status" !in responseData.value then
      Ok(Str(DEFAULT_MESSAGE))
    else
      match responseData.value["_status"]
      case Obj(m) =>
        if "messages" !in m || !Truthy(m["messages"]) then Ok(Str(DEFAULT_MESSAGE))
        else FirstEntryMessage(m["messages"])
      case Arr(items) =>
        if Str("messages") in items then Err("TypeError") else Ok(Str(DEFAULT_MESSAGE))
      case Str(s) =>
        if Contains(s, "messages") then Err("TypeError") else Ok(Str(DEFAULT_MESSAGE))
      case _ => Err("TypeError")
  }

  /** The exception class for a status code; every class keeps the code it was given. */
  function ExceptionFor(statusCode: int, message: Json, responseData: Option<map<string, Json>>): (r: MirrorNodeException)
    ensures r.statusCode == Some(statusCode) && r.message == message
    ensures r.kind == BadRequest <==> statusCode == 400
    ensures r.kind == NotFound <==> statusCode == 404
    ensures r.kind == TooManyRequests <==> statusCode == 429
    ensures r.kind == ServiceUnavailable <==> statusCode >= 500
    ensures r.kind == MirrorNode <==> statusCode !in {400, 404, 429} && statusCode < 500
  {
    if statusCode == 400 then BadRequestError(Some(message), responseData)
    else if statusCode == 404 then NotFoundError(Some(message), responseData)
    else if statusCode == 429 then TooManyRequestsError(Some(message), responseData)
    else if statusCode >= 500 then ServiceUnavailableError(Some(message), Some(statusCode), responseData)
    else NewException(MirrorNode, message, Some(statusCode), responseData)
  }

  /** `create_exception_from_response`: the first message, under the class of the status code. */
  function CreateExceptionFromResponse(statusCode: int, responseData: Option<map<string, Json>>): (r: Result<MirrorNodeException, string>)
    ensures r.Ok? <==> FirstMessage(responseData).Ok?
    ensures r.Ok? ==> r.value == ExceptionFor(statusCode, FirstMessage(responseData).value, responseData)
  {
    match FirstMessage(responseData)
    case Err(e) => Err(e)
    case Ok(message) => Ok(ExceptionFor(statusCode, message, responseData))
  }

  /** A body without `_status` gives the default message, whatever the code. */
  lemma NoStatusUnknownError(statusCode: int, responseData: Option<map<string, Json>>)
    requires responseData.None? || "_status" !in responseData.value
    ensures CreateExceptionFromResponse(statusCode, responseData).Ok?
    ensures CreateExceptionFromResponse(statusCode, responseData).value.message == Str(DEFAULT_MESSAGE)
  {
  }

  /** A Mirror-Node error body with one message. */
  function StatusBody(message: string): map<string, Json>
  {
    map["_status" := Obj(map["messages" := Arr([Obj(map["message" := Str(message)])])])]
  }

  /**
   * A 404 whose body says, for instance, "Account not found" becomes a
   * `NotFoundError` whose text is `[404] Account not found`.
   */
  lemma NotFoundText(message: string, show: Json -> string)
    ensures CreateExceptionFromResponse(404, Some(StatusBody(message))).Ok?
    ensures CreateExceptionFromResponse(404, Some(StatusBody(message))).value.kind == NotFound
    ensures ExceptionText(CreateExceptionFromResponse(404, Some(StatusBody(message))).value, show) == Ok("[404] " + message)
  {
    var body := StatusBody(message);
    assert "_status" in body;
    assert FirstMessage(Some(body)) == Ok(Str(message));
    var e := CreateExceptionFromResponse(404, Some(body)).value;
    assert e.statusCode == Some(404) && e.message == Str(message);
    NotFoundCodeText();
    assert "[" + IntToString(404) + "] " == "[404] ";
  }

  /** The text of the code 404. */
  lemma NotFoundCodeText()
    ensures IntToString(404) == "404"
  {
    assert NatToString(4) == "4";
    assert NatToString(40) == NatToString(4) + [DigitChar(0)];
    assert NatToString(404) == NatToString(40) + [DigitChar(4)];
  }

  /** Whether an entry contributes a message. */
  predicate HasMessage(msg: Json)
  {
    (msg.Obj? && "message" in msg.fields) || msg.Str?
  }

  /** The messages one entry of `messages` contributes: a dict's `message`, a string itself, or none. */
  function EntryMessages(msg: Json): (r: seq<Json>)
    ensures |r| == (if HasMessage(msg) then 1 else 0)
  {
    match msg
    case Obj(m) => if "message" in m then [m["message"]] else []
    case Str(_) => [msg]
    case _ => []
  }

  /** The messages of a list of entries, in order. */
  function EntriesMessages(entries: seq<Json>): seq<Json>
  {
    if entries == [] then [] else EntriesMessages(entries[..|entries| - 1]) + EntryMessages(entries[|entries| - 1])
  }

  /**
   * What `extract_error_messages` returns: the messages of `_status.messages`
   * when it is a list, else none. A `_status` of an unexpected shape raises.
   */
  function ErrorMessages(responseData: Option<map<string, Json>>): (r: Result<seq<Json>, string>)
    ensures responseData.None? || "_status" !in responseData.value ==> r == Ok([])
    ensures r.Ok? && r.value != [] ==>
              responseData.Some? && "_status" in responseData.value && responseData.value["_status"].Obj?
              && "messages" in responseData.value["_status"].fields
              && responseData.value["_status"].fields["messages"].Arr?
  {
    if responseData.None? || |responseData.value| == 0 || "_status" !in responseData.value then Ok([])
    else
      match responseData.value["_status"]
      case Obj(m) =>
        if "messages" in m && m["messages"].Arr? then Ok(EntriesMessages(m["messages"].items)) else Ok([])
      case Arr(items) =>
        if Str("messages") in items then Err("TypeError") else Ok([])
      case Str(s) =>
        if Contains(s, "messages") then Err("TypeError") else Ok([])
      case _ => Err("TypeError")
  }

  /** `extract_error_messages`: the loop over the entries of `_status.messages`. */
  method ExtractErrorMessages(responseData: Option<map<string, Json>>) returns (r: Result<seq<Json>, string>)
    ensures r == ErrorMessages(responseData)
  {
    if responseData.None? || |responseData.value| == 0 || "_status" !in responseData.value {
      return Ok([]);
    }
    var statusInfo := responseData.value["_status"];
    if !statusInfo.Obj? {
      return ErrorMessages(responseData);
    }
    if "messages" !in statusInfo.fields || !statusInfo.fields["messages"].Arr? {
      return Ok([]);
    }
    var entries := statusInfo.fields["messages"].items;
    var messages: seq<Json> := [];
    var n := 0;
    while n < |entries|
      invariant 0 <= n <= |entries|
      invariant messages == EntriesMessages(entries[..n])
    {
      var msg := entries[n];
      if msg.Obj? && "message" in msg.fields {
        messages := messages + [msg.fields["message"]];
      } else if msg.Str? {
        messages := messages + [msg];
      }
      assert entries[..n + 1][..n] == entries[..n];
      n := n + 1;
    }
    assert entries[..|entries|] == entries;
    return Ok(messages);
  }

  /** Listing the messages of concatenated entries lists each part in turn. */
  lemma {:induction false} EntriesMessagesConcat(a: seq<Json>, b: seq<Json>)
    ensures EntriesMessages(a + b) == EntriesMessages(a) + EntriesMessages(b)
    decreases |b|
  {
    if b == [] {
      assert a + b == a;
    } else {
      assert (a + b)[..|a + b| - 1] == a + b[..|b| - 1];
      EntriesMessagesConcat(a, b[..|b| - 1]);
    }
  }

  /** When every entry carries a message, the list has one message per entry, in order. */
  lemma {:induction false} EntriesMessagesPositionwise(entries: seq<Json>)
    requires forall k :: 0 <= k < |entries| ==> HasMessage(entries[k])
    ensures |EntriesMessages(entries)| == |entries|
    ensures forall k :: 0 <= k < |entries| ==> EntriesMessages(entries)[k] == EntryMessages(entries[k])[0]
  {
    if entries != [] {
      EntriesMessagesPositionwise(entries[..|entries| - 1]);
    }
  }

  /**
   * The listed messages start with the exception's message when the first entry
   * is a dict with a `message`: both read the same entry.
   */
  lemma FirstListedIsExceptionMessage(responseData: Option<map<string, Json>>)
    requires responseData.Some? && "_status" in responseData.value
    requires var s := responseData.value["_status"];
             s.Obj? && "messages" in s.fields && s.fields["messages"].Arr? && |s.fields["messages"].items| > 0
             && s.fields["messages"].items[0].Obj? && "message" in s.fields["messages"].items[0].fields
    ensures ErrorMessages(responseData).Ok? && FirstMessage(responseData).Ok?
    ensures |ErrorMessages(responseData).value| > 0
    ensures ErrorMessages(responseData).value[0] == FirstMessage(responseData).value
  {
    var entries := responseData.value["_status"].fields["messages"].items;
    assert entries == [entries[0]] + entries[1..];
    EntriesMessagesConcat([entries[0]], entries[1..]);
    assert [entries[0]][..0] == [];
  }
}

=== FILE: mirror_models.dfy ===
/**
 * `MirrorModels`: the parts of the Mirror-Node response models with logic in
 * them: the field validator of `EntityId` (shard, realm and num) and the
 * `Order` enumeration. The text of an `EntityId` is
 * `MirrorUtils.FormatEntityId`.
 */
module MirrorModels {
  import opened Wrappers
  import opened Strings
  import opened PyJson
  import MirrorUtils
  import MirrorQuery

  const COMPONENT_ERROR := "Entity ID components must be non-negative integers"

  /** Python's `str.isdigit()` on the ASCII digits: non-empty and all digits. */
  predicate IsDigitString(s: string)
  {
    |s| > 0 && AllDigits(s)
  }

  /**
   * `EntityId.validate_non_negative`: a digit-only string is first converted to
   * an int; the value must then be a non-negative int (a bool included), and is
   * returned as it is.
   */
  function ValidateNonNegative(v: Json): (r: Result<Json, string>)
    ensures r.Ok? <==> (v.Str? && IsDigitString(v.s)) || (IsPyInt(v) && PyIntValue(v) >= 0)
    ensures r.Ok? && v.Str? ==> r.value == Int(DigitsValue(v.s))
    ensures r.Ok? && !v.Str? ==> r.value == v
    ensures r.Ok? ==> IsPyInt(r.value) && PyIntValue(r.value) >= 0
    ensures r.Err? ==> r.error == COMPONENT_ERROR
  {
    var w := if v.Str? && IsDigitString(v.s) then Int(DigitsValue(v.s)) else v;
    if !IsPyInt(w) || PyIntValue(w) < 0 then Err(COMPONENT_ERROR)
    else Ok(w)
  }

  /** A validated component validates to itself. */
  lemma ValidateNonNegativeFixedPoint(v: Json)
    requires ValidateNonNegative(v).Ok?
    ensures ValidateNonNegative(ValidateNonNegative(v).value) == ValidateNonNegative(v)
  {
  }

  /** A signed string is not a digit string, so "-1" is rejected; "007" becomes 7. */
  lemma SignedStringRejected()
    ensures ValidateNonNegative(Str("-1")) == Err(COMPONENT_ERROR)
    ensures ValidateNonNegative(Int(-1)) == Err(COMPONENT_ERROR)
    ensures ValidateNonNegative(Str("007")) == Ok(Int(7))
  {
    assert !IsDigit("-1"[0]);
    assert DigitsValue("007") == DigitsValue("00") * 10 + 7 by {
      assert "007"[..2] == "00";
    }
    assert DigitsValue("00") == DigitsValue("0") * 10 by {
      assert "00"[..1] == "0";
    }
  }

  /**
   * Three validated components make an entity id whose text parses back to the
   * same components.
   */
  lemma ValidatedEntityIdRoundTrip(shard: Json, realm: Json, num: Json)
    requires ValidateNonNegative(shard).Ok? && ValidateNonNegative(realm).Ok? && ValidateNonNegative(num).Ok?
    ensures var e := MirrorUtils.EntityId(PyIntValue(ValidateNonNegative(shard).value),
                                         PyIntValue(ValidateNonNegative(realm).value),
                                         PyIntValue(ValidateNonNegative(num).value));
            e.shard >= 0 && e.realm >= 0 && e.num >= 0
            && MirrorUtils.ParseEntityId(MirrorUtils.FormatEntityId(e)) == Ok(e)
  {
    var e := MirrorUtils.EntityId(PyIntValue(ValidateNonNegative(shard).value),
                                 PyIntValue(ValidateNonNegative(realm).value),
                                 PyIntValue(ValidateNonNegative(num).value));
    MirrorUtils.EntityIdRoundTrip(e);
  }

  /** The sort orders of a query. */
  datatype Order = Asc | Desc

  /** The value of an `Order` member. */
  function OrderValue(o: Order): string
  {
    match o
    case Asc => "asc"
    case Desc => "desc"
  }

  /** `Order(s)`: the member with value `s`, if any. */
  function OrderOf(s: string): (r: Option<Order>)
    ensures r.Some? <==> s == "asc" || s == "desc"
    ensures r.Some? ==> OrderValue(r.value) == s
  {
    if s == "asc" then Some(Asc) else if s == "desc" then Some(Desc) else None
  }

  /** Every member is found again from its value, which is already normalised. */
  lemma OrderValueRoundTrip(o: Order)
    ensures OrderOf(OrderValue(o)) == Some(o)
    ensures MirrorQuery.NormalizeOrder(Some(OrderValue(o))) == Some(OrderValue(o))
  {
    assert Lower("asc") == "asc";
    assert Lower("desc") == "desc";
  }
}

=== FILE: mirror_query.dfy ===
/**
 * `MirrorQuery`: the request helpers of the Mirror-Node SDK utilities. Query
 * parameters are built from keyword arguments (None dropped, some keys
 * renamed, values stringified), the sort order is lower-cased, page limits are
 * checked, and the query part of a pagination link is extracted.
 */
module MirrorQuery {
  import opened Wrappers
  import opened Strings
  import opened PyJson

  /** The keys whose underscores become dots. */
  const DOTTED_ID_KEYS: seq<string> :=
    ["account_id", "token_id", "spender_id", "sender_id", "receiver_id",
     "node_id", "file_id", "schedule_id", "contract_id"]

  /** Every key the rename chain changes. */
  const RENAMED_KEYS: set<string> := {
    "account_id", "token_id", "spender_id", "sender_id", "receiver_id",
    "node_id", "file_id", "schedule_id", "contract_id",
    "account_balance", "account_publickey", "block_number", "block_hash",
    "transaction_index", "transaction_hash", "serial_number", "transaction_type",
    "sequence_number"}

  /** The query-string name of one keyword argument, as the rename chain computes it. */
  function QueryKey(key: string): (r: string)
    ensures key !in RENAMED_KEYS ==> r == key
    ensures key in RENAMED_KEYS && key !in DOTTED_ID_KEYS ==> '_' !in r && r != key
  {
    if key in DOTTED_ID_KEYS then Replace(key, "_", ".")
    else if key == "account_balance" then "account.balance"
    else if key == "account_publickey" then "account.publickey"
    else if key == "block_number" then "block.number"
    else if key == "block_hash" then "block.hash"
    else if key == "transaction_index" then "transaction.index"
    else if key == "transaction_hash" then "transaction.hash"
    else if key == "serial_number" then "serialnumber"
    else if key == "transaction_type" then "transactiontype"
    else if key == "sequence_number" then "sequencenumber"
    else key
  }

  /**
   * The parameters built from the keyword arguments, in call order: an
   * argument whose value is None is dropped, any other one sets its renamed key
   * to the value's text, a later argument overwriting an earlier one.
   */
  function QueryParams(kwargs: seq<(string, Json)>, show: Json -> string): (r: map<string, string>)
    ensures (forall i :: 0 <= i < |kwargs| ==> kwargs[i].1.Null?) ==> r == map[]
  {
    if kwargs == [] then map[]
    else
      assert forall i :: 0 <= i < |kwargs| - 1 ==> kwargs[..|kwargs| - 1][i] == kwargs[i];
      var m := QueryParams(kwargs[..|kwargs| - 1], show);
      var (key, value) := kwargs[|kwargs| - 1];
      if value.Null? then m else m[QueryKey(key) := show(value)]
  }

  /**
   * `build_query_params`: the loop over the keyword arguments. `show` is
   * Python's `str()` on a value.
   */
  method BuildQueryParams(kwargs: seq<(string, Json)>, show: Json -> string) returns (params: map<string, string>)
    ensures params == QueryParams(kwargs, show)
  {
    params := map[];
    var n := 0;
    while n < |kwargs|
      invariant 0 <= n <= |kwargs|
      invariant params == QueryParams(kwargs[..n], show)
    {
      var (key, value) := kwargs[n];
      if !value.Null? {
        params := params[QueryKey(key) := show(value)];
      }
      assert kwargs[..n + 1][..n] == kwargs[..n];
      n := n + 1;
    }
    assert kwargs[..|kwargs|] == kwargs;
  }

  /** A name without underscores followed by `_id` has its one underscore replaced. */
  lemma {:induction false} ReplaceSuffix(w: string)
    requires '_' !in w
    ensures Replace(w + "_id", "_", ".") == w + ".id"
    decreases |w|
  {
    if w == [] {
      assert [] + "_id" == "_id";
      assert Replace("id", "_", ".") == "id";
    } else {
      assert (w + "_id")[1..] == w[1..] + "_id";
      ReplaceSuffix(w[1..]);
      assert w == [w[0]] + w[1..];
    }
  }

  /** An id key: a stem without underscores followed by `_id`. */
  predicate IdKey(key: string)
  {
    |key| >= 3 && key[|key| - 3] == '_' && key[|key| - 2] == 'i' && key[|key| - 1] == 'd'
    && forall j :: 0 <= j < |key| - 3 ==> key[j] != '_'
  }

  lemma DottedIdKeys()
    ensures forall k :: k in DOTTED_ID_KEYS ==> IdKey(k)
  {
  }

  /** Each listed id key becomes its stem followed by `.id`, with no underscore left. */
  lemma DottedIdRename(key: string)
    requires key in DOTTED_ID_KEYS
    ensures QueryKey(key) == key[..|key| - 3] + ".id"
    ensures '_' !in QueryKey(key)
  {
    DottedIdKeys();
    var stem := key[..|key| - 3];
    assert key == stem + "_id";
    assert '_' !in stem;
    ReplaceSuffix(stem);
  }

  /** A key is present iff some argument with a non-None value renames to it. */
  lemma {:induction false} QueryParamsDomain(kwargs: seq<(string, Json)>, show: Json -> string, k: string)
    ensures k in QueryParams(kwargs, show)
            <==> exists i :: 0 <= i < |kwargs| && !kwargs[i].1.Null? && QueryKey(kwargs[i].0) == k
  {
    if kwargs != [] {
      var init := kwargs[..|kwargs| - 1];
      QueryParamsDomain(init, show, k);
      if k in QueryParams(kwargs, show) && k !in QueryParams(init, show) {
        assert !kwargs[|kwargs| - 1].1.Null? && QueryKey(kwargs[|kwargs| - 1].0) == k;
      }
      if exists i :: 0 <= i < |kwargs| && !kwargs[i].1.Null? && QueryKey(kwargs[i].0) == k {
        var i :| 0 <= i < |kwargs| && !kwargs[i].1.Null? && QueryKey(kwargs[i].0) == k;
        if i < |kwargs| - 1 {
          assert init[i] == kwargs[i];
        }
      }
    }
  }

  /** The value under a key is the text of the last non-None argument renamed to it. */
  lemma {:induction false} QueryParamsLastWins(kwargs: seq<(string, Json)>, show: Json -> string, i: nat)
    requires i < |kwargs| && !kwargs[i].1.Null?
    requires forall j :: i < j < |kwargs| ==> kwargs[j].1.Null? || QueryKey(kwargs[j].0) != QueryKey(kwargs[i].0)
    ensures QueryKey(kwargs[i].0) in QueryParams(kwargs, show)
    ensures QueryParams(kwargs, show)[QueryKey(kwargs[i].0)] == show(kwargs[i].1)
  {
    if i < |kwargs| - 1 {
      var init := kwargs[..|kwargs| - 1];
      assert init[i] == kwargs[i];
      QueryParamsLastWins(init, show, i);
    }
  }

  /**
   * `serial_number` and `serialnumber` name the same query parameter, so the
   * later of the two wins.
   */
  lemma SerialNumberAlias(show: Json -> string)
    ensures QueryParams([("serial_number", Int(1)), ("serialnumber", Int(2))], show) == map["serialnumber" := show(Int(2))]
  {
    var kwargs := [("serial_number", Int(1)), ("serialnumber", Int(2))];
    assert QueryKey("serial_number") == "serialnumber";
    assert kwargs[..1] == [("serial_number", Int(1))];
    assert kwargs[..1][..0] == [];
  }

  /** `normalize_order`: None stays None, a text is lower-cased. */
  function NormalizeOrder(order: Option<string>): (r: Option<string>)
    ensures r.Some? <==> order.Some?
    ensures r.Some? ==> |r.value| == |order.value|
    ensures r.Some? ==> forall i :: 0 <= i < |r.value| ==> r.value[i] == LowerChar(order.value[i])
  {
    if order.None? then None else Some(Lower(order.value))
  }

  /** Normalising twice is normalising once. */
  lemma NormalizeOrderIdempotent(order: Option<string>)
    ensures NormalizeOrder(NormalizeOrder(order)) == NormalizeOrder(order)
  {
    if order.Some? {
      var s := Lower(order.value);
      assert Lower(s) == s;
    }
  }

  /** Upper-case orders become the enumeration values. */
  lemma NormalizeOrderValues()
    ensures NormalizeOrder(Some("ASC")) == Some("asc")
    ensures NormalizeOrder(Some("Desc")) == Some("desc")
  {
    assert Lower("ASC") == "asc";
    assert Lower("Desc") == "desc";
  }

  const MIN_LIMIT: int := 1
  const MAX_LIMIT: int := 100

  /** `validate_limit`: None passes; otherwise an integer in 1..100, returned unchanged. */
  function ValidateLimit(limit: Json): (r: Result<Json, string>)
    ensures r.Ok? <==> limit.Null? || (IsPyInt(limit) && MIN_LIMIT <= PyIntValue(limit) <= MAX_LIMIT)
    ensures r.Ok? ==> r.value == limit
    ensures !limit.Null? && !IsPyInt(limit) ==> r == Err("Limit must be an integer")
    ensures IsPyInt(limit) && PyIntValue(limit) < MIN_LIMIT ==> r == Err("Limit must be greater than 0")
    ensures IsPyInt(limit) && PyIntValue(limit) > MAX_LIMIT ==> r == Err("Limit must be 100 or less")
  {
    if limit.Null? then Ok(Null)
    else if !IsPyInt(limit) then Err("Limit must be an integer")
    else if PyIntValue(limit) < 1 then Err("Limit must be greater than 0")
    else if PyIntValue(limit) > 100 then Err("Limit must be 100 or less")
    else Ok(limit)
  }

  /** An accepted limit validates to itself. */
  lemma ValidateLimitFixedPoint(limit: Json)
    requires ValidateLimit(limit).Ok?
    ensures ValidateLimit(ValidateLimit(limit).value) == ValidateLimit(limit)
  {
  }

  /**
   * `extract_next_link`: no link object, no `next` entry or a None `next` give
   * None; otherwise the text after the first `?`, or the whole link when it
   * has none.
   */
  function ExtractNextLink(links: Option<map<string, Option<string>>>): (r: Option<string>)
    ensures r.None? <==> links.None? || "next" !in links.value || links.value["next"].None?
    ensures r.Some? && '?' !in links.value["next"].value ==> r.value == links.value["next"].value
    ensures r.Some? && '?' in links.value["next"].value ==>
              (var link := links.value["next"].value;
               |r.value| < |link| && link[|link| - |r.value| - 1] == '?'
               && link[|link| - |r.value|..] == r.value && '?' !in link[..|link| - |r.value| - 1])
  {
    if links.None? || "next" !in links.value then None
    else
      var next := links.value["next"];
      if next.None? then None
      else
        var k := FindChar(next.value, '?');
        if k >= 0 then Some(next.value[k + 1..]) else Some(next.value)
  }

  /** The query of a `path?query` link comes back whole, even when it holds further `?`. */
  lemma NextLinkQuery(path: string, query: string)
    requires '?' !in path
    ensures ExtractNextLink(Some(map["next" := Some(path + "?" + query)])) == Some(query)
  {
    var link := path + "?" + query;
    assert link[|path|] == '?';
    var r := ExtractNextLink(Some(map["next" := Some(link)]));
    var k := FindChar(link, '?');
    assert k == |path|;
    assert link[|path| + 1..] == query;
  }
}

=== FILE: mirror_utils.dfy ===
/**
 * The Mirror Node SDK's helpers: entity ids ("shard.realm.num"), consensus
 * timestamps ("seconds.nanoseconds"), balances in smallest units rendered as
 * exact decimals, EVM address and transaction hash checks, transaction ids,
 * query parameters, order, limits and pagination links.
 */
module MirrorUtils {
  import opened Wrappers
  import opened Strings
  import opened PyJson

  // ------------------------------------------------------------ entity ids

  datatype EntityId = EntityId(shard: int, realm: int, num: int)

  /** `format_entity_id` / `EntityId.__str__`: "shard.realm.num". */
  function FormatEntityId(e: EntityId): (r: string)
    ensures |Split(r, '.')| == 3
  {
    var r := IntToString(e.shard) + "." + IntToString(e.realm) + "." + IntToString(e.num);
    ThreeParts(IntToString(e.shard), IntToString(e.realm), IntToString(e.num), '.');
    r
  }

  /** Three separator-free parts joined by the separator split back into those parts. */
  lemma ThreeParts(a: string, b: string, c: string, sep: char)
    requires sep !in a && sep !in b && sep !in c
    ensures Split(a + [sep] + b + [sep] + c, sep) == [a, b, c]
  {
    var rest := b + [sep] + c;
    SplitPrefix(b, sep, c);
    assert Split(c, sep) == [c];
    assert Split(rest, sep) == [b, c];
    SplitPrefix(a, sep, rest);
    assert a + [sep] + b + [sep] + c == a + [sep] + rest;
  }

  datatype EntityIdError = EmptyEntityId | NotAnInteger(part: string) | TooManyParts(entityId: string)

  /** One part of an id, read exactly as Python's `int()` reads it. */
  function PartValue(part: string): (r: Result<int, EntityIdError>)
    ensures r.Ok? <==> PyInt(part).Some?
    ensures r.Ok? ==> PyInt(part) == Some(r.value)
    ensures r.Err? ==> r.error == NotAnInteger(part)
  {
    match PyInt(part)
    case Some(v) => Ok(v)
    case None => Err(NotAnInteger(part))
  }

  /**
   * `parse_entity_id`: "num", "realm.num" or "shard.realm.num", each part
   * read with Python's `int()`; the empty string and more than three parts
   * are errors.
   */
  function ParseEntityId(s: string): (r: Result<EntityId, EntityIdError>)
    ensures s == [] ==> r == Err(EmptyEntityId)
  {
    if s == [] then Err(EmptyEntityId)
    else
      var parts := Split(s, '.');
      if |parts| > 3 then Err(TooManyParts(s))
      else FromParts(parts)
  }

  /**
   * The id spelled by one, two or three parts, read from the left: every
   * part must be an integer, and the first one that is not is the error;
   * missing leading parts are 0.
   */
  function FromParts(parts: seq<string>): (r: Result<EntityId, EntityIdError>)
    requires 1 <= |parts| <= 3
    ensures r.Ok? <==>
              PartValue(parts[0]).Ok?
              && (|parts| >= 2 ==> PartValue(parts[1]).Ok?)
              && (|parts| == 3 ==> PartValue(parts[2]).Ok?)
    ensures r.Ok? && |parts| == 1 ==> r.value.shard == 0 && r.value.realm == 0 && PartValue(parts[0]) == Ok(r.value.num)
    ensures r.Ok? && |parts| == 2 ==>
              r.value.shard == 0 && PartValue(parts[0]) == Ok(r.value.realm) && PartValue(parts[1]) == Ok(r.value.num)
    ensures r.Ok? && |parts| == 3 ==>
              PartValue(parts[0]) == Ok(r.value.shard) && PartValue(parts[1]) == Ok(r.value.realm)
              && PartValue(parts[2]) == Ok(r.value.num)
    ensures PartValue(parts[0]).Err? ==> r == Err(NotAnInteger(parts[0]))
    ensures |parts| >= 2 && PartValue(parts[0]).Ok? && PartValue(parts[1]).Err? ==> r == Err(NotAnInteger(parts[1]))
    ensures |parts| == 3 && PartValue(parts[0]).Ok? && PartValue(parts[1]).Ok? && PartValue(parts[2]).Err? ==>
              r == Err(NotAnInteger(parts[2]))
  {
    var n := |parts|;
    match PartValue(parts[0])
    case Err(e) => Err(e)
    case Ok(first) =>
      if n == 1 then Ok(EntityId(0, 0, first))
      else
        match PartValue(parts[1])
        case Err(e) => Err(e)
        case Ok(second) =>
          if n == 2 then Ok(EntityId(0, first, second))
          else
            match PartValue(parts[2])
            case Err(e) => Err(e)
            case Ok(third) => Ok(EntityId(first, second, third))
  }

  /** Parsing fails on the empty string and on more than three parts, and otherwise reads the parts. */
  lemma ParseEntityIdAccepts(s: string)
    ensures s != [] && |Split(s, '.')| > 3 ==> ParseEntityId(s) == Err(TooManyParts(s))
    ensures s != [] && |Split(s, '.')| <= 3 ==> ParseEntityId(s) == FromParts(Split(s, '.'))
  {
  }

  /** `validate_entity_id`: true exactly when parsing succeeds. */
  function ValidateEntityId(s: string): (r: bool)
    ensures r <==> ParseEntityId(s).Ok?
  {
    ParseEntityId(s).Ok?
  }

  /** Parsing the rendered id gives the id back, for every integer component. */
  lemma EntityIdRoundTrip(e: EntityId)
    ensures ParseEntityId(FormatEntityId(e)) == Ok(e)
  {
    var a, b, c := IntToString(e.shard), IntToString(e.realm), IntToString(e.num);
    var s := FormatEntityId(e);
    assert s == a + ['.'] + b + ['.'] + c;
    ThreeParts(a, b, c, '.');
    IntPart(e.shard);
    IntPart(e.realm);
    IntPart(e.num);
    FromThreeParts(a, b, c, e);
  }

  /** `str(i)` is a part that reads as `i`. */
  lemma IntPart(i: int)
    ensures PartValue(IntToString(i)) == Ok(i)
  {
    PyIntOfIntToString(i);
  }

  lemma FromThreeParts(a: string, b: string, c: string, e: EntityId)
    requires PartValue(a) == Ok(e.shard) && PartValue(b) == Ok(e.realm) && PartValue(c) == Ok(e.num)
    ensures FromParts([a, b, c]) == Ok(e)
  {
    var parts := [a, b, c];
    assert parts[|parts| - 1] == c && parts[|parts| - 2] == b && parts[0] == a;
  }

  /** The one-part short form fills in zeros for the shard and the realm. */
  lemma OnePartEntityId(num: nat)
    ensures ParseEntityId(NatToString(num)) == Ok(EntityId(0, 0, num))
  {
    var n := NatToString(num);
    NatPart(num);
    assert Split(n, '.') == [n];
    assert FromParts([n]) == Ok(EntityId(0, 0, num));
  }

  /** The two-part short form fills in a zero for the shard. */
  lemma TwoPartEntityId(realm: nat, num: nat)
    ensures ParseEntityId(NatToString(realm) + "." + NatToString(num)) == Ok(EntityId(0, realm, num))
  {
    NatPart(realm);
    NatPart(num);
    TwoPartsParse(NatToString(realm), NatToString(num), realm, num);
  }

  lemma TwoPartsParse(r: string, n: string, realm: int, num: int)
    requires PartValue(r) == Ok(realm) && PartValue(n) == Ok(num) && '.' !in r && '.' !in n
    ensures ParseEntityId(r + "." + n) == Ok(EntityId(0, realm, num))
  {
    SplitPrefix(r, '.', n);
    assert Split(n, '.') == [n];
    assert r + "." + n == r + ['.'] + n;
    assert Split(r + "." + n, '.') == [r, n];
    var parts := [r, n];
    assert parts[|parts| - 1] == n && parts[|parts| - 2] == r;
  }

  /**
   * The parts are read from the left: when the first of two parts is not an
   * integer, that part is the error, whatever the second one holds.
   */
  lemma FirstBadPartReported(a: string, b: string)
    requires PartValue(a).Err? && '.' !in a && '.' !in b
    ensures ParseEntityId(a + "." + b) == Err(NotAnInteger(a))
  {
    SplitPrefix(a, '.', b);
    assert Split(b, '.') == [b];
    assert a + "." + b == a + ['.'] + b;
    assert Split(a + "." + b, '.') == [a, b];
  }

  /** A rendered natural number is a part without a dot that reads as itself. */
  lemma NatPart(n: nat)
    ensures PartValue(NatToString(n)) == Ok(n)
    ensures '.' !in NatToString(n)
  {
    PyIntOfDigits(NatToString(n));
    NoCharInDigits(NatToString(n), '.');
  }

  // ------------------------------------------------------------ timestamps

  datatype Timestamp = Timestamp(seconds: int, nanoseconds: int)

  /** Python's `s.ljust(9, "0")[:9]`. */
  function NanosDigits(frac: string): (r: string)
    ensures |r| == 9
    ensures |frac| <= 9 ==> r == frac + Repeat('0', 9 - |frac|)
    ensures |frac| > 9 ==> r == frac[..9]
    ensures AllDigits(frac) ==> AllDigits(r)
  {
    if |frac| < 9 then frac + Repeat('0', 9 - |frac|) else frac[..9]
  }

  /**
   * `parse_timestamp`: split at the first `.`; the seconds are `int()` of
   * the part before it and the nanoseconds `int()` of the first nine
   * characters of the zero-padded part after it; without a `.`, nanoseconds
   * are 0. `None` where `int()` raises.
   */
  function ParseTimestamp(s: string): (r: Option<Timestamp>)
    ensures '.' !in s ==> r == if PyInt(s).Some? then Some(Timestamp(PyInt(s).value, 0)) else None
  {
    var dot := Find(s, ".", 0);
    assert '.' !in s ==> dot == -1 by {
      if '.' !in s {
        FindAbsent(s, '.');
      }
    }
    if dot < 0 then TimestampOf(PyInt(s), Some(0))
    else TimestampOf(PyInt(s[..dot]), PyInt(NanosDigits(s[dot + 1..])))
  }

  /** The timestamp when both `int()` calls succeed; `None` for the `ValueError`. */
  function TimestampOf(seconds: Option<int>, nanoseconds: Option<int>): Option<Timestamp>
  {
    if seconds.Some? && nanoseconds.Some? then Some(Timestamp(seconds.value, nanoseconds.value)) else None
  }

  /** `s.find(c)` is -1 when `c` does not occur. */
  lemma FindAbsent(s: string, c: char)
    requires c !in s
    ensures Find(s, [c], 0) == -1
  {
    forall k | 0 <= k
      ensures !OccursAt(s, k, [c])
    {
      if k + 1 <= |s| {
        assert s[k..k + 1][0] == s[k];
      }
    }
  }


  /** A run of digits is what `int()` reads it as. */
  lemma PyIntOfDigits(s: string)
    requires |s| > 0 && AllDigits(s)
    ensures PyInt(s) == Some(DigitsValue(s))
  {
    StripNoop(s);
    PyIntUnsigned(s);
    UnsignedValueOfDigits(s);
  }

  lemma AllDigitsConcat(a: string, b: string)
    requires AllDigits(a) && AllDigits(b)
    ensures AllDigits(a + b)
  {
    forall i | 0 <= i < |a + b|
      ensures IsDigit((a + b)[i])
    {
      if i < |a| {
        assert (a + b)[i] == a[i];
      } else {
        assert (a + b)[i] == b[i - |a|];
      }
    }
  }

  lemma {:induction false} DigitsValueConcat(a: string, b: string)
    requires AllDigits(a) && AllDigits(b)
    ensures AllDigits(a + b) && DigitsValue(a + b) == DigitsValue(a) * Pow10(|b|) + DigitsValue(b)
    decreases |b|
  {
    AllDigitsConcat(a, b);
    if b == [] {
      assert a + b == a;
    } else {
      var b' := b[..|b| - 1];
      var last := b[|b| - 1];
      DigitsValueConcat(a, b');
      assert DigitsValue(a + b) == DigitsValue(a + b') * 10 + DigitValue(last) by {
        assert (a + b)[..|a + b| - 1] == a + b';
        assert (a + b)[|a + b| - 1] == last;
      }
      ShiftDigit(DigitsValue(a), Pow10(|b'|), DigitsValue(b'), DigitValue(last));
    }
  }

  lemma ShiftDigit(va: nat, p: nat, vb: nat, d: nat)
    ensures (va * p + vb) * 10 + d == va * (10 * p) + (vb * 10 + d)
  {
  }

  lemma {:induction false} ZerosValue(k: nat)
    ensures AllDigits(Repeat('0', k)) && DigitsValue(Repeat('0', k)) == 0
  {
    if k > 0 {
      ZerosValue(k - 1);
      assert Repeat('0', k)[..k - 1] == Repeat('0', k - 1);
    }
  }

  lemma {:induction false} Pow10Add(a: nat, b: nat)
    ensures Pow10(a + b) == Pow10(a) * Pow10(b)
    decreases a
  {
    if a > 0 {
      Pow10Add(a - 1, b);
    }
  }

  /** A digit string of length `k` is below 10^k. */
  lemma {:induction false} DigitsValueBound(s: string)
    requires AllDigits(s)
    ensures DigitsValue(s) < Pow10(|s|)
  {
    if s != [] {
      DigitsValueBound(s[..|s| - 1]);
    }
  }

  /** In "digits.fraction" the first `.` is the one after the digits. */
  lemma DotAfterDigits(sec: string, frac: string)
    requires AllDigits(sec)
    ensures var s := sec + "." + frac;
            Find(s, ".", 0) == |sec| && s[..|sec|] == sec && s[|sec| + 1..] == frac
  {
    var s := sec + "." + frac;
    assert OccursAt(s, |sec|, ".");
    forall k | 0 <= k < |sec|
      ensures !OccursAt(s, k, ".")
    {
      assert s[k] == sec[k];
    }
  }

  lemma NanosBound(nd: string)
    requires AllDigits(nd) && |nd| == 9
    ensures DigitsValue(nd) < 1000000000
  {
    DigitsValueBound(nd);
    Pow10Nine();
  }

  /** `v * 10^k`, written as `k` multiplications by ten. */
  function ScaleUp(v: nat, k: nat): nat
  {
    if k == 0 then v else ScaleUp(v, k - 1) * 10
  }

  lemma {:induction false} ScaleUpIsPow10(v: nat, k: nat)
    ensures ScaleUp(v, k) == v * Pow10(k)
  {
    if k > 0 {
      ScaleUpIsPow10(v, k - 1);
      assert v * Pow10(k - 1) * 10 == v * (10 * Pow10(k - 1));
    }
  }

  /** The nine nanosecond digits read the fraction scaled to nine places. */
  lemma NanosValue(frac: string)
    requires AllDigits(frac)
    ensures |frac| <= 9 ==> DigitsValue(NanosDigits(frac)) == ScaleUp(DigitsValue(frac), 9 - |frac|)
    ensures |frac| > 9 ==> DigitsValue(NanosDigits(frac)) == DigitsValue(frac[..9])
  {
    if |frac| <= 9 {
      ZerosAppended(frac, 9 - |frac|);
      assert NanosDigits(frac) == frac + Repeat('0', 9 - |frac|);
    }
  }

  /** Appending `k` zero digits scales the value up by 10^k. */
  lemma {:induction false} ZerosAppended(a: string, k: nat)
    ensures DigitsValue(a + Repeat('0', k)) == ScaleUp(DigitsValue(a), k)
  {
    if k > 0 {
      ZerosAppended(a, k - 1);
      var x := a + Repeat('0', k - 1);
      var y := x + ['0'];
      assert Repeat('0', k) == Repeat('0', k - 1) + ['0'];
      assert a + Repeat('0', k) == y;
      assert y[..|y| - 1] == x && y[|y| - 1] == '0';
      assert DigitsValue(y) == DigitsValue(x) * 10;
    } else {
      assert a + Repeat('0', 0) == a;
    }
  }

  lemma Pow10Nine()
    ensures Pow10(9) == 1000000000
  {
  }

  /**
   * The fraction digits are the nanoseconds: a fraction of up to nine digits
   * is scaled up, a longer one is cut to its first nine.
   */
  lemma TimestampFraction(sec: string, frac: string)
    requires |sec| > 0 && AllDigits(sec) && AllDigits(frac)
    ensures ParseTimestamp(sec + "." + frac).Some?
    ensures ParseTimestamp(sec + "." + frac).value.seconds == DigitsValue(sec)
    ensures |frac| <= 9 ==> ParseTimestamp(sec + "." + frac).value.nanoseconds == ScaleUp(DigitsValue(frac), 9 - |frac|)
    ensures |frac| > 9 ==> ParseTimestamp(sec + "." + frac).value.nanoseconds == DigitsValue(frac[..9])
    ensures 0 <= ParseTimestamp(sec + "." + frac).value.nanoseconds < 1000000000
  {
    DotAfterDigits(sec, frac);
    assert ParseTimestamp(sec + "." + frac) == TimestampOf(PyInt(sec), PyInt(NanosDigits(frac)));
    PyIntOfDigits(sec);
    NanosValue(frac);
    NanosBound(NanosDigits(frac));
    PyIntOfDigits(NanosDigits(frac));
  }

  // ------------------------------------------------------------ balances

  /** Zero-padding on the left to `width` characters. */
  function PadLeftZeros(s: string, width: nat): (r: string)
    ensures |s| <= width ==> r == Repeat('0', width - |s|) + s && |r| == width
    ensures |s| > width ==> r == s
  {
    if |s| < width then Repeat('0', width - |s|) + s else s
  }

  function Abs(b: int): nat
  {
    if b < 0 then -b else b
  }

  function Sign(b: int): string
  {
    if b < 0 then "-" else ""
  }

  /**
   * `f"{Decimal(b) / Decimal(10 ** d):.{d}f}"`: the exact quotient with
   * exactly `d` fraction digits.
   */
  function FixedPoint(b: int, d: nat): string
  {
    var m := Abs(b);
    if d == 0 then Sign(b) + NatToString(m)
    else
      var p := Pow10(d);
      DivModNat(m, p);
      Sign(b) + NatToString(m / p) + "." + PadLeftZeros(NatToString(m % p), d)
  }

  lemma DivModNat(m: nat, p: nat)
    requires p >= 1
    ensures m / p >= 0 && 0 <= m % p < p && m == m / p * p + m % p
  {
  }

  /**
   * `format_balance` as written: trailing zeros and then a trailing `.` are
   * stripped from the fixed-point text, and ".0" is appended to a non-zero
   * balance left without a `.`. With `d == 0` the text has no `.`, so the
   * zeros stripped are those of the integer itself.
   */
  function FormatBalanceAsWritten(b: int, d: nat): (r: string)
    ensures b != 0 ==> '.' in r
  {
    var f := RStripChar(RStripChar(FixedPoint(b, d), '0'), '.');
    if '.' !in f && b != 0 then f + ".0" else f
  }

  /** With no decimals, 50 units render as "5.0", which reads as five. */
  lemma FormatBalanceNoDecimals()
    ensures FormatBalanceAsWritten(50, 0) == "5.0"
    ensures !Denotes(FormatBalanceAsWritten(50, 0), 0, 50)
  {
    assert NatToString(50) == "50";
    assert RStripChar("50", '0') == "5";
    assert RStripChar("5", '.') == "5";
    FiveReadsAsFive();
  }

  /** With no decimals, a zero balance renders as the empty string, which reads as nothing. */
  lemma FormatZeroNoDecimals()
    ensures FormatBalanceAsWritten(0, 0) == ""
    ensures !Denotes(FormatBalanceAsWritten(0, 0), 0, 0)
  {
    assert NatToString(0) == "0";
    assert RStripChar("0", '0') == "";
  }

  lemma FiveReadsAsFive()
    ensures ParseScaled("5.0") == Some((50, 1))
  {
    assert "5.0" == "5" + ['.'] + "0";
    SplitPrefix("5", '.', "0");
    assert Split("0", '.') == ["0"];
    assert DigitsValue("5") == 5 && DigitsValue("0") == 0;
  }

  /**
   * `format_balance` as evidently intended: the integer with ".0" when there
   * are no decimals, otherwise the code's rendering.
   */
  function FormatBalance(b: int, d: nat): (r: string)
    ensures d >= 1 ==> r == FormatBalanceAsWritten(b, d)
    ensures d == 0 ==> |IntToString(b)| <= |r| && r[..|IntToString(b)|] == IntToString(b)
  {
    if d == 0 then IntToString(b) + (if b != 0 then ".0" else "") else FormatBalanceAsWritten(b, d)
  }

  /**
   * A reading of a decimal text: an optional `-`, digits, and optionally a
   * `.` and at least one digit; `(n, t)` stands for n / 10^t.
   */
  function ParseScaled(s: string): Option<(int, nat)>
  {
    var neg := |s| > 0 && s[0] == '-';
    match ScaledParts(Split(if neg then s[1..] else s, '.'))
    case None => None
    case Some(p) =>
      var m: int := p.0;
      var v: int := if neg then -m else m;
      Some((v, p.1))
  }

  /** The value of "digits" or "digits.digits", both runs non-empty. */
  function ScaledParts(parts: seq<string>): Option<(nat, nat)>
  {
    if |parts| == 1 && parts[0] != [] && AllDigits(parts[0]) then Some((DigitsValue(parts[0]), 0))
    else if |parts| == 2 && parts[0] != [] && AllDigits(parts[0]) && parts[1] != [] && AllDigits(parts[1]) then
      Some((ScaledValue(parts[0], parts[1]), |parts[1]|))
    else None
  }

  /** The digits of "whole.frac" read as one integer. */
  function ScaledValue(whole: string, frac: string): nat
    requires AllDigits(whole) && AllDigits(frac)
  {
    DigitsValue(whole) * Pow10(|frac|) + DigitsValue(frac)
  }

  /** The text is a decimal whose value is b / 10^d. */
  predicate Denotes(s: string, d: nat, b: int)
  {
    var p := ParseScaled(s);
    p.Some? && p.value.0 * Pow10(d) == b * Pow10(p.value.1)
  }

  lemma {:induction false} RStripCharConcat(a: string, b: string, c: char)
    ensures RStripChar(b, c) != [] ==> RStripChar(a + b, c) == a + RStripChar(b, c)
    ensures RStripChar(b, c) == [] ==> RStripChar(a + b, c) == RStripChar(a, c)
    decreases |b|
  {
    if b == [] {
      assert a + b == a;
    } else if b[|b| - 1] == c {
      assert (a + b)[..|a + b| - 1] == a + b[..|b| - 1];
      RStripCharConcat(a, b[..|b| - 1], c);
    }
  }

  lemma {:induction false} NatToStringLength(n: nat, k: nat)
    requires k >= 1 && n < Pow10(k)
    ensures |NatToString(n)| <= k
    decreases k
  {
    if n >= 10 {
      NatToStringLength(n / 10, k - 1);
    }
  }

  /** A digit string is its zero-stripped head followed by zeros. */
  lemma TrailingZeros(p: string)
    requires AllDigits(p)
    ensures var t := RStripChar(p, '0');
            AllDigits(t) && DigitsValue(p) == DigitsValue(t) * Pow10(|p| - |t|)
  {
    var t := RStripChar(p, '0');
    assert p == t + Repeat('0', |p| - |t|);
    ZerosValue(|p| - |t|);
    DigitsValueConcat(t, Repeat('0', |p| - |t|));
  }

  /** The remainder padded to `d` digits reads as the remainder; it strips to nothing exactly when it is 0. */
  lemma PaddedRemainder(r: nat, d: nat)
    requires d >= 1 && r < Pow10(d)
    ensures var p := PadLeftZeros(NatToString(r), d);
            AllDigits(p) && |p| == d && DigitsValue(p) == r
            && (r == 0 <==> RStripChar(p, '0') == [])
  {
    var digits := NatToString(r);
    NatToStringLength(r, d);
    var zeros := Repeat('0', d - |digits|);
    var p := PadLeftZeros(digits, d);
    assert p == zeros + digits;
    ZerosValue(d - |digits|);
    DigitsValueConcat(zeros, digits);
    if r == 0 {
      assert digits == "0";
      assert forall k :: 0 <= k < |p| ==> p[k] == '0';
    } else {
      assert digits[0] != '0';
      assert p[|zeros|] == digits[0];
      assert RStripChar(p, '0') != [];
    }
  }

  /**
   * Stripping "x.p" of trailing zeros and then of a trailing `.` leaves `x`
   * when the fraction was all zeros and "x.t" otherwise, `t` the fraction
   * without its trailing zeros.
   */
  lemma StripFraction(x: string, p: string)
    requires |x| > 0 && IsDigit(x[|x| - 1]) && AllDigits(p)
    ensures var t := RStripChar(p, '0');
            RStripChar(RStripChar(x + "." + p, '0'), '.') == if t == [] then x else x + "." + t
  {
    var xd := x + ".";
    assert x + "." + p == xd + p;
    RStripCharConcat(xd, p, '0');
    if RStripChar(p, '0') == [] {
      DotStripped(x);
    } else {
      FractionKept(x, p);
    }
  }

  lemma DotStripped(x: string)
    requires |x| > 0 && IsDigit(x[|x| - 1])
    ensures RStripChar(RStripChar(x + ".", '0'), '.') == x
  {
    var xd := x + ".";
    RStripLastNot(xd, '0');
    assert xd[..|x|] == x;
    RStripLastNot(x, '.');
  }

  lemma FractionKept(x: string, p: string)
    requires AllDigits(p) && RStripChar(p, '0') != []
    ensures var t := RStripChar(p, '0');
            RStripChar((x + ".") + t, '.') == x + "." + t
  {
    var t := RStripChar(p, '0');
    var u := (x + ".") + t;
    assert p[..|t|] == t;
    assert u[|u| - 1] == p[|t| - 1];
    RStripLastNot(u, '.');
  }

  /** Nothing is stripped from a string that does not end with the character. */
  lemma RStripLastNot(s: string, c: char)
    requires |s| > 0 && s[|s| - 1] != c
    ensures RStripChar(s, c) == s
  {
  }

  /** The magnitude with its sign and `str()` of the integer part of a balance. */
  function WholePart(b: int, d: nat): (r: string)
    ensures |r| > 0 && IsDigit(r[|r| - 1]) && '.' !in r
  {
    var q := Abs(b) / Pow10(d);
    DivModNat(Abs(b), Pow10(d));
    var n := NatToString(q);
    assert IsDigit(n[|n| - 1]);
    NoDotInDigits(n);
    Sign(b) + n
  }

  /** The rendered text of a balance with `d >= 1` decimals, part by part. */
  lemma FormatBalanceShape(b: int, d: nat)
    requires d >= 1
    ensures var r := Abs(b) % Pow10(d);
            var t := RStripChar(PadLeftZeros(NatToString(r), d), '0');
            FormatBalance(b, d)
              == if t == [] then (if b != 0 then WholePart(b, d) + ".0" else WholePart(b, d))
                 else WholePart(b, d) + "." + t
  {
    var m := Abs(b);
    DivModNat(m, Pow10(d));
    var r := m % Pow10(d);
    var p := PadLeftZeros(NatToString(r), d);
    var t := RStripChar(p, '0');
    var x := WholePart(b, d);
    PaddedRemainder(r, d);
    assert FixedPoint(b, d) == x + "." + p;
    StripFraction(x, p);
    if t != [] {
      assert (x + "." + t)[|x|] == '.';
    }
  }

  /** A magnitude that reads right, with the balance's sign, reads right. */
  lemma SignedScale(b: int, mag: nat, pt: int, pd: int)
    requires mag * pd == Abs(b) * pt
    ensures var v: int := mag;
            (if b < 0 then -v else v) * pd == b * pt
  {
    if b < 0 {
      var v: int := mag;
      calc {
        (-v) * pd;
        -(v * pd);
        -((-b) * pt);
        b * pt;
      }
    }
  }

  /** Every rendering reads back as balance / 10^decimals. */
  lemma FormatBalanceDenotes(b: int, d: nat)
    ensures Denotes(FormatBalance(b, d), d, b)
    ensures b != 0 ==> '.' in FormatBalance(b, d)
    ensures b == 0 ==> FormatBalance(b, d) == "0"
  {
    if d == 0 {
      FormatNoDecimalsDenotes(b);
    } else {
      FormatDecimalsDenotes(b, d);
    }
  }

  lemma FormatNoDecimalsDenotes(b: int)
    ensures Denotes(FormatBalance(b, 0), 0, b)
    ensures b != 0 ==> '.' in FormatBalance(b, 0)
    ensures b == 0 ==> FormatBalance(b, 0) == "0"
  {
    var n := NatToString(Abs(b));
    assert IntToString(b) == Sign(b) + n;
    if b != 0 {
      ZeroIsDigits();
      assert FormatBalance(b, 0) == Sign(b) + n + "." + "0";
      assert ScaledValue(n, "0") == Abs(b) * 10;
      TextDenotes(b, 0, n, "0");
    } else {
      ScaledOfWhole(n);
    }
  }

  lemma FormatDecimalsDenotes(b: int, d: nat)
    requires d >= 1
    ensures Denotes(FormatBalance(b, d), d, b)
    ensures b != 0 ==> '.' in FormatBalance(b, d)
    ensures b == 0 ==> FormatBalance(b, d) == "0"
  {
    if Abs(b) % Pow10(d) == 0 {
      RoundDenotes(b, d);
    } else {
      FractionDenotes(b, d);
    }
  }

  /** A whole number of units renders as the integer part with ".0" (or "0"). */
  lemma RoundDenotes(b: int, d: nat)
    requires d >= 1 && Abs(b) % Pow10(d) == 0
    ensures Denotes(FormatBalance(b, d), d, b)
    ensures b != 0 ==> '.' in FormatBalance(b, d)
    ensures b == 0 ==> FormatBalance(b, d) == "0"
  {
    if b == 0 {
      ZeroBalance(d);
    } else {
      var m := Abs(b);
      var pd := Pow10(d);
      DivModNat(m, pd);
      var q := m / pd;
      var x := NatToString(q);
      RoundText(b, d);
      assert WholePart(b, d) == Sign(b) + x;
      DotZero(Sign(b) + x);
      RoundScale(m, q, d);
      TextDenotes(b, d, x, "0");
    }
  }

  /** A non-zero whole number of units renders as its integer part followed by ".0". */
  lemma RoundText(b: int, d: nat)
    requires d >= 1 && Abs(b) % Pow10(d) == 0 && b != 0
    ensures FormatBalance(b, d) == WholePart(b, d) + ".0"
  {
    FormatBalanceShape(b, d);
    PaddedRemainder(0, d);
  }

  lemma DotZero(w: string)
    ensures w + ".0" == w + "." + "0"
  {
  }

  /** A zero balance renders as "0". */
  lemma ZeroBalance(d: nat)
    requires d >= 1
    ensures FormatBalance(0, d) == "0" && Denotes("0", d, 0)
  {
    FormatBalanceShape(0, d);
    PaddedRemainder(0, d);
    assert WholePart(0, d) == "0";
    ScaledOfWhole("0");
  }

  /** A balance with a fractional part renders it without trailing zeros. */
  lemma FractionDenotes(b: int, d: nat)
    requires d >= 1 && Abs(b) % Pow10(d) != 0
    ensures Denotes(FormatBalance(b, d), d, b)
    ensures '.' in FormatBalance(b, d)
  {
    var m := Abs(b);
    var pd := Pow10(d);
    DivModNat(m, pd);
    var q := m / pd;
    var r := m % pd;
    var p := PadLeftZeros(NatToString(r), d);
    var t := RStripChar(p, '0');
    var x := NatToString(q);
    FormatBalanceShape(b, d);
    PaddedRemainder(r, d);
    assert WholePart(b, d) == Sign(b) + x;
    assert FormatBalance(b, d) == Sign(b) + x + "." + t;
    assert (Sign(b) + x + "." + t)[|Sign(b) + x|] == '.';
    FractionScale(m, q, d, p);
    TextDenotes(b, d, x, t);
  }

  /** The integer part and the stripped fraction digits, read together, scale to the magnitude. */
  lemma FractionScale(m: nat, q: nat, d: nat, p: string)
    requires AllDigits(p) && |p| == d && m == q * Pow10(d) + DigitsValue(p)
    ensures var t := RStripChar(p, '0');
            AllDigits(t) && ScaledValue(NatToString(q), t) * Pow10(d) == m * Pow10(|t|)
  {
    var pd := Pow10(d);
    var r := DigitsValue(p);
    var t := RStripChar(p, '0');
    TrailingZeros(p);
    var pt := Pow10(|t|);
    var scale := Pow10(d - |t|);
    Pow10Add(d - |t|, |t|);
    assert pd == scale * pt;
    assert r == DigitsValue(t) * scale;
    var sv := ScaledValue(NatToString(q), t);
    assert sv == q * pt + DigitsValue(t);
    FractionArithmetic(m, q, r, DigitsValue(t), pt, pd, scale, sv);
  }

  /** "sign x.f" denotes b / 10^d when the digits of x and f, read together, scale to |b|. */
  lemma TextDenotes(b: int, d: nat, x: string, f: string)
    requires |x| > 0 && AllDigits(x) && |f| > 0 && AllDigits(f)
    requires ScaledValue(x, f) * Pow10(d) == Abs(b) * Pow10(|f|)
    ensures Denotes(Sign(b) + x + "." + f, d, b)
  {
    ScaledOf(Sign(b), x, f);
    SignedScale(b, ScaledValue(x, f), Pow10(|f|), Pow10(d));
  }

  lemma ZeroIsDigits()
    ensures AllDigits("0") && DigitsValue("0") == 0
  {
    assert "0"[0] == '0';
  }

  /** A whole number of units, written with ".0", scales to the magnitude. */
  lemma RoundScale(m: nat, q: nat, d: nat)
    requires m == q * Pow10(d) + 0
    ensures AllDigits("0") && ScaledValue(NatToString(q), "0") * Pow10(d) == m * Pow10(1)
  {
    ZeroIsDigits();
    var pd := Pow10(d);
    assert Pow10(1) == 10;
    assert ScaledValue(NatToString(q), "0") == q * 10;
    TenTimes(q, pd);
  }

  lemma TenTimes(q: nat, pd: nat)
    ensures q * 10 * pd == (q * pd + 0) * 10
  {
  }

  lemma FractionArithmetic(m: nat, q: nat, r: nat, v: nat, pt: nat, pd: nat, scale: nat, sv: nat)
    requires m == q * pd + r && r == v * scale && pd == scale * pt && sv == q * pt + v
    ensures sv * pd == m * pt
  {
    ScaledArithmetic(q, v, pt, pd, scale);
  }

  /** (q * pt + v) * pd == (q * pd + v * scale) * pt when pd == scale * pt. */
  lemma ScaledArithmetic(q: nat, v: nat, pt: nat, pd: nat, scale: nat)
    requires pd == scale * pt
    ensures (q * pt + v) * pd == (q * pd + v * scale) * pt
  {
    calc {
      (q * pt + v) * pd;
      q * pt * pd + v * pd;
      { assert v * pd == v * (scale * pt); }
      q * pd * pt + v * scale * pt;
      (q * pd + v * scale) * pt;
    }
  }

  lemma NoDotInDigits(x: string)
    requires AllDigits(x)
    ensures '.' !in x
  {
    forall k | 0 <= k < |x|
      ensures x[k] != '.'
    {
      assert IsDigit(x[k]);
    }
  }

  /** Reading "sign digits.fraction". */
  lemma ScaledOf(sign: string, x: string, f: string)
    requires sign == "" || sign == "-"
    requires |x| > 0 && AllDigits(x) && |f| > 0 && AllDigits(f)
    ensures var mag: int := ScaledValue(x, f);
            ParseScaled(sign + x + "." + f) == Some((if sign == "-" then -mag else mag, |f|))
  {
    var body := x + "." + f;
    UnsignedScaledOf(x, f);
    if sign == "-" {
      assert sign + x + "." + f == "-" + body;
      NegativeParsed(body, ScaledValue(x, f), |f|);
    } else {
      assert sign + x + "." + f == body;
      assert IsDigit(x[0]) && body[0] == x[0];
      PositiveParsed(body, ScaledValue(x, f), |f|);
    }
  }

  lemma NegativeParsed(body: string, m: nat, n: nat)
    requires ScaledParts(Split(body, '.')) == Some((m, n))
    ensures var v: int := m;
            ParseScaled("-" + body) == Some((-v, n))
  {
    var s := "-" + body;
    assert s[0] == '-' && s[1..] == body;
  }

  lemma PositiveParsed(body: string, m: nat, n: nat)
    requires |body| > 0 && body[0] != '-' && ScaledParts(Split(body, '.')) == Some((m, n))
    ensures ParseScaled(body) == Some((m, n))
  {
  }

  lemma UnsignedScaledOf(x: string, f: string)
    requires |x| > 0 && AllDigits(x) && |f| > 0 && AllDigits(f)
    ensures ScaledParts(Split(x + "." + f, '.')) == Some((ScaledValue(x, f), |f|))
  {
    NoDotInDigits(x);
    NoDotInDigits(f);
    SplitPrefix(x, '.', f);
    assert x + "." + f == x + ['.'] + f;
    assert Split(f, '.') == [f];
  }

  /** Reading a non-negative whole number. */
  lemma ScaledOfWhole(x: string)
    requires |x| > 0 && AllDigits(x)
    ensures ParseScaled(x) == Some((DigitsValue(x) as int, 0))
  {
    assert IsDigit(x[0]);
    NoDotInDigits(x);
    assert Split(x, '.') == [x];
    assert ScaledParts([x]) == Some((DigitsValue(x), 0));
  }

  /** A balance argument: an integer, or a string read with `int()`. */
  datatype Balance = Units(units: int) | Text(text: string)

  /** The balance in smallest units; `None` where `int()` raises. */
  function BalanceUnits(balance: Balance): (r: Option<int>)
    ensures balance.Units? ==> r == Some(balance.units)
    ensures balance.Text? ==> r == PyInt(balance.text)
  {
    match balance
    case Units(i) => Some(i)
    case Text(s) => PyInt(s)
  }

  /**
   * `format_balance` on either kind of argument, as written; `None` where it
   * raises: a text `int()` rejects, or negative decimals, which make the
   * precision of the format specification invalid. With at least one
   * decimal the text is the intended rendering and reads back as the
   * balance; with none it keeps the stripping of the integer's own zeros.
   */
  function FormatBalanceOf(balance: Balance, d: int): (r: Option<string>)
    ensures r.Some? <==> d >= 0 && BalanceUnits(balance).Some?
    ensures r.Some? && d >= 1 ==> r.value == FormatBalance(BalanceUnits(balance).value, d)
    ensures r.Some? && d >= 1 ==> Denotes(r.value, d, BalanceUnits(balance).value)
    ensures r.Some? && BalanceUnits(balance).value != 0 ==> '.' in r.value
    ensures balance == Units(50) && d == 0 ==> r == Some("5.0")
  {
    if d < 0 then None
    else
      match BalanceUnits(balance)
      case None => None
      case Some(b) =>
        FormatBalanceDenotes(b, d);
        FormatBalanceNoDecimals();
        Some(FormatBalanceAsWritten(b, d))
  }

  /** `format_hbar_balance`: tinybars with 8 decimals. */
  function FormatHbarBalance(balance: Balance): (r: Option<string>)
    ensures r.Some? <==> BalanceUnits(balance).Some?
    ensures r.Some? ==> Denotes(r.value, 8, BalanceUnits(balance).value)
    ensures r.Some? && BalanceUnits(balance).value != 0 ==> '.' in r.value
  {
    FormatBalanceOf(balance, 8)
  }

  // ------------------------------------------------------------ hex checks

  /** A hexadecimal digit in either case. */
  predicate IsHexDigitAnyCase(c: char)
  {
    IsDigit(c) || ('a' <= c <= 'f') || ('A' <= c <= 'F')
  }

  predicate AllHex(s: string)
  {
    forall i :: 0 <= i < |s| ==> IsHexDigit(s[i])
  }

  predicate AllHexAnyCase(s: string)
  {
    forall i :: 0 <= i < |s| ==> IsHexDigitAnyCase(s[i])
  }

  /** Lower-cased, then one leading "0x" removed. */
  function HexBody(s: string): string
  {
    var low := Lower(s);
    if StartsWith(low, "0x") then low[2..] else low
  }

  /** `n` hexadecimal digits once lower-cased and stripped of "0x". */
  predicate HexOfLength(s: string, n: nat)
  {
    var h := HexBody(s);
    |h| == n && AllHex(h)
  }

  /** `is_valid_evm_address`: 40 hex digits, with or without "0x". */
  function IsValidEvmAddress(address: string): (r: bool)
    ensures r <==> (|address| == 40 && AllHexAnyCase(address))
                   || (|address| == 42 && address[0] == '0' && (address[1] == 'x' || address[1] == 'X')
                       && AllHexAnyCase(address[2..]))
  {
    HexOfLengthAccepts(address, 40);
    HexOfLength(address, 40)
  }

  /** `is_valid_transaction_hash`: 64 or 96 hex digits, with or without "0x". */
  function IsValidTransactionHash(hash: string): (r: bool)
    ensures r <==> ((|hash| == 64 || |hash| == 96) && AllHexAnyCase(hash))
                   || ((|hash| == 66 || |hash| == 98) && hash[0] == '0' && (hash[1] == 'x' || hash[1] == 'X')
                       && AllHexAnyCase(hash[2..]))
  {
    HexOfLengthAccepts(hash, 64);
    HexOfLengthAccepts(hash, 96);
    HexOfLength(hash, 64) || HexOfLength(hash, 96)
  }

  lemma LowerHex(c: char)
    ensures IsHexDigit(LowerChar(c)) <==> IsHexDigitAnyCase(c)
  {
  }

  lemma AllHexLower(s: string)
    ensures AllHex(Lower(s)) <==> AllHexAnyCase(s)
  {
    forall i | 0 <= i < |s|
      ensures IsHexDigit(Lower(s)[i]) <==> IsHexDigitAnyCase(s[i])
    {
      LowerHex(s[i]);
    }
  }

  /**
   * The checks, stated on the input: exactly `n` hex digits in either case,
   * or "0x" / "0X" followed by exactly `n` of them.
   */
  lemma HexOfLengthAccepts(s: string, n: nat)
    ensures HexOfLength(s, n) <==>
              (|s| == n && AllHexAnyCase(s))
              || (|s| == n + 2 && s[0] == '0' && (s[1] == 'x' || s[1] == 'X') && AllHexAnyCase(s[2..]))
  {
    var low := Lower(s);
    if StartsWith(low, "0x") {
      assert low[1] == 'x' && low[0] == '0';
      assert s[0] == '0' && (s[1] == 'x' || s[1] == 'X');
      assert !IsHexDigitAnyCase(s[1]);
      assert low[2..] == Lower(s[2..]);
      AllHexLower(s[2..]);
    } else {
      AllHexLower(s);
    }
  }

  /** Upper and lower case are accepted alike. */
  lemma EvmAddressCaseInsensitive(address: string)
    ensures IsValidEvmAddress(address) <==> IsValidEvmAddress(Lower(address))
  {
    HexOfLengthAccepts(address, 40);
    HexOfLengthAccepts(Lower(address), 40);
    AllHexLower(address);
    AllHexLower(Lower(address));
    LowerIdempotent(address);
    if |address| >= 2 {
      assert Lower(address)[2..] == Lower(address[2..]);
      AllHexLower(address[2..]);
      AllHexLower(Lower(address[2..]));
      LowerIdempotent(address[2..]);
    }
  }

  lemma LowerIdempotent(s: string)
    ensures Lower(Lower(s)) == Lower(s)
  {
  }

  // ------------------------------------------------------------ transaction ids

  datatype TransactionId = TransactionId(
    accountId: string, validStartSeconds: int, validStartNanos: int,
    shard: int, realm: int, num: int)

  /** One or more ASCII digits (`\d+`). */
  predicate DigitRun(s: string)
  {
    |s| > 0 && AllDigits(s)
  }

  /** Python's `$` also matches just before one final newline. */
  function BeforeFinalNewline(s: string): (r: string)
    ensures r == s || s == r + "\n"
  {
    if |s| > 0 && s[|s| - 1] == '\n' then s[..|s| - 1] else s
  }

  /**
   * `parse_transaction_id`: "shard.realm.num-seconds-nanos", all five runs of
   * digits; the account id keeps the digits as written.
   */
  function ParseTransactionId(s: string): (r: Result<TransactionId, string>)
    ensures r.Err? ==> r.error == "Invalid transaction ID format: " + s
  {
    var dashed := Split(BeforeFinalNewline(s), '-');
    match TransactionIdOf(dashed, Split(dashed[0], '.'))
    case Some(t) => Ok(t)
    case None => Err("Invalid transaction ID format: " + s)
  }

  /**
   * The id spelled by the `-`-separated parts and the `.`-separated parts of
   * the first of them, if they have the shape the pattern demands.
   */
  function TransactionIdOf(dashed: seq<string>, dotted: seq<string>): Option<TransactionId>
  {
    if |dashed| == 3 && |dotted| == 3 && DigitRun(dotted[0]) && DigitRun(dotted[1]) && DigitRun(dotted[2])
       && DigitRun(dashed[1]) && DigitRun(dashed[2])
    then Some(RunsId(dashed[0], dashed[1], dashed[2], dotted[0], dotted[1], dotted[2]))
    else None
  }

  /** The id whose account is written as given and whose numbers are the values of the digit runs. */
  function RunsId(account: string, seconds: string, nanos: string, shard: string, realm: string, num: string): TransactionId
  {
    TransactionId(account, DigitsValue(seconds), DigitsValue(nanos), DigitsValue(shard), DigitsValue(realm), DigitsValue(num))
  }

  /** The account part of a parsed transaction id parses as that entity id. */
  lemma TransactionIdAccountParses(s: string)
    requires ParseTransactionId(s).Ok?
    ensures var t := ParseTransactionId(s).value;
            ParseEntityId(t.accountId) == Ok(EntityId(t.shard, t.realm, t.num))
  {
    var dashed := Split(BeforeFinalNewline(s), '-');
    var dotted := Split(dashed[0], '.');
    assert TransactionIdOf(dashed, dotted).Some?;
    assert dotted == [dotted[0], dotted[1], dotted[2]];
    FromDigitRuns(dotted[0], dotted[1], dotted[2]);
  }

  /** Three runs of digits make the entity id of their values. */
  lemma FromDigitRuns(a: string, b: string, c: string)
    requires DigitRun(a) && DigitRun(b) && DigitRun(c)
    ensures FromParts([a, b, c]) == Ok(EntityId(DigitsValue(a), DigitsValue(b), DigitsValue(c)))
  {
    DigitRunPart(a);
    DigitRunPart(b);
    DigitRunPart(c);
    FromThreeParts(a, b, c, EntityId(DigitsValue(a), DigitsValue(b), DigitsValue(c)));
  }

  /** A run of digits is a part that reads as its value. */
  lemma DigitRunPart(s: string)
    requires DigitRun(s)
    ensures PartValue(s) == Ok(DigitsValue(s))
  {
    PyIntOfDigits(s);
  }

  /** The `shard.realm.num` text of a paying account. */
  function AccountText(shard: nat, realm: nat, num: nat): string
  {
    NatToString(shard) + "." + NatToString(realm) + "." + NatToString(num)
  }

  /** The `shard.realm.num-seconds-nanos` text of a transaction id. */
  function TransactionIdText(shard: nat, realm: nat, num: nat, seconds: nat, nanos: nat): string
  {
    AccountText(shard, realm, num) + "-" + NatToString(seconds) + "-" + NatToString(nanos)
  }

  /** Rendering the parts and parsing them back gives the parts. */
  lemma TransactionIdRoundTrip(shard: nat, realm: nat, num: nat, seconds: nat, nanos: nat)
    ensures ParseTransactionId(TransactionIdText(shard, realm, num, seconds, nanos))
              == Ok(TransactionId(AccountText(shard, realm, num), seconds, nanos, shard, realm, num))
  {
    var a, b, c := NatToString(shard), NatToString(realm), NatToString(num);
    RunsRoundTrip(a, b, c, NatToString(seconds), NatToString(nanos));
    RunsOfNats(a + "." + b + "." + c, seconds, nanos, shard, realm, num);
  }

  /** Five runs of digits written in the id's layout parse to their values. */
  lemma RunsRoundTrip(a: string, b: string, c: string, x: string, y: string)
    requires DigitRun(a) && DigitRun(b) && DigitRun(c) && DigitRun(x) && DigitRun(y)
    ensures var account := a + "." + b + "." + c;
            ParseTransactionId(account + "-" + x + "-" + y) == Ok(RunsId(account, x, y, a, b, c))
  {
    var account := a + "." + b + "." + c;
    var s := account + "-" + x + "-" + y;
    AccountSplit(a, b, c);
    DashSplit(account, x, y);
    assert BeforeFinalNewline(s) == s by {
      assert s[|s| - 1] == y[|y| - 1];
    }
    ParsedFromRuns(s, account, x, y, a, b, c);
  }

  lemma RunsOfNats(account: string, seconds: nat, nanos: nat, shard: nat, realm: nat, num: nat)
    ensures RunsId(account, NatToString(seconds), NatToString(nanos), NatToString(shard), NatToString(realm), NatToString(num))
            == TransactionId(account, seconds, nanos, shard, realm, num)
  {
  }

  /** Five runs of digits in their places parse to their values. */
  lemma ParsedFromRuns(s: string, account: string, x: string, y: string, a: string, b: string, c: string)
    requires Split(BeforeFinalNewline(s), '-') == [account, x, y] && Split(account, '.') == [a, b, c]
    requires DigitRun(a) && DigitRun(b) && DigitRun(c) && DigitRun(x) && DigitRun(y)
    ensures ParseTransactionId(s) == Ok(RunsId(account, x, y, a, b, c))
  {
    assert TransactionIdOf([account, x, y], [a, b, c]) == Some(RunsId(account, x, y, a, b, c));
  }

  lemma AccountSplit(a: string, b: string, c: string)
    requires DigitRun(a) && DigitRun(b) && DigitRun(c)
    ensures Split(a + "." + b + "." + c, '.') == [a, b, c]
    ensures '-' !in a + "." + b + "." + c
  {
    NoCharInDigits(a, '.');
    NoCharInDigits(b, '.');
    NoCharInDigits(c, '.');
    ThreeParts(a, b, c, '.');
    NoCharInDigits(a, '-');
    NoCharInDigits(b, '-');
    NoCharInDigits(c, '-');
  }

  lemma DashSplit(account: string, x: string, y: string)
    requires '-' !in account && DigitRun(x) && DigitRun(y)
    ensures Split(account + "-" + x + "-" + y, '-') == [account, x, y]
  {
    NoCharInDigits(x, '-');
    NoCharInDigits(y, '-');
    ThreeParts(account, x, y, '-');
  }

  lemma NoCharInDigits(x: string, c: char)
    requires AllDigits(x) && !IsDigit(c)
    ensures c !in x
  {
    forall k | 0 <= k < |x|
      ensures x[k] != c
    {
      assert IsDigit(x[k]);
    }
  }

  /** One final newline is accepted and ignored, as Python's `$` allows; a second is not. */
  lemma TrailingNewlineAccepted(s: string)
    requires ParseTransactionId(s).Ok? && BeforeFinalNewline(s) == s
    ensures ParseTransactionId(s + "\n") == ParseTransactionId(s)
    ensures ParseTransactionId(s + "\n\n").Err?
  {
    assert BeforeFinalNewline(s + "\n") == s;
    var t := s + "\n";
    assert BeforeFinalNewline(s + "\n\n") == t;
    var dashed := Split(t, '-');
    SplitJoinsBack(t, '-');
    JoinEndsWithLast(dashed, "-");
    var last := dashed[|dashed| - 1];
    if |last| > 0 {
      assert last[|last| - 1] == '\n';
    }
  }

  /** A joined string ends with its last part. */
  lemma {:induction false} JoinEndsWithLast(parts: seq<string>, sep: string)
    requires |parts| >= 1
    ensures EndsWith(Join(parts, sep), parts[|parts| - 1])
  {
    if |parts| > 1 {
      JoinEndsWithLast(parts[1..], sep);
      var rest := Join(parts[1..], sep);
      assert Join(parts, sep) == (parts[0] + sep) + rest;
    }
  }
}

=== FILE: py_json.dfy ===
/**
 * Python values as they arrive from `json.loads` or are passed as `**kwargs`,
 * together with Python's truthiness and `dict.get`.
 */
module PyJson {
  datatype Json =
    | Null
    | Bool(b: bool)
    | Int(i: int)
    | Float(x: real)
    | Str(s: string)
    | Arr(items: seq<Json>)
    | Obj(fields: map<string, Json>)

  /** Python's `bool(v)`: None, False, zero and empty containers are false. */
  predicate Truthy(v: Json)
  {
    match v
    case Null => false
    case Bool(b) => b
    case Int(i) => i != 0
    case Float(x) => x != 0.0
    case Str(s) => |s| > 0
    case Arr(a) => |a| > 0
    case Obj(m) => |m| > 0
  }

  /** Python's `d.get(key, default)` on a dict. */
  function GetOr(m: map<string, Json>, key: string, default: Json): Json
  {
    if key in m then m[key] else default
  }

  /** Python's `isinstance(v, int)`, which `bool` values also satisfy. */
  predicate IsPyInt(v: Json)
  {
    v.Int? || v.Bool?
  }

  /** The integer an `int` (or `bool`) stands for. */
  function PyIntValue(v: Json): int
    requires IsPyInt(v)
  {
    if v.Int? then v.i else if v.b then 1 else 0
  }

  /**
   * Python's `str(v)`: a text is itself; the rendering of any other value is
   * given by `show`.
   */
  function PyStr(v: Json, show: Json -> string): string
  {
    if v.Str? then v.s else show(v)
  }
}

=== FILE: rate_limiter.dfy ===
/**
 * Per-fingerprint sliding-window request limiting over a Redis sorted set of
 * request instants (`FingerprintRateLimiter`), and the WebSocket decorator
 * that applies it (`rate_limit_websocket`).
 */
module RateLimiter {
  import opened Wrappers
  import opened Strings
  import opened Connections
  import RedisStore

  const DEFAULT_MAX_REQUESTS := 5
  const DEFAULT_WINDOW_SECONDS := 60
  const KEY_PREFIX := "rate_limit:fingerprint:"

  // ------------------------------------------------------------ fingerprint

  /** `get_header`: the value cut to `maxLength` characters, then stripped and lower-cased. */
  function HeaderValue(conn: Connection, name: string, maxLength: nat): string
  {
    Lower(Strip(Take(Header(conn, name), maxLength)))
  }

  /**
   * The address used in the fingerprint: proxy headers first, then the client
   * host ("unknown" without a client).
   */
  function RealIp(conn: Connection): (r: string)
    ensures Header(conn, "x-forwarded-for") == "" && Header(conn, "x-real-ip") != "" ==> r == Header(conn, "x-real-ip")
    ensures Header(conn, "x-forwarded-for") == "" && Header(conn, "x-real-ip") == "" ==>
              r == if conn.client.Some? then conn.client.value else "unknown"
  {
    var forwarded := Strip(Split(Header(conn, "x-forwarded-for"), ',')[0]);
    if forwarded != "" then forwarded
    else if Header(conn, "x-real-ip") != "" then Header(conn, "x-real-ip")
    else if conn.client.Some? then conn.client.value
    else "unknown"
  }

  /** The fields of the fingerprint data. */
  datatype Field = Ip | UserAgent | AcceptLanguage | AcceptEncoding | WsProtocol | WsExtensions | Origin

  /** The key each field is serialized under. */
  function FieldName(f: Field): string
  {
    match f
    case Ip => "ip"
    case UserAgent => "user_agent"
    case AcceptLanguage => "accept_language"
    case AcceptEncoding => "accept_encoding"
    case WsProtocol => "sec_websocket_protocol"
    case WsExtensions => "sec_websocket_extensions"
    case Origin => "origin"
  }

  /** The address (at most 45 characters) and six normalized headers. */
  function RawFingerprintData(conn: Connection): map<Field, string>
  {
    map f: Field :: FieldValue(conn, f)
  }

  function FieldValue(conn: Connection, f: Field): string
  {
    match f
    case Ip => Take(RealIp(conn), 45)
    case UserAgent => HeaderValue(conn, "user-agent", 500)
    case AcceptLanguage => HeaderValue(conn, "accept-language", 100)
    case AcceptEncoding => HeaderValue(conn, "accept-encoding", 100)
    case WsProtocol => HeaderValue(conn, "sec-websocket-protocol", 100)
    case WsExtensions => HeaderValue(conn, "sec-websocket-extensions", 200)
    case Origin => HeaderValue(conn, "origin", 200)
  }

  /** The comprehension that drops empty values. */
  function DropEmpty(data: map<Field, string>): (m: map<Field, string>)
    ensures m.Keys <= data.Keys
    ensures forall k :: k in m ==> m[k] == data[k] && m[k] != ""
    ensures forall k :: k in data && data[k] != "" ==> k in m
  {
    map k | k in data && data[k] != "" :: data[k]
  }

  /** The fingerprint data: the raw fields with empty values removed. */
  function FingerprintData(conn: Connection): (m: map<Field, string>)
    ensures forall k :: k in m ==> m[k] != ""
    ensures Ip in m <==> RealIp(conn) != ""
    ensures Ip in m ==> m[Ip] == Take(RealIp(conn), 45) && |m[Ip]| <= 45
  {
    DropEmpty(RawFingerprintData(conn))
  }

  /**
   * The fingerprint: the first 16 hex digits of the SHA-256 of the data
   * serialized with sorted keys. `digest` stands for that serialization and
   * hash; taking a map makes it independent of field order, as sort_keys does.
   */
  function Fingerprint(conn: Connection, digest: map<Field, string> -> string): (r: string)
    ensures var h := digest(FingerprintData(conn));
            |r| == (if |h| < 16 then |h| else 16) && r == h[..|r|]
  {
    Take(digest(FingerprintData(conn)), 16)
  }

  /** A connection with no headers and no client is fingerprinted by the address "unknown" alone. */
  lemma BareConnectionData(conn: Connection)
    requires conn.headers == map[] && conn.client.None?
    ensures FingerprintData(conn) == map[Ip := "unknown"]
  {
    BareFieldValues(conn);
    DropEmptyOnly(RawFingerprintData(conn), Ip);
  }

  lemma BareFieldValues(conn: Connection)
    requires conn.headers == map[] && conn.client.None?
    ensures FieldValue(conn, Ip) == "unknown"
    ensures forall f: Field :: f != Ip ==> FieldValue(conn, f) == ""
  {
    assert Split("", ',') == [""];
    assert Strip("") == "";
    assert Lower("") == "";
  }

  /** When one field alone is non-empty, the data is that field. */
  lemma DropEmptyOnly(data: map<Field, string>, k: Field)
    requires k in data && data[k] != ""
    requires forall j :: j in data && j != k ==> data[j] == ""
    ensures DropEmpty(data) == map[k := data[k]]
  {
    assert DropEmpty(data).Keys == {k};
  }

  /** Unlike the cost ledger, the fingerprint trusts a forwarded-for header over the client host. */
  lemma ForwardedHeaderWins(conn: Connection)
    requires Strip(Split(Header(conn, "x-forwarded-for"), ',')[0]) != ""
    ensures RealIp(conn) == Strip(Split(Header(conn, "x-forwarded-for"), ',')[0])
  {
  }

  // ------------------------------------------------------------ sliding window

  /** `ZREMRANGEBYSCORE key 0 (now - window)`. */
  function Prune(log: set<int>, now: int, window: int): (r: set<int>)
    ensures r <= log
    ensures forall t :: t in log ==> (t in r <==> t < 0 || t > now - window)
  {
    RedisStore.OutsideRange(log, 0, now - window)
  }

  datatype Decision = Decision(allowed: bool, log: set<int>)

  /**
   * One call of `is_allowed` on a working store: prune, count, add the
   * instant, and remove it again when the count had reached the limit.
   */
  function Step(log: set<int>, now: int, window: int, maxRequests: int): (r: Decision)
    ensures r.allowed <==> |Prune(log, now, window)| < maxRequests
    ensures r.log == if r.allowed then Prune(log, now, window) + {now} else Prune(log, now, window) - {now}
  {
    var pruned := Prune(log, now, window);
    if |pruned| >= maxRequests then Decision(false, (pruned + {now}) - {now})
    else Decision(true, pruned + {now})
  }

  /** A log within the limit stays within it. */
  lemma StepKeepsBound(log: set<int>, now: int, window: int, maxRequests: int)
    requires |log| <= maxRequests
    ensures |Step(log, now, window, maxRequests).log| <= maxRequests
  {
    var pruned := Prune(log, now, window);
    assert pruned <= log;
    SubsetCard(pruned, log);
    if |pruned| >= maxRequests {
      SubsetCard((pruned + {now}) - {now}, pruned);
    }
  }

  lemma SubsetCard(a: set<int>, b: set<int>)
    requires a <= b
    ensures |a| <= |b|
  {
    assert b == a + (b - a);
    assert a * (b - a) == {};
  }

  /** An admitted call adds exactly its instant; a denied call adds nothing. */
  lemma StepEffect(log: set<int>, now: int, window: int, maxRequests: int)
    ensures var d := Step(log, now, window, maxRequests);
            (d.allowed ==> now in d.log && d.log - {now} == Prune(log, now, window) - {now})
            && (!d.allowed ==> now !in d.log && d.log <= Prune(log, now, window))
  {
  }

  /**
   * Calls at one identical instant share one log entry, and a denied call at
   * that instant deletes it: with a limit of one, a second and a third call at
   * the same instant are denied and then admitted.
   */
  lemma SameInstantSharesSlot(t: int)
    requires t >= 0
    ensures var first := Step({}, t, 60, 1);
            var second := Step(first.log, t, 60, 1);
            var third := Step(second.log, t, 60, 1);
            first.allowed && !second.allowed && second.log == {} && third.allowed
  {
    var first := Step({}, t, 60, 1);
    assert Prune({}, t, 60) == {};
    assert first.log == {t};
    assert Prune({t}, t, 60) == {t};
    assert |Prune({t}, t, 60)| == 1;
    assert Step(first.log, t, 60, 1).log == {};
    assert Prune({}, t, 60) == {};
  }

  /** Calls replayed from an empty log: the final log and the instants that were admitted. */
  datatype Trace = Trace(log: set<int>, admitted: seq<int>)

  function Replay(times: seq<int>, window: int, maxRequests: int): Trace
    decreases |times|
  {
    if times == [] then Trace({}, [])
    else Next(Replay(times[..|times| - 1], window, maxRequests), times[|times| - 1], window, maxRequests)
  }

  /** One more call at `now`. */
  function Next(prev: Trace, now: int, window: int, maxRequests: int): Trace
  {
    var d := Step(prev.log, now, window, maxRequests);
    Trace(d.log, if d.allowed then prev.admitted + [now] else prev.admitted)
  }

  predicate Increasing(s: seq<int>)
  {
    forall i, j :: 0 <= i < j < |s| ==> s[i] < s[j]
  }

  /** The number of elements of `s` in `(lo, hi]`. */
  function CountIn(s: seq<int>, lo: int, hi: int): nat
  {
    if s == [] then 0
    else CountIn(s[..|s| - 1], lo, hi) + (if lo < s[|s| - 1] <= hi then 1 else 0)
  }

  /** The number of elements of `s` above `lo`. */
  function CountAbove(s: seq<int>, lo: int): nat
  {
    if s == [] then 0
    else CountAbove(s[..|s| - 1], lo) + (if lo < s[|s| - 1] then 1 else 0)
  }

  /** The admissions inside the window of length `window` that ends at `a + window`. */
  function WindowCount(s: seq<int>, a: int, window: int): nat
  {
    CountIn(s, a, a + window)
  }

  function Recent(s: seq<int>, lo: int): set<int>
  {
    set t | t in s && lo < t
  }

  lemma {:induction false} CountInAllBelow(s: seq<int>, lo: int, hi: int)
    requires forall i :: 0 <= i < |s| ==> s[i] <= hi
    ensures CountIn(s, lo, hi) == CountAbove(s, lo)
    decreases |s|
  {
    if s != [] {
      CountInAllBelow(s[..|s| - 1], lo, hi);
    }
  }

  lemma {:induction false} CountAboveAntitone(s: seq<int>, lo1: int, lo2: int)
    requires lo1 <= lo2
    ensures CountAbove(s, lo2) <= CountAbove(s, lo1)
    decreases |s|
  {
    if s != [] {
      CountAboveAntitone(s[..|s| - 1], lo1, lo2);
    }
  }

  lemma {:induction false} RecentCard(s: seq<int>, lo: int)
    requires Increasing(s)
    ensures |Recent(s, lo)| == CountAbove(s, lo)
    decreases |s|
  {
    if s != [] {
      var init := s[..|s| - 1];
      var x := s[|s| - 1];
      RecentCard(init, lo);
      assert x !in init;
      if lo < x {
        assert Recent(s, lo) == Recent(init, lo) + {x};
      } else {
        assert Recent(s, lo) == Recent(init, lo);
      }
    }
  }

  /** Pruning a log of recent admissions leaves the admissions recent at the new instant. */
  lemma PruneRecent(adm: seq<int>, last: int, now: int, window: int)
    requires forall i :: 0 <= i < |adm| ==> 0 <= adm[i]
    requires last <= now
    ensures Prune(Recent(adm, last - window), now, window) == Recent(adm, now - window)
  {
    var log := Recent(adm, last - window);
    forall t | t in Recent(adm, now - window) ensures t in Prune(log, now, window) {
      assert t in log;
    }
  }

  /** Admitting `now` keeps every window within the limit when the current window has room. */
  lemma {:induction false} AdmitKeepsWindows(adm: seq<int>, now: int, window: int, maxRequests: int)
    requires forall i :: 0 <= i < |adm| ==> adm[i] < now
    requires CountAbove(adm, now - window) < maxRequests
    requires forall a :: WindowCount(adm, a, window) <= maxRequests
    ensures forall a :: WindowCount(adm + [now], a, window) <= maxRequests
  {
    var adm' := adm + [now];
    assert adm'[..|adm'| - 1] == adm;
    forall a ensures WindowCount(adm', a, window) <= maxRequests {
      assert WindowCount(adm, a, window) <= maxRequests;
      if a < now <= a + window {
        CountInAllBelow(adm, a, a + window);
        CountAboveAntitone(adm, now - window, a);
      }
    }
  }

  lemma AppendRecent(adm: seq<int>, now: int, window: int)
    requires window >= 1
    ensures Recent(adm + [now], now - window) == Recent(adm, now - window) + {now}
  {
  }

  lemma AppendIncreasing(adm: seq<int>, now: int)
    requires Increasing(adm)
    requires forall i :: 0 <= i < |adm| ==> adm[i] < now
    ensures Increasing(adm + [now])
  {
  }

  /**
   * What stays true while replaying increasing, non-negative instants with a
   * positive window; `last` is the latest instant replayed, if any.
   */
  ghost predicate TraceInvariant(last: Option<int>, window: int, maxRequests: int, tr: Trace)
  {
    Increasing(tr.admitted)
    && (forall i :: 0 <= i < |tr.admitted| ==> 0 <= tr.admitted[i])
    && (last.None? ==> tr.admitted == [] && tr.log == {})
    && (last.Some? ==> (forall i :: 0 <= i < |tr.admitted| ==> tr.admitted[i] <= last.value)
                       && tr.log == Recent(tr.admitted, last.value - window))
    && (forall a :: WindowCount(tr.admitted, a, window) <= maxRequests)
  }

  function LastOf(times: seq<int>): Option<int>
  {
    if times == [] then None else Some(times[|times| - 1])
  }

  lemma InvariantAt(adm: seq<int>, now: int, window: int, maxRequests: int, log: set<int>)
    requires Increasing(adm)
    requires forall i :: 0 <= i < |adm| ==> 0 <= adm[i] <= now
    requires log == Recent(adm, now - window)
    requires forall a :: WindowCount(adm, a, window) <= maxRequests
    ensures TraceInvariant(Some(now), window, maxRequests, Trace(log, adm))
  {
  }

  /** Before the next call, the pruned log holds exactly the admissions recent at `now`. */
  lemma PrunedBeforeNext(last: Option<int>, now: int, window: int, maxRequests: int, prev: Trace)
    requires TraceInvariant(last, window, maxRequests, prev)
    requires now >= 0 && (last.Some? ==> last.value < now)
    ensures forall i :: 0 <= i < |prev.admitted| ==> 0 <= prev.admitted[i] < now
    ensures Prune(prev.log, now, window) == Recent(prev.admitted, now - window)
  {
    var l := last.GetOr(now);
    assert prev.log == Recent(prev.admitted, l - window);
    PruneRecent(prev.admitted, l, now, window);
  }

  /** A further call at a later, non-negative instant keeps the invariant. */
  lemma NextKeepsInvariant(last: Option<int>, now: int, window: int, maxRequests: int, prev: Trace)
    requires TraceInvariant(last, window, maxRequests, prev)
    requires now >= 0 && (last.Some? ==> last.value < now)
    requires window >= 1
    ensures TraceInvariant(Some(now), window, maxRequests, Next(prev, now, window, maxRequests))
  {
    var adm := prev.admitted;
    PrunedBeforeNext(last, now, window, maxRequests, prev);
    var pruned := Prune(prev.log, now, window);
    RecentCard(adm, now - window);
    assert Increasing(adm) && forall a :: WindowCount(adm, a, window) <= maxRequests;
    if |pruned| >= maxRequests {
      assert Next(prev, now, window, maxRequests) == Trace((pruned + {now}) - {now}, adm);
      DeniedKeepsInvariant(adm, now, window, maxRequests, pruned);
    } else {
      assert Next(prev, now, window, maxRequests) == Trace(pruned + {now}, adm + [now]);
      AdmittedKeepsInvariant(adm, now, window, maxRequests, pruned);
    }
  }

  lemma DeniedKeepsInvariant(adm: seq<int>, now: int, window: int, maxRequests: int, pruned: set<int>)
    requires Increasing(adm)
    requires forall i :: 0 <= i < |adm| ==> 0 <= adm[i] < now
    requires pruned == Recent(adm, now - window)
    requires forall a :: WindowCount(adm, a, window) <= maxRequests
    ensures TraceInvariant(Some(now), window, maxRequests, Trace((pruned + {now}) - {now}, adm))
  {
    assert (pruned + {now}) - {now} == pruned;
    InvariantAt(adm, now, window, maxRequests, pruned);
  }

  lemma AdmittedKeepsInvariant(adm: seq<int>, now: int, window: int, maxRequests: int, pruned: set<int>)
    requires Increasing(adm)
    requires forall i :: 0 <= i < |adm| ==> 0 <= adm[i] < now
    requires pruned == Recent(adm, now - window) && window >= 1 && now >= 0
    requires CountAbove(adm, now - window) < maxRequests
    requires forall a :: WindowCount(adm, a, window) <= maxRequests
    ensures TraceInvariant(Some(now), window, maxRequests, Trace(pruned + {now}, adm + [now]))
  {
    AppendRecent(adm, now, window);
    AppendIncreasing(adm, now);
    AdmitKeepsWindows(adm, now, window, maxRequests);
    var adm' := adm + [now];
    assert forall i :: 0 <= i < |adm'| ==> 0 <= adm'[i] <= now by {
      forall i | 0 <= i < |adm'| ensures 0 <= adm'[i] <= now {
        if i < |adm| { assert adm'[i] == adm[i]; }
      }
    }
    InvariantAt(adm + [now], now, window, maxRequests, pruned + {now});
  }

  lemma {:induction false} ReplayKeepsInvariant(times: seq<int>, window: int, maxRequests: int)
    requires Increasing(times) && forall i :: 0 <= i < |times| ==> times[i] >= 0
    requires window >= 1 && maxRequests >= 0
    ensures TraceInvariant(LastOf(times), window, maxRequests, Replay(times, window, maxRequests))
    decreases |times|
  {
    if times == [] {
      assert forall a :: WindowCount([], a, window) == 0;
    } else {
      var init := times[..|times| - 1];
      ReplayKeepsInvariant(init, window, maxRequests);
      NextKeepsInvariant(LastOf(init), times[|times| - 1], window, maxRequests, Replay(init, window, maxRequests));
    }
  }

  /**
   * The sliding window holds: for calls at increasing instants, no window of
   * `window` seconds contains more than `maxRequests` admitted calls.
   */
  lemma AtMostMaxPerWindow(times: seq<int>, window: int, maxRequests: int, a: int)
    requires Increasing(times) && forall i :: 0 <= i < |times| ==> times[i] >= 0
    requires window >= 1 && maxRequests >= 0
    ensures WindowCount(Replay(times, window, maxRequests).admitted, a, window) <= maxRequests
  {
    ReplayKeepsInvariant(times, window, maxRequests);
  }

  // ------------------------------------------------------------ the limiter

  class FingerprintRateLimiter {
    const store: RedisStore.Store
    const maxRequests: int
    const windowSeconds: int
    const digest: map<Field, string> -> string

    constructor(store: RedisStore.Store, maxRequests: int, windowSeconds: int, digest: map<Field, string> -> string)
      ensures this.store == store && this.maxRequests == maxRequests && this.windowSeconds == windowSeconds
      ensures this.digest == digest
    {
      this.store := store;
      this.maxRequests := maxRequests;
      this.windowSeconds := windowSeconds;
      this.digest := digest;
    }

    function Key(conn: Connection): string
    {
      KEY_PREFIX + Fingerprint(conn, digest)
    }

    /** Applies one window step to the caller's log; a failing store denies and changes nothing. */
    method IsAllowed(conn: Connection) returns (ok: bool)
      modifies store`sortedSets
      ensures !store.reachable ==> !ok && store.sortedSets == old(store.sortedSets)
      ensures store.reachable ==>
        var d := Step(old(store.Members(Key(conn))), store.now, windowSeconds, maxRequests);
        ok == d.allowed && store.sortedSets == old(store.sortedSets)[Key(conn) := d.log]
    {
      ok := WindowStep(Key(conn));
    }

    /** The pipeline on the log stored under `key`. */
    method WindowStep(key: string) returns (ok: bool)
      modifies store`sortedSets
      ensures !store.reachable ==> !ok && store.sortedSets == old(store.sortedSets)
      ensures store.reachable ==>
        var d := Step(old(store.Members(key)), store.now, windowSeconds, maxRequests);
        ok == d.allowed && store.sortedSets == old(store.sortedSets)[key := d.log]
    {
      if !store.reachable {
        return false;
      }
      ghost var pruned := Prune(store.Members(key), store.now, windowSeconds);
      var current := Pipeline(key);
      if current >= maxRequests {
        store.ZRem(key, store.now);
        assert store.sortedSets == old(store.sortedSets)[key := (pruned + {store.now}) - {store.now}];
        return false;
      }
      ok := true;
    }

    /** The pipelined commands: prune the window, count what is left, add this call's instant. */
    method Pipeline(key: string) returns (current: nat)
      requires store.reachable
      modifies store`sortedSets
      ensures current == |Prune(old(store.Members(key)), store.now, windowSeconds)|
      ensures store.sortedSets == old(store.sortedSets)[key := Prune(old(store.Members(key)), store.now, windowSeconds) + {store.now}]
    {
      var now := store.now;
      ghost var pruned := Prune(store.Members(key), now, windowSeconds);
      store.ZRemRangeByScore(key, 0, now - windowSeconds);
      assert store.Members(key) == pruned;
      current := store.ZCard(key);
      store.ZAdd(key, now);
    }
  }

  // ------------------------------------------------------------ the decorator

  /** `value or default`: an absent or zero setting falls back to the configured one. */
  function EffectiveSetting(value: Option<int>, default: int): (r: int)
    ensures value.Some? && value.value != 0 ==> r == value.value
    ensures value.None? || value.value == 0 ==> r == default
  {
    if value.Some? && value.value != 0 then value.value else default
  }

  function LimitExceededMessage(maxRequests: int, windowSeconds: int): string
  {
    "Rate limit exceeded. Max " + IntToString(maxRequests) + " requests per "
    + IntToString(windowSeconds) + " seconds."
  }

  /**
   * The decorated handler: the limiter runs first; a denied call raises
   * RateLimitError (an `Err` here) and the handler's result is returned only
   * for an admitted call.
   */
  method RateLimitedCall<T>(limiter: FingerprintRateLimiter, conn: Connection, handlerResult: T)
    returns (r: Result<T, string>)
    modifies limiter.store`sortedSets
    ensures !limiter.store.reachable ==>
      r == Err(LimitExceededMessage(limiter.maxRequests, limiter.windowSeconds))
      && limiter.store.sortedSets == old(limiter.store.sortedSets)
    ensures limiter.store.reachable ==>
      var d := Step(old(limiter.store.Members(limiter.Key(conn))), limiter.store.now, limiter.windowSeconds, limiter.maxRequests);
      r == (if d.allowed then Ok(handlerResult) else Err(LimitExceededMessage(limiter.maxRequests, limiter.windowSeconds)))
      && limiter.store.sortedSets == old(limiter.store.sortedSets)[limiter.Key(conn) := d.log]
  {
    var allowed := limiter.IsAllowed(conn);
    if !allowed {
      return Err(LimitExceededMessage(limiter.maxRequests, limiter.windowSeconds));
    }
    r := Ok(handlerResult);
  }
}

=== FILE: redis_store.dfy ===
/**
 * The slice of Redis the limiters use: float counters with an optional expiry
 * instant, and sorted sets of request timestamps. The clock is an explicit
 * field and `reachable` says whether commands currently succeed (a failing
 * Redis raises, which the callers catch).
 */
module RedisStore {
  import opened Wrappers

  /** A string key holding a float; `expiresAt` is None when the key has no TTL. */
  datatype Counter = Counter(amount: real, expiresAt: Option<int>)

  /** A key is visible until its expiry instant. */
  predicate Live(c: Counter, now: int)
  {
    c.expiresAt.None? || now < c.expiresAt.value
  }

  /** `GET key` on a counter map at instant `now`. */
  function GetCounter(counters: map<string, Counter>, now: int, key: string): (r: Option<real>)
    ensures r.Some? <==> key in counters && Live(counters[key], now)
    ensures r.Some? ==> r.value == counters[key].amount
  {
    if key in counters && Live(counters[key], now) then Some(counters[key].amount) else None
  }

  /** The members of a sorted set outside the score range `[lo, hi]`. */
  function OutsideRange(members: set<int>, lo: int, hi: int): (r: set<int>)
    ensures r <= members
    ensures forall t :: t in members ==> (t in r <==> t < lo || t > hi)
  {
    set t | t in members && !(lo <= t <= hi)
  }

  class Store {
    var now: int
    var reachable: bool
    var counters: map<string, Counter>
    /** Sorted sets keyed by name; the members are the request instants they score. */
    var sortedSets: map<string, set<int>>

    constructor(start: int)
      ensures now == start && reachable && counters == map[] && sortedSets == map[]
    {
      now := start;
      reachable := true;
      counters := map[];
      sortedSets := map[];
    }

    /** `GET key`: the amount of a live key; an expired or missing key reads as nil. */
    function Get(key: string): (r: Option<real>)
      reads this
      ensures r.Some? <==> key in counters && Live(counters[key], now)
      ensures r.Some? ==> r.value == counters[key].amount
    {
      GetCounter(counters, now, key)
    }

    /** `SET key value EX seconds`. */
    method Set(key: string, value: real, ex: int)
      requires reachable
      modifies this`counters
      ensures counters == old(counters)[key := Counter(value, Some(now + ex))]
    {
      counters := counters[key := Counter(value, Some(now + ex))];
    }

    /** `INCRBYFLOAT key d`: keeps the TTL of a live key; a missing key starts at 0 with no TTL. */
    method IncrByFloat(key: string, d: real)
      requires reachable
      modifies this`counters
      ensures old(Get(key)).Some? ==> counters == old(counters)[key := Counter(old(counters)[key].amount + d, old(counters)[key].expiresAt)]
      ensures old(Get(key)).None? ==> counters == old(counters)[key := Counter(d, None)]
    {
      if Get(key).Some? {
        counters := counters[key := Counter(counters[key].amount + d, counters[key].expiresAt)];
      } else {
        counters := counters[key := Counter(d, None)];
      }
    }

    /** The members of a sorted set; a missing key reads as the empty set. */
    function Members(key: string): set<int>
      reads this
    {
      if key in sortedSets then sortedSets[key] else {}
    }

    /** `ZREMRANGEBYSCORE key lo hi`: drops the members scored in `[lo, hi]`. */
    method ZRemRangeByScore(key: string, lo: int, hi: int)
      requires reachable
      modifies this`sortedSets
      ensures sortedSets == old(sortedSets)[key := OutsideRange(old(Members(key)), lo, hi)]
    {
      sortedSets := sortedSets[key := OutsideRange(Members(key), lo, hi)];
    }

    /** `ZCARD key`. */
    method ZCard(key: string) returns (n: nat)
      requires reachable
      ensures n == |Members(key)|
    {
      n := |Members(key)|;
    }

    /** `ZADD key {member: score}` where the member is the instant itself. */
    method ZAdd(key: string, t: int)
      requires reachable
      modifies this`sortedSets
      ensures sortedSets == old(sortedSets)[key := old(Members(key)) + {t}]
    {
      sortedSets := sortedSets[key := Members(key) + {t}];
    }

    /** `ZREM key member`. */
    method ZRem(key: string, t: int)
      requires reachable
      modifies this`sortedSets
      ensures sortedSets == old(sortedSets)[key := old(Members(key)) - {t}]
    {
      sortedSets := sortedSets[key := Members(key) - {t}];
    }

    /** The clock moves forward. */
    method Advance(dt: nat)
      modifies this`now
      ensures now == old(now) + dt
    {
      now := now + dt;
    }

    /** Redis goes down or comes back. */
    method SetReachable(up: bool)
      modifies this`reachable
      ensures reachable == up
    {
      reachable := up;
    }
  }
}

=== FILE: sdk_service.dfy ===
/**
 * `SdkService`: the MCP server's wrapper that calls Mirror-Node SDK methods by
 * name. Raw keyword arguments are filtered (None and "" dropped) and a nested
 * `kwargs` dict or JSON text is merged in; the method is looked up among the
 * client's attributes and called. The client's attributes (in `dir` order,
 * each with whether it is callable), `json.loads` and the SDK call itself are
 * parameters.
 */
module SdkService {
  import opened Wrappers
  import opened Strings
  import opened PyJson
  import opened McpExceptions

  /** A regular parameter is kept unless it is None or the empty string; 0 and False are kept. */
  predicate Kept(v: Json)
  {
    !v.Null? && v != Str("")
  }

  /**
   * What the `kwargs` entry contributes: its dict, or the object its non-blank
   * JSON text decodes to; nothing for any other value. Text that does not decode
   * raises the decoder's error. `loads` is `json.loads`, its `Err` the error text.
   */
  function KwargsUpdate(v: Json, loads: string -> Result<Json, string>): (r: Result<map<string, Json>, string>)
    ensures v.Obj? ==> r == Ok(v.fields)
    ensures r.Err? <==> v.Str? && !AllSpace(v.s) && loads(v.s).Err?
    ensures !v.Obj? && !v.Str? ==> r == Ok(map[])
    ensures v.Str? && !AllSpace(v.s) && loads(v.s).Ok? ==>
              r == Ok(if loads(v.s).value.Obj? then loads(v.s).value.fields else map[])
  {
    if v.Obj? then Ok(v.fields)
    else if v.Str? && !AllSpace(v.s) then
      match loads(v.s)
      case Err(e) => Err(e)
      case Ok(parsed) => if parsed.Obj? then Ok(parsed.fields) else Ok(map[])
    else Ok(map[])
  }

  /** One step of the filtering loop: merge the `kwargs` entry, or keep a regular one. */
  function ProcessEntry(params: map<string, Json>, key: string, v: Json, loads: string -> Result<Json, string>): Result<map<string, Json>, string>
  {
    if key == "kwargs" then
      match KwargsUpdate(v, loads)
      case Err(e) => Err(e)
      case Ok(d) => Ok(params + d)
    else if Kept(v) then Ok(params[key := v])
    else Ok(params)
  }

  /** The parameters `_process_parameters` produces from the raw ones, in call order. */
  function Processed(kwargs: seq<(string, Json)>, loads: string -> Result<Json, string>): (r: Result<map<string, Json>, string>)
    ensures (forall i :: 0 <= i < |kwargs| ==> kwargs[i].0 != "kwargs") ==> r.Ok?
  {
    if kwargs == [] then Ok(map[])
    else
      assert forall i :: 0 <= i < |kwargs| - 1 ==> kwargs[..|kwargs| - 1][i] == kwargs[i];
      match Processed(kwargs[..|kwargs| - 1], loads)
      case Err(e) => Err(e)
      case Ok(params) => ProcessEntry(params, kwargs[|kwargs| - 1].0, kwargs[|kwargs| - 1].1, loads)
  }

  /** `_process_parameters`: the loop over the raw parameters. */
  method ProcessParameters(kwargs: seq<(string, Json)>, loads: string -> Result<Json, string>) returns (r: Result<map<string, Json>, string>)
    ensures r == Processed(kwargs, loads)
  {
    var filtered: map<string, Json> := map[];
    var n := 0;
    while n < |kwargs|
      invariant 0 <= n <= |kwargs|
      invariant Processed(kwargs[..n], loads) == Ok(filtered)
    {
      var (k, v) := kwargs[n];
      assert kwargs[..n + 1][..n] == kwargs[..n];
      ghost var step := ProcessEntry(filtered, k, v, loads);
      assert Processed(kwargs[..n + 1], loads) == step;
      assert filtered + map[] == filtered;
      if k == "kwargs" {
        if v.Obj? {
          filtered := filtered + v.fields;
        } else if v.Str? && !AllSpace(v.s) {
          var parsed := loads(v.s);
          if parsed.Err? {
            r := Err(parsed.error);
            assert step == r;
            ErrorPersists(kwargs, n + 1, loads);
            return;
          }
          if parsed.value.Obj? {
            filtered := filtered + parsed.value.fields;
          }
        }
      } else if !v.Null? && v != Str("") {
        filtered := filtered[k := v];
      }
      assert step == Ok(filtered);
      n := n + 1;
    }
    assert kwargs[..|kwargs|] == kwargs;
    r := Ok(filtered);
  }

  /** Once a prefix raises, the whole sequence raises with the same error. */
  lemma {:induction false} ErrorPersists(kwargs: seq<(string, Json)>, n: nat, loads: string -> Result<Json, string>)
    requires n <= |kwargs| && Processed(kwargs[..n], loads).Err?
    ensures Processed(kwargs, loads) == Processed(kwargs[..n], loads)
    decreases |kwargs| - n
  {
    if n == |kwargs| {
      assert kwargs[..n] == kwargs;
    } else {
      assert kwargs[..n + 1][..n] == kwargs[..n];
      ErrorPersists(kwargs, n + 1, loads);
    }
  }

  /** A non-blank `kwargs` text that does not decode makes the whole processing raise. */
  lemma UndecodableKwargsRaises(kwargs: seq<(string, Json)>, i: nat, loads: string -> Result<Json, string>)
    requires i < |kwargs| && kwargs[i].0 == "kwargs" && kwargs[i].1.Str?
    requires !AllSpace(kwargs[i].1.s) && loads(kwargs[i].1.s).Err?
    ensures Processed(kwargs, loads).Err?
  {
    assert kwargs[..i + 1][..i] == kwargs[..i];
    assert Processed(kwargs[..i + 1], loads).Err?;
    ErrorPersists(kwargs, i + 1, loads);
  }

  /** Whether no entry is a `kwargs` entry. */
  predicate Regular(kwargs: seq<(string, Json)>)
  {
    forall i :: 0 <= i < |kwargs| ==> kwargs[i].0 != "kwargs"
  }

  /** Without a `kwargs` entry, a key is present iff some entry with that key is kept. */
  lemma {:induction false} RegularDomain(kwargs: seq<(string, Json)>, loads: string -> Result<Json, string>, k: string)
    requires Regular(kwargs)
    ensures Processed(kwargs, loads).Ok?
    ensures k in Processed(kwargs, loads).value <==> exists i :: 0 <= i < |kwargs| && kwargs[i].0 == k && Kept(kwargs[i].1)
  {
    if kwargs != [] {
      var init := kwargs[..|kwargs| - 1];
      assert Regular(init) by {
        forall i | 0 <= i < |init| ensures init[i].0 != "kwargs" {
          assert init[i] == kwargs[i];
        }
      }
      RegularDomain(init, loads, k);
      if exists i :: 0 <= i < |kwargs| && kwargs[i].0 == k && Kept(kwargs[i].1) {
        var i :| 0 <= i < |kwargs| && kwargs[i].0 == k && Kept(kwargs[i].1);
        if i < |kwargs| - 1 {
          assert init[i] == kwargs[i];
        }
      }
      if k in Processed(kwargs, loads).value && k !in Processed(init, loads).value {
        assert kwargs[|kwargs| - 1].0 == k && Kept(kwargs[|kwargs| - 1].1);
      }
    }
  }

  /** Without a `kwargs` entry, a kept entry's value survives unless a later kept entry has its key. */
  lemma {:induction false} RegularLastWins(kwargs: seq<(string, Json)>, loads: string -> Result<Json, string>, i: nat)
    requires Regular(kwargs) && i < |kwargs| && Kept(kwargs[i].1)
    requires forall j :: i < j < |kwargs| ==> kwargs[j].0 != kwargs[i].0 || !Kept(kwargs[j].1)
    ensures Processed(kwargs, loads).Ok?
    ensures kwargs[i].0 in Processed(kwargs, loads).value
    ensures Processed(kwargs, loads).value[kwargs[i].0] == kwargs[i].1
  {
    var init := kwargs[..|kwargs| - 1];
    assert Regular(init) by {
      forall j | 0 <= j < |init| ensures init[j].0 != "kwargs" {
        assert init[j] == kwargs[j];
      }
    }
    RegularDomain(init, loads, kwargs[i].0);
    if i < |kwargs| - 1 {
      assert init[i] == kwargs[i];
      RegularLastWins(init, loads, i);
    }
  }

  /** Zero and False are kept; None and "" are dropped. */
  lemma FalsyValuesKept(params: map<string, Json>, key: string, loads: string -> Result<Json, string>)
    requires key != "kwargs"
    ensures ProcessEntry(params, key, Int(0), loads) == Ok(params[key := Int(0)])
    ensures ProcessEntry(params, key, Bool(false), loads) == Ok(params[key := Bool(false)])
    ensures ProcessEntry(params, key, Null, loads) == Ok(params)
    ensures ProcessEntry(params, key, Str(""), loads) == Ok(params)
  {
  }

  /**
   * The `kwargs` entry is merged, its entries overriding earlier ones, and is
   * never itself copied: a key `kwargs` in the result came from earlier entries
   * or from the merged dict.
   */
  lemma KwargsEntryMerged(params: map<string, Json>, v: Json, loads: string -> Result<Json, string>)
    requires KwargsUpdate(v, loads).Ok?
    ensures ProcessEntry(params, "kwargs", v, loads) == Ok(params + KwargsUpdate(v, loads).value)
    ensures "kwargs" in ProcessEntry(params, "kwargs", v, loads).value ==>
              "kwargs" in params || "kwargs" in KwargsUpdate(v, loads).value
    ensures !v.Obj? && !v.Str? ==> ProcessEntry(params, "kwargs", v, loads) == Ok(params)
  {
    assert params + map[] == params;
  }

  /** The public methods: callable attributes whose names do not start with `_`. */
  predicate PublicMethod(attr: (string, bool))
  {
    attr.1 && !StartsWith(attr.0, "_")
  }

  /** The names of the public methods, in `dir` order. */
  function AvailableMethods(attrs: seq<(string, bool)>): (r: seq<string>)
    ensures |r| <= |attrs|
    ensures forall i :: 0 <= i < |r| ==> !StartsWith(r[i], "_")
  {
    if attrs == [] then []
    else AvailableMethods(attrs[..|attrs| - 1]) + (if PublicMethod(attrs[|attrs| - 1]) then [attrs[|attrs| - 1].0] else [])
  }

  /** `get_available_methods`: the loop over `dir(client)`. */
  method GetAvailableMethods(attrs: seq<(string, bool)>) returns (methods: seq<string>)
    ensures methods == AvailableMethods(attrs)
  {
    methods := [];
    var n := 0;
    while n < |attrs|
      invariant 0 <= n <= |attrs|
      invariant methods == AvailableMethods(attrs[..n])
    {
      var (name, isCallable) := attrs[n];
      if !StartsWith(name, "_") && isCallable {
        methods := methods + [name];
      }
      assert attrs[..n + 1][..n] == attrs[..n];
      n := n + 1;
    }
    assert attrs[..|attrs|] == attrs;
  }

  /** Exactly the public methods are listed. */
  lemma {:induction false} AvailableMethodsExact(attrs: seq<(string, bool)>, name: string)
    ensures name in AvailableMethods(attrs) <==> exists i :: 0 <= i < |attrs| && attrs[i].0 == name && PublicMethod(attrs[i])
  {
    if attrs != [] {
      var init := attrs[..|attrs| - 1];
      AvailableMethodsExact(init, name);
      if exists i :: 0 <= i < |attrs| && attrs[i].0 == name && PublicMethod(attrs[i]) {
        var i :| 0 <= i < |attrs| && attrs[i].0 == name && PublicMethod(attrs[i]);
        if i < |attrs| - 1 {
          assert init[i] == attrs[i];
        }
      }
    }
  }

  /** How an SDK call failed: with a `TypeError` (bad parameters) or any other error. */
  datatype CallFailure = TypeErrorFailure(text: string) | OtherFailure(text: string)

  /** The index of the first attribute with this name, if any. */
  function FindAttribute(attrs: seq<(string, bool)>, name: string): (r: Option<nat>)
    ensures r.Some? ==> r.value < |attrs| && attrs[r.value].0 == name
    ensures r.None? ==> forall i :: 0 <= i < |attrs| ==> attrs[i].0 != name
  {
    if attrs == [] then None
    else if attrs[0].0 == name then Some(0)
    else match FindAttribute(attrs[1..], name)
      case None => None
      case Some(k) => Some(k + 1)
  }

  /** The raw parameters as the dict `**kwargs` receives. */
  function RawParameters(kwargs: seq<(string, Json)>): map<string, Json>
  {
    if kwargs == [] then map[]
    else RawParameters(kwargs[..|kwargs| - 1])[kwargs[|kwargs| - 1].0 := kwargs[|kwargs| - 1].1]
  }

  /**
   * `call_method`: a missing or non-callable attribute raises
   * `SDKMethodNotFoundError` (listing the available methods when the attribute is
   * missing); undecodable `kwargs` raises `SDKParameterError`; otherwise the
   * method is called with the processed parameters, and its result is returned
   * in a success dict, a `TypeError` becoming `SDKParameterError` and any other
   * error `SDKExecutionError`. `invoke` is the SDK call.
   */
  function CallMethod(attrs: seq<(string, bool)>, methodName: string, kwargs: seq<(string, Json)>,
                      loads: string -> Result<Json, string>,
                      invoke: (string, map<string, Json>) -> Result<Json, CallFailure>): (r: Result<map<string, Json>, McpServerError>)
    ensures r.Ok? ==> FindAttribute(attrs, methodName).Some? && attrs[FindAttribute(attrs, methodName).value].1
                      && Processed(kwargs, loads).Ok? && invoke(methodName, Processed(kwargs, loads).value).Ok?
    ensures FindAttribute(attrs, methodName).None? ==>
              r == Err(SdkMethodNotFoundError(methodName, Some(AvailableMethods(attrs))))
    ensures r.Ok? ==> r.value == map["success" := Bool(true), "data" := invoke(methodName, Processed(kwargs, loads).value).value,
                                     "method_called" := Str(methodName),
                                     "parameters_used" := Obj(Processed(kwargs, loads).value)]
    ensures FindAttribute(attrs, methodName).Some? && attrs[FindAttribute(attrs, methodName).value].1
            && Processed(kwargs, loads).Err? ==>
              r.Err? && r.error.errorCode == "SDKParameterError"
              && r.error.context == SdkContext(methodName, Some(RawParameters(kwargs)))
    ensures FindAttribute(attrs, methodName).Some? && attrs[FindAttribute(attrs, methodName).value].1
            && Processed(kwargs, loads).Ok? && invoke(methodName, Processed(kwargs, loads).value).Err? ==>
              r.Err? && r.error.context == SdkContext(methodName, Some(Processed(kwargs, loads).value))
              && (r.error.errorCode == "SDKParameterError" <==> invoke(methodName, Processed(kwargs, loads).value).error.TypeErrorFailure?)
              && (r.error.errorCode == "SDKExecutionError" <==> invoke(methodName, Processed(kwargs, loads).value).error.OtherFailure?)
  {
    match FindAttribute(attrs, methodName)
    case None => Err(SdkMethodNotFoundError(methodName, Some(AvailableMethods(attrs))))
    case Some(k) =>
      if !attrs[k].1 then Err(SdkMethodNotFoundError(methodName, None))
      else
        match Processed(kwargs, loads)
        case Err(e) =>
          Err(SdkParameterError(methodName, "Invalid JSON in kwargs parameter: " + e, Some(RawParameters(kwargs))))
        case Ok(filtered) =>
          match invoke(methodName, filtered)
          case Ok(data) =>
            Ok(map["success" := Bool(true), "data" := data, "method_called" := Str(methodName),
                   "parameters_used" := Obj(filtered)])
          case Err(TypeErrorFailure(t)) => Err(SdkParameterError(methodName, t, Some(filtered)))
          case Err(OtherFailure(t)) => Err(SdkExecutionError(methodName, t, Some(filtered), Some(t)))
  }

  /** A missing, non-callable or badly parameterised method is rejected before the SDK is called. */
  lemma RejectedBeforeCall(attrs: seq<(string, bool)>, methodName: string, kwargs: seq<(string, Json)>,
                           loads: string -> Result<Json, string>,
                           invoke: (string, map<string, Json>) -> Result<Json, CallFailure>,
                           invoke': (string, map<string, Json>) -> Result<Json, CallFailure>)
    requires FindAttribute(attrs, methodName).None? || !attrs[FindAttribute(attrs, methodName).value].1
             || Processed(kwargs, loads).Err?
    ensures CallMethod(attrs, methodName, kwargs, loads, invoke) == CallMethod(attrs, methodName, kwargs, loads, invoke')
    ensures CallMethod(attrs, methodName, kwargs, loads, invoke).Err?
  {
  }

  /** An attribute that exists but cannot be called is reported without the list of methods. */
  lemma NotCallableError(attrs: seq<(string, bool)>, methodName: string, kwargs: seq<(string, Json)>,
                         loads: string -> Result<Json, string>,
                         invoke: (string, map<string, Json>) -> Result<Json, CallFailure>)
    requires FindAttribute(attrs, methodName).Some? && !attrs[FindAttribute(attrs, methodName).value].1
    ensures CallMethod(attrs, methodName, kwargs, loads, invoke).Err?
    ensures CallMethod(attrs, methodName, kwargs, loads, invoke).error.context == map["method_name" := Str(methodName)]
  {
  }
}

=== FILE: strings.dfy ===
/**
 * The Python `str` operations the modelled services rely on, stated on
 * `seq<char>`: strip, lower, find, split, join, replace, and `int()` parsing.
 */
module Strings {
  import opened Wrappers

  /** Characters Python's argument-less `str.strip()` removes (`str.isspace()`). */
  predicate IsSpace(c: char)
  {
    ('\t' <= c <= '\r') || ('\U{1C}' <= c <= ' ') || c == '\U{85}' || c == '\U{A0}'
    || c == '\U{1680}' || ('\U{2000}' <= c <= '\U{200A}') || c == '\U{2028}'
    || c == '\U{2029}' || c == '\U{202F}' || c == '\U{205F}' || c == '\U{3000}'
  }

  predicate AllSpace(s: string)
  {
    forall k :: 0 <= k < |s| ==> IsSpace(s[k])
  }

  /** `str.lstrip()`: the longest suffix that does not start with whitespace. */
  function StripLeft(s: string): (r: string)
    ensures |r| <= |s| && r == s[|s| - |r|..]
    ensures forall k :: 0 <= k < |s| - |r| ==> IsSpace(s[k])
    ensures |r| > 0 ==> !IsSpace(r[0])
    decreases |s|
  {
    if |s| > 0 && IsSpace(s[0]) then StripLeft(s[1..]) else s
  }

  /** `str.rstrip()`: the longest prefix that does not end with whitespace. */
  function StripRight(s: string): (r: string)
    ensures |r| <= |s| && r == s[..|r|]
    ensures forall k :: |r| <= k < |s| ==> IsSpace(s[k])
    ensures |r| > 0 ==> !IsSpace(r[|r| - 1])
    decreases |s|
  {
    if |s| > 0 && IsSpace(s[|s| - 1]) then StripRight(s[..|s| - 1]) else s
  }

  /** `str.strip()`. */
  function Strip(s: string): (r: string)
    ensures |r| <= |s|
    ensures |r| > 0 ==> !IsSpace(r[0]) && !IsSpace(r[|r| - 1])
    ensures r == [] <==> AllSpace(s)
  {
    var l := StripLeft(s);
    var r := StripRight(l);
    assert forall k :: |s| - |l| <= k < |s| ==> s[k] == l[k - (|s| - |l|)];
    assert r != [] ==> r[0] == l[0];
    r
  }

  /** A string without surrounding whitespace is its own strip. */
  lemma {:induction false} StripNoop(s: string)
    requires |s| > 0 ==> !IsSpace(s[0]) && !IsSpace(s[|s| - 1])
    ensures Strip(s) == s
  {
    assert StripLeft(s) == s;
    assert StripRight(s) == s;
  }

  lemma StripIdempotent(s: string)
    ensures Strip(Strip(s)) == Strip(s)
  {
    StripNoop(Strip(s));
  }

  /** No whitespace at either end. */
  predicate Stripped(s: string)
  {
    |s| > 0 ==> !IsSpace(s[0]) && !IsSpace(s[|s| - 1])
  }

  /** Stripping a stripped text between two newlines gives the text back. */
  lemma StripNewlines(q: string)
    requires Stripped(q)
    ensures Strip("\n" + q + "\n") == q
  {
    var s := "\n" + q + "\n";
    if q == [] {
      assert AllSpace(s);
    } else {
      assert s[1..] == q + "\n";
      assert StripLeft(s) == StripLeft(q + "\n");
      assert StripLeft(q + "\n") == q + "\n";
      assert (q + "\n")[..|q|] == q;
      assert StripRight(q + "\n") == StripRight(q);
      assert StripRight(q) == q;
    }
  }

  /** `s.strip()` is a slice of `s`. */
  lemma StripOffset(s: string) returns (a: nat)
    ensures a + |Strip(s)| <= |s| && Strip(s) == s[a..a + |Strip(s)|]
  {
    var l := StripLeft(s);
    a := |s| - |l|;
    assert Strip(s) == StripRight(l);
  }

  /** Python's `str.lower()` on the ASCII letters. */
  function LowerChar(c: char): char
  {
    if 'A' <= c <= 'Z' then (c as int + 32) as char else c
  }

  function Lower(s: string): (r: string)
    ensures |r| == |s|
    ensures forall i :: 0 <= i < |s| ==> r[i] == LowerChar(s[i])
  {
    if s == [] then [] else [LowerChar(s[0])] + Lower(s[1..])
  }

  lemma LowerConcat(a: string, b: string)
    ensures Lower(a + b) == Lower(a) + Lower(b)
  {
    assert Lower(a + b) == Lower(a) + Lower(b) by {
      assert forall i :: 0 <= i < |a + b| ==> Lower(a + b)[i] == (Lower(a) + Lower(b))[i];
    }
  }

  predicate OccursAt(s: string, k: int, p: string)
  {
    0 <= k && k + |p| <= |s| && s[k..k + |p|] == p
  }

  /** Python's `p in s` for strings. */
  predicate Contains(s: string, p: string)
  {
    exists k :: 0 <= k <= |s| - |p| && OccursAt(s, k, p)
  }

  predicate StartsWith(s: string, p: string)
  {
    |p| <= |s| && s[..|p|] == p
  }

  predicate EndsWith(s: string, p: string)
  {
    |p| <= |s| && s[|s| - |p|..] == p
  }

  lemma ContainsExtend(a: string, b: string, p: string)
    requires Contains(a, p)
    ensures Contains(a + b, p)
  {
    var k :| 0 <= k <= |a| - |p| && OccursAt(a, k, p);
    assert (a + b)[k..k + |p|] == a[k..k + |p|];
    assert OccursAt(a + b, k, p);
  }

  /** A slice of a text without a pattern is without it too. */
  lemma SliceNoContains(s: string, a: nat, b: nat, p: string)
    requires a <= b <= |s| && !Contains(s, p)
    ensures !Contains(s[a..b], p)
  {
    forall k | 0 <= k <= (b - a) - |p|
      ensures !OccursAt(s[a..b], k, p)
    {
      var inSlice, inText := s[a..b][k..k + |p|], s[a + k..a + k + |p|];
      forall j | 0 <= j < |p|
        ensures inSlice[j] == inText[j]
      {
        assert inSlice[j] == s[a..b][k + j] == s[a + k + j];
      }
      assert inSlice == inText;
      assert !OccursAt(s, a + k, p);
    }
  }

  /** Python's `s.find(p, start)`: the least index from `start` where `p` occurs, or -1. */
  function Find(s: string, p: string, start: nat): (r: int)
    ensures r == -1 || (start <= r && OccursAt(s, r, p))
    ensures r == -1 ==> forall k :: start <= k ==> !OccursAt(s, k, p)
    ensures r >= 0 ==> forall k :: start <= k < r ==> !OccursAt(s, k, p)
    decreases |s| - start
  {
    if start + |p| > |s| then -1
    else if OccursAt(s, start, p) then start
    else Find(s, p, start + 1)
  }

  /** The first occurrence at or after `start` is what `find` returns. */
  lemma FindFirst(s: string, p: string, start: nat, at: nat)
    requires start <= at && OccursAt(s, at, p)
    requires forall k :: start <= k < at ==> !OccursAt(s, k, p)
    ensures Find(s, p, start) == at
  {
  }

  /** Python's `s.find(c)` for one character: the first index of `c`, or -1. */
  function FindChar(s: string, c: char): (r: int)
    ensures r >= -1 && (r == -1 <==> c !in s)
    ensures r >= 0 ==> r < |s| && s[r] == c && c !in s[..r]
    decreases |s|
  {
    if s == [] then -1
    else if s[0] == c then 0
    else
      var k := FindChar(s[1..], c);
      if k == -1 then -1
      else
        assert s[..k + 1] == [s[0]] + s[1..][..k];
        k + 1
  }

  /** Python's `s.rfind(c)` for one character: the last index of `c`, or -1. */
  function RFindChar(s: string, c: char): (r: int)
    ensures r >= -1 && (r == -1 <==> c !in s)
    ensures r >= 0 ==> r < |s| && s[r] == c && forall k :: r < k < |s| ==> s[k] != c
    decreases |s|
  {
    if s == [] then -1
    else if s[|s| - 1] == c then |s| - 1
    else RFindChar(s[..|s| - 1], c)
  }

  /** Python's `sep.join(parts)`. */
  function Join(parts: seq<string>, sep: string): string
  {
    if |parts| == 0 then ""
    else if |parts| == 1 then parts[0]
    else parts[0] + sep + Join(parts[1..], sep)
  }

  /** Python's `s.split(c)` for a one-character separator. */
  function Split(s: string, c: char): (parts: seq<string>)
    ensures |parts| >= 1
    ensures forall i :: 0 <= i < |parts| ==> c !in parts[i]
    ensures c !in s ==> parts == [s]
    decreases |s|
  {
    if |s| == 0 then [""]
    else
      var rest := Split(s[1..], c);
      if s[0] == c then
        [""] + rest
      else
        var parts := [[s[0]] + rest[0]] + rest[1..];
        assert parts[1..] == rest[1..];
        assert s == [s[0]] + s[1..];
        assert c !in s ==> c !in s[1..];
        parts
  }

  /** Joining the parts with the separator gives the string back. */
  lemma {:induction false} SplitJoinsBack(s: string, c: char)
    ensures Join(Split(s, c), [c]) == s
    decreases |s|
  {
    if |s| > 0 {
      SplitJoinsBack(s[1..], c);
      var rest := Split(s[1..], c);
      if s[0] == c {
        assert s == [c] + s[1..];
      } else {
        var parts := [[s[0]] + rest[0]] + rest[1..];
        assert parts[1..] == rest[1..];
        assert s == [s[0]] + s[1..];
      }
    }
  }

  /** `Split` undoes `Join` when no part holds the separator. */
  lemma {:induction false} SplitJoin(parts: seq<string>, c: char)
    requires |parts| >= 1
    requires forall i :: 0 <= i < |parts| ==> c !in parts[i]
    ensures Split(Join(parts, [c]), c) == parts
    decreases |parts|
  {
    if |parts| == 1 {
      assert Join(parts, [c]) == parts[0];
    } else {
      SplitJoin(parts[1..], c);
      SplitPrefix(parts[0], c, Join(parts[1..], [c]));
    }
  }

  /** Splitting `a + [c] + b` where `a` has no separator yields `a` before the parts of `b`. */
  lemma {:induction false} SplitPrefix(a: string, c: char, b: string)
    requires c !in a
    ensures Split(a + [c] + b, c) == [a] + Split(b, c)
    decreases |a|
  {
    if |a| == 0 {
      assert a + [c] + b == [c] + b;
      assert ([c] + b)[1..] == b;
    } else {
      assert (a + [c] + b)[1..] == a[1..] + [c] + b;
      SplitPrefix(a[1..], c, b);
      assert [a[0]] + a[1..] == a;
    }
  }

  /** After the last separator comes the last part. */
  lemma {:induction false} SplitLastPart(a: string, c: char, b: string)
    requires c !in b
    ensures |Split(a + [c] + b, c)| >= 2
    ensures Split(a + [c] + b, c)[|Split(a + [c] + b, c)| - 1] == b
    decreases |a|
  {
    var s := a + [c] + b;
    if |a| == 0 {
      assert s == [c] + b;
      assert s[1..] == b;
    } else {
      assert s[1..] == a[1..] + [c] + b;
      SplitLastPart(a[1..], c, b);
    }
  }

  /** Python's `s.replace(p, r)`: leftmost, non-overlapping occurrences, scanned left to right. */
  function Replace(s: string, p: string, r: string): string
    requires |p| > 0
    decreases |s|
  {
    if |s| < |p| then s
    else if s[..|p|] == p then r + Replace(s[|p|..], p, r)
    else [s[0]] + Replace(s[1..], p, r)
  }

  /** Replacing a pattern that does not occur changes nothing. */
  lemma {:induction false} ReplaceNoop(s: string, p: string, r: string)
    requires |p| > 0 && !Contains(s, p)
    ensures Replace(s, p, r) == s
    decreases |s|
  {
    if |s| >= |p| {
      assert !OccursAt(s, 0, p);
      assert !Contains(s[1..], p) by {
        forall k | OccursAt(s[1..], k, p) ensures OccursAt(s, k + 1, p) {
          assert s[k + 1..k + 1 + |p|] == s[1..][k..k + |p|];
        }
      }
      ReplaceNoop(s[1..], p, r);
    }
  }

  /**
   * Every replacement starts with `c`, so an output prefix without `c` was
   * copied unchanged from the input.
   */
  lemma {:induction false} ReplacePrefixCopied(t: string, p: string, r: string, n: nat, c: char)
    requires |p| > 0 && |r| > 0 && r[0] == c
    requires n <= |Replace(t, p, r)| && c !in Replace(t, p, r)[..n]
    ensures n <= |t| && Replace(t, p, r)[..n] == t[..n]
    decreases |t|
  {
    if |t| >= |p| && t[..|p|] == p {
      assert Replace(t, p, r) == r + Replace(t[|p|..], p, r);
      assert Replace(t, p, r)[0] == c;
    } else if |t| >= |p| && n > 0 {
      var rest := Replace(t[1..], p, r);
      assert Replace(t, p, r) == [t[0]] + rest;
      assert Replace(t, p, r)[..n] == [t[0]] + rest[..n - 1];
      assert c !in rest[..n - 1];
      ReplacePrefixCopied(t[1..], p, r, n - 1, c);
    }
  }

  /** An occurrence in a suffix is an occurrence in the whole. */
  lemma SuffixOccurrence(s: string, shift: nat, q: string)
    requires shift <= |s| && !Contains(s, q)
    ensures !Contains(s[shift..], q)
  {
    forall k | OccursAt(s[shift..], k, q) ensures OccursAt(s, k + shift, q) {
      assert s[k + shift..k + shift + |q|] == s[shift..][k..k + |q|];
    }
  }

  /** A replacement text that cannot start or host `q`, followed by text free of `q`, is free of `q`. */
  lemma ReplacedHeadAvoids(r: string, rest: string, q: string)
    requires |q| > 0 && |r| > 0
    requires r[0] == q[0] && q[0] !in r[1..]
    requires !StartsWith(r, q) && !StartsWith(q, r)
    requires !Contains(rest, q)
    ensures !Contains(r + rest, q)
  {
    var out := r + rest;
    forall k | 0 <= k < |r| ensures !OccursAt(out, k, q) {
      if k == 0 {
        assert |q| <= |r| ==> r[..|q|] == out[..|q|];
        assert |q| > |r| && k + |q| <= |out| ==> r == out[..|r|];
      } else {
        assert out[k] == r[1..][k - 1];
      }
    }
    forall k | |r| <= k ensures !OccursAt(out, k, q) {
      assert !OccursAt(rest, k - |r|, q);
      assert k + |q| <= |out| ==> rest[k - |r|..k - |r| + |q|] == out[k..k + |q|];
    }
  }

  /**
   * Replacing `p` by `r` leaves no occurrence of `q`, provided `q` is `p` or
   * was absent, both `r` and `q` start with a character that occurs nowhere
   * else in either, and neither of `r` and `q` is a prefix of the other.
   */
  lemma {:induction false} ReplaceAvoids(s: string, p: string, r: string, q: string)
    requires |p| > 0 && |q| > 0 && |r| > 0
    requires r[0] == q[0] && q[0] !in r[1..] && q[0] !in q[1..]
    requires !StartsWith(r, q) && !StartsWith(q, r)
    requires q == p || !Contains(s, q)
    ensures !Contains(Replace(s, p, r), q)
    decreases |s|
  {
    if |s| < |p| {
      return;
    }
    if s[..|p|] == p {
      if q != p {
        SuffixOccurrence(s, |p|, q);
      }
      ReplaceAvoids(s[|p|..], p, r, q);
      ReplacedHeadAvoids(r, Replace(s[|p|..], p, r), q);
    } else {
      if q != p {
        SuffixOccurrence(s, 1, q);
      }
      ReplaceAvoids(s[1..], p, r, q);
      var rest := Replace(s[1..], p, r);
      if |q| - 1 <= |rest| && q[0] !in rest[..|q| - 1] {
        ReplacePrefixCopied(s[1..], p, r, |q| - 1, q[0]);
      }
      assert s == [s[0]] + s[1..];
      assert !OccursAt(s, 0, q);
      CopiedHeadAvoids(s[0], s[1..], rest, q);
    }
  }

  /**
   * The copied-character step of `ReplaceAvoids`: `x` followed by `rest`,
   * where a prefix of `rest` that spells the tail of `q` was copied from `t`.
   */
  lemma CopiedHeadAvoids(x: char, t: string, rest: string, q: string)
    requires |q| > 0
    requires !OccursAt([x] + t, 0, q)
    requires !Contains(rest, q)
    requires |q| - 1 <= |rest| && rest[..|q| - 1] == q[1..] ==> |q| - 1 <= |t| && t[..|q| - 1] == q[1..]
    ensures !Contains([x] + rest, q)
  {
    var out := [x] + rest;
    forall k | 1 <= k ensures !OccursAt(out, k, q) {
      assert !OccursAt(rest, k - 1, q);
      assert k + |q| <= |out| ==> rest[k - 1..k - 1 + |q|] == out[k..k + |q|];
    }
  }

  /** Python's `s[:n]` for `n >= 0`. */
  function Take(s: string, n: nat): (r: string)
    ensures |r| == if n < |s| then n else |s|
    ensures r == s[..|r|]
  {
    if n < |s| then s[..n] else s
  }

  function Repeat(c: char, n: nat): (r: string)
    ensures |r| == n && forall i :: 0 <= i < n ==> r[i] == c
  {
    if n == 0 then [] else Repeat(c, n - 1) + [c]
  }

  /** The number of occurrences of `c` in `s` (Python's `s.count(c)`). */
  function Count(s: string, c: char): nat
  {
    if s == [] then 0 else Count(s[..|s| - 1], c) + (if s[|s| - 1] == c then 1 else 0)
  }

  lemma {:induction false} CountConcat(a: string, b: string, c: char)
    ensures Count(a + b, c) == Count(a, c) + Count(b, c)
    decreases |b|
  {
    if b == [] {
      assert a + b == a;
    } else {
      assert (a + b)[..|a + b| - 1] == a + b[..|b| - 1];
      CountConcat(a, b[..|b| - 1], c);
    }
  }

  lemma {:induction false} CountRepeat(d: char, n: nat, c: char)
    ensures Count(Repeat(d, n), c) == if d == c then n else 0
    decreases n
  {
    if n > 0 {
      assert Repeat(d, n)[..n - 1] == Repeat(d, n - 1);
      CountRepeat(d, n - 1, c);
    }
  }

  /** Python's `s.rstrip(c)` for a one-character set. */
  function RStripChar(s: string, c: char): (r: string)
    ensures |r| <= |s| && r == s[..|r|]
    ensures |r| == 0 || r[|r| - 1] != c
    ensures forall k :: |r| <= k < |s| ==> s[k] == c
    decreases |s|
  {
    if |s| > 0 && s[|s| - 1] == c then RStripChar(s[..|s| - 1], c) else s
  }

  // ---------------------------------------------------------------- digits

  predicate IsDigit(c: char) { '0' <= c <= '9' }

  predicate AllDigits(s: string)
  {
    forall i :: 0 <= i < |s| ==> IsDigit(s[i])
  }

  predicate IsHexDigit(c: char)
  {
    IsDigit(c) || ('a' <= c <= 'f')
  }

  /** The value of a decimal digit (0 for any other character). */
  function DigitValue(c: char): nat
  {
    if IsDigit(c) then c as int - '0' as int else 0
  }

  function DigitChar(d: nat): (c: char)
    requires d < 10
    ensures IsDigit(c) && DigitValue(c) == d
  {
    ('0' as int + d) as char
  }

  /** The value of a string of decimal digits, leading zeros allowed. */
  function DigitsValue(s: string): nat
  {
    if |s| == 0 then 0 else DigitsValue(s[..|s| - 1]) * 10 + DigitValue(s[|s| - 1])
  }

  function Pow10(n: nat): (r: nat)
    ensures r >= 1
  {
    if n == 0 then 1 else 10 * Pow10(n - 1)
  }

  /** Python's `str(n)` for a natural number. */
  function NatToString(n: nat): (r: string)
    ensures |r| > 0 && AllDigits(r) && DigitsValue(r) == n
    ensures |r| > 1 ==> r[0] != '0'
  {
    if n < 10 then [DigitChar(n)]
    else
      var r := NatToString(n / 10) + [DigitChar(n % 10)];
      assert r[..|r| - 1] == NatToString(n / 10);
      r
  }

  /** Python's `str(i)` for an integer. */
  function IntToString(i: int): (r: string)
    ensures |r| > 0 && !IsSpace(r[0]) && !IsSpace(r[|r| - 1])
    ensures i >= 0 ==> r == NatToString(i)
    ensures '.' !in r && '-' !in r[1..]
  {
    var n := NatToString(if i < 0 then -i else i);
    assert forall k :: 0 <= k < |n| ==> IsDigit(n[k]);
    if i < 0 then
      assert ("-" + n)[1..] == n;
      "-" + n
    else n
  }

  /** Digits with single underscores between them, as Python's `int()` accepts. */
  predicate DigitGroups(b: string)
  {
    |b| > 0 && IsDigit(b[0]) && IsDigit(b[|b| - 1])
    && (forall i :: 0 <= i < |b| ==> IsDigit(b[i]) || b[i] == '_')
    && (forall i :: 0 < i < |b| ==> b[i] == '_' ==> b[i - 1] != '_')
  }

  function RemoveUnderscores(b: string): (r: string)
    ensures (forall i :: 0 <= i < |b| ==> IsDigit(b[i]) || b[i] == '_') ==> AllDigits(r)
    ensures AllDigits(b) ==> r == b
  {
    if b == [] then []
    else (if b[0] == '_' then [] else [b[0]]) + RemoveUnderscores(b[1..])
  }

  function UnsignedValue(b: string): Option<int>
  {
    if DigitGroups(b) then
      Some(DigitsValue(RemoveUnderscores(b)))
    else None
  }

  /**
   * Python's `int(s)` in base 10: surrounding whitespace, one optional sign,
   * ASCII digits with single underscores between them; None where `int()` raises.
   */
  function PyInt(s: string): Option<int>
  {
    var t := Strip(s);
    if |t| > 0 && (t[0] == '+' || t[0] == '-') then
      match UnsignedValue(t[1..])
      case None => None
      case Some(v) => Some(if t[0] == '-' then -v else v)
    else UnsignedValue(t)
  }

  lemma UnsignedValueOfNat(n: nat)
    ensures UnsignedValue(NatToString(n)) == Some(n)
  {
    UnsignedValueOfDigits(NatToString(n));
  }

  lemma UnsignedValueOfDigits(d: string)
    requires |d| > 0 && AllDigits(d)
    ensures UnsignedValue(d) == Some(DigitsValue(d))
  {
    assert IsDigit(d[0]) && IsDigit(d[|d| - 1]);
    assert DigitGroups(d);
  }

  /** Without surrounding whitespace or a sign, `int()` reads the digit groups. */
  lemma PyIntUnsigned(s: string)
    requires Strip(s) == s && |s| > 0 && s[0] != '+' && s[0] != '-'
    ensures PyInt(s) == UnsignedValue(s)
  {
  }

  /** `int(str(i)) == i`. */
  lemma PyIntOfIntToString(i: int)
    ensures PyInt(IntToString(i)) == Some(i)
  {
    var s := IntToString(i);
    StripNoop(s);
    var n := NatToString(if i < 0 then -i else i);
    UnsignedValueOfNat(if i < 0 then -i else i);
    assert Strip(s) == s;
    if i < 0 {
      assert s[0] == '-' && s[1..] == n;
      assert UnsignedValue(s[1..]) == Some(-i);
    } else {
      assert IsDigit(s[0]);
      assert UnsignedValue(s) == Some(i);
    }
  }

  lemma PyIntEmpty()
    ensures PyInt("") == None
  {
  }
}

=== FILE: suggestion_validators.dfy ===
/**
 * `SuggestionValidators`: the suggestion context must be a member of the
 * `SuggestionContext` enumeration, and the limit an integer in
 * 1..`MAX_SUGGESTION_LIMIT`. That maximum is not part of this model's
 * constants, so it is a parameter.
 */
module SuggestionValidators {
  import opened Wrappers
  import opened Strings
  import opened PyJson

  datatype SuggestionContext = Anonymous | Connected

  /** The value of a `SuggestionContext` member. */
  function ContextValue(c: SuggestionContext): string
  {
    match c
    case Anonymous => "anonymous"
    case Connected => "connected"
  }

  /**
   * The argument of `validate_context`: an enumeration member, or any other
   * Python value (a plain string such as "anonymous" included), with the text
   * of its `type(...)`.
   */
  datatype ContextArg = Member(context: SuggestionContext) | Other(value: Json, typeName: string)

  /** `validate_context`: members are returned unchanged; anything else is rejected. */
  function ValidateContext(arg: ContextArg): (r: Result<SuggestionContext, string>)
    ensures r.Ok? <==> arg.Member?
    ensures r.Ok? ==> r.value == arg.context
  {
    match arg
    case Member(c) => Ok(c)
    case Other(_, typeName) =>
      Err("Invalid context type: " + typeName + ". Must be SuggestionContext enum")
  }

  /** `validate_limit`: an integer in 1..maxLimit, returned unchanged. */
  function ValidateLimit(limit: Json, maxLimit: int): (r: Result<Json, string>)
    ensures r.Ok? <==> IsPyInt(limit) && 1 <= PyIntValue(limit) <= maxLimit
    ensures r.Ok? ==> r.value == limit
    ensures IsPyInt(limit) && PyIntValue(limit) > 0 && PyIntValue(limit) > maxLimit
            ==> r == Err("Limit too large (max " + IntToString(maxLimit) + " suggestions)")
  {
    if !IsPyInt(limit) || PyIntValue(limit) <= 0 then
      Err("Limit must be a positive integer")
    else if PyIntValue(limit) > maxLimit then
      Err("Limit too large (max " + IntToString(maxLimit) + " suggestions)")
    else Ok(limit)
  }

  /** The plain string "anonymous" is not an enumeration member and is rejected. */
  lemma PlainStringRejected()
    ensures ValidateContext(Other(Str("anonymous"), "<class 'str'>")).Err?
  {
  }
}

=== FILE: text_processor.dfy ===
/**
 * `TextProcessor`: turns the SDK method documentation into vector-store
 * documents: a searchable text (space-joined natural-language parts) and a
 * metadata dict per method. Methods are JSON dicts; Python's `str()` of a value
 * inside an f-string is `show` and `json.dumps` is `dumps`. Errors are named by
 * the Python exception class they raise.
 */
module TextProcessor {
  import opened Wrappers
  import opened Strings
  import opened PyJson

  const MISSING_FIELDS := "ValueError"

  predicate HasNameAndDescription(entry: map<string, Json>)
  {
    "name" in entry && "description" in entry
  }

  /** A parameter the text describes: a dict with a name and a description. */
  predicate WellFormedParameter(p: Json)
  {
    p.Obj? && "name" in p.fields && "description" in p.fields
  }

  /** `"{name} parameter {description}"`. */
  function ParameterText(p: Json, show: Json -> string): string
    requires WellFormedParameter(p)
  {
    PyStr(p.fields["name"], show) + " parameter " + PyStr(p.fields["description"], show)
  }

  /** The texts of the well-formed parameters, in order; the others are skipped. */
  function ParameterTexts(params: seq<Json>, show: Json -> string): (r: seq<string>)
    ensures |r| <= |params|
  {
    if params == [] then []
    else
      var last := params[|params| - 1];
      ParameterTexts(params[..|params| - 1], show) + (if WellFormedParameter(last) then [ParameterText(last, show)] else [])
  }

  /** The parameter texts of a concatenation are the concatenated texts. */
  lemma {:induction false} ParameterTextsConcat(a: seq<Json>, b: seq<Json>, show: Json -> string)
    ensures ParameterTexts(a + b, show) == ParameterTexts(a, show) + ParameterTexts(b, show)
    decreases |b|
  {
    if b == [] {
      assert a + b == a;
    } else {
      var b' := b[..|b| - 1];
      assert (a + b)[..|a + b| - 1] == a + b';
      ParameterTextsConcat(a, b', show);
    }
  }

  /** A malformed parameter inserted anywhere leaves the texts unchanged. */
  lemma {:induction false} MalformedParameterSkipped(params: seq<Json>, i: nat, p: Json, show: Json -> string)
    requires i <= |params| && !WellFormedParameter(p)
    ensures ParameterTexts(params[..i] + [p] + params[i..], show) == ParameterTexts(params, show)
  {
    var head, tail := params[..i], params[i..];
    assert ParameterTexts([p], show) == [] by {
      assert [p][..0] == [];
    }
    ParameterTextsConcat(head, [p], show);
    assert ParameterTexts(head + [p], show) == ParameterTexts(head, show);
    ParameterTextsConcat(head + [p], tail, show);
    ParameterTextsConcat(head, tail, show);
    assert head + tail == params;
  }

  /** When every parameter is well formed, there is one text per parameter, in order. */
  lemma {:induction false} WellFormedParameterTexts(params: seq<Json>, show: Json -> string)
    requires forall i :: 0 <= i < |params| ==> WellFormedParameter(params[i])
    ensures |ParameterTexts(params, show)| == |params|
    ensures forall i :: 0 <= i < |params| ==> ParameterTexts(params, show)[i] == ParameterText(params[i], show)
  {
    if params != [] {
      var init := params[..|params| - 1];
      assert forall i :: 0 <= i < |init| ==> init[i] == params[i];
      WellFormedParameterTexts(init, show);
    }
  }

  /** The parameter loop of `create_searchable_text`. */
  method CollectParameterTexts(params: seq<Json>, show: Json -> string) returns (texts: seq<string>)
    ensures texts == ParameterTexts(params, show)
  {
    texts := [];
    var n := 0;
    while n < |params|
      invariant 0 <= n <= |params|
      invariant texts == ParameterTexts(params[..n], show)
    {
      var param := params[n];
      assert params[..n + 1][..n] == params[..n];
      if param.Obj? && "name" in param.fields && "description" in param.fields {
        texts := texts + [PyStr(param.fields["name"], show) + " parameter " + PyStr(param.fields["description"], show)];
      }
      n := n + 1;
    }
    assert params[..|params|] == params;
  }

  /**
   * The parameter texts of a truthy `parameters` value: a list's well-formed
   * entries; none for a text or a dict, whose elements (characters, keys) are
   * texts and so all skipped; a `TypeError` for a value that cannot be iterated.
   */
  function ParameterTextsOf(v: Json, show: Json -> string): Result<seq<string>, string>
  {
    match v
    case Arr(items) => Ok(ParameterTexts(items, show))
    case Str(_) => Ok([])
    case Obj(_) => Ok([])
    case _ => Err("TypeError")
  }

  /** The characters of a text as one-character texts, as iterating a `str` gives them. */
  function Characters(s: string): (r: seq<Json>)
    ensures |r| == |s| && forall i :: 0 <= i < |s| ==> r[i] == Str([s[i]])
  {
    seq(|s|, i requires 0 <= i < |s| => Str([s[i]]))
  }

  /** The texts as JSON strings. */
  function StrItems(texts: seq<string>): (r: seq<Json>)
    ensures |r| == |texts| && forall i :: 0 <= i < |texts| ==> r[i] == Str(texts[i])
  {
    seq(|texts|, i requires 0 <= i < |texts| => Str(texts[i]))
  }

  /**
   * The parts `parts.extend(use_cases)` adds: a list's items or a text's
   * characters; a value that cannot be iterated raises `TypeError`. A dict would
   * add its keys in insertion order, which the model's dicts do not carry.
   */
  function UseCaseParts(v: Json): (r: Result<seq<Json>, string>)
    ensures r.Ok? <==> v.Arr? || v.Str?
    ensures v.Arr? ==> r == Ok(v.items)
    ensures v.Str? ==> |r.value| == |v.s| && forall i :: 0 <= i < |v.s| ==> r.value[i] == Str([v.s[i]])
    ensures r.Err? ==> r.error == "TypeError"
  {
    match v
    case Arr(items) => Ok(items)
    case Str(s) => Ok(Characters(s))
    case _ => Err("TypeError")
  }

  /** The `"returns {type}"` part, when the `returns` dict has a truthy type; a truthy non-dict raises. */
  function ReturnsPart(entry: map<string, Json>, show: Json -> string): (r: Result<seq<Json>, string>)
    ensures r.Err? <==> Truthy(GetOr(entry, "returns", Null)) && !GetOr(entry, "returns", Null).Obj?
    ensures r.Ok? ==> |r.value| <= 1
    ensures r.Ok? && r.value != [] ==>
              r.value[0].Str? && StartsWith(r.value[0].s, "returns ") && GetOr(entry, "returns", Null).Obj?
              && Truthy(GetOr(GetOr(entry, "returns", Null).fields, "type", Null))
  {
    var ret := GetOr(entry, "returns", Null);
    if !Truthy(ret) then Ok([])
    else if !ret.Obj? then Err("AttributeError")
    else
      var t := GetOr(ret.fields, "type", Null);
      if Truthy(t) then Ok([Str("returns " + PyStr(t, show))]) else Ok([])
  }

  /** The `"{category} functionality"` part, when the category is truthy. */
  function CategoryPart(entry: map<string, Json>, show: Json -> string): (r: seq<Json>)
    ensures |r| <= 1 && (|r| == 1 <==> Truthy(GetOr(entry, "category", Null)))
    ensures |r| == 1 ==> r[0].Str? && EndsWith(r[0].s, " functionality")
  {
    var category := GetOr(entry, "category", Null);
    if Truthy(category) then [Str(PyStr(category, show) + " functionality")] else []
  }

  /** Whether every part is a text, as `" ".join` demands. */
  predicate AllTexts(parts: seq<Json>)
  {
    forall i :: 0 <= i < |parts| ==> parts[i].Str?
  }

  function Texts(parts: seq<Json>): (r: seq<string>)
    requires AllTexts(parts)
    ensures |r| == |parts| && forall i :: 0 <= i < |parts| ==> r[i] == parts[i].s
  {
    seq(|parts|, i requires 0 <= i < |parts| => parts[i].s)
  }

  /**
   * The parts of the searchable text in order: name, description, parameter
   * texts, use cases, the return type and the category, each only when present;
   * Err names the exception raised while collecting them.
   */
  function SearchableParts(entry: map<string, Json>, show: Json -> string): (r: Result<seq<Json>, string>)
    ensures !HasNameAndDescription(entry) ==> r == Err(MISSING_FIELDS)
  {
    if !HasNameAndDescription(entry) then Err(MISSING_FIELDS)
    else
      var params := GetOr(entry, "parameters", Null);
      var paramTexts := if Truthy(params) then ParameterTextsOf(params, show) else Ok([]);
      var useCases := GetOr(entry, "use_cases", Null);
      var useCaseParts := if Truthy(useCases) then UseCaseParts(useCases) else Ok([]);
      if paramTexts.Err? then Err(paramTexts.error)
      else if useCaseParts.Err? then Err(useCaseParts.error)
      else
        match ReturnsPart(entry, show)
        case Err(e) => Err(e)
        case Ok(returnsPart) =>
          Ok([entry["name"], entry["description"]] + StrItems(paramTexts.value) + useCaseParts.value
             + returnsPart + CategoryPart(entry, show))
  }

  /** `create_searchable_text`: the parts joined by single spaces; a part that is not a text raises `TypeError`. */
  function SearchableText(entry: map<string, Json>, show: Json -> string): (r: Result<string, string>)
    ensures !HasNameAndDescription(entry) ==> r == Err(MISSING_FIELDS)
    ensures r.Ok? <==> SearchableParts(entry, show).Ok? && AllTexts(SearchableParts(entry, show).value)
  {
    match SearchableParts(entry, show)
    case Err(e) => Err(e)
    case Ok(parts) => if AllTexts(parts) then Ok(Join(Texts(parts), " ")) else Err("TypeError")
  }

  /** `create_searchable_text`, with the parameter loop. */
  method CreateSearchableText(entry: map<string, Json>, show: Json -> string) returns (r: Result<string, string>)
    ensures r == SearchableText(entry, show)
  {
    if "name" !in entry || "description" !in entry {
      return Err(MISSING_FIELDS);
    }
    var paramTexts: seq<string> := [];
    var params := GetOr(entry, "parameters", Null);
    if Truthy(params) {
      match params
      case Arr(items) =>
        paramTexts := CollectParameterTexts(items, show);
      case Str(_) =>
      case Obj(_) =>
      case _ =>
        return Err("TypeError");
    }
    var useCaseParts: seq<Json> := [];
    var useCases := GetOr(entry, "use_cases", Null);
    if Truthy(useCases) {
      var extension := UseCaseParts(useCases);
      if extension.Err? {
        return Err(extension.error);
      }
      useCaseParts := extension.value;
    }
    var returnsPart := ReturnsPart(entry, show);
    if returnsPart.Err? {
      return Err(returnsPart.error);
    }
    var parts := [entry["name"], entry["description"]] + StrItems(paramTexts) + useCaseParts
                 + returnsPart.value + CategoryPart(entry, show);
    if !AllTexts(parts) {
      return Err("TypeError");
    }
    r := Ok(Join(Texts(parts), " "));
  }

  /** With only a name and a description, the text is `"{name} {description}"`. */
  lemma NameAndDescriptionOnly(entry: map<string, Json>, name: string, description: string, show: Json -> string)
    requires entry.Keys == {"name", "description"}
    requires entry["name"] == Str(name) && entry["description"] == Str(description)
    ensures SearchableText(entry, show) == Ok(name + " " + description)
  {
    assert GetOr(entry, "parameters", Null) == Null;
    assert GetOr(entry, "use_cases", Null) == Null;
    assert GetOr(entry, "returns", Null) == Null;
    assert GetOr(entry, "category", Null) == Null;
    NameAndDescriptionText(entry, name, description, show);
  }

  /** When only the name and the description make parts, the text is both, space-joined. */
  lemma NameAndDescriptionText(entry: map<string, Json>, name: string, description: string, show: Json -> string)
    requires "name" in entry && entry["name"] == Str(name)
    requires "description" in entry && entry["description"] == Str(description)
    requires !Truthy(GetOr(entry, "use_cases", Null)) && !Truthy(GetOr(entry, "returns", Null))
    requires !Truthy(GetOr(entry, "category", Null))
    requires !Truthy(GetOr(entry, "parameters", Null)) || ParameterTextsOf(GetOr(entry, "parameters", Null), show) == Ok([])
    ensures SearchableText(entry, show) == Ok(name + " " + description)
  {
    var parts := [Str(name), Str(description)];
    assert StrItems([]) == [];
    assert ReturnsPart(entry, show) == Ok([]);
    assert CategoryPart(entry, show) == [];
    assert parts + StrItems([]) + [] + [] + [] == parts;
    assert SearchableParts(entry, show) == Ok(parts);
    assert Texts(parts) == [name, description];
    assert [name, description][1..] == [description];
    assert Join([name, description], " ") == name + " " + Join([description], " ");
  }

  /**
   * A fully documented method: name, description, the parameter texts, the use
   * cases, `"returns {type}"` and `"{category} functionality"`, in that order.
   */
  lemma SearchableTextOrder(entry: map<string, Json>, name: string, description: string, params: seq<Json>,
                            useCases: seq<string>, ret: map<string, Json>, returnType: string, category: string,
                            show: Json -> string)
    requires "name" in entry && entry["name"] == Str(name)
    requires "description" in entry && entry["description"] == Str(description)
    requires "parameters" in entry && entry["parameters"] == Arr(params)
    requires "use_cases" in entry && entry["use_cases"] == Arr(StrItems(useCases))
    requires "returns" in entry && entry["returns"] == Obj(ret)
    requires "type" in ret && ret["type"] == Str(returnType) && |returnType| > 0
    requires "category" in entry && entry["category"] == Str(category) && |category| > 0
    ensures SearchableText(entry, show)
            == Ok(Join([name, description] + ParameterTexts(params, show) + useCases
                       + ["returns " + returnType, category + " functionality"], " "))
  {
    var paramTexts := ParameterTexts(params, show);
    var parts := [Str(name), Str(description)] + StrItems(paramTexts) + StrItems(useCases)
                 + [Str("returns " + returnType)] + [Str(category + " functionality")];
    assert ReturnsPart(entry, show) == Ok([Str("returns " + returnType)]);
    assert CategoryPart(entry, show) == [Str(category + " functionality")];
    if |params| == 0 {
      assert paramTexts == [];
    }
    assert UseCaseParts(Arr(StrItems(useCases))) == Ok(StrItems(useCases));
    assert SearchableParts(entry, show) == Ok(parts);
    assert AllTexts(parts);
    assert Texts(parts) == [name, description] + paramTexts + useCases + ["returns " + returnType, category + " functionality"];
  }

  /** Inserting a malformed parameter into a documented list does not change the searchable text. */
  lemma MalformedParameterIgnored(entry: map<string, Json>, params: seq<Json>, i: nat, p: Json, show: Json -> string)
    requires "parameters" in entry && entry["parameters"] == Arr(params)
    requires i <= |params| && !WellFormedParameter(p)
    ensures SearchableText(entry["parameters" := Arr(params[..i] + [p] + params[i..])], show) == SearchableText(entry, show)
  {
    var extended := entry["parameters" := Arr(params[..i] + [p] + params[i..])];
    MalformedParameterSkipped(params, i, p, show);
    if params == [] {
      assert ParameterTexts(params, show) == [];
    }
    assert GetOr(extended, "use_cases", Null) == GetOr(entry, "use_cases", Null);
    assert GetOr(extended, "returns", Null) == GetOr(entry, "returns", Null);
    assert GetOr(extended, "category", Null) == GetOr(entry, "category", Null);
    assert ReturnsPart(extended, show) == ReturnsPart(entry, show);
    assert CategoryPart(extended, show) == CategoryPart(entry, show);
    assert SearchableParts(extended, show) == SearchableParts(entry, show);
  }

  /**
   * `[p["name"] for p in parameters]`: every element must be a dict with a name
   * (a dict without one raises `KeyError`, anything else `TypeError`); an empty
   * text or dict has no elements, any other text or dict has elements that are
   * texts, and a value that cannot be iterated raises `TypeError`.
   */
  function ParamNames(v: Json): (r: Result<seq<Json>, string>)
    ensures v.Arr? ==> r == ListNames(v.items)
  {
    match v
    case Arr(items) => ListNames(items)
    case Str(s) => if s == "" then Ok([]) else Err("TypeError")
    case Obj(m) => if m == map[] then Ok([]) else Err("TypeError")
    case _ => Err("TypeError")
  }

  /** The names of a list of parameters; the first element without one decides the exception. */
  function ListNames(items: seq<Json>): (r: Result<seq<Json>, string>)
    ensures r.Ok? <==> forall i :: 0 <= i < |items| ==> items[i].Obj? && "name" in items[i].fields
    ensures r.Ok? ==> |r.value| == |items| && forall i :: 0 <= i < |items| ==> r.value[i] == items[i].fields["name"]
  {
    if items == [] then Ok([])
    else
      var init := items[..|items| - 1];
      var last := items[|items| - 1];
      assert forall i :: 0 <= i < |init| ==> init[i] == items[i];
      match ListNames(init)
      case Err(e) => Err(e)
      case Ok(names) =>
        if !last.Obj? then Err("TypeError")
        else if "name" !in last.fields then Err("KeyError")
        else Ok(names + [last.fields["name"]])
  }

  /**
   * `prepare_metadata`: name and description as given, the category and return
   * type defaulting to `"unknown"`, the parameter names in order and the method's
   * JSON text.
   */
  function PrepareMetadata(entry: map<string, Json>, dumps: map<string, Json> -> string): (r: Result<map<string, Json>, string>)
    ensures !HasNameAndDescription(entry) ==> r == Err(MISSING_FIELDS)
    ensures r.Ok? <==> HasNameAndDescription(entry) && ParamNames(GetOr(entry, "parameters", Arr([]))).Ok?
                       && (GetOr(entry, "returns", Obj(map[])).Obj?)
    ensures r.Ok? ==> "method_name" in r.value && r.value["method_name"] == entry["name"]
    ensures r.Ok? ==> "description" in r.value && r.value["description"] == entry["description"]
    ensures r.Ok? ==> "category" in r.value && r.value["category"] == GetOr(entry, "category", Str("unknown"))
    ensures r.Ok? ==> "param_names" in r.value && r.value["param_names"] == Arr(ParamNames(GetOr(entry, "parameters", Arr([]))).value)
    ensures r.Ok? ==> "return_type" in r.value
                      && r.value["return_type"] == GetOr(GetOr(entry, "returns", Obj(map[])).fields, "type", Str("unknown"))
    ensures r.Ok? ==> "full_data" in r.value && r.value["full_data"] == Str(dumps(entry))
    ensures r.Ok? ==> r.value.Keys <= {"method_name", "description", "category", "param_names", "return_type", "full_data"}
  {
    if !HasNameAndDescription(entry) then Err(MISSING_FIELDS)
    else
      match ParamNames(GetOr(entry, "parameters", Arr([])))
      case Err(e) => Err(e)
      case Ok(names) =>
        var ret := GetOr(entry, "returns", Obj(map[]));
        if !ret.Obj? then Err("AttributeError")
        else
          Ok(map["method_name" := entry["name"], "description" := entry["description"],
                 "category" := GetOr(entry, "category", Str("unknown")), "param_names" := Arr(names),
                 "return_type" := GetOr(ret.fields, "type", Str("unknown")), "full_data" := Str(dumps(entry))])
  }

  /** A vector-store document: its text and its metadata. */
  datatype Document = Document(pageContent: string, metadata: map<string, Json>)

  /** The document of one method dict, when both the text and the metadata can be built. */
  function MethodDocument(entry: map<string, Json>, show: Json -> string, dumps: map<string, Json> -> string): (r: Option<Document>)
    ensures r.Some? <==> SearchableText(entry, show).Ok? && PrepareMetadata(entry, dumps).Ok?
    ensures r.Some? ==> r.value == Document(SearchableText(entry, show).value, PrepareMetadata(entry, dumps).value)
  {
    match SearchableText(entry, show)
    case Err(_) => None
    case Ok(text) =>
      match PrepareMetadata(entry, dumps)
      case Err(_) => None
      case Ok(metadata) => Some(Document(text, metadata))
  }

  /**
   * What one element adds, given the document (if any) of a method dict: that
   * document; a non-dict raises in the error handler.
   */
  function Contribution(m: Json, process: map<string, Json> -> Option<Document>): (r: Result<seq<Document>, string>)
    ensures r.Err? <==> !m.Obj?
    ensures r.Ok? ==> |r.value| <= 1
  {
    if !m.Obj? then Err("AttributeError")
    else
      match process(m.fields)
      case None => Ok([])
      case Some(doc) => Ok([doc])
  }

  predicate AllDicts(methods: seq<Json>)
  {
    forall i :: 0 <= i < |methods| ==> methods[i].Obj?
  }

  /**
   * `create_documents`, where `process` is `MethodDocument` with the text and
   * JSON renderers: one document per method that processes without error, in
   * order. A failing element that is not a dict makes the error handler itself
   * raise `AttributeError` (it calls `method.get`), which ends the whole call.
   */
  function Documents(methods: seq<Json>, process: map<string, Json> -> Option<Document>): (r: Result<seq<Document>, string>)
    ensures r.Ok? ==> |r.value| <= |methods|
    ensures r.Err? <==> !AllDicts(methods)
  {
    if methods == [] then Ok([])
    else
      var init := methods[..|methods| - 1];
      var last := methods[|methods| - 1];
      assert forall i :: 0 <= i < |init| ==> init[i] == methods[i];
      match Documents(init, process)
      case Err(e) => Err(e)
      case Ok(docs) =>
        match Contribution(last, process)
        case Err(e) => Err(e)
        case Ok(added) => Ok(docs + added)
  }

  /** The documents of a concatenation are the documents of the parts, in order. */
  lemma {:induction false} DocumentsConcat(a: seq<Json>, b: seq<Json>, process: map<string, Json> -> Option<Document>)
    requires Documents(a, process).Ok? && Documents(b, process).Ok?
    ensures Documents(a + b, process) == Ok(Documents(a, process).value + Documents(b, process).value)
    decreases |b|
  {
    if b == [] {
      assert a + b == a;
      assert Documents(b, process) == Ok([]);
      assert Documents(a, process).value + [] == Documents(a, process).value;
    } else {
      var b', last := b[..|b| - 1], b[|b| - 1];
      var ab := a + b;
      assert ab[..|ab| - 1] == a + b';
      assert ab[|ab| - 1] == last;
      DocumentsConcat(a, b', process);
      var da, db' := Documents(a, process).value, Documents(b', process).value;
      var added := Contribution(last, process).value;
      assert da + db' + added == da + (db' + added);
    }
  }

  /** A single dict contributes its document, or nothing when it has none. */
  lemma SingleDocument(entry: map<string, Json>, process: map<string, Json> -> Option<Document>)
    ensures process(entry).None? ==> Documents([Obj(entry)], process) == Ok([])
    ensures process(entry).Some? ==> Documents([Obj(entry)], process) == Ok([process(entry).value])
  {
    var single := [Obj(entry)];
    assert single[..0] == [];
    assert single[0] == Obj(entry);
    assert Documents(single[..0], process) == Ok([]);
    var added := Contribution(Obj(entry), process).value;
    assert [] + added == added;
  }

  /**
   * A method whose parameter list holds a text is skipped: its searchable text
   * is built, but its metadata raises on `p["name"]`.
   */
  lemma MalformedParameterSkipsDocument(entry: map<string, Json>, name: string, description: string,
                                        show: Json -> string, dumps: map<string, Json> -> string)
    requires entry.Keys == {"name", "description", "parameters"}
    requires entry["name"] == Str(name) && entry["description"] == Str(description)
    requires entry["parameters"] == Arr([Str("oops")])
    ensures SearchableText(entry, show) == Ok(name + " " + description)
    ensures PrepareMetadata(entry, dumps) == Err("TypeError")
    ensures Documents([Obj(entry)], e => MethodDocument(e, show, dumps)) == Ok([])
  {
    var params := [Str("oops")];
    assert params[..0] == [];
    assert ParameterTexts(params, show) == [];
    assert GetOr(entry, "use_cases", Null) == Null;
    assert GetOr(entry, "returns", Null) == Null;
    assert GetOr(entry, "category", Null) == Null;
    NameAndDescriptionText(entry, name, description, show);
    assert ListNames(params) == Err("TypeError");
    SingleDocument(entry, e => MethodDocument(e, show, dumps));
  }

  /** The body of the `create_documents` loop for a method dict: the text, then the metadata. */
  method CreateDocument(entry: map<string, Json>, show: Json -> string, dumps: map<string, Json> -> string) returns (doc: Option<Document>)
    ensures doc == MethodDocument(entry, show, dumps)
  {
    var text := CreateSearchableText(entry, show);
    if text.Err? {
      return None;
    }
    var metadata := PrepareMetadata(entry, dumps);
    if metadata.Err? {
      return None;
    }
    doc := Some(Document(text.value, metadata.value));
  }

  /** `create_documents`, as the loop over the methods. */
  method CreateDocuments(methods: seq<Json>, show: Json -> string, dumps: map<string, Json> -> string) returns (r: Result<seq<Document>, string>)
    ensures r == Documents(methods, e => MethodDocument(e, show, dumps))
  {
    ghost var process := e => MethodDocument(e, show, dumps);
    var documents: seq<Document> := [];
    var n := 0;
    while n < |methods|
      invariant 0 <= n <= |methods|
      invariant Documents(methods[..n], process) == Ok(documents)
    {
      var entry := methods[n];
      assert methods[..n + 1][..n] == methods[..n];
      assert methods[..n + 1][n] == entry;
      if !entry.Obj? {
        r := Err("AttributeError");
        DocumentsErrorPersists(methods, n + 1, process);
        return;
      }
      var doc := CreateDocument(entry.fields, show, dumps);
      assert process(entry.fields) == doc;
      if doc.Some? {
        documents := documents + [doc.value];
      } else {
        assert documents + [] == documents;
      }
      n := n + 1;
    }
    assert methods[..|methods|] == methods;
    r := Ok(documents);
  }

  /** Once a prefix raises, the whole list raises with the same error. */
  lemma {:induction false} DocumentsErrorPersists(methods: seq<Json>, n: nat, process: map<string, Json> -> Option<Document>)
    requires n <= |methods| && Documents(methods[..n], process).Err?
    ensures Documents(methods, process) == Documents(methods[..n], process)
    decreases |methods| - n
  {
    if n < |methods| {
      assert methods[..n + 1][..n] == methods[..n];
      DocumentsErrorPersists(methods, n + 1, process);
    } else {
      assert methods[..n] == methods;
    }
  }

  /**
   * `load_methods_from_file` after the file is read and decoded: the `methods`
   * entry (default: none) must be a list; a decoded value that is not a dict has
   * no `get` and raises `AttributeError`.
   */
  function LoadMethods(docData: Json): (r: Result<seq<Json>, string>)
    ensures r.Ok? <==> docData.Obj? && GetOr(docData.fields, "methods", Arr([])).Arr?
    ensures r.Ok? ==> r.value == GetOr(docData.fields, "methods", Arr([])).items
    ensures docData.Obj? && !GetOr(docData.fields, "methods", Arr([])).Arr? ==> r == Err("ValueError")
  {
    if !docData.Obj? then Err("AttributeError")
    else
      var methods := GetOr(docData.fields, "methods", Arr([]));
      if !methods.Arr? then Err("ValueError") else Ok(methods.items)
  }
}

=== FILE: tool_call_parser.dfy ===
/**
 * Tool calls in LLM output (`ToolCallParser`): a brace-counting scanner
 * for `{"tool_call": {...}}` objects, three fallback extraction strategies,
 * and the repairs applied before `json.loads`.
 */
module ToolCallParser {
  import opened Wrappers
  import opened Strings
  import opened PyJson

  /** A validated tool call: the object under `"tool_call"`, which has a `"name"`. */
  type ToolCall = map<string, Json>

  // ------------------------------------------------------------ repairs

  const PYTHON_LITERALS: seq<string> := [": True", ": False", ": None", ":True", ":False", ":None"]

  /**
   * `_fix_python_syntax`: Python literals after a colon become JSON literals;
   * afterwards none of the six Python spellings remains.
   */
  function FixPythonSyntax(s: string): (r: string)
    ensures forall i :: 0 <= i < |PYTHON_LITERALS| ==> !Contains(r, PYTHON_LITERALS[i])
  {
    var s1 := Replace(s, ": True", ": true");
    var s2 := Replace(s1, ": False", ": false");
    var s3 := Replace(s2, ": None", ": null");
    var s4 := Replace(s3, ":True", ":true");
    var s5 := Replace(s4, ":False", ":false");
    SpacedTrueRemoved(s);
    SpacedFalseRemoved(s1);
    SpacedNoneRemoved(s2);
    TightTrueRemoved(s3);
    TightFalseRemoved(s4);
    TightNoneRemoved(s5);
    Replace(s5, ":None", ":null")
  }

  /** A replacement `r` that can neither contain nor start an occurrence of `q`. */
  predicate Separated(r: string, q: string)
  {
    |q| > 0 && |r| > 0 && r[0] == q[0] && q[0] !in r[1..] && q[0] !in q[1..]
    && !StartsWith(r, q) && !StartsWith(q, r)
  }

  lemma SeparatedAt(r: string, q: string, j: nat)
    requires |q| > 0 && |r| > 0 && r[0] == q[0] && q[0] !in r[1..] && q[0] !in q[1..]
    requires j < |r| && j < |q| && r[j] != q[j]
    ensures Separated(r, q)
  {
    assert |q| <= |r| ==> r[..|q|][j] != q[j];
    assert |r| <= |q| ==> q[..|r|][j] != r[j];
  }

  /** One replacement step removes its own pattern and does not bring back another one. */
  lemma StaysClean(s: string, p: string, r: string, q: string, j: nat)
    requires |p| > 0 && |q| > 0 && |r| > 0 && r[0] == q[0] && q[0] !in r[1..] && q[0] !in q[1..]
    requires j < |r| && j < |q| && r[j] != q[j]
    requires q == p || !Contains(s, q)
    ensures !Contains(Replace(s, p, r), q)
  {
    SeparatedAt(r, q, j);
    ReplaceAvoids(s, p, r, q);
  }

  lemma SpacedTrueRemoved(s: string)
    ensures !Contains(Replace(s, ": True", ": true"), ": True")
  {
    StaysClean(s, ": True", ": true", ": True", 2);
  }

  lemma SpacedFalseRemoved(s: string)
    requires !Contains(s, ": True")
    ensures var t := Replace(s, ": False", ": false");
            !Contains(t, ": True") && !Contains(t, ": False")
  {
    StaysClean(s, ": False", ": false", ": True", 2);
    StaysClean(s, ": False", ": false", ": False", 2);
  }

  lemma SpacedNoneRemoved(s: string)
    requires !Contains(s, ": True") && !Contains(s, ": False")
    ensures var t := Replace(s, ": None", ": null");
            !Contains(t, ": True") && !Contains(t, ": False") && !Contains(t, ": None")
  {
    StaysClean(s, ": None", ": null", ": True", 2);
    StaysClean(s, ": None", ": null", ": False", 2);
    StaysClean(s, ": None", ": null", ": None", 2);
  }

  lemma TightTrueRemoved(s: string)
    requires !Contains(s, ": True") && !Contains(s, ": False") && !Contains(s, ": None")
    ensures var t := Replace(s, ":True", ":true");
            !Contains(t, ": True") && !Contains(t, ": False") && !Contains(t, ": None")
            && !Contains(t, ":True")
  {
    StaysClean(s, ":True", ":true", ": True", 1);
    StaysClean(s, ":True", ":true", ": False", 1);
    StaysClean(s, ":True", ":true", ": None", 1);
    StaysClean(s, ":True", ":true", ":True", 1);
  }

  lemma TightFalseRemoved(s: string)
    requires !Contains(s, ": True") && !Contains(s, ": False") && !Contains(s, ": None")
    requires !Contains(s, ":True")
    ensures var t := Replace(s, ":False", ":false");
            !Contains(t, ": True") && !Contains(t, ": False") && !Contains(t, ": None")
            && !Contains(t, ":True") && !Contains(t, ":False")
  {
    StaysClean(s, ":False", ":false", ": True", 1);
    StaysClean(s, ":False", ":false", ": False", 1);
    StaysClean(s, ":False", ":false", ": None", 1);
    StaysClean(s, ":False", ":false", ":True", 1);
    StaysClean(s, ":False", ":false", ":False", 1);
  }

  lemma TightNoneRemoved(s: string)
    requires !Contains(s, ": True") && !Contains(s, ": False") && !Contains(s, ": None")
    requires !Contains(s, ":True") && !Contains(s, ":False")
    ensures var t := Replace(s, ":None", ":null");
            !Contains(t, ": True") && !Contains(t, ": False") && !Contains(t, ": None")
            && !Contains(t, ":True") && !Contains(t, ":False") && !Contains(t, ":None")
  {
    StaysClean(s, ":None", ":null", ": True", 1);
    StaysClean(s, ":None", ":null", ": False", 1);
    StaysClean(s, ":None", ":null", ": None", 1);
    StaysClean(s, ":None", ":null", ":True", 1);
    StaysClean(s, ":None", ":null", ":False", 1);
    StaysClean(s, ":None", ":null", ":None", 1);
  }

  /** Repairing Python literals twice is the same as repairing them once. */
  lemma FixPythonSyntaxIdempotent(s: string)
    ensures FixPythonSyntax(FixPythonSyntax(s)) == FixPythonSyntax(s)
  {
    var t := FixPythonSyntax(s);
    assert !Contains(t, PYTHON_LITERALS[0]) && !Contains(t, PYTHON_LITERALS[1]) && !Contains(t, PYTHON_LITERALS[2]);
    assert !Contains(t, PYTHON_LITERALS[3]) && !Contains(t, PYTHON_LITERALS[4]) && !Contains(t, PYTHON_LITERALS[5]);
    ReplaceNoop(t, ": True", ": true");
    ReplaceNoop(t, ": False", ": false");
    ReplaceNoop(t, ": None", ": null");
    ReplaceNoop(t, ":True", ":true");
    ReplaceNoop(t, ":False", ":false");
    ReplaceNoop(t, ":None", ":null");
  }

  /** `max(0, a - b)`. */
  function Missing(a: nat, b: nat): nat
  {
    if b < a then a - b else 0
  }

  /**
   * `_fix_missing_braces`: after the Python repair, as many `}` as there are
   * unmatched `{`, then as many `]` as there are unmatched `[`, counted
   * without regard to strings.
   */
  function FixMissingBraces(s: string): (r: string)
    ensures |FixPythonSyntax(s)| <= |r| && r[..|FixPythonSyntax(s)|] == FixPythonSyntax(s)
    ensures forall i :: |FixPythonSyntax(s)| <= i < |r| ==> r[i] == '}' || r[i] == ']'
  {
    var t := FixPythonSyntax(s);
    t + Repeat('}', Missing(Count(t, '{'), Count(t, '}'))) + Repeat(']', Missing(Count(t, '['), Count(t, ']')))
  }

  /**
   * The brace repair only appends, and afterwards there are at least as many
   * closing as opening braces and brackets; each count of closers is the
   * larger of the two counts before.
   */
  lemma FixMissingBracesBalances(s: string)
    ensures var t := FixPythonSyntax(s);
            var r := FixMissingBraces(s);
            |t| <= |r| && r[..|t|] == t
            && Count(r, '{') == Count(t, '{') && Count(r, '[') == Count(t, '[')
            && Count(r, '}') == (if Count(t, '}') < Count(t, '{') then Count(t, '{') else Count(t, '}'))
            && Count(r, ']') == (if Count(t, ']') < Count(t, '[') then Count(t, '[') else Count(t, ']'))
  {
    var t := FixPythonSyntax(s);
    var braces := Repeat('}', Missing(Count(t, '{'), Count(t, '}')));
    var brackets := Repeat(']', Missing(Count(t, '['), Count(t, ']')));
    var r := FixMissingBraces(s);
    assert r == t + braces + brackets;
    assert r[..|t|] == t;
    CountConcat(t + braces, brackets, '{');
    CountConcat(t, braces, '{');
    CountConcat(t + braces, brackets, '}');
    CountConcat(t, braces, '}');
    CountConcat(t + braces, brackets, '[');
    CountConcat(t, braces, '[');
    CountConcat(t + braces, brackets, ']');
    CountConcat(t, braces, ']');
    CountRepeat('}', Missing(Count(t, '{'), Count(t, '}')), '{');
    CountRepeat('}', Missing(Count(t, '{'), Count(t, '}')), '}');
    CountRepeat('}', Missing(Count(t, '{'), Count(t, '}')), '[');
    CountRepeat('}', Missing(Count(t, '{'), Count(t, '}')), ']');
    CountRepeat(']', Missing(Count(t, '['), Count(t, ']')), '{');
    CountRepeat(']', Missing(Count(t, '['), Count(t, ']')), '}');
    CountRepeat(']', Missing(Count(t, '['), Count(t, ']')), '[');
    CountRepeat(']', Missing(Count(t, '['), Count(t, ']')), ']');
  }

  /** Repairing an already repaired text changes nothing. */
  lemma FixMissingBracesIdempotent(s: string)
    ensures FixMissingBraces(FixMissingBraces(s)) == FixMissingBraces(s)
  {
    var t := FixPythonSyntax(s);
    var r := FixMissingBraces(s);
    FixMissingBracesBalances(s);
    AppendClosersKeepsClean(t, r[|t|..]);
    assert r == t + r[|t|..];
    FixPythonSyntaxNoop(r);
    assert Repeat('}', 0) == [] && Repeat(']', 0) == [];
  }

  /** Closing braces and brackets appended to a repaired text form no Python literal. */
  lemma AppendClosersKeepsClean(t: string, tail: string)
    requires forall i :: 0 <= i < |PYTHON_LITERALS| ==> !Contains(t, PYTHON_LITERALS[i])
    requires forall k :: 0 <= k < |tail| ==> tail[k] == '}' || tail[k] == ']'
    ensures forall i :: 0 <= i < |PYTHON_LITERALS| ==> !Contains(t + tail, PYTHON_LITERALS[i])
  {
    forall i, k | 0 <= i < |PYTHON_LITERALS| ensures !OccursAt(t + tail, k, PYTHON_LITERALS[i]) {
      var q := PYTHON_LITERALS[i];
      assert q[|q| - 1] == 'e';
      if 0 <= k && k + |q| <= |t| {
        assert t[k..k + |q|] == (t + tail)[k..k + |q|];
        assert !OccursAt(t, k, q);
      } else if 0 <= k && k + |q| <= |t + tail| {
        assert (t + tail)[k..k + |q|][|q| - 1] == tail[k + |q| - 1 - |t|];
      }
    }
  }

  /** A text free of the Python spellings is left alone by the Python repair. */
  lemma FixPythonSyntaxNoop(t: string)
    requires forall i :: 0 <= i < |PYTHON_LITERALS| ==> !Contains(t, PYTHON_LITERALS[i])
    ensures FixPythonSyntax(t) == t
  {
    assert !Contains(t, PYTHON_LITERALS[0]) && !Contains(t, PYTHON_LITERALS[1]) && !Contains(t, PYTHON_LITERALS[2]);
    assert !Contains(t, PYTHON_LITERALS[3]) && !Contains(t, PYTHON_LITERALS[4]) && !Contains(t, PYTHON_LITERALS[5]);
    ReplaceNoop(t, ": True", ": true");
    ReplaceNoop(t, ": False", ": false");
    ReplaceNoop(t, ": None", ": null");
    ReplaceNoop(t, ":True", ":true");
    ReplaceNoop(t, ":False", ":false");
    ReplaceNoop(t, ":None", ":null");
  }

  // ------------------------------------------------------------ validation and parsing

  /**
   * `_validate_tool_call`: the object under `"tool_call"` when the value is an
   * object whose `"tool_call"` is an object with a `"name"`.
   */
  function ValidateToolCall(v: Json): (r: Option<ToolCall>)
    ensures r.Some? <==> v.Obj? && "tool_call" in v.fields && v.fields["tool_call"].Obj?
                         && "name" in v.fields["tool_call"].fields
    ensures r.Some? ==> r.value == v.fields["tool_call"].fields
  {
    if v.Obj? && "tool_call" in v.fields then
      var call := v.fields["tool_call"];
      if call.Obj? && "name" in call.fields then Some(call.fields) else None
    else None
  }

  /**
   * `_try_parse_json`: parse after the Python repair; only when that text is
   * not JSON, parse after the brace repair; then validate. `loads` is
   * `json.loads`, `None` standing for a decode error.
   */
  function TryParseJson(candidate: string, loads: string -> Option<Json>): (r: Option<ToolCall>)
    ensures r.Some? ==> "name" in r.value
  {
    match loads(FixPythonSyntax(candidate))
    case Some(v) => ValidateToolCall(v)
    case None =>
      match loads(FixMissingBraces(candidate))
      case Some(v) => ValidateToolCall(v)
      case None => None
  }

  /** A candidate already valid as written is taken without the brace repair. */
  lemma ValidCandidateNeedsNoRepair(candidate: string, loads: string -> Option<Json>, v: Json)
    requires loads(FixPythonSyntax(candidate)) == Some(v)
    ensures TryParseJson(candidate, loads) == ValidateToolCall(v)
  {
  }

  // ------------------------------------------------------------ the scanner

  /**
   * The brace-counting state machine from index `i` with the given depth and
   * string/escape flags: the index of the `}` that brings the depth back to 0,
   * or `None` when the text ends first. A backslash makes the next character
   * inert, and braces between unescaped double quotes do not count.
   */
  function MatchEnd(s: string, i: nat, depth: int, inString: bool, escape: bool): (r: Option<nat>)
    requires i <= |s|
    ensures r.Some? ==> i <= r.value < |s| && s[r.value] == '}'
    decreases |s| - i
  {
    if i == |s| then None
    else if escape then MatchEnd(s, i + 1, depth, inString, false)
    else if s[i] == '\\' then MatchEnd(s, i + 1, depth, inString, true)
    else if s[i] == '"' then MatchEnd(s, i + 1, depth, !inString, false)
    else if !inString && s[i] == '{' then MatchEnd(s, i + 1, depth + 1, inString, false)
    else if !inString && s[i] == '}' then
      if depth - 1 == 0 then Some(i) else MatchEnd(s, i + 1, depth - 1, inString, false)
    else MatchEnd(s, i + 1, depth, inString, false)
  }

  /** Inside a string, any character but a quote or a backslash leaves the state as it is. */
  lemma BracesInStringsInert(s: string, i: nat, depth: int)
    requires i < |s| && s[i] != '"' && s[i] != '\\'
    ensures MatchEnd(s, i, depth, true, false) == MatchEnd(s, i + 1, depth, true, false)
  {
  }

  /** An escaped character, even a quote, neither opens nor closes a string. */
  lemma EscapedQuoteInert(s: string, i: nat, depth: int, inString: bool)
    requires i + 1 < |s| && s[i] == '\\'
    ensures MatchEnd(s, i, depth, inString, false) == MatchEnd(s, i + 2, depth, inString, false)
  {
  }

  /** The validated calls of a candidate, as a list of at most one. */
  function Kept(call: Option<ToolCall>): seq<ToolCall>
  {
    if call.Some? then [call.value] else []
  }

  predicate AllNamed(calls: seq<ToolCall>)
  {
    forall k :: 0 <= k < |calls| ==> "name" in calls[k]
  }

  /**
   * `_extract_multiple_json_objects` from index `i`: each `{` starts an
   * object; a complete one is parsed and scanning resumes after it; an object
   * the text ends inside is brace-repaired, parsed, and ends the scan.
   */
  function Scan(s: string, i: nat, loads: string -> Option<Json>): (calls: seq<ToolCall>)
    requires i <= |s|
    ensures AllNamed(calls)
    decreases |s| - i
  {
    if i == |s| then []
    else if s[i] != '{' then Scan(s, i + 1, loads)
    else
      match MatchEnd(s, i, 0, false, false)
      case Some(j) => Kept(TryParseJson(s[i..j + 1], loads)) + Scan(s, j + 1, loads)
      case None => Kept(TryParseJson(FixMissingBraces(s[i..]), loads))
  }

  /**
   * The inner brace-counting loop of `_extract_multiple_json_objects`,
   * started on a `{`: the index of the `}` that closes it, or `None` when the
   * text ends with the object still open.
   */
  method FindObjectEnd(content: string, start: nat) returns (end: Option<nat>)
    requires start < |content| && content[start] == '{'
    ensures end == MatchEnd(content, start, 0, false, false)
  {
    var braceCount := 0;
    var i := start;
    var inString := false;
    var escapeNext := false;
    while i < |content|
      invariant start <= i <= |content|
      invariant (i == start && braceCount == 0 && !inString && !escapeNext) || (i > start && braceCount >= 1)
      invariant MatchEnd(content, i, braceCount, inString, escapeNext) == MatchEnd(content, start, 0, false, false)
      decreases |content| - i
    {
      var c := content[i];
      if escapeNext {
        escapeNext := false;
        i := i + 1;
        continue;
      }
      if c == '\\' {
        escapeNext := true;
        i := i + 1;
        continue;
      }
      if c == '"' {
        inString := !inString;
      } else if !inString {
        if c == '{' {
          braceCount := braceCount + 1;
        } else if c == '}' {
          braceCount := braceCount - 1;
          if braceCount == 0 {
            return Some(i);
          }
        }
      }
      i := i + 1;
    }
    return None;
  }

  /**
   * `_extract_multiple_json_objects`: skip whitespace and stray text, match
   * each object, parse it, and brace-repair an object the text ends inside.
   */
  method ExtractMultipleJsonObjects(content: string, loads: string -> Option<Json>) returns (calls: seq<ToolCall>)
    ensures calls == Scan(content, 0, loads)
  {
    calls := [];
    var i := 0;
    while i < |content|
      invariant 0 <= i <= |content|
      invariant calls + Scan(content, i, loads) == Scan(content, 0, loads)
      decreases |content| - i
    {
      while i < |content| && IsSpace(content[i])
        invariant 0 <= i <= |content|
        invariant calls + Scan(content, i, loads) == Scan(content, 0, loads)
      {
        ScanSkipStep(content, i, loads);
        i := i + 1;
      }
      if i >= |content| {
        break;
      }
      var found, next, done := ObjectStep(content, i, loads);
      ghost var before := calls;
      calls := calls + found;
      if done {
        return;
      }
      assert calls + Scan(content, next, loads) == before + (found + Scan(content, next, loads));
      i := next;
    }
    assert Scan(content, i, loads) == [];
  }

  /**
   * One pass of the outer loop of `_extract_multiple_json_objects` at a
   * non-space character: stray text is stepped over; an object is matched
   * and parsed, and one the text ends inside is brace-repaired and parsed,
   * which ends the scan (`done`).
   */
  method ObjectStep(content: string, i: nat, loads: string -> Option<Json>) returns (found: seq<ToolCall>, next: nat, done: bool)
    requires i < |content|
    ensures i < next <= |content|
    ensures done ==> found == Scan(content, i, loads)
    ensures !done ==> found + Scan(content, next, loads) == Scan(content, i, loads)
  {
    if content[i] != '{' {
      ScanSkipStep(content, i, loads);
      found, next, done := [], i + 1, false;
      assert found + Scan(content, next, loads) == Scan(content, next, loads);
      return;
    }
    var end := FindObjectEnd(content, i);
    if end.Some? {
      found := ParseClosedObject(content, i, end.value, loads);
      next, done := end.value + 1, false;
    } else {
      found := ParseOpenObject(content, i, loads);
      next, done := |content|, true;
    }
  }

  /** A complete object: its text parsed; scanning resumes after its `}`. */
  method ParseClosedObject(content: string, start: nat, end: nat, loads: string -> Option<Json>) returns (found: seq<ToolCall>)
    requires start < |content| && content[start] == '{' && MatchEnd(content, start, 0, false, false) == Some(end)
    ensures found + Scan(content, end + 1, loads) == Scan(content, start, loads)
  {
    var toolCall := TryParseJson(content[start..end + 1], loads);
    ScanClosedStep(content, start, end, loads);
    found := Kept(toolCall);
  }

  /** An object the text ends inside: the brace-repaired rest parsed, and nothing after it. */
  method ParseOpenObject(content: string, start: nat, loads: string -> Option<Json>) returns (found: seq<ToolCall>)
    requires start < |content| && content[start] == '{' && MatchEnd(content, start, 0, false, false).None?
    ensures found == Scan(content, start, loads)
  {
    var fixedJson := FixMissingBraces(content[start..]);
    var toolCall := TryParseJson(fixedJson, loads);
    ScanOpenStep(content, start, loads);
    found := Kept(toolCall);
  }

  // ------------------------------------------------------------ scanner lemmas

  function ShiftBy(r: Option<nat>, n: nat): Option<nat>
  {
    if r.Some? then Some(r.value + n) else None
  }

  /** `t` is the text of `s` from index `off` on. */
  ghost predicate SuffixAt(s: string, off: nat, t: string)
  {
    off + |t| == |s| && forall k :: 0 <= k < |t| ==> s[off + k] == t[k]
  }

  lemma ConcatSuffix(p: string, t: string)
    ensures SuffixAt(p + t, |p|, t)
  {
  }

  /** Text in front of the scanned suffix does not change where an object closes. */
  lemma {:induction false} MatchEndShift(s: string, off: nat, t: string, i: nat, depth: int, inString: bool, escape: bool)
    requires SuffixAt(s, off, t) && i <= |t|
    ensures MatchEnd(s, off + i, depth, inString, escape) == ShiftBy(MatchEnd(t, i, depth, inString, escape), off)
    decreases |t| - i
  {
    if i < |t| {
      assert s[off + i] == t[i];
      if escape {
        MatchEndShift(s, off, t, i + 1, depth, inString, false);
      } else if t[i] == '\\' {
        MatchEndShift(s, off, t, i + 1, depth, inString, true);
      } else if t[i] == '"' {
        MatchEndShift(s, off, t, i + 1, depth, !inString, false);
      } else if !inString && t[i] == '{' {
        MatchEndShift(s, off, t, i + 1, depth + 1, inString, false);
      } else if !inString && t[i] == '}' {
        if depth - 1 != 0 {
          MatchEndShift(s, off, t, i + 1, depth - 1, inString, false);
        }
      } else {
        MatchEndShift(s, off, t, i + 1, depth, inString, false);
      }
    }
  }

  /** Text after an object that already closed does not change where it closes. */
  lemma {:induction false} MatchEndPrefix(a: string, rest: string, i: nat, depth: int, inString: bool, escape: bool)
    requires i <= |a| && MatchEnd(a, i, depth, inString, escape).Some?
    ensures MatchEnd(a + rest, i, depth, inString, escape) == MatchEnd(a, i, depth, inString, escape)
    decreases |a| - i
  {
    assert (a + rest)[i] == a[i];
    if escape {
      MatchEndPrefix(a, rest, i + 1, depth, inString, false);
    } else if a[i] == '\\' {
      MatchEndPrefix(a, rest, i + 1, depth, inString, true);
    } else if a[i] == '"' {
      MatchEndPrefix(a, rest, i + 1, depth, !inString, false);
    } else if !inString && a[i] == '{' {
      MatchEndPrefix(a, rest, i + 1, depth + 1, inString, false);
    } else if !inString && a[i] == '}' {
      if depth - 1 != 0 {
        MatchEndPrefix(a, rest, i + 1, depth - 1, inString, false);
      }
    } else {
      MatchEndPrefix(a, rest, i + 1, depth, inString, false);
    }
  }

  /** Scanning `s` from `off + i` is scanning its suffix `t` from `i`. */
  lemma {:induction false} ScanShift(s: string, off: nat, t: string, i: nat, loads: string -> Option<Json>)
    requires SuffixAt(s, off, t) && i <= |t|
    ensures Scan(s, off + i, loads) == Scan(t, i, loads)
    decreases |t| - i
  {
    if i < |t| {
      assert s[off + i] == t[i];
      if t[i] != '{' {
        ScanShift(s, off, t, i + 1, loads);
        ScanSkipStep(s, off + i, loads);
        ScanSkipStep(t, i, loads);
      } else {
        MatchEndShift(s, off, t, i, 0, false, false);
        var m := MatchEnd(t, i, 0, false, false);
        if m.Some? {
          var j := m.value;
          ScanShift(s, off, t, j + 1, loads);
          SliceOfSuffix(s, off, t, i, j + 1);
          ScanClosedShift(s, t, off + i, i, off + j, j, loads);
        } else {
          SliceOfSuffix(s, off, t, i, |t|);
          ScanOpenShift(s, t, off + i, i, loads);
        }
      }
    }
  }

  lemma ScanClosedShift(s: string, t: string, si: nat, ti: nat, sj: nat, tj: nat, loads: string -> Option<Json>)
    requires si < |s| && s[si] == '{' && MatchEnd(s, si, 0, false, false) == Some(sj)
    requires ti < |t| && t[ti] == '{' && MatchEnd(t, ti, 0, false, false) == Some(tj)
    requires s[si..sj + 1] == t[ti..tj + 1] && Scan(s, sj + 1, loads) == Scan(t, tj + 1, loads)
    ensures Scan(s, si, loads) == Scan(t, ti, loads)
  {
    ScanClosedStep(s, si, sj, loads);
    ScanClosedStep(t, ti, tj, loads);
  }

  lemma ScanOpenShift(s: string, t: string, si: nat, ti: nat, loads: string -> Option<Json>)
    requires si < |s| && s[si] == '{' && MatchEnd(s, si, 0, false, false).None?
    requires ti < |t| && t[ti] == '{' && MatchEnd(t, ti, 0, false, false).None?
    requires s[si..] == t[ti..]
    ensures Scan(s, si, loads) == Scan(t, ti, loads)
  {
    ScanOpenStep(s, si, loads);
    ScanOpenStep(t, ti, loads);
  }

  lemma SliceOfSuffix(s: string, off: nat, t: string, a: nat, b: nat)
    requires SuffixAt(s, off, t) && a <= b <= |t|
    ensures s[off + a..off + b] == t[a..b]
    ensures b == |t| ==> s[off + a..] == t[a..]
  {
    forall k | 0 <= k < b - a
      ensures s[off + a..off + b][k] == t[a..b][k]
    {
      assert s[off + (a + k)] == t[a + k];
    }
  }

  lemma ScanSkipStep(s: string, i: nat, loads: string -> Option<Json>)
    requires i < |s| && s[i] != '{'
    ensures Scan(s, i, loads) == Scan(s, i + 1, loads)
  {
  }

  lemma ScanClosedStep(s: string, i: nat, j: nat, loads: string -> Option<Json>)
    requires i < |s| && s[i] == '{' && MatchEnd(s, i, 0, false, false) == Some(j)
    ensures Scan(s, i, loads) == Kept(TryParseJson(s[i..j + 1], loads)) + Scan(s, j + 1, loads)
  {
  }

  lemma ScanOpenStep(s: string, i: nat, loads: string -> Option<Json>)
    requires i < |s| && s[i] == '{' && MatchEnd(s, i, 0, false, false).None?
    ensures Scan(s, i, loads) == Kept(TryParseJson(FixMissingBraces(s[i..]), loads))
  {
  }

  /**
   * Batch calling: a response that starts with one complete object yields
   * that object's call (when it parses and validates) followed by the calls
   * of the rest of the response.
   */
  lemma ScanConcat(obj: string, rest: string, loads: string -> Option<Json>)
    requires |obj| > 0 && obj[0] == '{'
    requires MatchEnd(obj, 0, 0, false, false) == Some(|obj| - 1)
    ensures Scan(obj + rest, 0, loads) == Kept(TryParseJson(obj, loads)) + Scan(rest, 0, loads)
  {
    var s := obj + rest;
    MatchEndPrefix(obj, rest, 0, 0, false, false);
    assert s[0] == '{' && s[0..|obj|] == obj;
    ScanClosedStep(s, 0, |obj| - 1, loads);
    ConcatSuffix(obj, rest);
    ScanShift(s, |obj|, rest, 0, loads);
  }

  /** Text without an opening brace contributes nothing: prose around the objects is skipped. */
  lemma {:induction false} ProseSkipped(prose: string, rest: string, loads: string -> Option<Json>)
    requires '{' !in prose
    ensures Scan(prose + rest, 0, loads) == Scan(rest, 0, loads)
  {
    ProseSkippedFrom(prose, rest, 0, loads);
    ConcatSuffix(prose, rest);
    ScanShift(prose + rest, |prose|, rest, 0, loads);
  }

  lemma {:induction false} ProseSkippedFrom(prose: string, rest: string, i: nat, loads: string -> Option<Json>)
    requires i <= |prose| && '{' !in prose
    ensures Scan(prose + rest, i, loads) == Scan(prose + rest, |prose|, loads)
    decreases |prose| - i
  {
    if i < |prose| {
      assert (prose + rest)[i] == prose[i];
      ProseSkippedFrom(prose, rest, i + 1, loads);
    }
  }

  // ------------------------------------------------------------ fallback strategies

  /**
   * `_extract_json_from_codeblock`: the stripped text between the first
   * "```json" and the next "```" after it, or `None` without both fences.
   */
  function ExtractFromCodeblock(content: string): (r: Option<string>)
    ensures r.Some? ==> Contains(content, "```json") && r.value == Strip(r.value)
  {
    if !Contains(content, "```json") then None
    else
      var start := Find(content, "```json", 0) + 7;
      if start < 7 then None
      else
        var end := Find(content, "```", start);
        if end == -1 then None
        else
          StripIdempotent(content[start..end]);
          Some(Strip(content[start..end]))
  }

  /** A response that is exactly one fenced JSON block yields the block's body. */
  lemma CodeblockBody(body: string)
    requires '`' !in body
    ensures ExtractFromCodeblock("```json" + body + "```") == Some(Strip(body))
  {
    var content := "```json" + body + "```";
    OpeningFence(body);
    ClosingFence(body);
    assert content[7..7 + |body|] == body;
  }

  lemma OpeningFence(body: string)
    ensures var content := "```json" + body + "```";
            Contains(content, "```json") && Find(content, "```json", 0) == 0
  {
    var content := "```json" + body + "```";
    assert OccursAt(content, 0, "```json");
  }

  lemma ClosingFence(body: string)
    requires '`' !in body
    ensures Find("```json" + body + "```", "```", 7) == 7 + |body|
  {
    var content := "```json" + body + "```";
    assert content[7 + |body|..] == "```";
    forall k | 7 <= k < 7 + |body|
      ensures !OccursAt(content, k, "```")
    {
      assert content[k..k + 3][0] == content[k] == body[k - 7];
    }
    FindFirst(content, "```", 7, 7 + |body|);
  }

  /**
   * `_extract_json_from_braces`: the slice from the first `{` to the last
   * `}`, which Python's slicing makes empty when the last `}` comes before the
   * first `{`; `None` unless both braces occur.
   */
  function ExtractFromBraces(content: string): (r: Option<string>)
    ensures r.Some? <==> '{' in content && '}' in content
    ensures r.Some? && r.value != [] ==> r.value[0] == '{' && r.value[|r.value| - 1] == '}'
  {
    if '{' !in content || '}' !in content then None
    else
      var start := Find(content, "{", 0);
      var end := RFindChar(content, '}') + 1;
      FindCharFound(content, '{');
      if start == -1 || end == 0 then None
      else if start <= end then Some(content[start..end])
      else Some([])
  }

  lemma FindCharFound(s: string, c: char)
    requires c in s
    ensures Find(s, [c], 0) >= 0 && s[Find(s, [c], 0)] == c
    ensures forall k :: 0 <= k < Find(s, [c], 0) ==> s[k] != c
  {
    var k :| 0 <= k < |s| && s[k] == c;
    assert OccursAt(s, k, [c]);
    var r := Find(s, [c], 0);
    assert OccursAt(s, r, [c]);
    assert s[r..r + 1] == [c];
    forall j | 0 <= j < r
      ensures s[j] != c
    {
      assert !OccursAt(s, j, [c]);
      assert s[j..j + 1] == [s[j]];
    }
  }

  /** Text wrapped around a single brace-delimited span is cut away. */
  lemma BracesSpan(pre: string, mid: string, post: string)
    requires '{' !in pre && '}' !in post
    ensures ExtractFromBraces(pre + "{" + mid + "}" + post) == Some("{" + mid + "}")
  {
    var content := pre + "{" + mid + "}" + post;
    assert content[|pre|] == '{';
    assert content[|pre| + 1 + |mid|] == '}';
    FindCharFound(content, '{');
    var start := Find(content, "{", 0);
    assert start == |pre|;
    assert '}' in content;
    var last := RFindChar(content, '}');
    assert last == |pre| + 1 + |mid|;
    assert content[start..last + 1] == "{" + mid + "}";
  }

  /** A `}` before every `{` gives the empty slice, which the fallback then skips. */
  lemma BracesInverted()
    ensures ExtractFromBraces("}{") == Some([])
  {
    FindCharFound("}{", '{');
    assert RFindChar("}{", '}') == 0;
  }

  /** The fallback candidates in order: code block, braces, the raw content. */
  function Candidates(content: string): (r: seq<Option<string>>)
    ensures |r| == 3 && r[2] == Some(content)
  {
    [ExtractFromCodeblock(content), ExtractFromBraces(content), Some(content)]
  }

  /** The first candidate that is non-empty and parses to a valid call, as a list of at most one. */
  function FirstParsed(candidates: seq<Option<string>>, loads: string -> Option<Json>): (r: seq<ToolCall>)
    ensures |r| <= 1 && AllNamed(r)
  {
    if candidates == [] then []
    else if candidates[0].Some? && candidates[0].value != [] && TryParseJson(candidates[0].value, loads).Some? then
      [TryParseJson(candidates[0].value, loads).value]
    else FirstParsed(candidates[1..], loads)
  }

  /**
   * `parse_tool_calls`: no calls for blank content; otherwise the scanner's
   * calls over the stripped content when there are any, else the first
   * fallback strategy that yields a valid call.
   */
  function ParsedToolCalls(content: string, loads: string -> Option<Json>): (r: seq<ToolCall>)
    ensures AllNamed(r)
    ensures AllSpace(content) ==> r == []
  {
    if AllSpace(content) then []
    else
      var stripped := Strip(content);
      var scanned := Scan(stripped, 0, loads);
      if scanned != [] then scanned else FirstParsed(Candidates(stripped), loads)
  }

  /** When the scanner finds nothing, at most one call comes back, from a fallback strategy. */
  lemma FallbackYieldsAtMostOne(content: string, loads: string -> Option<Json>)
    requires Scan(Strip(content), 0, loads) == []
    ensures |ParsedToolCalls(content, loads)| <= 1
  {
  }

  /** A response made of one complete, valid object yields exactly that call. */
  lemma SingleObject(obj: string, loads: string -> Option<Json>, v: Json)
    requires |obj| > 0 && obj[0] == '{' && obj[|obj| - 1] == '}'
    requires MatchEnd(obj, 0, 0, false, false) == Some(|obj| - 1)
    requires loads(FixPythonSyntax(obj)) == Some(v) && ValidateToolCall(v).Some?
    ensures ParsedToolCalls(obj, loads) == [ValidateToolCall(v).value]
  {
    StripNoop(obj);
    ScanConcat(obj, [], loads);
    assert obj + [] == obj;
  }

  /** `parse_tool_calls` as the loop over the fallback strategies. */
  method ParseToolCalls(content: string, loads: string -> Option<Json>) returns (calls: seq<ToolCall>)
    ensures calls == ParsedToolCalls(content, loads)
  {
    if AllSpace(content) {
      return [];
    }
    var stripped := Strip(content);
    calls := ExtractMultipleJsonObjects(stripped, loads);
    if calls != [] {
      return calls;
    }
    var strategies := Candidates(stripped);
    var n := 0;
    while n < |strategies|
      invariant 0 <= n <= |strategies|
      invariant FirstParsed(strategies, loads) == FirstParsed(strategies[n..], loads)
    {
      var candidate := strategies[n];
      if candidate.Some? && candidate.value != [] {
        var toolCall := TryParseJson(candidate.value, loads);
        if toolCall.Some? {
          return [toolCall.value];
        }
      }
      assert strategies[n..][1..] == strategies[n + 1..];
      n := n + 1;
    }
    return [];
  }

  /** `parse_tool_call`: the first parsed call, if any. */
  function ParseToolCall(content: string, loads: string -> Option<Json>): (r: Option<ToolCall>)
    ensures r.None? <==> ParsedToolCalls(content, loads) == []
    ensures r.Some? ==> "name" in r.value && r.value == ParsedToolCalls(content, loads)[0]
  {
    var calls := ParsedToolCalls(content, loads);
    if calls != [] then Some(calls[0]) else None
  }
}

=== FILE: vector_store.dfy ===
/**
 * `VectorStore`: the SDK-method side of the unified vector store service.
 * Its searchable text has the part order of `TextProcessor.SearchableText`
 * but no skipping of malformed parameters, and loading the documentation is
 * all or nothing: the first method that fails ends the load. The BigQuery side
 * is `BigQuerySchema`.
 */
module VectorStore {
  import opened Wrappers
  import opened Strings
  import opened PyJson
  import opened TextProcessor

  /**
   * The parameter texts without skipping: every element must be a dict with a
   * name and a description; the first element that is not raises `TypeError`
   * (not a dict) or `KeyError` (a missing entry).
   */
  function StrictParameterTexts(params: seq<Json>, show: Json -> string): (r: Result<seq<string>, string>)
    ensures r.Ok? <==> forall i :: 0 <= i < |params| ==> WellFormedParameter(params[i])
    ensures r.Ok? ==> r.value == ParameterTexts(params, show)
  {
    if params == [] then Ok([])
    else
      var init := params[..|params| - 1];
      var last := params[|params| - 1];
      assert forall i :: 0 <= i < |init| ==> init[i] == params[i];
      match StrictParameterTexts(init, show)
      case Err(e) => Err(e)
      case Ok(texts) =>
        if !last.Obj? then Err("TypeError")
        else if "name" !in last.fields || "description" !in last.fields then Err("KeyError")
        else Ok(texts + [ParameterText(last, show)])
  }

  /**
   * The parameter texts of a truthy `parameters` value: a list's, strictly; the
   * elements of a non-empty text or dict are texts, so the first one raises.
   */
  function StrictParameterTextsOf(v: Json, show: Json -> string): Result<seq<string>, string>
  {
    match v
    case Arr(items) => StrictParameterTexts(items, show)
    case _ => Err("TypeError")
  }

  /**
   * `_create_sdk_searchable_text`: name, description, parameter texts, use
   * cases, `"returns {type}"` and `"{category} functionality"`, space-joined.
   * A missing name or description raises `KeyError`.
   */
  function SdkSearchableText(entry: map<string, Json>, show: Json -> string): (r: Result<string, string>)
    ensures !HasNameAndDescription(entry) ==> r == Err("KeyError")
  {
    if !HasNameAndDescription(entry) then Err("KeyError")
    else
      var params := GetOr(entry, "parameters", Null);
      var paramTexts := if Truthy(params) then StrictParameterTextsOf(params, show) else Ok([]);
      var useCases := GetOr(entry, "use_cases", Null);
      var useCaseParts := if Truthy(useCases) then UseCaseParts(useCases) else Ok([]);
      if paramTexts.Err? then Err(paramTexts.error)
      else if useCaseParts.Err? then Err(useCaseParts.error)
      else
        match ReturnsPart(entry, show)
        case Err(e) => Err(e)
        case Ok(returnsPart) =>
          var parts := [entry["name"], entry["description"]] + StrItems(paramTexts.value) + useCaseParts.value
                       + returnsPart + CategoryPart(entry, show);
          if AllTexts(parts) then Ok(Join(Texts(parts), " ")) else Err("TypeError")
  }

  /** With well-formed parameters the two builders give the same text. */
  lemma SdkTextMatchesProcessorText(entry: map<string, Json>, params: seq<Json>, show: Json -> string)
    requires HasNameAndDescription(entry)
    requires "parameters" in entry && entry["parameters"] == Arr(params)
    requires forall i :: 0 <= i < |params| ==> WellFormedParameter(params[i])
    ensures SdkSearchableText(entry, show) == SearchableText(entry, show)
  {
    if params == [] {
      assert ParameterTexts(params, show) == [];
    }
    assert Truthy(Arr(params)) ==> StrictParameterTextsOf(Arr(params), show) == Ok(ParameterTexts(params, show));
  }

  /** A malformed parameter, which the text processor skips, makes the SDK builder raise. */
  lemma SdkTextRejectsMalformed(entry: map<string, Json>, params: seq<Json>, i: nat, show: Json -> string)
    requires HasNameAndDescription(entry)
    requires "parameters" in entry && entry["parameters"] == Arr(params)
    requires i < |params| && !WellFormedParameter(params[i])
    ensures SdkSearchableText(entry, show).Err?
  {
  }

  /** The document of one method: a dict whose text and then metadata can be built. */
  function SdkDocument(m: Json, show: Json -> string, dumps: map<string, Json> -> string): (r: Result<Document, string>)
    ensures r.Ok? <==> m.Obj? && SdkSearchableText(m.fields, show).Ok? && PrepareMetadata(m.fields, dumps).Ok?
    ensures r.Ok? ==> r.value == Document(SdkSearchableText(m.fields, show).value, PrepareMetadata(m.fields, dumps).value)
  {
    if !m.Obj? then Err("TypeError")
    else
      match SdkSearchableText(m.fields, show)
      case Err(e) => Err(e)
      case Ok(text) =>
        match PrepareMetadata(m.fields, dumps)
        case Err(e) => Err(e)
        case Ok(metadata) => Ok(Document(text, metadata))
  }

  /**
   * The documents of `load_methods_from_documentation`, where `build` is
   * `SdkDocument` with the text and JSON renderers: every method must build;
   * the first that does not raises and nothing is loaded.
   */
  function SdkDocuments(methods: seq<Json>, build: Json -> Result<Document, string>): (r: Result<seq<Document>, string>)
    ensures r.Ok? ==> |r.value| == |methods|
    ensures r.Ok? <==> forall i :: 0 <= i < |methods| ==> build(methods[i]).Ok?
    ensures r.Ok? ==> forall i :: 0 <= i < |methods| ==> r.value[i] == build(methods[i]).value
  {
    if methods == [] then Ok([])
    else
      var init := methods[..|methods| - 1];
      var last := methods[|methods| - 1];
      assert forall i :: 0 <= i < |init| ==> init[i] == methods[i];
      match SdkDocuments(init, build)
      case Err(e) => Err(e)
      case Ok(docs) =>
        match build(last)
        case Err(e) => Err(e)
        case Ok(doc) => Ok(docs + [doc])
  }

  /** One method that cannot be a document fails the whole load. */
  lemma SdkDocumentsAllOrNothing(methods: seq<Json>, i: nat, show: Json -> string, dumps: map<string, Json> -> string)
    requires i < |methods|
    requires !methods[i].Obj? || SdkSearchableText(methods[i].fields, show).Err? || PrepareMetadata(methods[i].fields, dumps).Err?
    ensures SdkDocuments(methods, m => SdkDocument(m, show, dumps)).Err?
  {
    assert SdkDocument(methods[i], show, dumps).Err?;
  }

  /** `load_methods_from_documentation`'s loop, before the documents are added to the store. */
  method LoadSdkDocuments(methods: seq<Json>, show: Json -> string, dumps: map<string, Json> -> string)
    returns (r: Result<seq<Document>, string>)
    ensures r == SdkDocuments(methods, m => SdkDocument(m, show, dumps))
  {
    ghost var build := m => SdkDocument(m, show, dumps);
    var documents: seq<Document> := [];
    var n := 0;
    while n < |methods|
      invariant 0 <= n <= |methods|
      invariant SdkDocuments(methods[..n], build) == Ok(documents)
    {
      var entry := methods[n];
      assert methods[..n + 1][..n] == methods[..n];
      assert methods[..n + 1][n] == entry;
      var doc := CreateSdkDocument(entry, show, dumps);
      assert build(entry) == doc;
      if doc.Err? {
        r := Err(doc.error);
        SdkErrorPersists(methods, n + 1, build);
        return;
      }
      documents := documents + [doc.value];
      n := n + 1;
    }
    assert methods[..|methods|] == methods;
    r := Ok(documents);
  }

  /** The loop body of `load_methods_from_documentation`: one method's text, metadata and document. */
  method CreateSdkDocument(entry: Json, show: Json -> string, dumps: map<string, Json> -> string)
    returns (r: Result<Document, string>)
    ensures r == SdkDocument(entry, show, dumps)
  {
    if !entry.Obj? {
      return Err("TypeError");
    }
    var text := SdkSearchableText(entry.fields, show);
    if text.Err? {
      return Err(text.error);
    }
    var metadata := PrepareMetadata(entry.fields, dumps);
    if metadata.Err? {
      return Err(metadata.error);
    }
    r := Ok(Document(text.value, metadata.value));
  }

  /** Once a prefix raises, the whole list raises with the same error. */
  lemma {:induction false} SdkErrorPersists(methods: seq<Json>, n: nat, build: Json -> Result<Document, string>)
    requires n <= |methods| && SdkDocuments(methods[..n], build).Err?
    ensures SdkDocuments(methods, build) == SdkDocuments(methods[..n], build)
    decreases |methods| - n
  {
    if n < |methods| {
      assert methods[..n + 1][..n] == methods[..n];
      SdkErrorPersists(methods, n + 1, build);
    } else {
      assert methods[..n] == methods;
    }
  }
}

=== FILE: workflow_builder.dfy ===
/**
 * `WorkflowBuilder`: the agent graph of the chat backend. The model node asks
 * the LLM for the next step and either records a pending tool call or a final
 * answer; the tool node runs the pending call against the available tools
 * and records its result. The LLM, the prompt trimming, the tools themselves,
 * `str()` and `json.dumps` are parameters.
 */
module WorkflowBuilder {
  import opened Wrappers
  import opened Strings
  import opened PyJson
  import opened MessageConverter
  import opened ToolCallParser

  const MAX_TOOL_CONTEXT_ITEMS: int := 5
  const CALL_SDK_METHOD := "call_sdk_method"
  const CONTEXT_HEADER := "\n\nPrevious tool results:\n"
  const MODEL_ERROR := "I apologize, but I encountered an error. Please try again."
  const NO_TOOL_CALL := "Error: No tool call found to execute."

  /** One executed tool call as kept in `tool_calls_made`. */
  datatype ToolRecord = ToolRecord(name: Json, parameters: Json, result: Json)

  /** A tool offered to the agent: its `name` attribute, if it has one. */
  datatype Tool = Tool(name: Option<string>)

  // ------------------------------------------------------------ tool context

  /** Python's `s[-n:]`. */
  function PyTail<T>(s: seq<T>, n: int): (r: seq<T>)
    ensures n > 0 ==> r == s[|s| - (if n < |s| then n else |s|)..]
    ensures n == 0 ==> r == s
  {
    var start := if -n < 0 then -n + |s| else -n;
    var clamped := if start < 0 then 0 else if start > |s| then |s| else start;
    s[clamped..]
  }

  /** The line a record contributes to the tool context. */
  function Summary(record: ToolRecord, show: Json -> string): string
  {
    "Tool: " + show(record.name) + " -> Result: " + show(record.result)
  }

  function Summaries(records: seq<ToolRecord>, show: Json -> string): (r: seq<string>)
    ensures |r| == |records|
    ensures forall k :: 0 <= k < |records| ==> r[k] == Summary(records[k], show)
  {
    if records == [] then [] else [Summary(records[0], show)] + Summaries(records[1..], show)
  }

  /**
   * `_build_tool_context` as written: the header, then one line per record
   * of `tool_calls_made[-max_items:]`. With `max_items == 0` that slice is the
   * whole list.
   */
  function BuildToolContextAsWritten(records: seq<ToolRecord>, maxItems: int, show: Json -> string): (r: string)
    ensures maxItems >= 0 ==>
              var n := if maxItems == 0 || maxItems > |records| then |records| else maxItems;
              r == CONTEXT_HEADER + Join(Summaries(records[|records| - n..], show), "\n")
  {
    CONTEXT_HEADER + Join(Summaries(PyTail(records, maxItems), show), "\n")
  }

  /** Asking for no context items still yields every record. */
  lemma ZeroItemsKeepsAll(records: seq<ToolRecord>, show: Json -> string)
    ensures BuildToolContextAsWritten(records, 0, show) == CONTEXT_HEADER + Join(Summaries(records, show), "\n")
  {
  }

  /** The records the context keeps: the last `maxItems`, none when `maxItems <= 0`. */
  function RecentRecords(records: seq<ToolRecord>, maxItems: int): (r: seq<ToolRecord>)
    ensures |r| == if maxItems <= 0 then 0 else if maxItems < |records| then maxItems else |records|
    ensures r == records[|records| - |r|..]
  {
    if maxItems <= 0 then [] else PyTail(records, maxItems)
  }

  /** `_build_tool_context` keeping at most `maxItems` records. */
  function BuildToolContext(records: seq<ToolRecord>, maxItems: int, show: Json -> string): (r: string)
    ensures var n := if maxItems <= 0 then 0 else if maxItems < |records| then maxItems else |records|;
            r == CONTEXT_HEADER + Join(Summaries(records[|records| - n..], show), "\n")
  {
    CONTEXT_HEADER + Join(Summaries(RecentRecords(records, maxItems), show), "\n")
  }

  /**
   * The context lines are the summaries of the most recent records, oldest
   * first; both definitions agree whenever `maxItems` is positive.
   */
  lemma ToolContextLines(records: seq<ToolRecord>, maxItems: int, show: Json -> string)
    ensures var lines := Summaries(RecentRecords(records, maxItems), show);
            var n := |RecentRecords(records, maxItems)|;
            |lines| == n && forall k :: 0 <= k < n ==> lines[k] == Summary(records[|records| - n + k], show)
    ensures maxItems > 0 ==> BuildToolContext(records, maxItems, show) == BuildToolContextAsWritten(records, maxItems, show)
  {
  }

  // ------------------------------------------------------------ tool execution

  predicate Matches(tool: Tool, name: Json)
  {
    tool.name.Some? && name == Str(tool.name.value)
  }

  /** The index of the first tool whose name matches. */
  function FindTool(tools: seq<Tool>, name: Json): (r: Option<nat>)
    ensures r.Some? ==> r.value < |tools| && Matches(tools[r.value], name)
                        && forall k :: 0 <= k < r.value ==> !Matches(tools[k], name)
    ensures r.None? ==> forall k :: 0 <= k < |tools| ==> !Matches(tools[k], name)
  {
    if tools == [] then None
    else if Matches(tools[0], name) then Some(0)
    else
      var rest := FindTool(tools[1..], name);
      if rest.Some? then Some(rest.value + 1) else None
  }

  /**
   * The input a tool receives: for `call_sdk_method`, the method name and the
   * remaining parameters as `kwargs`; for other tools, the parameters as they
   * are. Parameters that are not an object make `.get` raise for
   * `call_sdk_method`.
   */
  function ToolInput(name: Json, params: Json): (r: Option<Json>)
    ensures name != Str(CALL_SDK_METHOD) ==> r == Some(params)
    ensures name == Str(CALL_SDK_METHOD) && params.Obj? ==>
              r.Some? && r.value.Obj? && r.value.fields.Keys == {"method_name", "kwargs"}
              && r.value.fields["method_name"] == GetOr(params.fields, "method_name", Null)
              && r.value.fields["kwargs"] == Obj(params.fields - {"method_name"})
    ensures name == Str(CALL_SDK_METHOD) && !params.Obj? ==> r.None?
  {
    if name == Str(CALL_SDK_METHOD) then
      if params.Obj? then
        Some(Obj(map["method_name" := GetOr(params.fields, "method_name", Null),
                     "kwargs" := Obj(params.fields - {"method_name"})]))
      else None
    else Some(params)
  }

  function ExecutionError(name: Json, show: Json -> string, reason: string): string
  {
    "Error executing tool '" + show(name) + "': " + reason
  }

  /**
   * What `_execute_tool` returns. `invoke(k, input)` is the `k`-th tool's
   * result, or the text of the exception it raised; `attrError` is the text of
   * the exception raised for non-object `call_sdk_method` parameters.
   */
  function ToolResult(tools: seq<Tool>, name: Json, params: Json, invoke: (nat, Json) -> Result<Json, string>,
                      show: Json -> string, attrError: string): (r: Json)
    ensures FindTool(tools, name).None? ==> r == Str("Error: Tool '" + show(name) + "' not found.")
  {
    match FindTool(tools, name)
    case None => Str("Error: Tool '" + show(name) + "' not found.")
    case Some(k) =>
      match ToolInput(name, params)
      case None => Str(ExecutionError(name, show, attrError))
      case Some(input) =>
        match invoke(k, input)
        case Ok(v) => v
        case Err(e) => Str(ExecutionError(name, show, e))
  }

  /** An unknown tool name invokes nothing: the result does not depend on the tools' behaviour. */
  lemma UnknownToolInvokesNothing(tools: seq<Tool>, name: Json, params: Json,
                                  invoke1: (nat, Json) -> Result<Json, string>, invoke2: (nat, Json) -> Result<Json, string>,
                                  show: Json -> string, attrError: string)
    requires forall k :: 0 <= k < |tools| ==> !Matches(tools[k], name)
    ensures ToolResult(tools, name, params, invoke1, show, attrError) == ToolResult(tools, name, params, invoke2, show, attrError)
  {
  }

  /** The first matching tool is the one invoked, and a failure becomes an error string. */
  lemma FirstMatchInvoked(tools: seq<Tool>, k: nat, name: Json, params: Json, invoke: (nat, Json) -> Result<Json, string>,
                          show: Json -> string, attrError: string)
    requires k < |tools| && Matches(tools[k], name) && forall j :: 0 <= j < k ==> !Matches(tools[j], name)
    requires ToolInput(name, params).Some?
    ensures invoke(k, ToolInput(name, params).value).Ok? ==>
              ToolResult(tools, name, params, invoke, show, attrError) == invoke(k, ToolInput(name, params).value).value
    ensures invoke(k, ToolInput(name, params).value).Err? ==>
              ToolResult(tools, name, params, invoke, show, attrError)
              == Str(ExecutionError(name, show, invoke(k, ToolInput(name, params).value).error))
  {
    assert FindTool(tools, name) == Some(k);
  }

  /** `_execute_tool`: the linear search for the tool, then its invocation. */
  method ExecuteTool(tools: seq<Tool>, name: Json, params: Json, invoke: (nat, Json) -> Result<Json, string>,
                     show: Json -> string, attrError: string) returns (result: Json)
    ensures result == ToolResult(tools, name, params, invoke, show, attrError)
  {
    var found: Option<nat> := None;
    var n := 0;
    while n < |tools|
      invariant 0 <= n <= |tools|
      invariant forall k :: 0 <= k < n ==> !Matches(tools[k], name)
    {
      if tools[n].name.Some? && Str(tools[n].name.value) == name {
        found := Some(n);
        break;
      }
      n := n + 1;
    }
    if found.None? {
      return Str("Error: Tool '" + show(name) + "' not found.");
    }
    assert FindTool(tools, name) == found;
    var input := ToolInput(name, params);
    if input.None? {
      return Str(ExecutionError(name, show, attrError));
    }
    var outcome := invoke(found.value, input.value);
    if outcome.Ok? {
      result := outcome.value;
    } else {
      result := Str(ExecutionError(name, show, outcome.error));
    }
  }

  // ------------------------------------------------------------ graph state

  /** The graph state dict. */
  datatype AgentState = AgentState(
    messages: seq<Message>,
    pendingToolCall: Option<ToolCall>,
    finalResponse: Option<string>,
    toolCallsMade: seq<ToolRecord>,
    iterationCount: int,
    accountId: Option<string>)

  /**
   * The messages sent to the LLM: the trimmed history behind the system
   * prompt, then the tool context when tools have run.
   */
  function Prompt(st: AgentState, systemPrompt: Option<string> -> string, trim: seq<Message> -> seq<Message>,
                  maxItems: int, show: Json -> string): (r: seq<Message>)
    ensures st.toolCallsMade != [] ==> |r| > 0 && r[|r| - 1] == HumanMessage(BuildToolContext(st.toolCallsMade, maxItems, show))
  {
    var trimmed := trim([SystemMessage(systemPrompt(st.accountId))] + st.messages);
    if st.toolCallsMade != [] then trimmed + [HumanMessage(BuildToolContext(st.toolCallsMade, maxItems, show))]
    else trimmed
  }

  /**
   * `call_model_node` on the LLM's reply (`None` when the call raised): the
   * reply is appended, then either a parsed tool call becomes pending or the
   * reply becomes the final response, and the iteration count goes up by one.
   * A failed call only sets the apology as the final response.
   */
  function ModelStep(st: AgentState, reply: Option<string>, loads: string -> Option<Json>): (r: AgentState)
    ensures reply.None? ==> r == st.(finalResponse := Some(MODEL_ERROR))
    ensures reply.Some? ==> r.iterationCount == st.iterationCount + 1
    ensures reply.Some? ==> r.messages == st.messages + [AIMessage(reply.value)]
    ensures reply.Some? && ParseToolCall(reply.value, loads).Some? ==>
              r.pendingToolCall == ParseToolCall(reply.value, loads) && r.finalResponse == st.finalResponse
    ensures reply.Some? && ParseToolCall(reply.value, loads).None? ==>
              r.pendingToolCall == st.pendingToolCall && r.finalResponse == reply
    ensures r.toolCallsMade == st.toolCallsMade && r.accountId == st.accountId
  {
    match reply
    case None => st.(finalResponse := Some(MODEL_ERROR))
    case Some(content) =>
      var withReply := st.(messages := st.messages + [AIMessage(content)]);
      var call := ParseToolCall(content, loads);
      var decided := if call.Some? then withReply.(pendingToolCall := call)
                     else withReply.(finalResponse := Some(content));
      decided.(iterationCount := st.iterationCount + 1)
  }

  /** The message reporting a tool's result. */
  function ResultMessage(name: Json, result: Json, show: Json -> string, dumps: Json -> string): Message
  {
    HumanMessage("Tool '" + show(name) + "' returned: " + dumps(result))
  }

  /**
   * `call_tool_node`: without a pending call, an error final response; a call
   * without `"name"` raises `KeyError('name')`, which becomes a failure
   * message; otherwise the tool runs, one record is appended, the pending call
   * is cleared and one result message is appended.
   */
  function ToolStep(st: AgentState, tools: seq<Tool>, invoke: (nat, Json) -> Result<Json, string>,
                    show: Json -> string, dumps: Json -> string, attrError: string): (r: AgentState)
    ensures st.pendingToolCall.None? ==> r == st.(finalResponse := Some(NO_TOOL_CALL))
    ensures st.pendingToolCall.Some? && "name" in st.pendingToolCall.value ==>
              var call := st.pendingToolCall.value;
              var params := GetOr(call, "parameters", Obj(map[]));
              var result := ToolResult(tools, call["name"], params, invoke, show, attrError);
              r.toolCallsMade == st.toolCallsMade + [ToolRecord(call["name"], params, result)]
              && r.pendingToolCall.None?
              && r.messages == st.messages + [ResultMessage(call["name"], result, show, dumps)]
              && r.finalResponse == st.finalResponse && r.iterationCount == st.iterationCount
  {
    match st.pendingToolCall
    case None => st.(finalResponse := Some(NO_TOOL_CALL))
    case Some(call) =>
      if |call| == 0 then st.(finalResponse := Some(NO_TOOL_CALL))
      else if "name" !in call then st.(messages := st.messages + [HumanMessage("Tool execution failed: 'name'")])
      else
        var name := call["name"];
        var params := GetOr(call, "parameters", Obj(map[]));
        var result := ToolResult(tools, name, params, invoke, show, attrError);
        st.(toolCallsMade := st.toolCallsMade + [ToolRecord(name, params, result)],
            pendingToolCall := None,
            messages := st.messages + [ResultMessage(name, result, show, dumps)])
  }

  /** A state whose pending call, if any, came from the parser and so has a name. */
  predicate PendingIsNamed(st: AgentState)
  {
    st.pendingToolCall.Some? ==> "name" in st.pendingToolCall.value
  }

  /** Both nodes keep pending calls named, so the `KeyError` path is unreachable in a run. */
  lemma StepsKeepPendingNamed(st: AgentState, reply: Option<string>, loads: string -> Option<Json>,
                              tools: seq<Tool>, invoke: (nat, Json) -> Result<Json, string>,
                              show: Json -> string, dumps: Json -> string, attrError: string)
    requires PendingIsNamed(st)
    ensures PendingIsNamed(ModelStep(st, reply, loads))
    ensures PendingIsNamed(ToolStep(st, tools, invoke, show, dumps, attrError))
    ensures st.pendingToolCall.Some? ==> |ToolStep(st, tools, invoke, show, dumps, attrError).toolCallsMade| == |st.toolCallsMade| + 1
  {
  }

  /** The state dict the graph nodes update in place. */
  class GraphState {
    var messages: seq<Message>
    var pendingToolCall: Option<ToolCall>
    var finalResponse: Option<string>
    var toolCallsMade: seq<ToolRecord>
    var iterationCount: int
    var accountId: Option<string>

    constructor (history: seq<Message>, accountId: Option<string>)
      ensures State() == AgentState(history, None, None, [], 0, accountId)
    {
      messages := history;
      pendingToolCall := None;
      finalResponse := None;
      toolCallsMade := [];
      iterationCount := 0;
      this.accountId := accountId;
    }

    function State(): AgentState
      reads this
    {
      AgentState(messages, pendingToolCall, finalResponse, toolCallsMade, iterationCount, accountId)
    }

    /** `call_model_node`: build the prompt, ask the LLM, and record its reply. */
    method CallModelNode(llm: seq<Message> -> Option<string>, systemPrompt: Option<string> -> string,
                         trim: seq<Message> -> seq<Message>, maxItems: int, show: Json -> string,
                         loads: string -> Option<Json>)
      modifies this
      ensures State() == ModelStep(old(State()), llm(Prompt(old(State()), systemPrompt, trim, maxItems, show)), loads)
    {
      ghost var before := State();
      var prompt := trim([SystemMessage(systemPrompt(accountId))] + messages);
      if toolCallsMade != [] {
        prompt := prompt + [HumanMessage(BuildToolContext(toolCallsMade, maxItems, show))];
      }
      assert prompt == Prompt(before, systemPrompt, trim, maxItems, show);
      var reply := llm(prompt);
      RecordReply(reply, loads);
    }

    /** The second half of `call_model_node`: the reply (None when the LLM raised) is recorded. */
    method RecordReply(reply: Option<string>, loads: string -> Option<Json>)
      modifies this
      ensures State() == ModelStep(old(State()), reply, loads)
    {
      if reply.None? {
        finalResponse := Some(MODEL_ERROR);
        return;
      }
      messages := messages + [AIMessage(reply.value)];
      var toolCall := ParseToolCall(reply.value, loads);
      if toolCall.Some? {
        pendingToolCall := toolCall;
      } else {
        finalResponse := reply;
      }
      iterationCount := iterationCount + 1;
    }

    /** `call_tool_node`: run the pending call and record the outcome. */
    method CallToolNode(tools: seq<Tool>, invoke: (nat, Json) -> Result<Json, string>,
                        show: Json -> string, dumps: Json -> string, attrError: string)
      modifies this
      ensures State() == ToolStep(old(State()), tools, invoke, show, dumps, attrError)
    {
      if pendingToolCall.None? || |pendingToolCall.value| == 0 {
        finalResponse := Some(NO_TOOL_CALL);
        return;
      }
      var call := pendingToolCall.value;
      if "name" !in call {
        messages := messages + [HumanMessage("Tool execution failed: 'name'")];
        return;
      }
      var name := call["name"];
      var params := GetOr(call, "parameters", Obj(map[]));
      var result := ExecuteTool(tools, name, params, invoke, show, attrError);
      toolCallsMade := toolCallsMade + [ToolRecord(name, params, result)];
      pendingToolCall := None;
      messages := messages + [ResultMessage(name, result, show, dumps)];
    }
  }

  // ------------------------------------------------------------ graph shape

  datatype Node = CallModel | CallTool | End

  /** The entry node. */
  const ENTRY: Node := CallModel

  /** The edges: the tool node always returns to the model node; after the model node the continue condition decides. */
  function Successor(node: Node, decision: Node): Node
  {
    match node
    case CallModel => decision
    case CallTool => CallModel
    case End => End
  }

  /** The nodes visited for a sequence of continue decisions. */
  function Run(decisions: seq<Node>): (r: seq<Node>)
    ensures |r| == |decisions| + 1 && r[0] == ENTRY
  {
    if decisions == [] then [ENTRY]
    else Run(decisions[..|decisions| - 1]) + [Successor(Run(decisions[..|decisions| - 1])[|decisions| - 1], decisions[|decisions| - 1])]
  }

  /** Every tool step is followed by a model step. */
  lemma {:induction false} ToolReturnsToModel(decisions: seq<Node>)
    ensures forall k :: 0 <= k < |decisions| && Run(decisions)[k] == CallTool ==> Run(decisions)[k + 1] == CallModel
  {
    if decisions != [] {
      var init := decisions[..|decisions| - 1];
      ToolReturnsToModel(init);
      assert forall k :: 0 <= k < |init| + 1 ==> Run(decisions)[k] == Run(init)[k];
    }
  }
}

=== FILE: wrappers.dfy ===
/** Option and Result values used in place of Python's None and raised exceptions. */
module Wrappers {
  datatype Option<T> = None | Some(value: T)
  {
    predicate IsNone() { None? }

    function GetOr(default: T): T
    {
      if Some? then value else default
    }
  }

  datatype Result<T, E> = Ok(value: T) | Err(error: E)
  {
    predicate IsFailure() { Err? }
  }
}
